=== FILE: README.md ===
# A Dafny model of the ostrowski protocol and utility core

This project models the sequential core of the `ostrowski` Java library in Dafny 4.11. That core covers:

- the binary message protocol: the primitive codec, the tag registry, the message classes and the `SyncRequest` question/answer object;
- the framing and reply routing of `SocketConnector`;
- the lock-order bookkeeping of `Semaphore`;
- the `StringUtils` helpers;
- the two sorted string containers;
- the watch reference counts of `MonitoredObject` and `MonitoringObject`;
- the in-memory bookkeeping of `Diagnostics`.

Every piece of state is an immutable record. Every Java method is a function from the state before the call to the state after it. The functions return whatever the method returns, or the exception that escapes it.

| file | module | what it models |
|---|---|---|
| wrappers.dfy | `Wrappers` | `Option` and `Result`, which stand for Java `null` and for thrown exceptions |
| javatypes.dfy | `JavaTypes` | Java's `byte`, `short`, `int` and `long` with explicit wrap-around, Java's `%`, and `Integer.toString` |
| wire.dfy | `Wire` | `SerializableObject`: big-endian primitives, int16-prefixed ISO-8859-1 strings, `byte[]` and the `readIntoList*` readers |
| messages.dfy | `Messages` | `ClientID`, `RequestOption`, `Response`, `ObjectChanged`, `ObjectDelete`, `ObjectInfo` and `SyncRequest` as records, plus the class hierarchy |
| registry.dfy | `Registry` | `SerializableFactory`: the tag/class table, `registerClass`, the static six-tag table and `getKey`'s superclass walk |
| codec.dfy | `Codec` | every class's `serializeToStream`/`serializeFromStream`, tagged sub-objects, `readObject` and `readIntoListSerializableObject` |
| codecroundtrip.dfy | `CodecRoundTrip` | the wire image of each field and object, when an object encodes, and the round trips of the options list, the answer and the `SyncRequest` body |
| objectroundtrip.dfy | `ObjectRoundTrip` | the round trip of every message class, as a body and as a tagged sub-object read through the factory |
| listcodec.dfy | `ListCodec` | `SerializableObject.writeObject` and `writeToStream(List)`: mixed element lists and their read-back by the `readIntoList*` readers |
| syncrequest.dfy | `Requests` | `SyncRequest`: options, answer selection, cancelability, `isSameQuestion`, keystroke assignment and `setResponse` |
| connector.dfy | `Connector` | `SocketConnector`: the frame, the pending `_syncMap`, the routing of replies and `appendByteBufferDump` |
| semaphore.dfy | `Semaphores` | `Semaphore`: reentrant lock and track counters, the per-thread stack, the order-violation rule, report de-duplication and the thread table |
| sortedstrings.dfy | `StringVectors`, `SortedStrings` | `SortedStringsVector`, and `Semaphore.SortedStrings` |
| stringutils.dfy | `StringUtils` | delimited lists, `stripAndReplace`, the nibble "base64" codec and `getSpaces` |
| counts.dfy | `CountTables` | the reference-count maps used by the monitors and by the diagnostics' associations, and the `SubsetCard` bound used by `SyncRequest` |
| monitors.dfy | `Monitors` | `MonitoredObject` and `MonitoringObject` |
| diagnostics.dfy | `Diagnostics` | `DiagnosticAssociations`, `MessageQueue`, `getLogFile` and `advanceFileNumber` |

## Modelling choices

- **Source trees.** The library ships two source trees with copies of several classes that differ only in field names. Each class is modelled once, and the table below cites the copy that was followed.
- **Object identity.** `RequestOption` has no `equals`, so two options are equal only when they are the same object. Every option therefore carries a `uid`, handed out by an allocator. The same allocator holds the static `SyncRequest` key counter.
- **`DebugBreak`.** It only prints. A duplicate registration or a duplicate option is therefore a raised flag, not a failure.
- **Decoding.** Messages are read from an in-memory byte array, as `SocketConnector` does. A primitive read past the end throws `EOFException`. Each `serializeFromStream` catches it and keeps the fields read so far.
- **Blocking.** Waiting for a lock held by another thread, or for a message in an open, empty queue, is a precondition of the call. It is not an outcome.
- **Deadlock reports.** A report is identified by the call stack it prints. The caller's part of that stack is a parameter.
- **`appendOperations`.** Its test for an unnamed operation in the source (`Diagnostics.java:312-315`) compares the source's last name with itself, so it never fires. The model keeps that behaviour: the source record is returned unchanged.

## Model

| member | source | states |
|---|---|---|
| JavaTypes.WrapInt32 | src/ostrowski/protocol/SerializableObject.java:92 | the result is the Java `int` congruent to the input modulo 2^32 |
| JavaTypes.IntToStringRoundTrip | src/ostrowski/protocol/ClientID.java:41-45 | the decimal text of every integer parses back to that integer |
| Wire.FromToBytes | src/ostrowski/protocol/SerializableObject.java:91-94 | the n octets written for x read back unsigned as x, or as x + 256^n when x is negative |
| Wire.SignedRoundTrip | src/ostrowski/protocol/SerializableObject.java:91-105 | two's-complement big-endian encoding on n octets decodes to the same value for every x that fits |
| Wire.WriteByte | src/ostrowski/protocol/SerializableObject.java:94 | `writeByte` emits one octet congruent to its argument modulo 256 |
| Wire.WriteBoolean | src/ostrowski/protocol/SerializableObject.java:95 | true is the octet 1, false the octet 0 |
| Wire.ReadByte | src/ostrowski/protocol/SerializableObject.java:104 | fails exactly when no octet is left; otherwise consumes one |
| Wire.ReadShort | src/ostrowski/protocol/SerializableObject.java:103 | fails exactly when fewer than two octets are left; otherwise consumes two |
| Wire.ReadInt | src/ostrowski/protocol/SerializableObject.java:102 | fails exactly when fewer than four octets are left; otherwise consumes four |
| Wire.ReadLong | src/ostrowski/protocol/SerializableObject.java:101 | fails exactly when fewer than eight octets are left; otherwise consumes eight |
| Wire.ReadBoolean | src/ostrowski/protocol/SerializableObject.java:105 | any non-zero octet reads as true; fails only on an empty stream |
| Wire.ReadByteOf | src/ostrowski/protocol/SerializableObject.java:94-104 | a written byte reads back unchanged and leaves the following octets unread |
| Wire.ReadShortOf | src/ostrowski/protocol/SerializableObject.java:93-103 | a written short reads back unchanged and leaves the following octets unread |
| Wire.ReadIntOf | src/ostrowski/protocol/SerializableObject.java:92-102 | a written int reads back unchanged and leaves the following octets unread |
| Wire.ReadLongOf | src/ostrowski/protocol/SerializableObject.java:91-101 | a written long reads back unchanged and leaves the following octets unread |
| Wire.ReadBooleanOf | src/ostrowski/protocol/SerializableObject.java:95-105 | a written boolean reads back unchanged and leaves the following octets unread |
| Wire.ShortTruncates | src/ostrowski/protocol/SerializableObject.java:70 | a length written with `writeShort` reads back as its 16-bit wrap-around, so counts above 32767 come back negative |
| Wire.CharToLatin1 | src/ostrowski/protocol/SerializableObject.java:69 | a character below 256 encodes as its own code |
| Wire.EncodeChars | src/ostrowski/protocol/SerializableObject.java:69 | one octet per character, each the character's ISO-8859-1 encoding |
| Wire.DecodeChars | src/ostrowski/protocol/SerializableObject.java:85 | one character per octet, with the octet's value as its code |
| Wire.Latin1Image | src/ostrowski/protocol/SerializableObject.java:65-86 | the encode/decode image is Latin-1 and of the same length, and is the string itself when that is Latin-1 |
| Wire.WriteString | src/ostrowski/protocol/SerializableObject.java:65-73 | null and "" are two zero octets; otherwise the int16 count of octets followed by the ISO-8859-1 octets |
| Wire.ReadString | src/ostrowski/protocol/SerializableObject.java:75-86 | fails exactly when the length prefix is missing; never consumes more than the remaining octets |
| Wire.ReadStringNonPositive | src/ostrowski/protocol/SerializableObject.java:75-82 | a zero or negative length prefix reads as "" and consumes only the prefix |
| Wire.StringRoundTrip | src/ostrowski/protocol/SerializableObject.java:65-86 | a string of up to 32767 characters reads back as its ISO-8859-1 image; null and "" read back as "" |
| Wire.Latin1StringRoundTrip | src/ostrowski/protocol/SerializableObject.java:65-86 | a Latin-1 string of up to 32767 characters reads back unchanged |
| Wire.LongStringLost | src/ostrowski/protocol/SerializableObject.java:65-86 | a string of 32768..65535 characters gets a negative length prefix and reads back as "", leaving its octets unread |
| Wire.Int8sToBytes | src/ostrowski/protocol/SerializableObject.java:173-175 | each element becomes one octet congruent to it modulo 256 |
| Wire.WriteByteArray | src/ostrowski/protocol/SerializableObject.java:171-176 | up to 127 elements: a length octet then the elements; longer arrays throw after 128 elements because the `byte` loop index wraps |
| Wire.ReadInt8s | src/ostrowski/protocol/SerializableObject.java:180-182 | succeeds exactly when n octets remain, and consumes exactly n |
| Wire.ByteArrayRoundTrip | src/ostrowski/protocol/SerializableObject.java:171-184 | an array of up to 127 bytes reads back unchanged, leaving the rest unread |
| Wire.LongByteArrayUnreadable | src/ostrowski/protocol/SerializableObject.java:171-184 | an array of 128..255 bytes has a length octet that reads back negative, so the read fails |
| Wire.ReadElems | src/ostrowski/protocol/SerializableObject.java:137-139 | a completed read appends exactly max(n, 0) elements; a failed one never more |
| Wire.ReadIntoList | src/ostrowski/protocol/SerializableObject.java:134-168 | the list is cleared, the int16 count is returned as read, and a completed read holds max(count, 0) elements |
| Wire.ReadElemsConcat | src/ostrowski/protocol/SerializableObject.java:109-131 | elements written one after another by an encoder the reader inverts are read back in order |
| Wire.ReadIntoListRoundTrip | src/ostrowski/protocol/SerializableObject.java:109-168 | a list written as its count and elements is read back in order and the count returned |
| Wire.StringListRoundTrip | src/ostrowski/protocol/SerializableObject.java:109-141 | `readIntoListString` reads back a written list of Latin-1 strings |
| Wire.IntegerListRoundTrip | src/ostrowski/protocol/SerializableObject.java:109-150 | `readIntoListInteger` reads back any written list of ints |
| Wire.NegativeCountAppendsNothing | src/ostrowski/protocol/SerializableObject.java:134-168 | a negative count leaves the list empty and is returned as it was read |
| Wire.WriteLong | src/ostrowski/protocol/SerializableObject.java:91 | eight octets; `ReadLongOf` proves that they read back as the value |
| Wire.WriteInt | src/ostrowski/protocol/SerializableObject.java:92 | four octets; `ReadIntOf` proves that they read back as the value |
| Wire.WriteShort | src/ostrowski/protocol/SerializableObject.java:93 | two octets; `ReadShortOf` and `ShortTruncates` prove that they read back as the value wrapped to 16 bits |
| Wire.ReadByteArray | src/ostrowski/protocol/SerializableObject.java:178-184 | an empty stream ends the read; a negative length octet throws NegativeArraySizeException; it succeeds exactly when the length octet is non-negative and that many octets follow, and then returns that many elements and the octets after them |
| Wire.ReadIntoListString | src/ostrowski/protocol/SerializableObject.java:134-141 | fewer than two octets end the read with an empty list; a completed read returns the int16 count as read and max(count, 0) strings |
| Wire.ReadIntoListInteger | src/ostrowski/protocol/SerializableObject.java:143-150 | fewer than two octets end the read with an empty list; a completed read returns the int16 count as read and max(count, 0) ints |
| Wire.ReadIntoListByte | src/ostrowski/protocol/SerializableObject.java:152-159 | fewer than two octets end the read with an empty list; a completed read returns the int16 count as read and max(count, 0) bytes |
| Wire.ReadIntoListBoolean | src/ostrowski/protocol/SerializableObject.java:161-168 | fewer than two octets end the read with an empty list; a completed read returns the int16 count as read and max(count, 0) booleans |
| Wire.ByteListRoundTrip | src/ostrowski/protocol/SerializableObject.java:109-159 | `readIntoListByte` reads back any written list of bytes and leaves the following octets unread |
| Wire.BooleanListRoundTrip | src/ostrowski/protocol/SerializableObject.java:109-168 | `readIntoListBoolean` reads back any written list of booleans and leaves the following octets unread |
| JavaTypes.JavaRem | src/ostrowski/util/Diagnostics.java:1106 | Java's `%` gives a remainder with the dividend's sign and a magnitude below the divisor's, equal to the mathematical modulus when both operands are non-negative |
| Messages.Superclass | src/ostrowski/protocol/SyncRequest.java:25 | only request classes below the abstract `SyncRequest` have a superclass other than `SerializableObject` |
| Messages.NewOption | src/ostrowski/protocol/RequestOption.java:15-19 | the new option carries the given name, id and enabled flag and an identity no earlier option has |
| Messages.NewOptionIsFresh | src/ostrowski/protocol/RequestOption.java:7-72 | a new option is unequal to every option that existed before it, because the class compares by identity |
| Messages.NewSyncRequest | src/ostrowski/protocol/SyncRequest.java:27-43 | a new request takes the current key, then the static counter advances with `int` wrap-around; the other fields start empty |
| Messages.KeysConsecutive | src/ostrowski/protocol/SyncRequest.java:27-28 | until the counter wraps, requests built one after another get consecutive and therefore distinct keys |
| Messages.ClientIdText | src/ostrowski/protocol/ClientID.java:43-46 | the text is "ClientID: " followed by decimal text that parses back to the id |
| Messages.SetOptionName | src/ostrowski/protocol/RequestOption.java:58-61 | only the name changes, to the given one |
| Messages.SetOptionValue | src/ostrowski/protocol/RequestOption.java:63-66 | only the id changes, to the given one |
| Messages.SetOptionEnabled | src/ostrowski/protocol/RequestOption.java:68-71 | only the enabled flag changes, to the given one |
| Messages.AnswerId | src/ostrowski/protocol/SyncRequest.java:137 | -1 when unanswered, otherwise the answer's id |
| Messages.AnswerText | src/ostrowski/protocol/SyncRequest.java:136 | null when unanswered, otherwise the answer's caption |
| Messages.ResponseTo | src/ostrowski/protocol/Response.java:23-30 | a response carries the request's key, and its answer id and text (-1 and null when unanswered) |
| Messages.SetResponseAnswerId | src/ostrowski/protocol/Response.java:32-34 | only the answer id changes, to the given one |
| Messages.SetResponseAnswerStr | src/ostrowski/protocol/Response.java:36-38 | only the answer text changes, to the given one |
| Wrappers.NullText | src/main/java/ostrowski/util/StringUtils.java:56-59 | a null string is rendered "null", any other as itself |
| Messages.ChangedText | src/main/java/ostrowski/protocol/ObjectChanged.java:58-61 | the two sub-objects' texts (or "null") sit at fixed offsets between the quotes of the fixed frame |
| Messages.ClassOf | src/ostrowski/protocol/SerializableFactory.java:48 | the runtime class of an object: a request class exactly for a request, the request's own subclass, and `RequestOption` exactly for an option |
| Messages.Instantiable | src/ostrowski/protocol/SerializableFactory.java:29 | a class can be created with its no-argument constructor unless it is the abstract `SyncRequest` itself, that is, exactly when it is not a request class or it has a superclass below `SyncRequest` |
| StringUtils.FirstUnusedFrom | src/main/java/ostrowski/util/StringUtils.java:30-50 | the scan from a position returns the first candidate no non-null element contains, or ' ' when every candidate is used |
| StringUtils.FindDelimiter | src/main/java/ostrowski/util/StringUtils.java:23-51 | the delimiter is the first entry of the fixed candidate list that occurs in no non-null element; ' ' when all occur |
| StringUtils.JoinList | src/main/java/ostrowski/util/StringUtils.java:64-72 | an empty list gives ""; otherwise the text starts with the delimiter |
| StringUtils.JoinListAppend | src/main/java/ostrowski/util/StringUtils.java:64-72 | joining a concatenation is the concatenation of the joins |
| StringUtils.JoinListSingle | src/main/java/ostrowski/util/StringUtils.java:56-59 | one element gives the delimiter followed by the element, a null element written as "null" |
| StringUtils.DelimitList | src/main/java/ostrowski/util/StringUtils.java:53-62 | an empty list gives ""; otherwise the text starts with the chosen delimiter |
| StringUtils.IntercalateSnoc | src/main/java/ostrowski/util/StringUtils.java:90-95 | one more segment adds one delimiter and that segment at the end |
| StringUtils.Split | src/main/java/ostrowski/util/StringUtils.java:89-95 | the split loop yields at least one piece and no piece contains the delimiter |
| StringUtils.SplitJoins | src/main/java/ostrowski/util/StringUtils.java:89-99 | the pieces put back between delimiters rebuild the text after the leading delimiter |
| StringUtils.SplitIntercalate | src/main/java/ostrowski/util/StringUtils.java:89-99 | splitting segments joined by a delimiter none of them contains gives the segments back |
| StringUtils.DropTerminator | src/main/java/ostrowski/util/StringUtils.java:97-99 | the final piece is kept unless it is empty and empty terminators are not allowed |
| StringUtils.RemoveDelimiter | src/main/java/ostrowski/util/StringUtils.java:79-103 | null or "" gives the empty list; no element contains the delimiter; with empty terminators allowed at least one element comes back |
| StringUtils.RemoveDelimiterJoins | src/main/java/ostrowski/util/StringUtils.java:79-103 | with empty terminators allowed, the elements joined by the delimiter rebuild the text after it |
| StringUtils.RemoveDelimiterDropsEmpty | src/main/java/ostrowski/util/StringUtils.java:79-103 | without empty terminators, the result differs only by dropping an empty final element |
| StringUtils.ParseJoined | src/main/java/ostrowski/util/StringUtils.java:79-103 | a delimiter followed by pieces without it parses back to those pieces |
| StringUtils.JoinListIntercalate | src/main/java/ostrowski/util/StringUtils.java:64-72 | joining non-null strings with a one-character delimiter is that delimiter followed by the strings separated by it |
| StringUtils.DelimitedWithRoundTrip | src/main/java/ostrowski/util/StringUtils.java:64-103 | joining with a delimiter absent from every element and parsing back gives the elements |
| StringUtils.DelimitListRoundTrip | src/main/java/ostrowski/util/StringUtils.java:53-103 | delimiting a list of non-null strings and parsing it back gives the list when a free delimiter exists |
| StringUtils.AddStringToDelimitedList | src/main/java/ostrowski/util/StringUtils.java:105-121 | when the new string lacks the current delimiter, the result is the old text, the delimiter and the new string |
| StringUtils.AddStringToEmpty | src/main/java/ostrowski/util/StringUtils.java:105-121 | a null or empty list starts afresh as the delimited one-element list |
| StringUtils.AppendWithSameDelimiter | src/main/java/ostrowski/util/StringUtils.java:105-113 | appending with the list's own delimiter adds exactly one element at the end |
| StringUtils.AddStringRoundTrip | src/main/java/ostrowski/util/StringUtils.java:79-121 | parsing after an append gives the old elements followed by the new string |
| StringUtils.StripAndReplace | src/main/java/ostrowski/util/StringUtils.java:123-136 | same length; each character found in the strip set becomes the replacement, every other one is kept |
| StringUtils.EncodeBytes | src/main/java/ostrowski/util/StringUtils.java:138-147 | two output bytes per input byte, each between 'a' and 'p' |
| StringUtils.Base64Encode | src/main/java/ostrowski/util/StringUtils.java:138-149 | the text has two letters 'a'..'p' per byte |
| StringUtils.OrDisjoint | src/main/java/ostrowski/util/StringUtils.java:159-160 | or-ing a multiple of 2^j with a value below 2^j is their sum |
| StringUtils.NibblePair | src/main/java/ostrowski/util/StringUtils.java:159-160 | the two letters 'a'+h and 'a'+l decode to the byte 16h + l |
| StringUtils.DecodePairs | src/main/java/ostrowski/util/StringUtils.java:155-161 | one byte per pair of input bytes |
| StringUtils.Base64Decode | src/main/java/ostrowski/util/StringUtils.java:151-164 | decoding succeeds exactly when the byte count is even, and yields half as many bytes |
| StringUtils.DecodeEncodePairs | src/main/java/ostrowski/util/StringUtils.java:138-164 | decoding the encoded bytes gives the bytes back |
| StringUtils.AsciiBytes | src/main/java/ostrowski/util/StringUtils.java:153 | `getBytes()` of a string of ASCII characters (the precondition) is one octet per character, each the character's code, in order |
| StringUtils.Base64RoundTrip | src/main/java/ostrowski/util/StringUtils.java:138-164 | decoding the bytes of the encoded text gives the original bytes |
| StringUtils.EncodeDecodePairs | src/main/java/ostrowski/util/StringUtils.java:138-164 | encoding what an even run of 'a'..'p' bytes decodes to gives those bytes |
| StringUtils.Base64Surjective | src/main/java/ostrowski/util/StringUtils.java:138-164 | every even-length text of letters 'a'..'p' is the encoding of what it decodes to |
| StringUtils.GetSpaces | src/main/java/ostrowski/util/StringUtils.java:251-260 | n blanks for n >= 0; a negative count fails |
| Registry.RegisterClass | src/ostrowski/protocol/SerializableFactory.java:25-45 | both maps are overwritten in every case; a DebugBreak is raised exactly when the class cannot be instantiated or the tag or class is already registered; instantiating a request class advances the key counter |
| Registry.RegisterFreshKeepsBijective | src/ostrowski/protocol/SerializableFactory.java:25-45 | registering an unused tag for an unregistered class keeps the two maps mutually inverse |
| Registry.ReusedTagMisroutes | src/ostrowski/protocol/SerializableFactory.java:30-44 | re-registering a tag for another class raises a DebugBreak, and the old class keeps sending a tag that now decodes as the new class |
| Registry.RegisterAllFresh | src/ostrowski/protocol/SerializableFactory.java:16-45 | registering distinct, unused, non-request pairs raises no DebugBreak, leaves the counter alone and registers each pair both ways |
| Registry.RegisterAllKeeps | src/ostrowski/protocol/SerializableFactory.java:25-45 | a pair not touched by later registrations stays registered both ways |
| Registry.RegisterAllTagOrigin | src/ostrowski/protocol/SerializableFactory.java:16-45 | every newly registered tag comes from the registration table |
| Registry.RegisterAllClassOrigin | src/ostrowski/protocol/SerializableFactory.java:16-45 | every newly registered class comes from the registration table |
| Registry.StandardTagsDistinct | src/ostrowski/protocol/SerializableFactory.java:17-22 | the six static tags and classes are all different |
| Registry.StandardTagsShape | src/ostrowski/protocol/SerializableFactory.java:17-22 | each static tag is six Latin-1 characters and names a non-request class |
| Registry.StandardRegistryBijective | src/ostrowski/protocol/SerializableFactory.java:16-23 | after the static initialiser the two maps are mutually inverse |
| Registry.Ancestors | src/ostrowski/protocol/SerializableFactory.java:50-59 | the chain walked by `getKey` starts at the class itself |
| Registry.GetKey | src/ostrowski/protocol/SerializableFactory.java:47-61 | a registered class gets its own tag |
| Registry.GetKeyNearestAncestor | src/ostrowski/protocol/SerializableFactory.java:47-61 | `getKey` returns the tag of the nearest registered class on the superclass chain, and fails exactly when no class on that chain is registered |
| Registry.NoRequestTag | src/ostrowski/protocol/SerializableFactory.java:47-61 | with no request class registered, `getKey` of any request class reaches `SerializableObject` and fails |
| Registry.StandardRegistryHasNoRequests | src/ostrowski/protocol/SerializableFactory.java:16-61 | with only the static registrations no request can be sent |
| Registry.StandardTagsRoundTrip | src/ostrowski/protocol/SerializableFactory.java:47-83 | for each static class, its tag maps back to that very class |
| Registry.StaticInit | src/ostrowski/protocol/SerializableFactory.java:16-23 | the static initialiser raises no DebugBreak, leaves the key counter at 1, maps the six tags and the six non-request classes to each other, registers no tag outside the six, and gives every non-request class a tag and no request class one |
| Registry.StandardRegistry | src/ostrowski/protocol/SerializableFactory.java:16-23 | the tables left by the static initialiser have the six pairs both ways and no request class |
| Codec.OptionTagged | src/ostrowski/protocol/SerializableObject.java:109-132 | an option as a list element or answer is its class's tag then its body; encoding fails exactly when RequestOption has no registered tag |
| Codec.OptionsTagged | src/ostrowski/protocol/SerializableObject.java:109-132 | the options list encoding fails exactly when the list is non-empty and RequestOption has no registered tag |
| Codec.RequestBody | src/ostrowski/protocol/SyncRequest.java:236-251 | encoding a request fails exactly when it has options or an answer and RequestOption has no registered tag |
| Codec.AnswerTail | src/ostrowski/protocol/SyncRequest.java:242-247 | the part after the options list fails exactly when there is an answer whose class has no tag |
| Codec.Tagged | src/ostrowski/protocol/SerializableFactory.java:47-61 | a null sub-object fails with a null dereference; a sub-object whose class has no tag fails as unregistered |
| Codec.OptionTaggedIsTagged | src/ostrowski/protocol/RequestOption.java:36-45 | an option encodes the same whether it is a list element, an answer or a top-level object |
| Codec.ClientIdBody | src/ostrowski/protocol/ClientID.java:23-40 | a ClientID's body is its id as four big-endian octets, which readInt reads back with nothing left |
| Codec.NullSubObjectFails | src/ostrowski/protocol/ObjectChanged.java:37-48 | encoding ObjectChanged, ObjectDelete or ObjectInfo with a null sub-object fails in getKey |
| Codec.ReadOptionFields | src/ostrowski/protocol/RequestOption.java:47-56 | reading an option's fields consumes a prefix of the input and keeps the option's identity |
| Codec.ReadResponseFields | src/ostrowski/protocol/Response.java:40-50 | reading a response's fields consumes a prefix of the input |
| Codec.ReadObject | src/ostrowski/protocol/SerializableFactory.java:63-83 | an unknown tag gives null, consumes nothing and allocates nothing; otherwise the fresh instance consumes a prefix; this read itself raises a DebugBreak exactly when it returns null |
| Codec.ReadTaggedIn | src/ostrowski/protocol/SerializableObject.java:186-199 | reading a tag and then its object consumes at least one octet |
| Codec.DecodeBody | src/ostrowski/protocol/SerializableFactory.java:66-73 | a successful read gives an object of exactly the class asked for |
| Codec.DecodeClientId | src/ostrowski/protocol/ClientID.java:33-41 | reading a ClientID allocates nothing and gives a ClientID |
| Codec.DecodeOption | src/ostrowski/protocol/RequestOption.java:47-56 | reading a new option gives an option and leaves the request key counter alone |
| Codec.DecodeResponse | src/ostrowski/protocol/Response.java:40-50 | reading a new response gives a response and allocates nothing |
| Codec.DecodeChanged | src/ostrowski/protocol/ObjectChanged.java:26-35 | a successful read gives an ObjectChanged and consumes a prefix |
| Codec.DecodeDelete | src/ostrowski/protocol/ObjectDelete.java:28-36 | a successful read gives an ObjectDelete and consumes a prefix |
| Codec.DecodeInfo | src/ostrowski/protocol/ObjectInfo.java:27-35 | a successful read gives an ObjectInfo and consumes a prefix |
| Codec.DecodeRequestObj | src/ostrowski/protocol/SerializableFactory.java:66-73 | a request subclass reads back as an instance of that same subclass |
| Codec.ReadObjList | src/ostrowski/protocol/SerializableObject.java:186-199 | reading n tagged objects gives at most n of them and consumes a prefix |
| Codec.OptionsAmong | src/ostrowski/protocol/SyncRequest.java:260-265 | an option is kept exactly when it occurs among the objects read; nulls and other classes are dropped |
| Codec.DecodeRequest | src/ostrowski/protocol/SyncRequest.java:254-275 | a successful read of a request consumes a prefix |
| Codec.DecodeRequestTail | src/ostrowski/protocol/SyncRequest.java:266-271 | reading defaultID and the answer leaves the key and the options alone |
| Codec.ReadAnswer | src/ostrowski/protocol/SyncRequest.java:269-271 | reading the answer changes nothing of the request but its answer; it throws exactly when the tagged read throws or yields a non-option, and the cast failure keeps the allocator state the answer's construction left behind |
| Codec.RequestAnswerTakesKey | src/ostrowski/protocol/SyncRequest.java:269-271 | an answer of a request class is constructed, taking a key from the static counter, before the cast throws, and that key stays taken |
| Codec.ReadIntoListObjects | src/ostrowski/protocol/SerializableObject.java:186-199 | the count's end-of-stream escapes exactly when fewer than two octets remain; a read list is no longer than the count |
| Codec.UnknownTagIsNull | src/ostrowski/protocol/SerializableFactory.java:63-83 | an unregistered tag reads as null after a DebugBreak, consuming nothing |
| Codec.AbstractClassIsNull | src/ostrowski/protocol/SerializableFactory.java:66-82 | a tag naming the abstract SyncRequest reads as null after a DebugBreak, consuming nothing |
| Codec.KnownTagInstantiates | src/ostrowski/protocol/SerializableFactory.java:66-73 | a tag naming an instantiable class reads as a fresh instance of that class |
| Codec.NonOptionAnswerThrows | src/ostrowski/protocol/SyncRequest.java:269-271 | an answer whose tag names a class other than RequestOption makes the cast throw |
| CodecRoundTrip.WireStr | src/ostrowski/protocol/SerializableObject.java:65-86 | a string field reads back as Latin-1 text; null and "" both read as "", and other Latin-1 strings read back unchanged |
| CodecRoundTrip.OptionFieldsRoundTrip | src/ostrowski/protocol/RequestOption.java:36-56 | an option's body read into a fresh option gives its name, value and enabled flag, and consumes exactly the body |
| CodecRoundTrip.ResponseFieldsRoundTrip | src/ostrowski/protocol/Response.java:40-62 | a response's body reads back as its wire image and consumes exactly the body |
| CodecRoundTrip.OptionTaggedRoundTrip | src/ostrowski/protocol/SerializableObject.java:186-199 | a tagged option reads back through the factory as a new option with the same wire image |
| CodecRoundTrip.OptionListRoundTrip | src/ostrowski/protocol/SerializableObject.java:109-132 | an options list reads back in order with the same wire images and consumes exactly its encoding |
| CodecRoundTrip.AnswerTailRoundTrip | src/ostrowski/protocol/SyncRequest.java:242-271 | defaultID and the answer read back, and nothing else of the request changes |
| CodecRoundTrip.NoAnswerRoundTrip | src/ostrowski/protocol/SyncRequest.java:242-271 | an unanswered request writes false after defaultID and reads back with no answer |
| CodecRoundTrip.AnswerRoundTrip | src/ostrowski/protocol/SyncRequest.java:243-271 | an answered request's answer reads back as an option with the same wire image |
| CodecRoundTrip.RequestHeadRoundTrip | src/ostrowski/protocol/SyncRequest.java:239-258 | syncKey, message and the options count read back in order |
| CodecRoundTrip.RequestRoundTrip | src/ostrowski/protocol/SyncRequest.java:236-275 | a request's body read into a fresh request gives back its key, message, options, defaultID and answer as wire images and consumes exactly the body |
| ObjectRoundTrip.BodyRoundTrip | src/ostrowski/protocol/SerializableFactory.java:63-83 | every encodable object's body, read by a fresh instance of its class, gives back its wire image and consumes exactly the body |
| ObjectRoundTrip.ClientIdRoundTrip | src/ostrowski/protocol/ClientID.java:23-41 | a ClientID reads back exactly |
| ObjectRoundTrip.OptionObjRoundTrip | src/ostrowski/protocol/RequestOption.java:36-56 | a top-level option reads back with the same wire image |
| ObjectRoundTrip.ResponseObjRoundTrip | src/ostrowski/protocol/Response.java:40-62 | a top-level response reads back as its wire image |
| ObjectRoundTrip.ChangedRoundTrip | src/ostrowski/protocol/ObjectChanged.java:26-48 | ObjectChanged reads back its two sub-objects in order |
| ObjectRoundTrip.DeleteRoundTrip | src/ostrowski/protocol/ObjectDelete.java:28-48 | ObjectDelete reads back its sub-object |
| ObjectRoundTrip.InfoRoundTrip | src/ostrowski/protocol/ObjectInfo.java:27-47 | ObjectInfo reads back its sub-object |
| ObjectRoundTrip.RequestObjRoundTrip | src/ostrowski/protocol/SyncRequest.java:236-275 | a request subclass reads back as the same subclass with the same wire image |
| ObjectRoundTrip.TaggedRoundTrip | src/ostrowski/protocol/SerializableFactory.java:47-83 | a present sub-object whose class has its own tag reads back through the factory as its wire image |
| Codec.Body | src/ostrowski/protocol/SyncRequest.java:236-251 | a client id, option or response always encodes; a changed, delete or info object encodes exactly when its sub-objects do; a request throws exactly when it has options or an answer and RequestOption has no tag. `BodyRoundTrip` proves that the octets read back |
| Codec.OptionBody | src/ostrowski/protocol/RequestOption.java:37-45 | at least the name prefix, the int and the boolean; `OptionFieldsRoundTrip` proves that they read back as the option |
| Codec.ResponseBody | src/ostrowski/protocol/Response.java:53-62 | at least the two ints and the string prefix; `ResponseFieldsRoundTrip` proves that they read back as the response |
| ListCodec.WriteObject | src/ostrowski/protocol/SerializableObject.java:41-62 | a String, Integer, Byte or Boolean always encodes; a protocol object writes its body with no tag and throws exactly when the body does; any other class throws IllegalArgumentException naming the class; null throws a null dereference |
| ListCodec.WriteListElem | src/ostrowski/protocol/SerializableObject.java:116-129 | a protocol object in a list is written tagged, and throws exactly when tagging does; anything else goes through `writeObject` |
| ListCodec.WriteElems | src/ostrowski/protocol/SerializableObject.java:115-130 | the elements encode exactly when each one does |
| ListCodec.WriteList | src/ostrowski/protocol/SerializableObject.java:109-132 | a null list is two zero octets; otherwise it encodes exactly when each element does, behind its int16 count |
| ListCodec.ElementsConcat | src/ostrowski/protocol/SerializableObject.java:115-130 | elements that each encode as one value's encoding give those encodings concatenated in order |
| ListCodec.WriteElemsAppend | src/ostrowski/protocol/SerializableObject.java:115-130 | two runs of elements encode exactly when both do, as the two encodings one after the other |
| ListCodec.FirstFaultWins | src/ostrowski/protocol/SerializableObject.java:109-132 | the first element that throws decides the exception of the whole list |
| ListCodec.BadElementThrows | src/ostrowski/protocol/SerializableObject.java:57-61 | a list whose first bad element is of an unserializable class throws IllegalArgumentException with that class, and one whose first bad element is null throws a null dereference |
| ListCodec.NullListReadsEmpty | src/ostrowski/protocol/SerializableObject.java:110-111 | a null list reads back, by any reader, as an empty list with count 0 |
| ListCodec.StringsRoundTrip | src/ostrowski/protocol/SerializableObject.java:109-141 | a list of Latin-1 Strings written by `writeToStream(List)` reads back unchanged through `readIntoListString` |
| ListCodec.IntegersRoundTrip | src/ostrowski/protocol/SerializableObject.java:109-150 | a list of Integers written by `writeToStream(List)` reads back unchanged through `readIntoListInteger` |
| ListCodec.BytesRoundTrip | src/ostrowski/protocol/SerializableObject.java:109-159 | a list of Bytes written by `writeToStream(List)` reads back unchanged through `readIntoListByte` |
| ListCodec.BooleansRoundTrip | src/ostrowski/protocol/SerializableObject.java:109-168 | a list of Booleans written by `writeToStream(List)` reads back unchanged through `readIntoListBoolean` |
| ListCodec.OptionsListIsWriteList | src/ostrowski/protocol/SyncRequest.java:241 | a request's options list is written by `writeToStream(List)` exactly as the request encoding has it |
| ListCodec.OptionsRoundTrip | src/ostrowski/protocol/SerializableObject.java:109-199 | an options list written by `writeToStream(List)` reads back through `readIntoListSerializableObject` with the same options, consuming exactly the list and creating no request |
| Requests.EnabledCount | src/ostrowski/protocol/SyncRequest.java:185-195 | the count of counted options never exceeds the number of options |
| Requests.EnabledCountIsCardinality | src/ostrowski/protocol/SyncRequest.java:185-195 | the count equals the number of positions holding an enabled option that is not excluded as the cancel action |
| Requests.EnabledCountAppend | src/ostrowski/protocol/SyncRequest.java:185-195 | appending an option adds one to the count exactly when that option counts |
| Requests.EnabledCountZero | src/ostrowski/protocol/SyncRequest.java:185-195 | the count is zero exactly when no option counts |
| Requests.CountOneUnique | src/ostrowski/protocol/SyncRequest.java:185-195 | when the count is one, any two counted positions are the same position |
| Requests.SingleCounted | src/ostrowski/protocol/SyncRequest.java:110-122 | the search for a single enabled option finds one exactly when the count is one, and then it is the only counted option |
| Requests.IsCancelable | src/ostrowski/protocol/SyncRequest.java:49-51 | a request is cancelable exactly when the number of enabled options is not one |
| Requests.IsCancel | src/ostrowski/protocol/SyncRequest.java:53 | a request is a cancel exactly when it is answered with the cancel action id -2 |
| Requests.FirstAcceptingFrom | src/ostrowski/protocol/SyncRequest.java:103-109 | the search finds the first enabled option with the asked id, or reports that none exists |
| Requests.SetAnswerId | src/ostrowski/protocol/SyncRequest.java:101-127 | returns true exactly when some enabled option has the id or exactly one option is enabled; the first such option becomes the answer; on false nothing changes; only the answer ever changes |
| Requests.NotCancelableAlwaysAnswers | src/ostrowski/protocol/SyncRequest.java:49-51 | a request that is not cancelable accepts every answer id |
| Requests.CopyAnswer | src/ostrowski/protocol/SyncRequest.java:128-130 | copying an answer changes at most the answer, and only to one of the request's own options |
| Requests.CopyAnswerCarriesId | src/ostrowski/protocol/SyncRequest.java:128-130 | when the source's answer id names an enabled option, the copy ends up with that answer id |
| Requests.SetAnswerByOptionIndex | src/ostrowski/protocol/SyncRequest.java:91-95 | succeeds exactly for an index inside the list, and then the answer is that option and nothing else changes |
| Requests.SetCustAnswer | src/ostrowski/protocol/SyncRequest.java:96-100 | the answer becomes a new enabled option with id -1 and the given text; nothing else changes |
| Requests.SetBackupSelected | src/ostrowski/protocol/SyncRequest.java:359-364 | sets the flag; selecting the backup clears the answer, deselecting keeps it; nothing else changes |
| Requests.SetDefaultOption | src/ostrowski/protocol/SyncRequest.java:131-134 | the default id becomes the option's id, or -1 for null; nothing else changes |
| Requests.IndexOfId | src/ostrowski/protocol/SyncRequest.java:140-148 | the first position holding the id, or -1 exactly when no option holds it |
| Requests.DefaultIndex | src/ostrowski/protocol/SyncRequest.java:140-148 | the default index names an option carrying the default id |
| Requests.AnswerIndex | src/ostrowski/protocol/SyncRequest.java:345-353 | the answer index is -1 or names an option carrying the answer id |
| Requests.LowerAscii | src/ostrowski/protocol/SyncRequest.java:446-452 | upper-case ASCII letters map to lower case, every other character to itself |
| Requests.AssignKeyStroke | src/ostrowski/protocol/SyncRequest.java:440-471 | a false result leaves the key maps alone; a true result binds exactly one character of the string to the option in one map |
| Requests.PlainKeyStroke | src/ostrowski/protocol/SyncRequest.java:440-471 | without modifiers, the first character not yet bound in the plain map is bound there |
| Requests.LoneModifierThrows | src/ostrowski/protocol/SyncRequest.java:446-454 | a modifier prefix with nothing after it reads past the end of the string |
| Requests.AddOption | src/ostrowski/protocol/SyncRequest.java:63-82 | an option whose id other than -1 is already present is not added, with a DebugBreak unless it is the cancel id; otherwise it is appended, and only the key maps can change besides |
| Requests.AddOptionKeepsUniqueIds | src/ostrowski/protocol/SyncRequest.java:63-82 | adding an option never lets two options share an id other than -1 |
| Requests.SeparatorAlwaysAppended | src/ostrowski/protocol/SyncRequest.java:84-90 | separators (id -1) are always appended without a keystroke |
| Requests.AnswerIndexAfterSetAnswerId | src/ostrowski/protocol/SyncRequest.java:101-127 | with unique ids, the option chosen by id sits at the index getAnswerIndex reports |
| Requests.SelectSingleEnabledEntry | src/ostrowski/protocol/SyncRequest.java:210-234 | several eligible options: false and no change; exactly one: it becomes the answer; none: "no action" is added and the first option of the list becomes the answer |
| Requests.SelectNoneEnabledPicksFirst | src/ostrowski/protocol/SyncRequest.java:225-230 | with no enabled option in a non-empty list, the chosen answer is the first option even though it is disabled |
| Requests.SameObjects | src/ostrowski/protocol/SyncRequest.java:375-382 | two option lists are equal element by element exactly when they have the same length and hold the same option objects, by identity, at every position |
| Requests.IsSameQuestion | src/ostrowski/protocol/SyncRequest.java:366-384 | true exactly when the other request is present, has an equal message and holds the very same option objects (by identity) in the same order; a null message on this side throws |
| Requests.SameQuestionByIdentity | src/ostrowski/protocol/SyncRequest.java:378 | options that are the same objects count as the same question whatever their state, because the option class keeps identity equality |
| Requests.SameQuestionIgnoresAnswers | src/ostrowski/protocol/SyncRequest.java:366-368 | the answers play no part in the comparison |
| Requests.SameQuestionSymmetric | src/ostrowski/protocol/SyncRequest.java:366-384 | with both messages present the comparison is symmetric |
| Requests.SameQuestionReflexive | src/ostrowski/protocol/SyncRequest.java:366-384 | a request with a message is the same question as itself |
| Requests.Enqueue | src/ostrowski/protocol/SyncRequest.java:338-343 | the request is appended to its queue and every other queue is unchanged |
| Requests.ReplyAnswer | src/ostrowski/protocol/SyncRequest.java:317-328 | a request reply carries its answer text and id; a response carries its answer string and full answer id |
| Requests.SetResponse | src/ostrowski/protocol/SyncRequest.java:317-344 | the answer becomes a new enabled option carrying the reply's text and id; the request is queued exactly when it has a results queue; nothing else changes |
| Requests.ResponseCarriesAnswer | src/ostrowski/protocol/SyncRequest.java:317-328 | a Response built from an answered request gives an unanswered request back the same answer id and text |
| Connector.Frame | src/ostrowski/util/sockets/SocketConnector.java:218-225 | a frame is the payload behind four length octets |
| Connector.SendObject | src/ostrowski/util/sockets/SocketConnector.java:200-242 | the frame is written exactly when the tagged object encodes, and it is the tagged encoding behind its length; an unanswered request of a registered class enters the pending table even when its body then fails; nothing else touches the table |
| Connector.FailedSendStillTracks | src/ostrowski/util/sockets/SocketConnector.java:208-217 | a request whose body throws while being serialised stays in the pending table |
| Connector.ReadPayload | src/ostrowski/util/sockets/SocketConnector.java:148-155 | a payload shorter than a tag's length prefix ends the stream |
| Connector.ReadFrame | src/ostrowski/util/sockets/SocketConnector.java:132-155 | fewer than four octets end the stream; a successful read leaves an unread suffix of the stream after the frame |
| Connector.FrameIsolation | src/ostrowski/util/sockets/SocketConnector.java:132-155 | a frame is read back to exactly its payload; what follows it is neither consumed nor looked at |
| Connector.NegativeLengthRejected | src/ostrowski/util/sockets/SocketConnector.java:132-133 | a negative length is rejected before any payload octet is read |
| Connector.SendReceiveRoundTrip | src/ostrowski/util/sockets/SocketConnector.java:126-242 | what sendObject writes for an encodable object, the receiver reads back as the same object's wire image, leaving the rest of the stream |
| Connector.SyncKeyOf | src/ostrowski/util/sockets/SocketConnector.java:160-167 | only responses and requests carry a sync key that can answer a pending request |
| Connector.Dispatch | src/ostrowski/util/sockets/SocketConnector.java:156-195 | the dispatch fails exactly for a response whose key is not pending; a matched key leaves the table; unmatched objects are delivered unchanged; an unknown tag is dropped |
| Connector.Receive | src/ostrowski/util/sockets/SocketConnector.java:126-198 | a received frame consumes at least its length; the table changes only when a pending request is matched |
| Connector.RequestResponseCycle | src/ostrowski/util/sockets/SocketConnector.java:160-192 | a request sent unanswered and then answered by a Response leaves the table as before the send, with the response's answer id applied to the original |
| Connector.SecondResponseThrows | src/ostrowski/util/sockets/SocketConnector.java:160-163 | a table entry is consumed once; a second response with the same key throws |
| Connector.ResponseQueuedOnce | src/ostrowski/util/sockets/SocketConnector.java:174-187 | a response puts the request it answers at the end of that request's results queue |
| Connector.ReturningRequestQueuedTwice | src/ostrowski/util/sockets/SocketConnector.java:165-187 | a returning request that matches puts the original on its results queue twice, once in setResponse and once in the dispatch |
| Connector.ReturningRequestCarriesAnswer | src/ostrowski/util/sockets/SocketConnector.java:165-172 | the original ends with the returning request's answer text and id |
| Connector.HexByte | src/ostrowski/util/sockets/SocketConnector.java:267-268 | a byte shows as two hex digits |
| Connector.HexByteRoundTrip | src/ostrowski/util/sockets/SocketConnector.java:244-268 | the two digits, high nibble first, give back the unsigned octet even though the Java byte is sign-extended |
| Connector.AsciiOf | src/ostrowski/util/sockets/SocketConnector.java:260-266 | a byte shows as itself when the signed Java byte lies in 0x20..0x7F, otherwise as '-' |
| Connector.AsciiText | src/ostrowski/util/sockets/SocketConnector.java:260-266 | the ASCII text of a run of bytes has one character per byte |
| Connector.Padded | src/ostrowski/util/sockets/SocketConnector.java:248 | the loop runs to the next multiple of 32 at or after the data length |
| Connector.AppendSeparator | src/ostrowski/util/sockets/SocketConnector.java:249-259 | the blanks before each group of four and eight are appended, and at a row boundary the finished row's ASCII column and a line break, which empties the buffer |
| Connector.AppendPosition | src/ostrowski/util/sockets/SocketConnector.java:248-277 | one pass of the loop extends the hex area and the row buffer by exactly one position |
| Connector.AppendByteBufferDump | src/ostrowski/util/sockets/SocketConnector.java:245-279 | the one-pass loop appends exactly the dump defined position by position: the hex area padded to whole rows, each row followed by its ASCII column |
| Connector.AsciiGroup | src/ostrowski/util/sockets/SocketConnector.java:257-266 | a group of eight positions inside the data shows as a blank and the eight bytes' characters |
| Connector.AsciiRow | src/ostrowski/util/sockets/SocketConnector.java:248-266 | a full row's ASCII column is its four groups of eight |
| Connector.HexArea | src/ostrowski/util/sockets/SocketConnector.java:248-268 | at least two characters per position; `AppendByteBufferDump` proves that this position-by-position definition is what the loop builds |
| Connector.DumpText | src/ostrowski/util/sockets/SocketConnector.java:245-279 | at least two characters per byte, plus two; `AppendByteBufferDump` proves that this definition is what the loop builds |
| Connector.HexAreaSplit | src/ostrowski/util/sockets/SocketConnector.java:248-268 | the hex text of the first positions is a prefix of every longer hex area, the later positions' text appended after it, so each row is the text of its own 32 positions |
| Connector.RowOpens | src/ostrowski/util/sockets/SocketConnector.java:250-258 | each row after the first opens with the previous row's ASCII column, a line break and the row's first hex cell |
| Semaphores.DependsOn | src/main/java/ostrowski/util/Semaphore.java:79-85 | the order is above every order depended on, and one more than one of them |
| Semaphores.ClassOrderIsOne | src/main/java/ostrowski/util/Semaphore.java:67-73 | every class constant, DependsOn(0), is 1 |
| Semaphores.NewSemaphore | src/main/java/ostrowski/util/Semaphore.java:89-97 | a new semaphore has the given order, no owner, no peer parent, zero counts, and a name that starts with the given name |
| Semaphores.NameShowsOrder | src/main/java/ostrowski/util/Semaphore.java:90 | the name is the given name followed by the order in brackets |
| Semaphores.SetPeerParent | src/main/java/ostrowski/util/Semaphore.java:127-129 | only the peer parent of that one semaphore changes |
| Semaphores.Report | src/main/java/ostrowski/util/Semaphore.java:382-403 | a signature already on record is silent; a new one is added once; nothing but the record changes |
| Semaphores.ReportOnce | src/main/java/ostrowski/util/Semaphore.java:382-393 | reporting the same signature twice is the same as reporting it once |
| Semaphores.RemoveFirstLine | src/main/java/ostrowski/util/Semaphore.java:470-476 | without a line break the text is unchanged; otherwise the result is what follows the first line break |
| Semaphores.CallStackDropsTwoLines | src/main/java/ostrowski/util/Semaphore.java:453-466 | what getCallStack keeps is the trace after the exception line and the reporting frame |
| Semaphores.LastIndexOf | src/main/java/ostrowski/util/Semaphore.java:244 | the last index holding the semaphore, or -1 exactly when it is absent |
| Semaphores.RemoveAt | src/main/java/ostrowski/util/Semaphore.java:240-249 | removing one entry shortens the stack by one and adds nothing |
| Semaphores.UntrackStack | src/main/java/ostrowski/util/Semaphore.java:235-284 | only track counts change, only the thread's stack can shrink, reports only grow, and no other semaphore changes |
| Semaphores.Untrack | src/main/java/ostrowski/util/Semaphore.java:227-291 | only track counts change, only the thread's stack can shrink, reports only grow, no other semaphore changes, and the stacks keep naming existing semaphores |
| Semaphores.CheckOrder | src/main/java/ostrowski/util/Semaphore.java:316-366 | the violation flag is exactly the order rule; without a violation nothing changes; a violation is reported, and without unlockLockedObject nothing else changes |
| Semaphores.PushChecked | src/main/java/ostrowski/util/Semaphore.java:210-224 | the thread table keeps its threads and no other thread's stack changes |
| Semaphores.Track | src/main/java/ostrowski/util/Semaphore.java:201-225 | only track counts change, at most the caller's thread is added, other threads' stacks are unchanged, reports only grow |
| Semaphores.Check | src/main/java/ostrowski/util/Semaphore.java:297-314 | check changes no stack or counter; it is silent when the semaphore is already tracked or the thread holds nothing, and otherwise reports exactly an order violation |
| Semaphores.Lock | src/main/java/ostrowski/util/Semaphore.java:131-162 | the caller owns the semaphore with one more lock and the same wait count; other semaphores change only in track counts; a re-entrant lock only counts up |
| Semaphores.Acquire | src/main/java/ostrowski/util/Semaphore.java:158-160 | only the acquired semaphore changes |
| Semaphores.Unlock | src/main/java/ostrowski/util/Semaphore.java:164-195 | no owner throws a null dereference; another owner throws IllegalStateException; the owner's unlock counts down and the last one untracks and clears the owner |
| Semaphores.TryLock | src/main/java/ostrowski/util/Semaphore.java:373-379 | a positive count with no owner throws; another owner holding it refuses with no change; otherwise it is exactly a lock |
| Semaphores.AddThread | src/main/java/ostrowski/util/Semaphore.java:681-694 | true exactly when the thread had no stack, which it then gets empty; otherwise nothing changes |
| Semaphores.RemoveDyingThread | src/main/java/ostrowski/util/Semaphore.java:696-711 | true exactly when the thread had a stack; afterwards it has none and nothing else changes |
| Semaphores.ThreadTableRoundTrip | src/main/java/ostrowski/util/Semaphore.java:681-711 | adding a new thread and then removing it restores the table and reports true |
| Semaphores.TrackAgain | src/main/java/ostrowski/util/Semaphore.java:201-206 | a track of a semaphore already tracked only counts up |
| Semaphores.TrackPushes | src/main/java/ostrowski/util/Semaphore.java:201-225 | the first track without an order violation pushes the semaphore on the thread's stack, creating the stack if needed, and reports nothing |
| Semaphores.TrackForcesTopOut | src/main/java/ostrowski/util/Semaphore.java:220-224 | a first track that breaks the lock order reports it, force-untracks the top entry, and takes its place on the stack |
| Semaphores.UntrackAgain | src/main/java/ostrowski/util/Semaphore.java:227-232 | an untrack that leaves the count positive only counts down |
| Semaphores.UntrackPopsTop | src/main/java/ostrowski/util/Semaphore.java:240-249 | the last untrack of the top entry pops it silently |
| Semaphores.UntrackBuried | src/main/java/ostrowski/util/Semaphore.java:250-265 | the last untrack of a buried entry cuts out its last occurrence and reports the reversed unlock order |
| Semaphores.UntrackAbsent | src/main/java/ostrowski/util/Semaphore.java:270-283 | untracking an entry the thread does not hold is reported from a count of one, and from zero or below resets the count to zero |
| Semaphores.TrackUntrackRoundTrip | src/ostrowski/util/SemaphoreAutoTracker.java:6-17 | a track/untrack bracket around an untracked semaphore that breaks no order leaves everything as it was |
| Semaphores.DescendingLocksAreSilent | src/main/java/ostrowski/util/Semaphore.java:316-329 | tracking in strictly decreasing order never reports and keeps the thread's stack strictly decreasing |
| Semaphores.TryLockRefusesOnlyForeign | src/main/java/ostrowski/util/Semaphore.java:373-379 | while counts and owners agree, tryLock never throws and refuses exactly when another thread owns the semaphore |
| Semaphores.LockFree | src/main/java/ostrowski/util/Semaphore.java:131-162 | the first lock of a free semaphore that breaks no order makes the caller its owner, once, on top of the caller's stack |
| Semaphores.UnlockLast | src/main/java/ostrowski/util/Semaphore.java:164-195 | the last unlock of the top entry frees the semaphore and pops it silently |
| Semaphores.LockUnlockRoundTrip | src/ostrowski/util/SemaphoreAutoLocker.java:6-17 | a lock/unlock bracket on a free semaphore that breaks no order leaves everything as it was |
| Semaphores.ReentrantRoundTrip | src/main/java/ostrowski/util/Semaphore.java:131-195 | a nested lock/unlock by the owner leaves everything as it was |
| Semaphores.LockKeepsConsistent | src/main/java/ostrowski/util/Semaphore.java:131-162 | lock keeps a zero lock count exactly when there is no owner |
| Semaphores.UnlockKeepsConsistent | src/main/java/ostrowski/util/Semaphore.java:164-195 | unlock keeps a zero lock count exactly when there is no owner |
| StringVectors.CompareToZero | src/ostrowski/util/SortedStringsVector.java:26 | compareTo is zero exactly for equal strings |
| StringVectors.CompareToFlip | src/ostrowski/util/SortedStringsVector.java:26 | swapping the operands negates compareTo |
| StringVectors.CompareToTrans | src/ostrowski/util/SortedStringsVector.java:26 | compareTo's "at most" is transitive |
| StringVectors.InsertionPoint | src/ostrowski/util/SortedStringsVector.java:24-31 | the backward scan stops just after the last element met that is at most the new string, having passed only greater ones, or reaches 0 |
| StringVectors.Add | src/ostrowski/util/SortedStringsVector.java:21-33 | add puts exactly one more copy of the string into the vector and changes nothing else in the multiset |
| StringVectors.AddShape | src/ostrowski/util/SortedStringsVector.java:21-33 | the new string is inserted at the insertion point with the elements before and after it in their old order |
| StringVectors.AddPlacement | src/ostrowski/util/SortedStringsVector.java:21-33 | on a sorted vector the new string lands after every element at most it and before every greater one, so it follows its equal copies |
| StringVectors.AddKeepsOrder | src/ostrowski/util/SortedStringsVector.java:21-33 | add keeps a sorted vector sorted |
| StringVectors.IndexOf | src/ostrowski/util/SortedStringsVector.java:35-37 | the first index holding the string, or -1 exactly when it is absent |
| StringVectors.Remove | src/ostrowski/util/SortedStringsVector.java:35-37 | remove shortens the vector by one exactly when the string is present |
| StringVectors.RemoveCount | src/ostrowski/util/SortedStringsVector.java:35-37 | exactly one copy of the string leaves the multiset, if there was one |
| StringVectors.RemoveFirstOccurrence | src/ostrowski/util/SortedStringsVector.java:35-37 | only the first equal element is removed; the rest keep their order |
| StringVectors.RemoveKeepsOrder | src/ostrowski/util/SortedStringsVector.java:35-37 | remove keeps a sorted vector sorted |
| StringVectors.FirstElement | src/ostrowski/util/SortedStringsVector.java:43-48 | null exactly when the vector is empty, otherwise one of its elements |
| StringVectors.FirstIsLeast | src/ostrowski/util/SortedStringsVector.java:43-48 | on a sorted vector the first element is the least |
| StringVectors.Clear | src/ostrowski/util/SortedStringsVector.java:39-41 | clear leaves an empty, sorted vector |
| SortedStrings.AddString | src/main/java/ostrowski/util/Semaphore.java:501-509 | the data string is appended under its key, no other key's data changes, and the key vector gains one copy of the key |
| SortedStrings.AddStringValid | src/main/java/ostrowski/util/Semaphore.java:501-509 | AddString keeps the keys sorted, one key per data string, and no empty data entry |
| SortedStrings.PopValid | src/main/java/ostrowski/util/Semaphore.java:511-525 | taking the oldest data string under the least key keeps the table well formed |
| SortedStrings.RemoveFirstString | src/main/java/ostrowski/util/Semaphore.java:511-525 | null exactly when the table is empty; otherwise one key leaves and the table stays well formed |
| SortedStrings.Drain | src/main/java/ostrowski/util/Semaphore.java:536-543 | the removal loop yields one pair per key entry |
| SortedStrings.Convert | src/main/java/ostrowski/util/Semaphore.java:536-543 | the conversion returns one data string per key entry |
| SortedStrings.DrainFollowsKeys | src/main/java/ostrowski/util/Semaphore.java:511-543 | the conversion visits the keys in their sorted order |
| SortedStrings.DrainPerKey | src/main/java/ostrowski/util/Semaphore.java:511-543 | under every key the conversion yields exactly that key's data strings, oldest first |
| SortedStrings.BuildValid | src/main/java/ostrowski/util/Semaphore.java:496-509 | after any sequence of adds the table is well formed |
| SortedStrings.BuildGet | src/main/java/ostrowski/util/Semaphore.java:501-509 | each key holds its data strings in the order they were added |
| SortedStrings.BuildKeys | src/main/java/ostrowski/util/Semaphore.java:501-509 | the key vector lists each key once per add |
| SortedStrings.ConvertOrdersAdds | src/main/java/ostrowski/util/Semaphore.java:487-543 | after any sequence of adds the conversion returns every added data string exactly once, in non-decreasing key order, and first in first out among equal keys |
| CountTables.CountOf | src/ostrowski/util/MonitoredObject.java:326-333 | a missing key reads as 0; in a table of positive counts, 0 exactly for a missing key |
| CountTables.Inc | src/ostrowski/util/MonitoringObject.java:55-72 | one more registration: the key is present with its old count plus one, a new key starting at 1, and every other count is unchanged |
| CountTables.Dec | src/ostrowski/util/MonitoringObject.java:84-112 | one fewer registration, or none at all for the all-instances variant; the key goes once its count is no longer positive; other counts are unchanged |
| CountTables.IncDecRoundTrip | src/ostrowski/util/MonitoringObject.java:55-112 | a registration followed by one unregistration restores a table of positive counts |
| CountTables.OthersAfterDec | src/ostrowski/util/MonitoredObject.java:246-264 | after an unregistration, the table's size decides whether other watchers remain, as the class computes it |
| CountTables.Enumerate | src/ostrowski/util/MonitoredObject.java:312-324 | a table's keys enumerated once each, in some order |
| Monitors.NewMonitored | src/ostrowski/util/MonitoredObject.java:39-57 | a new monitored object carries its own identity, has no watchers and no registration watcher, and its proxy is itself unless a container is given |
| Monitors.GetWatchingCount | src/ostrowski/util/MonitoredObject.java:326-333 | 0 for an unknown watcher, otherwise its registration count |
| Monitors.GetWatchersCount | src/ostrowski/util/MonitoredObject.java:335-338 | the number of distinct watchers |
| Monitors.RegisterAsWatcher | src/ostrowski/util/MonitoredObject.java:122-177 | a null watcher fails with no change and only the registration watcher is told; otherwise the count rises by one, the watcher is told to add the proxy, and the result says whether it already watched and whether others do |
| Monitors.UnregisterAsWritten | src/ostrowski/util/MonitoredObject.java:202-303 | as written: the result fails exactly for a null or unknown watcher, which changes nothing; only an unknown watcher is logged, and only when asked and a Diagnostics object is passed; a found watcher is never told anything |
| Monitors.UnregisterAsWatcher | src/ostrowski/util/MonitoredObject.java:202-303 | as evidently intended: the table and the result are those of the class, and a found watcher is also told to drop the proxy |
| Monitors.NotifyWatchers | src/ostrowski/util/MonitoredObject.java:81-111 | every registered watcher not in the skip list is notified, each once |
| Monitors.GetSnapShotOfWatchers | src/ostrowski/util/MonitoredObject.java:312-324 | the snapshot lists each current watcher once |
| Monitors.NewMonitoring | src/ostrowski/util/MonitoringObject.java:32-52 | a new monitoring object watches nothing; its proxy is itself unless a container is given, and it holds the forward object's identity, a reference, only when given one |
| Monitors.RegisterMonitoredObject | src/ostrowski/util/MonitoringObject.java:55-72 | always true; the object's count rises by one, starting at 1, and no other count changes |
| Monitors.UnregisterMonitoredObject | src/ostrowski/util/MonitoringObject.java:74-112 | true exactly when the object was registered; otherwise no change; the all-instances variant removes the entry; other counts are unchanged |
| Monitors.MonitoringRoundTrip | src/ostrowski/util/MonitoringObject.java:55-112 | registering with an object and unregistering once restores the table and returns true |
| Monitors.GetSnapShotOfWatchedObjects | src/ostrowski/util/MonitoringObject.java:185-199 | the snapshot lists each watched object once |
| Monitors.MonitoredObjectChanged | src/ostrowski/util/MonitoringObject.java:119-132 | throws exactly when there is no forward object; otherwise the watchers the referenced forward object has now, outside the skip list, are notified |
| Monitors.ForwardSeesLaterWatchers | src/ostrowski/util/MonitoringObject.java:28-52 | a watcher registered with the forward object after the forwarding object was built is notified of the next change |
| Monitors.DeliverRegister | src/ostrowski/util/MonitoredObject.java:154 | the register callback is the watcher's registerMonitoredObject |
| Monitors.DeliverUnregister | src/ostrowski/util/MonitoredObject.java:289-294 | the unregister callback is the watcher's unregisterMonitoredObject or its all-instances variant |
| Monitors.WatchRoundTrip | src/ostrowski/util/MonitoringObject.java:155-159 | with the intended unregister, register and unregister restore both the monitored object's watchers and the watcher's own table |
| Monitors.UnregisterLeavesWatcherCount | src/ostrowski/util/MonitoredObject.java:238-275 | as written, after the same register/unregister pair the monitored object has forgotten the watcher, but the watcher still counts a registration with the proxy |
| Monitors.RegisterResult | src/ostrowski/util/MonitoredObject.java:158-168 | never Failure; "this already watching" exactly when the watcher was already registered, and "others" exactly when other watchers remain |
| Monitors.UnRegisterResult | src/ostrowski/util/MonitoredObject.java:265-274 | never Failure; "this still watching" exactly when the watcher keeps a count, and "others" exactly when other watchers remain |
| Monitors.Deliver | src/ostrowski/util/MonitoredObject.java:289-297 | calls addressed to other watchers, and the registration watcher's notices, leave the watcher as it was |
| Diagnostics.NewAssociations | src/ostrowski/util/Diagnostics.java:269-275 | a new record has no associations, no operation in progress and the flag clear |
| Diagnostics.Count | src/ostrowski/util/Diagnostics.java:442-451 | a pair's count is never negative in a well-formed record, and 0 under an unknown name |
| Diagnostics.AssociateItem | src/ostrowski/util/Diagnostics.java:436-473 | a null name or value is ignored; otherwise the pair's count rises by one, starting at 1, the name becomes known, no other count changes, the operation stack is untouched and the table stays well formed |
| Diagnostics.PairRoundTrip | src/ostrowski/util/Diagnostics.java:436-499 | adding one occurrence of a pair to a well-formed table and removing it again gives back the table |
| Diagnostics.Decrement | src/ostrowski/util/Diagnostics.java:483-491 | a count at most 1 is removed, a larger one drops by one, and no other value's count changes |
| Diagnostics.UnassociateItem | src/ostrowski/util/Diagnostics.java:475-499 | a null name or value is ignored; otherwise the pair's count drops by one or is removed at 1, a name whose value table empties goes, no other count changes, and an absent pair changes nothing |
| Diagnostics.AssociateRoundTrip | src/ostrowski/util/Diagnostics.java:436-499 | associating a pair and then unassociating it leaves the record as it was |
| Diagnostics.BeginOperation | src/ostrowski/util/Diagnostics.java:336-366 | the id is pushed; the name is pushed, and an unnamed operation on top is identified by replacing its null with the name, so the name appears twice; the table and flag are untouched, and one operations-type message is logged exactly when asked |
| Diagnostics.TerminateOperation | src/ostrowski/util/Diagnostics.java:368-434 | with nothing in progress only the error is logged; otherwise the innermost id and name are popped, and an error is logged exactly when a non-null name differs from the innermost one |
| Diagnostics.BeginTerminateRoundTrip | src/ostrowski/util/Diagnostics.java:336-434 | beginning and then ending an operation with nothing unnamed in progress restores the record and logs no error |
| Diagnostics.BeginTerminateIdentifies | src/ostrowski/util/Diagnostics.java:336-434 | naming an unnamed operation and ending the named part leaves the operation on the stack, now carrying the name |
| Diagnostics.TerminateMismatchStillPops | src/ostrowski/util/Diagnostics.java:385-421 | a mismatched name is reported, but the innermost operation still ends |
| Diagnostics.BeginAll | src/ostrowski/util/Diagnostics.java:307-311 | beginning each pair in turn pushes all the ids, and all the names when none is null |
| Diagnostics.AppendOperations | src/ostrowski/util/Diagnostics.java:300-317 | the target begins each of the source's operations in order; the source is left unchanged because its flag test compares the last name with itself |
| Diagnostics.EntriesSnoc | src/ostrowski/util/Diagnostics.java:556-564 | one more operation appends ", " (except after none) and its "id:name" entry |
| Diagnostics.OperationsText | src/ostrowski/util/Diagnostics.java:552-567 | the operations string is bracketed, and it is "[]" exactly when nothing is in progress |
| Diagnostics.GetOperationsString | src/ostrowski/util/Diagnostics.java:552-567 | the loop builds exactly the "[id:name, …]" text in stack order |
| Diagnostics.OperationsTextBegin | src/ostrowski/util/Diagnostics.java:336-366 | beginning an operation appends its "id:name" entry to the operations string |
| Diagnostics.NewMessageQueue | src/ostrowski/util/Diagnostics.java:1412-1417 | a new queue is empty, open and has the given limit |
| Diagnostics.CloseQueue | src/ostrowski/util/Diagnostics.java:1422-1432 | closing stops the queue and keeps its messages |
| Diagnostics.AddMessage | src/ostrowski/util/Diagnostics.java:1446-1483 | true exactly when the queue is open; a stopped queue is unchanged; below the limit the message is appended; past the limit the queue closes, the oldest message is re-typed as a severe error, and the threshold error is appended; the queue stays bounded |
| Diagnostics.GetMessage | src/ostrowski/util/Diagnostics.java:1490-1511 | the oldest message is removed and returned; a stopped, empty queue gives null |
| Diagnostics.DrainInOrder | src/ostrowski/util/Diagnostics.java:1490-1511 | draining the queue yields its messages in order |
| Diagnostics.AddThenDrain | src/ostrowski/util/Diagnostics.java:1446-1511 | a message accepted below the limit comes out after everything already queued |
| Diagnostics.FormatIndex | src/ostrowski/util/Diagnostics.java:1033-1036 | DecimalFormat("0000") gives at least four digits denoting the index, with a minus sign when negative, and exactly four digits below 10000 |
| Diagnostics.PaddedDigits | src/ostrowski/util/Diagnostics.java:1034-1035 | the four-digit zero-padded text of a number denotes that number |
| Diagnostics.GetLogFile | src/ostrowski/util/Diagnostics.java:1033-1036 | the name is the base, the formatted index and ".log", eight characters longer than the base for indexes below 10000 |
| Diagnostics.LogFileRoundTrip | src/ostrowski/util/Diagnostics.java:1033-1036 | the index can be read back out of its log-file name |
| Diagnostics.LogFilesDistinct | src/ostrowski/util/Diagnostics.java:1033-1036 | distinct non-negative indexes name distinct files |
| Diagnostics.AdvanceFileNumber | src/ostrowski/util/Diagnostics.java:1104-1110 | a zero maximum throws; from a non-negative number the result is in 1..max, n+1 below the maximum and 1 from the maximum |
| Diagnostics.RemainderOfFileNumber | src/ostrowski/util/Diagnostics.java:1106 | Java's `%` leaves a number below the maximum unchanged and sends the maximum to 0 |
| Diagnostics.FileNumberCycle | src/ostrowski/util/Diagnostics.java:1104-1110 | from a file in 1..max, k advances move the file number on by k, wrapping past the last |
| Diagnostics.FileNumberPeriod | src/ostrowski/util/Diagnostics.java:1104-1110 | after max advances the same file is in use again |
| Diagnostics.AddPair | src/ostrowski/util/Diagnostics.java:440-463 | the name is in the table afterwards; the pair's count rises by one and no other pair's count changes; a well-formed table stays well-formed |
| Diagnostics.RemovePair | src/ostrowski/util/Diagnostics.java:477-497 | no name is added; a count at most 1 drops to 0, a larger one by one, and no other pair's count changes; a well-formed table stays well-formed |

## Left out

- Threads, `wait`/`notify`/`notifyAll` and `synchronized`: every call is modelled as one atomic step, and a thread is an identity passed in.
- Semaphores.Lock: does not model the wait while another thread owns the semaphore, only the step that acquires it; the precondition says it is free or already the caller's.
- Diagnostics.GetMessage: does not model the wait on an open, empty queue; the precondition says the queue has a message or is stopped.
- Socket setup, `run`, `shutdown` and the reading thread of `SocketConnector`: only the frame, the pending table and the routing are modelled; the socket is a byte sequence.
- File I/O: the log files, `setFilePath`, the exceptions file and the deadlock file are not modelled. Only the log-file name and the file-number rotation are.
- Clocks, timestamps and stack traces (`getTimeStamp`, `getCallStack`, `printLocks`, `closeSocketOfLongestOperation`): a deadlock report is reduced to its frames, and the caller's frames are a parameter.
- Floating point: the `float`/`double` codec entries and the angle classes.
- SWT and XML: `keyPressed` and `getOptionIDForKeystroke` (SWT key codes), `Helper`, and `XmlSerializableObject`.
- Configuration loading: `DiagParameters` and `ParametersBase`.
- `SyncRequest.getSingleEnabledAction`, `getOptions`, `getOptionIDs`, `getEnableds`, `getStringOfKeyStrokeAssignedToOption`, `copyDataInto` and `toString`: these are display helpers or array copies of fields that the records already expose.
- `MonitoringObject.stopMonitoringAllObjects` and `decMonitorCountAllObjects`: each loops over a snapshot of the watched objects in hash order and calls their unregister methods. Those single calls, including their all-instances forms, are modelled.
- `getAssociationsString`: its text follows `Hashtable` iteration order, which the source leaves unspecified.
- Diagnostics.TerminateOperation: the "ended" information messages are not modelled, because which one is printed depends on `String` reference identity; the popping and the error messages are.
- The per-thread `Diagnostics` wrappers (`Diagnostics.java:570-742`), `_nextOperationID`, the `_prebuiltAssociations` cache, the exception attached to a `DiagMsg`, and the text of `toString`/`dump`.
- `clone` and `setData`: copying is implicit for immutable records.
- `SortedStrings` conversion: a null data string, which ends the source's conversion loop early, is not modelled; data strings are never null here.
- The diagnostic output of `SocketConnector` (`FULL_BUFFER_DUMP_TO_DIAG` and the log calls): only the dump text itself is modelled.
- Java strings are modelled as sequences of characters, not UTF-16 code units. `String.getBytes("ISO-8859-1")` is modelled as one octet per character, with characters outside Latin-1 becoming `'?'`.
- Counter overflow: the reference counts of the monitors, the association counts and the semaphore counters are unbounded integers, because reaching 2^31 registrations is out of reach in practice. The `SyncRequest` key counter and every wire field do wrap as Java's `int` does.
- Null keys: `Hashtable` and `HashMap` keys are never null in the modelled calls. A null name, value or watcher is handled where the source tests for it.
- Requests.Enqueue: a results queue receives a copy of the request as it is at that moment, not the request object itself; the same holds for `Requests.SetResponse` and `Connector.Dispatch`. So a later change to a queued request is not seen through the queue, and the two entries `Connector.ReturningRequestQueuedTwice` shows are equal values that in the Java program are one object queued twice.
- Connector.SendObject: the pending table holds a copy of each request as it was when sent, not a reference to it. A change the sender makes to the request after sending is not seen when the response arrives; the model sees only the request as it was sent.
- Codec.ReadObject: the `debugBreak` flag records only whether this read itself returned null after a DebugBreak. A DebugBreak raised by a nested sub-object read (the two sub-objects of ObjectChanged, the target of ObjectDelete and ObjectInfo, each element of a request's option list, a request's answer) is not surfaced: those reads keep only the object they return.
- StringUtils.AsciiBytes: `String.getBytes()` uses the platform's default charset. The model covers only ASCII input, which the usual default charsets (UTF-8, ISO-8859-1, windows-1252) all encode as one octet per character, and the precondition says so.
- The `Auto*` bracket classes are modelled as the lemmas that compose lock with unlock and track with untrack.

## Findings

| source | as written | input that shows it | evidently intended | confidence | as-written member | corrected member |
|---|---|---|---|---|---|---|
| src/ostrowski/util/MonitoredObject.java:238-275 | when the watcher is found, `unregisterAsWatcher` returns from inside the locked block, before the callback at lines 289-294 that tells the watcher to forget this object; only the "not found" path calls it | `registerAsWatcher(w)` then `unregisterAsWatcher(w)`: the watched object forgets `w`, but `w`'s `MonitoringObject` still counts the watched object once | the watcher is told, as `MonitoringObject.java:155-159` expects after `unregisterAsWatcher` ("should have removed that element") | medium, not executed | Monitors.UnregisterAsWritten, Monitors.UnregisterLeavesWatcherCount | Monitors.UnregisterAsWatcher, Monitors.WatchRoundTrip |

=== FILE: codec.dfy ===
/** The object codec: each message class's `serializeToStream` and
    `serializeFromStream`, the tagged [tag][body] form used for sub-objects
    and list elements, `SerializableFactory.readObject`, and
    `readIntoListSerializableObject`.

    Encoding fails with the runtime exception that escapes it (a null
    sub-object, an unregistered class); the partial output is discarded by
    every caller. Decoding never fails on short input: every
    `serializeFromStream` catches the end-of-stream `IOException`, keeping
    the fields read so far; the only exception that escapes a decode is the
    `ClassCastException` of a `SyncRequest` answer that is not an option. */
module Codec {
  import opened Wrappers
  import opened JavaTypes
  import opened Wire
  import opened Messages
  import opened Registry

  datatype EncodeFault = NullObject | Unregistered(cls: Cls)

  /** The `ClassCastException` of a non-option answer. It carries the
      allocator as it stood at the throw: the objects the answer's decode
      constructed, and the keys their constructors took from the static
      counter, stay taken. */
  datatype DecodeFault = ClassCast(alloc: Alloc)

  // ---------------------------------------------------------------------
  // Encoding
  // ---------------------------------------------------------------------

  /** `RequestOption.serializeToStream`: name, value, enabled. */
  function OptionBody(o: ReqOption): (b: Bytes)
    ensures |b| >= 2 + 4 + 1
  {
    WriteString(o.name) + WriteInt(o.value) + WriteBoolean(o.enabled)
  }

  /** `Response.serializeToStream`: syncKey, answerID, answerStr. */
  function ResponseBody(r: Response): (b: Bytes)
    ensures |b| >= 4 + 4 + 2
  {
    WriteInt(r.syncKey) + WriteInt(r.answerId) + WriteString(r.answerStr)
  }

  /** An option as a tagged list element or answer: its class's tag, then its body. */
  function OptionTagged(reg: Registry, o: ReqOption): (r: Result<Bytes, EncodeFault>)
    ensures r.Failure? <==> GetKey(reg, ReqOptionCls).None?
  {
    match GetKey(reg, ReqOptionCls)
    case None => Failure(Unregistered(ReqOptionCls))
    case Some(tag) => Success(WriteString(Some(tag)) + OptionBody(o))
  }

  /** The elements of the options list, each as [tag][body]. */
  function OptionsTagged(reg: Registry, opts: seq<ReqOption>): (r: Result<Bytes, EncodeFault>)
    ensures r.Failure? <==> |opts| > 0 && GetKey(reg, ReqOptionCls).None?
  {
    if |opts| == 0 then Success([])
    else match OptionTagged(reg, opts[0])
      case Failure(e) => Failure(e)
      case Success(b) =>
        match OptionsTagged(reg, opts[1..])
        case Failure(e) => Failure(e)
        case Success(bs) => Success(b + bs)
  }

  /** `SyncRequest.serializeToStream`: syncKey, message, the options list
      (an int16 count and tagged elements), defaultID, whether there is an
      answer, and the tagged answer when there is one. */
  function RequestBody(reg: Registry, q: SyncRequest): (r: Result<Bytes, EncodeFault>)
    ensures r.Failure? <==> (|q.options| > 0 || q.answer.Some?) && GetKey(reg, ReqOptionCls).None?
  {
    match OptionsTagged(reg, q.options)
    case Failure(e) => Failure(e)
    case Success(ob) =>
      match AnswerTail(reg, q)
      case Failure(e) => Failure(e)
      case Success(tb) => Success(WriteInt(q.syncKey) + WriteString(q.message) + WriteShort(|q.options|) + ob + tb)
  }

  /** The part of a request's body after the options list. */
  function AnswerTail(reg: Registry, q: SyncRequest): (r: Result<Bytes, EncodeFault>)
    ensures r.Failure? <==> q.answer.Some? && GetKey(reg, ReqOptionCls).None?
  {
    var head := WriteInt(q.defaultId) + WriteBoolean(q.answer.Some?);
    if q.answer.None? then Success(head)
    else match OptionTagged(reg, q.answer.value)
      case Failure(e) => Failure(e)
      case Success(ab) => Success(head + ab)
  }

  /** A sub-object as [tag][body]: `getKey` throws on null (a
      `NullPointerException`) and on a class with no registered tag. */
  function Tagged(reg: Registry, o: Option<Obj>): (r: Result<Bytes, EncodeFault>)
    ensures o.None? ==> r == Failure(NullObject)
    ensures o.Some? && GetKey(reg, ClassOf(o.value)).None? ==> r == Failure(Unregistered(ClassOf(o.value)))
    decreases o, 1
  {
    match o
    case None => Failure(NullObject)
    case Some(x) =>
      match GetKey(reg, ClassOf(x))
      case None => Failure(Unregistered(ClassOf(x)))
      case Some(tag) =>
        match Body(reg, x)
        case Failure(e) => Failure(e)
        case Success(b) => Success(WriteString(Some(tag)) + b)
  }

  /** `serializeToStream` of each class. The flat classes always encode;
      the wrappers fail exactly when a sub-object cannot be tagged; a request
      fails exactly when it needs the option tag and none is registered. */
  function Body(reg: Registry, o: Obj): (r: Result<Bytes, EncodeFault>)
    ensures o.ClientIdObj? || o.OptionObj? || o.ResponseObj? ==> r.Success?
    ensures o.ChangedObj? ==>
      (r.Success? <==> Tagged(reg, o.original).Success? && Tagged(reg, o.modified).Success?)
    ensures o.DeleteObj? || o.InfoObj? ==> (r.Success? <==> Tagged(reg, o.target).Success?)
    ensures o.RequestObj? ==>
      (r.Failure? <==> (|o.req.options| > 0 || o.req.answer.Some?) && GetKey(reg, ReqOptionCls).None?)
    decreases o, 0
  {
    match o
    case ClientIdObj(id) => Success(WriteInt(id))
    case OptionObj(opt) => Success(OptionBody(opt))
    case ResponseObj(resp) => Success(ResponseBody(resp))
    case ChangedObj(x, y) =>
      (match Tagged(reg, x)
       case Failure(e) => Failure(e)
       case Success(bx) =>
         match Tagged(reg, y)
         case Failure(e) => Failure(e)
         case Success(bY) => Success(bx + bY))
    case DeleteObj(t) => Tagged(reg, t)
    case InfoObj(t) => Tagged(reg, t)
    case RequestObj(_, q) => RequestBody(reg, q)
  }

  /** An option encodes the same way whether it is a top-level object or a
      list element. */
  lemma OptionTaggedIsTagged(reg: Registry, o: ReqOption)
    ensures OptionTagged(reg, o) == Tagged(reg, Some(OptionObj(o)))
  {
  }

  /** `ClientID`'s body is exactly its id as four big-endian octets. */
  lemma ClientIdBody(reg: Registry, id: Int32)
    ensures Body(reg, ClientIdObj(id)) == Success(WriteInt(id))
    ensures |WriteInt(id)| == 4 && ReadInt(WriteInt(id)) == Some((id, []))
  {
    ReadIntOf(id, []);
    assert WriteInt(id) + [] == WriteInt(id);
  }

  /** Encoding an `ObjectChanged`, `ObjectDelete` or `ObjectInfo` whose
      sub-object is null fails in `getKey`. */
  lemma NullSubObjectFails(reg: Registry, x: Option<Obj>)
    ensures Body(reg, ChangedObj(None, x)) == Failure(NullObject)
    ensures Body(reg, DeleteObj(None)) == Failure(NullObject)
    ensures Body(reg, InfoObj(None)) == Failure(NullObject)
    ensures x.Some? && Tagged(reg, x).Success? ==> Body(reg, ChangedObj(x, None)) == Failure(NullObject)
  {
  }

  // ---------------------------------------------------------------------
  // Decoding
  // ---------------------------------------------------------------------

  /** What a factory read left: the object (`None` for Java `null`), the
      unread rest, the allocator after any objects it created, and whether
      this read itself returned null after a DebugBreak. Nested sub-object
      reads keep only their object, so their DebugBreaks are not recorded. */
  datatype Decoded = Decoded(obj: Option<Obj>, rest: Bytes, alloc: Alloc, debugBreak: bool)

  /** `RequestOption.serializeFromStream` on a fresh option `o`. */
  function ReadOptionFields(o: ReqOption, s: Bytes): (r: (ReqOption, Bytes))
    ensures |r.1| <= |s| && r.0.uid == o.uid
  {
    match ReadString(s)
    case None => (o, [])
    case Some((n, s1)) =>
      var o1 := o.(name := Some(n));
      match ReadInt(s1)
      case None => (o1, [])
      case Some((v, s2)) =>
        var o2 := o1.(value := v);
        match ReadBoolean(s2)
        case None => (o2, [])
        case Some((e, s3)) => (o2.(enabled := e), s3)
  }

  /** `Response.serializeFromStream` on a fresh response. */
  function ReadResponseFields(r0: Response, s: Bytes): (r: (Response, Bytes))
    ensures |r.1| <= |s|
  {
    match ReadInt(s)
    case None => (r0, [])
    case Some((k, s1)) =>
      var r1 := r0.(syncKey := k);
      match ReadInt(s1)
      case None => (r1, [])
      case Some((id, s2)) =>
        var r2 := r1.(answerId := id);
        match ReadString(s2)
        case None => (r2, [])
        case Some((t, s3)) => (r2.(answerStr := Some(t)), s3)
  }

  /** `SerializableFactory.readObject(tag, in)`: an unknown tag, or a class
      that cannot be instantiated, gives null (after a DebugBreak) and
      consumes nothing; otherwise a fresh instance reads its body. */
  function ReadObject(reg: Registry, a: Alloc, tag: Tag, s: Bytes): (r: Result<Decoded, DecodeFault>)
    ensures r.Success? ==> |r.value.rest| <= |s|
    ensures r.Success? ==> (r.value.debugBreak <==> r.value.obj.None?)
    ensures tag !in reg.classMap ==> r == Success(Decoded(None, s, a, true))
    decreases |s|, 6
  {
    if tag !in reg.classMap || !Instantiable(reg.classMap[tag]) then Success(Decoded(None, s, a, true))
    else match DecodeBody(reg, a, reg.classMap[tag], s)
      case Failure(e) => Failure(e)
      case Success(d) => Success(Decoded(Some(d.0), d.1, d.2, false))
  }

  /** A tag string, then the object it names: the [tag][body] form. */
  function ReadTaggedIn(reg: Registry, a: Alloc, s: Bytes): (r: Option<Result<Decoded, DecodeFault>>)
    ensures r.Some? && r.value.Success? ==> |r.value.value.rest| < |s|
    decreases |s|, 0
  {
    match ReadString(s)
    case None => None
    case Some((tag, s1)) => Some(ReadObject(reg, a, tag, s1))
  }

  /** A fresh instance of `c` reading its body with `serializeFromStream`. */
  function DecodeBody(reg: Registry, a: Alloc, c: Cls, s: Bytes): (r: Result<(Obj, Bytes, Alloc), DecodeFault>)
    requires Instantiable(c)
    ensures r.Success? ==> |r.value.1| <= |s| && ClassOf(r.value.0) == c
    decreases |s|, 5
  {
    match c
    case ClientIdCls => Success(DecodeClientId(a, s))
    case ReqOptionCls => Success(DecodeOption(a, s))
    case ResponseCls => Success(DecodeResponse(a, s))
    case ObjChangedCls => DecodeChanged(reg, a, s)
    case ObjDeleteCls => DecodeDelete(reg, a, s)
    case ObjInfoCls => DecodeInfo(reg, a, s)
    case RequestCls(rc) => DecodeRequestObj(reg, a, rc, s)
  }

  /** `ClientID.serializeFromStream`. */
  function DecodeClientId(a: Alloc, s: Bytes): (r: (Obj, Bytes, Alloc))
    ensures |r.1| <= |s| && r.0.ClientIdObj? && r.2 == a
  {
    match ReadInt(s)
    case None => (ClientIdObj(-1), [], a)
    case Some((v, s1)) => (ClientIdObj(v), s1, a)
  }

  /** A new `RequestOption` reading its fields. */
  function DecodeOption(a: Alloc, s: Bytes): (r: (Obj, Bytes, Alloc))
    ensures |r.1| <= |s| && r.0.OptionObj? && r.2.nextKey == a.nextKey
  {
    var (o, a1) := NewOption(a, None, 0, false);
    var (o', s1) := ReadOptionFields(o, s);
    (OptionObj(o'), s1, a1)
  }

  /** A new `Response` reading its fields. */
  function DecodeResponse(a: Alloc, s: Bytes): (r: (Obj, Bytes, Alloc))
    ensures |r.1| <= |s| && r.0.ResponseObj? && r.2 == a
  {
    var (r, s1) := ReadResponseFields(DEFAULT_RESPONSE, s);
    (ResponseObj(r), s1, a)
  }

  /** `ObjectChanged.serializeFromStream`: two tagged objects. */
  function DecodeChanged(reg: Registry, a: Alloc, s: Bytes): (r: Result<(Obj, Bytes, Alloc), DecodeFault>)
    ensures r.Success? ==> |r.value.1| <= |s| && r.value.0.ChangedObj?
    decreases |s|, 3
  {
    match ReadTaggedIn(reg, a, s)
    case None => Success((ChangedObj(None, None), [], a))
    case Some(Failure(e)) => Failure(e)
    case Some(Success(d1)) =>
      match ReadTaggedIn(reg, d1.alloc, d1.rest)
      case None => Success((ChangedObj(d1.obj, None), [], d1.alloc))
      case Some(Failure(e)) => Failure(e)
      case Some(Success(d2)) => Success((ChangedObj(d1.obj, d2.obj), d2.rest, d2.alloc))
  }

  /** `ObjectDelete.serializeFromStream`: one tagged object. */
  function DecodeDelete(reg: Registry, a: Alloc, s: Bytes): (r: Result<(Obj, Bytes, Alloc), DecodeFault>)
    ensures r.Success? ==> |r.value.1| <= |s| && r.value.0.DeleteObj?
    decreases |s|, 3
  {
    match ReadTaggedIn(reg, a, s)
    case None => Success((DeleteObj(None), [], a))
    case Some(Failure(e)) => Failure(e)
    case Some(Success(d)) => Success((DeleteObj(d.obj), d.rest, d.alloc))
  }

  /** `ObjectInfo.serializeFromStream`: one tagged object. */
  function DecodeInfo(reg: Registry, a: Alloc, s: Bytes): (r: Result<(Obj, Bytes, Alloc), DecodeFault>)
    ensures r.Success? ==> |r.value.1| <= |s| && r.value.0.InfoObj?
    decreases |s|, 3
  {
    match ReadTaggedIn(reg, a, s)
    case None => Success((InfoObj(None), [], a))
    case Some(Failure(e)) => Failure(e)
    case Some(Success(d)) => Success((InfoObj(d.obj), d.rest, d.alloc))
  }

  /** A new instance of a `SyncRequest` subclass (its constructor takes a
      key from the counter) reading its fields. */
  function DecodeRequestObj(reg: Registry, a: Alloc, rc: ReqCls, s: Bytes): (r: Result<(Obj, Bytes, Alloc), DecodeFault>)
    ensures r.Success? ==> |r.value.1| <= |s| && r.value.0.RequestObj? && r.value.0.rc == rc
    decreases |s|, 4
  {
    var (q0, a1) := NewSyncRequest(a);
    match DecodeRequest(reg, a1, q0, s)
    case Failure(e) => Failure(e)
    case Success((q, s1, a2)) => Success((RequestObj(rc, q), s1, a2))
  }

  /** `readIntoListSerializableObject` after its count: reads `n` tagged
      objects. An end-of-stream on one element is caught and the loop goes
      on, but every later element then fails the same way, so the list is
      what was read before it. */
  function ReadObjList(reg: Registry, a: Alloc, s: Bytes, n: int): (r: Result<(seq<Option<Obj>>, Bytes, Alloc), DecodeFault>)
    ensures r.Success? ==> |r.value.1| <= |s| && |r.value.0| <= if n < 0 then 0 else n
    decreases |s|, 7
  {
    if n <= 0 then Success(([], s, a))
    else match ReadTaggedIn(reg, a, s)
      case None => Success(([], [], a))
      case Some(Failure(e)) => Failure(e)
      case Some(Success(d)) =>
        match ReadObjList(reg, d.alloc, d.rest, n - 1)
        case Failure(e) => Failure(e)
        case Success((xs, s2, a2)) => Success(([d.obj] + xs, s2, a2))
  }

  /** The options among the objects read: `instanceof IRequestOption` drops
      nulls and objects of other classes. */
  function OptionsAmong(xs: seq<Option<Obj>>): (opts: seq<ReqOption>)
    ensures |opts| <= |xs|
    ensures forall o :: o in opts <==> exists i :: 0 <= i < |xs| && xs[i] == Some(OptionObj(o))
  {
    if |xs| == 0 then []
    else
      var tail := OptionsAmong(xs[1..]);
      assert forall i :: 1 <= i < |xs| ==> xs[i] == xs[1..][i - 1];
      if xs[0].Some? && xs[0].value.OptionObj? then
        [xs[0].value.opt] + tail
      else tail
  }

  /** `SyncRequest.serializeFromStream` on a fresh request `q0`. */
  function DecodeRequest(reg: Registry, a: Alloc, q0: SyncRequest, s: Bytes): (r: Result<(SyncRequest, Bytes, Alloc), DecodeFault>)
    ensures r.Success? ==> |r.value.1| <= |s|
    decreases |s|, 3
  {
    match ReadInt(s)
    case None => Success((q0, [], a))
    case Some((k, s1)) =>
      var q1 := q0.(syncKey := k);
      match ReadString(s1)
      case None => Success((q1, [], a))
      case Some((m, s2)) =>
        var q2 := q1.(message := Some(m), options := []);
        match ReadShort(s2)
        case None => Success((q2, [], a))
        case Some((n, s3)) =>
          match ReadObjList(reg, a, s3, n)
          case Failure(e) => Failure(e)
          case Success((xs, s4, a1)) => DecodeRequestTail(reg, a1, q2.(options := OptionsAmong(xs)), s4)
  }

  /** The rest of `SyncRequest.serializeFromStream`: defaultID, the answered
      flag, and the answer, which is cleared before it is read and must cast
      to an option. */
  function DecodeRequestTail(reg: Registry, a: Alloc, q: SyncRequest, s: Bytes): (r: Result<(SyncRequest, Bytes, Alloc), DecodeFault>)
    ensures r.Success? ==> |r.value.1| <= |s| && r.value.0.options == q.options && r.value.0.syncKey == q.syncKey
    decreases |s|, 2
  {
    match ReadInt(s)
    case None => Success((q, [], a))
    case Some((d, s1)) =>
      var q1 := q.(defaultId := d);
      match ReadBoolean(s1)
      case None => Success((q1, [], a))
      case Some((hasAnswer, s2)) =>
        var q2 := q1.(answer := None);
        if !hasAnswer then Success((q2, s2, a))
        else ReadAnswer(reg, a, q2, s2)
  }

  /** Reads the tagged answer of a request and casts it to an option. */
  function ReadAnswer(reg: Registry, a: Alloc, q: SyncRequest, s: Bytes): (r: Result<(SyncRequest, Bytes, Alloc), DecodeFault>)
    ensures r.Success? ==> |r.value.1| <= |s| && r.value.0.(answer := q.answer) == q
    ensures var t := ReadTaggedIn(reg, a, s);
      r.Failure? <==> t.Some? && (t.value.Failure? || (t.value.value.obj.Some? && !t.value.value.obj.value.OptionObj?))
    ensures var t := ReadTaggedIn(reg, a, s);
      t.Some? && t.value.Success? && r.Failure? ==> r.error == ClassCast(t.value.value.alloc)
    decreases |s|, 1
  {
    match ReadTaggedIn(reg, a, s)
    case None => Success((q, [], a))
    case Some(Failure(e)) => Failure(e)
    case Some(Success(d)) =>
      match d.obj
      case None => Success((q, d.rest, d.alloc))
      case Some(OptionObj(opt)) => Success((q.(answer := Some(opt)), d.rest, d.alloc))
      case Some(_) => Failure(ClassCast(d.alloc))
  }

  /** A request-class answer is constructed before the cast fails, so its
      constructor's advance of the key counter survives the throw. */
  lemma RequestAnswerTakesKey(reg: Registry, a: Alloc, q: SyncRequest, rc: ReqCls)
    requires TagRoundTrips(reg, RequestCls(rc))
    ensures ReadAnswer(reg, a, q, WriteString(Some(reg.keyMap[RequestCls(rc)])))
      == Failure(ClassCast(NewSyncRequest(a).1))
  {
    var tag := reg.keyMap[RequestCls(rc)];
    Latin1StringRoundTrip(tag, []);
    assert WriteString(Some(tag)) + [] == WriteString(Some(tag));
    assert ReadTaggedIn(reg, a, WriteString(Some(tag))) == Some(ReadObject(reg, a, tag, []));
  }

  /** `readIntoListSerializableObject`: an int16 count, then that many
      tagged objects. `None` is the end-of-stream on the count, which the
      method lets escape. */
  function ReadIntoListObjects(reg: Registry, a: Alloc, s: Bytes): (r: Option<Result<(seq<Option<Obj>>, Bytes, Alloc), DecodeFault>>)
    ensures r.None? <==> |s| < 2
    ensures r.Some? && r.value.Success? ==>
      |r.value.value.0| <= if ReadShort(s).value.0 < 0 then 0 else ReadShort(s).value.0
  {
    match ReadShort(s)
    case None => None
    case Some((n, s1)) => Some(ReadObjList(reg, a, s1, n))
  }

  /** An unknown tag reads as null, consumes nothing and creates nothing. */
  lemma UnknownTagIsNull(reg: Registry, a: Alloc, tag: Tag, s: Bytes)
    requires tag !in reg.classMap
    ensures ReadObject(reg, a, tag, s) == Success(Decoded(None, s, a, true))
  {
  }

  /** A tag naming the abstract `SyncRequest` reads as null too. */
  lemma AbstractClassIsNull(reg: Registry, a: Alloc, tag: Tag, s: Bytes)
    requires tag in reg.classMap && reg.classMap[tag] == RequestCls(SyncRequestBase)
    ensures ReadObject(reg, a, tag, s) == Success(Decoded(None, s, a, true))
  {
  }

  /** A known tag gives a fresh instance of its class, read from the
      remaining bytes. */
  lemma KnownTagInstantiates(reg: Registry, a: Alloc, tag: Tag, s: Bytes)
    requires tag in reg.classMap && Instantiable(reg.classMap[tag])
    ensures var r := ReadObject(reg, a, tag, s);
      r.Success? ==> r.value.obj.Some? && ClassOf(r.value.obj.value) == reg.classMap[tag]
  {
  }

  /** A `SyncRequest` answer of any class other than `RequestOption` makes the
      cast in `serializeFromStream` throw. */
  lemma NonOptionAnswerThrows(reg: Registry, a: Alloc, q: SyncRequest, id: Int32, rest: Bytes)
    requires TagRoundTrips(reg, ClientIdCls)
    ensures ReadAnswer(reg, a, q, WriteString(Some(reg.keyMap[ClientIdCls])) + WriteInt(id) + rest) == Failure(ClassCast(a))
  {
    var tag := reg.keyMap[ClientIdCls];
    assert WriteString(Some(tag)) + WriteInt(id) + rest == WriteString(Some(tag)) + (WriteInt(id) + rest);
    Latin1StringRoundTrip(tag, WriteInt(id) + rest);
    ReadIntOf(id, rest);
    assert ReadTaggedIn(reg, a, WriteString(Some(tag)) + (WriteInt(id) + rest))
      == Some(ReadObject(reg, a, tag, WriteInt(id) + rest));
    assert DecodeBody(reg, a, ClientIdCls, WriteInt(id) + rest) == Success((ClientIdObj(id), rest, a));
    assert ReadObject(reg, a, tag, WriteInt(id) + rest) == Success(Decoded(Some(ClientIdObj(id)), rest, a, false));
  }
}

=== FILE: codecroundtrip.dfy ===
/** What the codec promises: the wire image of each field and object, the
    conditions under which an object encodes, and the round trips of the
    option list, the answer and the `SyncRequest` body. */
module CodecRoundTrip {
  import opened Wrappers
  import opened JavaTypes
  import opened Wire
  import opened Messages
  import opened Registry
  import opened Codec

  /** What a string field reads back as: null and "" as "", any other string
      as its ISO-8859-1 image. */
  function WireStr(s: Option<string>): (r: Option<string>)
    ensures r.Some? && IsLatin1(r.value) && (s.Some? && IsLatin1(s.value) ==> r == s)
  {
    Some(if s.None? then "" else Latin1Image(s.value))
  }

  /** The part of an option the wire carries: the identity of the decoded
      option is a new one, so it is blanked. */
  function WireOpt(o: ReqOption): ReqOption {
    ReqOption(0, WireStr(o.name), o.value, o.enabled)
  }

  function WireOpts(opts: seq<ReqOption>): (r: seq<ReqOption>)
    ensures |r| == |opts| && forall i :: 0 <= i < |opts| ==> r[i] == WireOpt(opts[i])
  {
    seq(|opts|, i requires 0 <= i < |opts| => WireOpt(opts[i]))
  }

  /** The part of a request the wire carries: the results queue, the backup
      flag and the keystroke maps are local to the sender. */
  function WireReq(q: SyncRequest): SyncRequest {
    SyncRequest(q.syncKey, WireStr(q.message),
      if q.answer.None? then None else Some(WireOpt(q.answer.value)),
      WireOpts(q.options), q.defaultId, None, false, NO_KEYS)
  }

  function WireObj(o: Obj): Obj {
    match o
    case ClientIdObj(_) => o
    case OptionObj(opt) => OptionObj(WireOpt(opt))
    case ResponseObj(r) => ResponseObj(r.(answerStr := WireStr(r.answerStr)))
    case ChangedObj(x, y) => ChangedObj(WireSub(x), WireSub(y))
    case DeleteObj(t) => DeleteObj(WireSub(t))
    case InfoObj(t) => InfoObj(WireSub(t))
    case RequestObj(rc, q) => RequestObj(rc, WireReq(q))
  }

  function WireSub(x: Option<Obj>): Option<Obj> {
    if x.None? then None else Some(WireObj(x.value))
  }

  /** A string field short enough for its int16 length prefix. */
  predicate StrFits(s: Option<string>) {
    s.None? || |s.value| <= MAX_SHORT
  }

  /** An object whose encoding succeeds and decodes to the same class:
      its strings and option list fit their int16 prefixes, every
      sub-object is present and its class's tag names it, and options
      have a tag whenever a request carries any. */
  predicate Encodable(reg: Registry, o: Obj)
    decreases o, 1
  {
    Instantiable(ClassOf(o)) &&
    match o
    case ClientIdObj(_) => true
    case OptionObj(opt) => StrFits(opt.name)
    case ResponseObj(r) => StrFits(r.answerStr)
    case ChangedObj(x, y) => SubEncodable(reg, x) && SubEncodable(reg, y)
    case DeleteObj(t) => SubEncodable(reg, t)
    case InfoObj(t) => SubEncodable(reg, t)
    case RequestObj(_, q) => RequestEncodable(reg, q)
  }

  predicate AnswerEncodable(reg: Registry, q: SyncRequest) {
    q.answer.Some? ==> StrFits(q.answer.value.name) && TagRoundTrips(reg, ReqOptionCls)
  }

  predicate RequestEncodable(reg: Registry, q: SyncRequest) {
    StrFits(q.message) && |q.options| <= MAX_SHORT &&
    (forall i :: 0 <= i < |q.options| ==> StrFits(q.options[i].name)) &&
    (|q.options| > 0 ==> TagRoundTrips(reg, ReqOptionCls)) &&
    AnswerEncodable(reg, q)
  }

  predicate SubEncodable(reg: Registry, x: Option<Obj>)
    decreases x, 2
  {
    x.Some? && TagRoundTrips(reg, ClassOf(x.value)) && Encodable(reg, x.value)
  }

  /** A present object as [tag][body], grouped the way the decoder reads it. */
  lemma TaggedLayout(reg: Registry, v: Obj, rest: Bytes)
    requires TagRoundTrips(reg, ClassOf(v)) && Body(reg, v).Success?
    ensures Tagged(reg, Some(v)).Success?
    ensures Tagged(reg, Some(v)).value + rest == WriteString(Some(reg.keyMap[ClassOf(v)])) + (Body(reg, v).value + rest)
  {
    var ts := WriteString(Some(reg.keyMap[ClassOf(v)]));
    assert Tagged(reg, Some(v)).value == ts + Body(reg, v).value;
    Assoc(ts, Body(reg, v).value, rest);
  }

  /** The answer part of an answered request, grouped the way the decoder reads it. */
  lemma AnswerTailLayout(reg: Registry, q: SyncRequest, rest: Bytes)
    requires q.answer.Some? && TagRoundTrips(reg, ReqOptionCls)
    ensures AnswerTail(reg, q).Success? && OptionTagged(reg, q.answer.value).Success?
    ensures AnswerTail(reg, q).value + rest ==
      WriteInt(q.defaultId) + (WriteBoolean(true) + (OptionTagged(reg, q.answer.value).value + rest))
  {
    var wd := WriteInt(q.defaultId);
    var wb := WriteBoolean(true);
    var ab := OptionTagged(reg, q.answer.value).value;
    assert AnswerTail(reg, q).value == (wd + wb) + ab;
    Assoc(wd + wb, ab, rest);
    Assoc(wd, wb, ab + rest);
  }

  /** A non-empty options list: the first tagged option, then the rest. */
  lemma OptionsTaggedLayout(reg: Registry, opts: seq<ReqOption>, rest: Bytes)
    requires |opts| > 0 && TagRoundTrips(reg, ReqOptionCls)
    ensures OptionsTagged(reg, opts).Success? && OptionTagged(reg, opts[0]).Success?
    ensures OptionsTagged(reg, opts).value + rest ==
      OptionTagged(reg, opts[0]).value + (OptionsTagged(reg, opts[1..]).value + rest)
  {
    var b := OptionTagged(reg, opts[0]).value;
    var bs := OptionsTagged(reg, opts[1..]).value;
    assert OptionsTagged(reg, opts).value == b + bs;
    Assoc(b, bs, rest);
  }

  /** An `ObjectChanged` body: the two tagged sub-objects in order. */
  lemma ChangedLayout(reg: Registry, x: Option<Obj>, y: Option<Obj>, rest: Bytes)
    requires Tagged(reg, x).Success? && Tagged(reg, y).Success?
    ensures Body(reg, ChangedObj(x, y)).Success?
    ensures Body(reg, ChangedObj(x, y)).value + rest == Tagged(reg, x).value + (Tagged(reg, y).value + rest)
  {
    assert Body(reg, ChangedObj(x, y)).value == Tagged(reg, x).value + Tagged(reg, y).value;
    Assoc(Tagged(reg, x).value, Tagged(reg, y).value, rest);
  }

  /** An option's body reads back into a fresh option as its wire image. */
  lemma OptionFieldsRoundTrip(o0: ReqOption, o: ReqOption, rest: Bytes)
    requires StrFits(o.name)
    ensures ReadOptionFields(o0, OptionBody(o) + rest) ==
      (ReqOption(o0.uid, WireStr(o.name), o.value, o.enabled), rest)
  {
    var ws := WriteString(o.name);
    var wi := WriteInt(o.value);
    var wb := WriteBoolean(o.enabled);
    assert OptionBody(o) + rest == ws + (wi + (wb + rest));
    StringRoundTrip(o.name, wi + (wb + rest));
    ReadIntOf(o.value, wb + rest);
    ReadBooleanOf(o.enabled, rest);
  }

  /** A response's body reads back as its wire image. */
  lemma ResponseFieldsRoundTrip(r0: Response, r: Response, rest: Bytes)
    requires StrFits(r.answerStr)
    ensures ReadResponseFields(r0, ResponseBody(r) + rest) == (r.(answerStr := WireStr(r.answerStr)), rest)
  {
    var w1 := WriteInt(r.syncKey);
    var w2 := WriteInt(r.answerId);
    var w3 := WriteString(r.answerStr);
    assert ResponseBody(r) + rest == w1 + (w2 + (w3 + rest));
    ReadIntOf(r.syncKey, w2 + (w3 + rest));
    ReadIntOf(r.answerId, w3 + rest);
    StringRoundTrip(r.answerStr, rest);
  }

  /** A tag that reads back, then whatever follows it, goes to the factory. */
  lemma TaggedInStep(reg: Registry, a: Alloc, tag: Tag, s: Bytes)
    requires IsLatin1(tag) && |tag| <= MAX_SHORT
    ensures ReadTaggedIn(reg, a, WriteString(Some(tag)) + s) == Some(ReadObject(reg, a, tag, s))
  {
    Latin1StringRoundTrip(tag, s);
  }

  /** The factory's read of an option's tag: a fresh option reads its body. */
  lemma ReadObjectOption(reg: Registry, a: Alloc, tag: Tag, s: Bytes)
    requires tag in reg.classMap && reg.classMap[tag] == ReqOptionCls
    ensures var (o0, a1) := NewOption(a, None, 0, false);
      var (o, s1) := ReadOptionFields(o0, s);
      ReadObject(reg, a, tag, s) == Success(Decoded(Some(OptionObj(o)), s1, a1, false))
  {
  }

  /** A tagged option reads back as a new option with the same wire image. */
  lemma OptionTaggedRoundTrip(reg: Registry, a: Alloc, o: ReqOption, rest: Bytes)
    requires TagRoundTrips(reg, ReqOptionCls) && StrFits(o.name)
    ensures OptionTagged(reg, o).Success?
    ensures var r := ReadTaggedIn(reg, a, OptionTagged(reg, o).value + rest);
      r.Some? && r.value.Success? && r.value.value.rest == rest &&
      r.value.value.obj.Some? && r.value.value.obj.value.OptionObj? &&
      WireOpt(r.value.value.obj.value.opt) == WireOpt(o) &&
      r.value.value.alloc.nextKey == a.nextKey
  {
    var tag := reg.keyMap[ReqOptionCls];
    var body := OptionBody(o);
    assert OptionTagged(reg, o).value + rest == WriteString(Some(tag)) + (body + rest);
    TaggedInStep(reg, a, tag, body + rest);
    ReadObjectOption(reg, a, tag, body + rest);
    var (o0, a1) := NewOption(a, None, 0, false);
    OptionFieldsRoundTrip(o0, o, rest);
  }

  /** One step of `ReadObjList`: a tagged object, then the remaining `n - 1`. */
  lemma ObjListCons(reg: Registry, a: Alloc, s: Bytes, n: int)
    requires n > 0
    requires var t := ReadTaggedIn(reg, a, s); t.Some? && t.value.Success?
    ensures var d := ReadTaggedIn(reg, a, s).value.value;
      var tl := ReadObjList(reg, d.alloc, d.rest, n - 1);
      tl.Success? ==> ReadObjList(reg, a, s, n) == Success(([d.obj] + tl.value.0, tl.value.1, tl.value.2))
  {
  }

  lemma OptionsAmongCons(o: ReqOption, xs: seq<Option<Obj>>)
    ensures OptionsAmong([Some(OptionObj(o))] + xs) == [o] + OptionsAmong(xs)
  {
    assert ([Some(OptionObj(o))] + xs)[1..] == xs;
  }

  lemma WireOptsCons(o: ReqOption, tail: seq<ReqOption>, opts: seq<ReqOption>)
    requires |opts| > 0 && WireOpt(o) == WireOpt(opts[0]) && WireOpts(tail) == WireOpts(opts[1..])
    ensures WireOpts([o] + tail) == WireOpts(opts)
  {
    var l := WireOpts([o] + tail);
    var r := WireOpts(opts);
    assert |l| == |r|;
    forall i | 0 <= i < |l| ensures l[i] == r[i] {
      if i > 0 {
        assert l[i] == WireOpts(tail)[i - 1];
        assert r[i] == WireOpts(opts[1..])[i - 1];
      }
    }
  }

  /** `n` tagged options read back, in order, as options with the same wire
      images. */
  lemma {:induction false} OptionListRoundTrip(reg: Registry, a: Alloc, opts: seq<ReqOption>, rest: Bytes)
    requires |opts| > 0 ==> TagRoundTrips(reg, ReqOptionCls)
    requires forall i :: 0 <= i < |opts| ==> StrFits(opts[i].name)
    ensures OptionsTagged(reg, opts).Success?
    ensures var r := ReadObjList(reg, a, OptionsTagged(reg, opts).value + rest, |opts|);
      r.Success? && r.value.1 == rest && WireOpts(OptionsAmong(r.value.0)) == WireOpts(opts) &&
      r.value.2.nextKey == a.nextKey
    decreases |opts|
  {
    if |opts| > 0 {
      var tl := opts[1..];
      assert forall i :: 0 <= i < |tl| ==> tl[i] == opts[i + 1];
      OptionTaggedRoundTrip(reg, a, opts[0], OptionsTagged(reg, tl).value + rest);
      OptionsTaggedLayout(reg, opts, rest);
      var b := OptionTagged(reg, opts[0]).value;
      var bs := OptionsTagged(reg, tl).value;
      var d := ReadTaggedIn(reg, a, b + (bs + rest)).value.value;
      OptionListRoundTrip(reg, d.alloc, tl, rest);
      ObjListCons(reg, a, b + (bs + rest), |opts|);
      var xs := ReadObjList(reg, d.alloc, bs + rest, |tl|).value.0;
      OptionsAmongCons(d.obj.value.opt, xs);
      WireOptsCons(d.obj.value.opt, OptionsAmong(xs), opts);
    }
  }

  /** `DecodeRequestTail` once defaultID and the answered flag are read. */
  lemma DecodeTailStep(reg: Registry, a: Alloc, q: SyncRequest, s: Bytes, d: Int32, s1: Bytes, b: bool, s2: Bytes)
    requires ReadInt(s) == Some((d, s1)) && ReadBoolean(s1) == Some((b, s2))
    ensures DecodeRequestTail(reg, a, q, s) ==
      if b then ReadAnswer(reg, a, q.(defaultId := d, answer := None), s2)
      else Success((q.(defaultId := d, answer := None), s2, a))
  {
  }

  /** `ReadAnswer` on a tagged option. */
  lemma ReadAnswerStep(reg: Registry, a: Alloc, q: SyncRequest, s: Bytes)
    requires var t := ReadTaggedIn(reg, a, s);
      t.Some? && t.value.Success? && t.value.value.obj.Some? && t.value.value.obj.value.OptionObj?
    ensures var d := ReadTaggedIn(reg, a, s).value.value;
      ReadAnswer(reg, a, q, s) == Success((q.(answer := Some(d.obj.value.opt)), d.rest, d.alloc))
  {
  }

  /** The answer part of a request reads back as the wire image of the
      answer, with nothing else of the request changed. */
  lemma AnswerTailRoundTrip(reg: Registry, a: Alloc, q: SyncRequest, qd: SyncRequest, rest: Bytes)
    requires AnswerEncodable(reg, q)
    ensures AnswerTail(reg, q).Success?
    ensures var r := DecodeRequestTail(reg, a, qd, AnswerTail(reg, q).value + rest);
      r.Success? && r.value.1 == rest &&
      r.value.0.(defaultId := qd.defaultId, answer := qd.answer) == qd &&
      r.value.0.defaultId == q.defaultId &&
      (q.answer.None? ==> r.value.0.answer.None?) &&
      (q.answer.Some? ==> r.value.0.answer.Some? && WireOpt(r.value.0.answer.value) == WireOpt(q.answer.value))
  {
    if q.answer.None? {
      NoAnswerRoundTrip(reg, a, q, qd, rest);
    } else {
      AnswerRoundTrip(reg, a, q, qd, rest);
    }
  }

  lemma NoAnswerRoundTrip(reg: Registry, a: Alloc, q: SyncRequest, qd: SyncRequest, rest: Bytes)
    requires q.answer.None?
    ensures AnswerTail(reg, q) == Success(WriteInt(q.defaultId) + WriteBoolean(false))
    ensures DecodeRequestTail(reg, a, qd, AnswerTail(reg, q).value + rest) ==
      Success((qd.(defaultId := q.defaultId, answer := None), rest, a))
  {
    var wd := WriteInt(q.defaultId);
    var wb := WriteBoolean(false);
    assert AnswerTail(reg, q).value + rest == wd + (wb + rest);
    ReadIntOf(q.defaultId, wb + rest);
    ReadBooleanOf(false, rest);
    DecodeTailStep(reg, a, qd, wd + (wb + rest), q.defaultId, wb + rest, false, rest);
  }

  lemma AnswerRoundTrip(reg: Registry, a: Alloc, q: SyncRequest, qd: SyncRequest, rest: Bytes)
    requires q.answer.Some? && AnswerEncodable(reg, q)
    ensures AnswerTail(reg, q).Success?
    ensures var r := DecodeRequestTail(reg, a, qd, AnswerTail(reg, q).value + rest);
      r.Success? && r.value.1 == rest &&
      r.value.0 == qd.(defaultId := q.defaultId, answer := r.value.0.answer) &&
      r.value.0.answer.Some? && WireOpt(r.value.0.answer.value) == WireOpt(q.answer.value)
  {
    OptionTaggedRoundTrip(reg, a, q.answer.value, rest);
    AnswerTailLayout(reg, q, rest);
    var wd := WriteInt(q.defaultId);
    var wb := WriteBoolean(true);
    var ab := OptionTagged(reg, q.answer.value).value;
    ReadIntOf(q.defaultId, wb + (ab + rest));
    ReadBooleanOf(true, ab + rest);
    DecodeTailStep(reg, a, qd, wd + (wb + (ab + rest)), q.defaultId, wb + (ab + rest), true, ab + rest);
    ReadAnswerStep(reg, a, qd.(defaultId := q.defaultId, answer := None), ab + rest);
  }

  /** `DecodeRequest` once its three leading fields and the options list
      have been read. */
  lemma DecodeRequestSteps(reg: Registry, a: Alloc, q0: SyncRequest, s: Bytes,
                           k: Int32, s1: Bytes, m: string, s2: Bytes, n: Int16, s3: Bytes)
    requires ReadInt(s) == Some((k, s1)) && ReadString(s1) == Some((m, s2)) && ReadShort(s2) == Some((n, s3))
    requires ReadObjList(reg, a, s3, n).Success?
    ensures var (xs, s4, a1) := ReadObjList(reg, a, s3, n).value;
      DecodeRequest(reg, a, q0, s) ==
        DecodeRequestTail(reg, a1, q0.(syncKey := k, message := Some(m), options := OptionsAmong(xs)), s4)
  {
  }

  /** The three fields in front of a request's options list read back. */
  lemma RequestHeadRoundTrip(k: Int32, m: Option<string>, n: Int16, s3: Bytes)
    requires StrFits(m)
    ensures var s2 := WriteShort(n) + s3;
      var s1 := WriteString(m) + s2;
      ReadInt(WriteInt(k) + s1) == Some((k, s1)) &&
      ReadString(s1) == Some((WireStr(m).value, s2)) &&
      ReadShort(s2) == Some((n, s3))
  {
    var s2 := WriteShort(n) + s3;
    ReadIntOf(k, WriteString(m) + s2);
    StringRoundTrip(m, s2);
    ReadShortOf(n, s3);
  }

  lemma Assoc<T>(a: seq<T>, b: seq<T>, c: seq<T>)
    ensures a + b + c == a + (b + c)
  {
  }

  lemma Regroup<T>(a: seq<T>, b: seq<T>, c: seq<T>, d: seq<T>, e: seq<T>, rest: seq<T>)
    ensures a + b + c + d + e + rest == a + (b + (c + (d + (e + rest))))
  {
  }

  /** The layout of a request's body, grouped the way the decoder reads it. */
  lemma RequestBodyLayout(reg: Registry, q: SyncRequest, rest: Bytes)
    requires RequestBody(reg, q).Success?
    ensures RequestBody(reg, q).value + rest ==
      WriteInt(q.syncKey) + (WriteString(q.message) + (WriteShort(|q.options|) +
        (OptionsTagged(reg, q.options).value + (AnswerTail(reg, q).value + rest))))
  {
    var ob := OptionsTagged(reg, q.options).value;
    var tb := AnswerTail(reg, q).value;
    assert RequestBody(reg, q).value == WriteInt(q.syncKey) + WriteString(q.message) + WriteShort(|q.options|) + ob + tb;
    Regroup(WriteInt(q.syncKey), WriteString(q.message), WriteShort(|q.options|), ob, tb, rest);
  }

  /** A request's body read into a fresh request gives back the request's
      wire image. */
  lemma RequestRoundTrip(reg: Registry, a: Alloc, q0: SyncRequest, q: SyncRequest, rest: Bytes)
    requires RequestEncodable(reg, q)
    ensures RequestBody(reg, q).Success?
    ensures var r := DecodeRequest(reg, a, q0, RequestBody(reg, q).value + rest);
      r.Success? && r.value.1 == rest &&
      r.value.0 == q0.(syncKey := q.syncKey, message := WireStr(q.message),
                       options := r.value.0.options, defaultId := q.defaultId, answer := r.value.0.answer) &&
      WireOpts(r.value.0.options) == WireOpts(q.options) &&
      (q.answer.None? ==> r.value.0.answer.None?) &&
      (q.answer.Some? ==> r.value.0.answer.Some? && WireOpt(r.value.0.answer.value) == WireOpt(q.answer.value))
  {
    var tb := AnswerTail(reg, q).value;
    OptionListRoundTrip(reg, a, q.options, tb + rest);
    var ob := OptionsTagged(reg, q.options).value;
    var s3 := ob + (tb + rest);
    var s2 := WriteShort(|q.options|) + s3;
    var s1 := WriteString(q.message) + s2;
    var body := RequestBody(reg, q).value;
    RequestBodyLayout(reg, q, rest);
    RequestHeadRoundTrip(q.syncKey, q.message, |q.options|, s3);
    DecodeRequestSteps(reg, a, q0, body + rest, q.syncKey, s1, WireStr(q.message).value, s2, |q.options|, s3);
    var (xs, s4, a1) := ReadObjList(reg, a, s3, |q.options|).value;
    var q2 := q0.(syncKey := q.syncKey, message := WireStr(q.message), options := OptionsAmong(xs));
    AnswerTailRoundTrip(reg, a1, q, q2, rest);
  }
}

=== FILE: connector.dfy ===
/** `SocketConnector`: the length-prefixed framing of one message, the
    table of requests still waiting for an answer, the routing of an
    incoming message to the request it answers, and the diagnostic hex
    dump of a frame.

    The table is the static `_syncMap`, keyed by sync key. The socket, the
    threads, `notifyAll` and the diagnostic text are outside the model; a
    peer's state is its table, its results queues and its allocator. */
module Connector {
  import opened Wrappers
  import opened JavaTypes
  import opened Wire
  import opened Messages
  import opened Registry
  import opened Codec
  import opened CodecRoundTrip
  import opened ObjectRoundTrip
  import opened Requests

  /** `_syncMap`: requests sent and not yet answered, by sync key. */
  type Pending = map<Int32, SyncRequest>

  // ---------------------------------------------------------------------
  // Sending
  // ---------------------------------------------------------------------

  /** A payload behind its big-endian int32 length. */
  function Frame(payload: Bytes): (f: Bytes)
    ensures |f| == 4 + |payload| && f[4..] == payload
  {
    WriteInt(WrapInt32(|payload|)) + payload
  }

  /** Whether sending `o` records it in the table: only an unanswered request is. */
  predicate Tracked(o: Obj) {
    o.RequestObj? && o.req.answer.None?
  }

  /** The table after `sendObject` and either the frame it writes or the
      runtime exception that escapes it. */
  datatype SendOutcome = SendOutcome(pending: Pending, frame: Result<Bytes, EncodeFault>)

  /** `sendObject`. The table entry is made after the tag is written and
      before the body is serialised, so it stays even when the body then
      throws. */
  function SendObject(reg: Registry, pending: Pending, o: Option<Obj>): (r: SendOutcome)
    ensures r.frame.Success? <==> Tagged(reg, o).Success?
    ensures r.frame.Success? ==> r.frame.value == Frame(Tagged(reg, o).value)
    ensures (o.Some? && GetKey(reg, ClassOf(o.value)).Some? && Tracked(o.value)) ==>
              r.pending == pending[o.value.req.syncKey := o.value.req]
    ensures !(o.Some? && GetKey(reg, ClassOf(o.value)).Some? && Tracked(o.value)) ==>
              r.pending == pending
  {
    match o
    case None => SendOutcome(pending, Failure(NullObject))
    case Some(x) =>
      match GetKey(reg, ClassOf(x))
      case None => SendOutcome(pending, Failure(Unregistered(ClassOf(x))))
      case Some(tag) =>
        var p := if Tracked(x) then pending[x.req.syncKey := x.req] else pending;
        match Body(reg, x)
        case Failure(e) => SendOutcome(p, Failure(e))
        case Success(b) => SendOutcome(p, Success(Frame(WriteString(Some(tag)) + b)))
  }

  /** A request whose body throws while it is serialised (its options
      class has no tag, say) is still left in the table. */
  lemma FailedSendStillTracks(reg: Registry, pending: Pending, rc: ReqCls, q: SyncRequest)
    requires GetKey(reg, RequestCls(rc)).Some? && q.answer.None?
    requires Body(reg, RequestObj(rc, q)).Failure?
    ensures var r := SendObject(reg, pending, Some(RequestObj(rc, q)));
      r.frame.Failure? && q.syncKey in r.pending && r.pending[q.syncKey] == q
  {
  }

  // ---------------------------------------------------------------------
  // Receiving
  // ---------------------------------------------------------------------

  /** The exceptions that leave `readAndProcessMessageFromSocket`. */
  datatype RecvFault =
    | StreamEnd           // EOFException from readInt, readFully or readString
    | NegativeSize        // NegativeArraySizeException for a negative length
    | Decode(e: DecodeFault)
    | NoPendingRequest    // NullPointerException on a response nobody waits for

  /** The tag and object of one payload; only the payload's bytes are read. */
  function ReadPayload(reg: Registry, a: Alloc, msg: Bytes): (r: Result<(Option<Obj>, Alloc), RecvFault>)
    ensures |msg| < 2 ==> r == Failure(StreamEnd)
  {
    match ReadTaggedIn(reg, a, msg)
    case None => Failure(StreamEnd)
    case Some(Failure(e)) => Failure(Decode(e))
    case Some(Success(d)) => Success((d.obj, d.alloc))
  }

  /** The framing half of `readAndProcessMessageFromSocket`: an int32
      length, exactly that many bytes, then the payload decoded from those
      bytes alone. Returns the object (`None` for an unknown tag), the
      allocator afterwards and the unread stream. */
  function ReadFrame(reg: Registry, a: Alloc, s: Bytes): (r: Result<(Option<Obj>, Alloc, Bytes), RecvFault>)
    ensures |s| < 4 ==> r == Failure(StreamEnd)
    ensures r.Success? ==> |r.value.2| <= |s| - 4 && s[|s| - |r.value.2|..] == r.value.2
  {
    match ReadInt(s)
    case None => Failure(StreamEnd)
    case Some((n, s1)) =>
      if n < 0 then Failure(NegativeSize)
      else if |s1| < n then Failure(StreamEnd)
      else match ReadPayload(reg, a, s1[..n])
        case Failure(e) => Failure(e)
        case Success((x, a')) => Success((x, a', s1[n..]))
  }

  /** A frame is read back to exactly its payload: what follows it in the
      stream is neither consumed nor looked at. */
  lemma FrameIsolation(reg: Registry, a: Alloc, payload: Bytes, rest: Bytes)
    requires |payload| <= MAX_INT
    ensures ReadFrame(reg, a, Frame(payload) + rest) ==
      match ReadPayload(reg, a, payload)
      case Failure(e) => Failure(e)
      case Success((x, a')) => Success((x, a', rest))
  {
    ReadIntOf(|payload|, payload + rest);
    assert Frame(payload) + rest == WriteInt(|payload|) + (payload + rest);
    assert (payload + rest)[..|payload|] == payload;
    assert (payload + rest)[|payload|..] == rest;
  }

  /** A length the sender could not have written is rejected before any
      payload byte is read. */
  lemma NegativeLengthRejected(reg: Registry, a: Alloc, n: Int32, rest: Bytes)
    requires n < 0
    ensures ReadFrame(reg, a, WriteInt(n) + rest) == Failure(NegativeSize)
  {
    ReadIntOf(n, rest);
  }

  /** What `sendObject` writes for an encodable object, `readAndProcessMessageFromSocket`
      reads back as the same object, leaving the rest of the stream. */
  lemma SendReceiveRoundTrip(reg: Registry, pending: Pending, a: Alloc, o: Obj, rest: Bytes)
    requires SubEncodable(reg, Some(o))
    ensures SendObject(reg, pending, Some(o)).frame.Success?
    ensures var f := SendObject(reg, pending, Some(o)).frame.value;
      |f| <= 4 + MAX_INT ==>
        var r := ReadFrame(reg, a, f + rest);
        r.Success? && r.value.2 == rest && r.value.0.Some? && WireObj(r.value.0.value) == WireObj(o)
  {
    TaggedRoundTrip(reg, a, Some(o), []);
    var payload := Tagged(reg, Some(o)).value;
    assert payload + [] == payload;
    if |payload| <= MAX_INT {
      FrameIsolation(reg, a, payload, rest);
    }
  }

  /** The sync key a message carries, if it is one that can answer a request. */
  function SyncKeyOf(o: Obj): (k: Option<Int32>)
    ensures k.Some? <==> o.ResponseObj? || o.RequestObj?
  {
    match o
    case ResponseObj(r) => Some(r.syncKey)
    case RequestObj(_, q) => Some(q.syncKey)
    case _ => None
  }

  /** A peer's state: its table of pending requests, its results queues and
      its allocator of keys and option identities. */
  datatype Peer = Peer(pending: Pending, queues: Queues, alloc: Alloc)

  /** What became of a received object: dropped (an unknown tag), handed to
      `processRecievedObject`, or matched to the pending request `original`,
      given as it is after the answer was recorded. */
  datatype Delivery = Dropped | Delivered(obj: Obj) | Matched(key: Int32, original: SyncRequest)

  /** `_syncMap.remove` followed by the answer bookkeeping for a response
      or a returning request, then `processRecievedObject` for anything not
      matched. A response whose key is not in the table dereferences the
      null that `remove` returns. */
  function Dispatch(st: Peer, o: Option<Obj>): (r: Result<(Delivery, Peer), RecvFault>)
    ensures r.Failure? <==> o.Some? && o.value.ResponseObj? && o.value.resp.syncKey !in st.pending
    ensures r.Failure? ==> r.error == NoPendingRequest
    ensures r.Success? && r.value.0.Matched? ==>
              o.Some? && SyncKeyOf(o.value) == Some(r.value.0.key) && r.value.0.key in st.pending &&
              r.value.1.pending == st.pending - {r.value.0.key} && r.value.1.alloc.nextKey == st.alloc.nextKey
    ensures r.Success? && r.value.0.Delivered? ==>
              o == Some(r.value.0.obj) && r.value.1 == st && !o.value.ResponseObj? &&
              (o.value.RequestObj? ==> o.value.req.syncKey !in st.pending)
    ensures r.Success? && r.value.0.Dropped? ==> o.None? && r.value.1 == st
  {
    match o
    case None => Success((Dropped, st))
    case Some(ResponseObj(resp)) =>
      if resp.syncKey !in st.pending then Failure(NoPendingRequest)
      else
        var orig := SetAnswerId(st.pending[resp.syncKey], resp.answerId).0;
        var qs := if orig.resultsQueue.Some? then Enqueue(st.queues, orig.resultsQueue.value, orig) else st.queues;
        Success((Matched(resp.syncKey, orig), Peer(st.pending - {resp.syncKey}, qs, st.alloc)))
    case Some(RequestObj(rc, q)) =>
      if q.syncKey !in st.pending then Success((Delivered(o.value), st))
      else
        var copied := CopyAnswer(st.pending[q.syncKey], q);
        var (orig, a', qs) := SetResponse(copied, st.alloc, st.queues, RequestReply(q));
        var qs' := if orig.resultsQueue.Some? then Enqueue(qs, orig.resultsQueue.value, orig) else qs;
        Success((Matched(q.syncKey, orig), Peer(st.pending - {q.syncKey}, qs', a')))
    case Some(x) => Success((Delivered(x), st))
  }

  /** `readAndProcessMessageFromSocket`: one frame from the stream, then its dispatch. */
  function Receive(reg: Registry, st: Peer, s: Bytes): (r: Result<(Delivery, Peer, Bytes), RecvFault>)
    ensures r.Success? ==> |r.value.2| <= |s| - 4
    ensures r.Success? && !r.value.0.Matched? ==> r.value.1.pending == st.pending
  {
    match ReadFrame(reg, st.alloc, s)
    case Failure(e) => Failure(e)
    case Success((x, a, rest)) =>
      match Dispatch(st.(alloc := a), x)
      case Failure(e) => Failure(e)
      case Success((d, st')) => Success((d, st', rest))
  }

  /** A request sent unanswered and then answered by a `Response` leaves the
      table as it was before the send, and the answer is the option the
      response names when the request offers it. */
  lemma RequestResponseCycle(reg: Registry, st: Peer, rc: ReqCls, q: SyncRequest, resp: Response)
    requires GetKey(reg, RequestCls(rc)).Some? && q.answer.None?
    requires q.syncKey !in st.pending && resp.syncKey == q.syncKey
    ensures var sent := SendObject(reg, st.pending, Some(RequestObj(rc, q))).pending;
      var r := Dispatch(st.(pending := sent), Some(ResponseObj(resp)));
      r.Success? && r.value.0 == Matched(q.syncKey, SetAnswerId(q, resp.answerId).0) &&
      r.value.1.pending == st.pending
  {
    var sent := SendObject(reg, st.pending, Some(RequestObj(rc, q))).pending;
    assert sent == st.pending[q.syncKey := q];
    assert sent - {q.syncKey} == st.pending;
  }

  /** A table entry is consumed at most once: once a response has matched
      it, a second response with the same key finds nothing and throws. */
  lemma SecondResponseThrows(st: Peer, resp: Response, again: Response)
    requires resp.syncKey in st.pending && again.syncKey == resp.syncKey
    ensures var r := Dispatch(st, Some(ResponseObj(resp)));
      r.Success? && Dispatch(r.value.1, Some(ResponseObj(again))) == Failure(NoPendingRequest)
  {
  }

  /** A response puts the request it answers on the request's results
      queue once. */
  lemma ResponseQueuedOnce(st: Peer, resp: Response)
    requires resp.syncKey in st.pending && st.pending[resp.syncKey].resultsQueue.Some?
    ensures var ref := st.pending[resp.syncKey].resultsQueue.value;
      var r := Dispatch(st, Some(ResponseObj(resp)));
      r.Success? && ref in r.value.1.queues &&
      |r.value.1.queues[ref]| == (if ref in st.queues then |st.queues[ref]| else 0) + 1
  {
    var orig := SetAnswerId(st.pending[resp.syncKey], resp.answerId).0;
    assert orig.resultsQueue == st.pending[resp.syncKey].resultsQueue;
  }

  /** A returning `SyncRequest` that matches a pending one puts the original
      on its results queue twice: once from `setResponse` and once more
      from the dispatch itself. */
  lemma ReturningRequestQueuedTwice(st: Peer, rc: ReqCls, q: SyncRequest)
    requires q.syncKey in st.pending && st.pending[q.syncKey].resultsQueue.Some?
    ensures var ref := st.pending[q.syncKey].resultsQueue.value;
      var r := Dispatch(st, Some(RequestObj(rc, q)));
      r.Success? && r.value.0.Matched? && ref in r.value.1.queues &&
      |r.value.1.queues[ref]| == (if ref in st.queues then |st.queues[ref]| else 0) + 2 &&
      r.value.1.queues[ref][|r.value.1.queues[ref]| - 1] == r.value.0.original &&
      r.value.1.queues[ref][|r.value.1.queues[ref]| - 2] == r.value.0.original
  {
    var copied := CopyAnswer(st.pending[q.syncKey], q);
    assert copied.resultsQueue == st.pending[q.syncKey].resultsQueue;
  }

  /** A returning request carries its answer back to the original: the
      original ends with the returning request's answer text and id. */
  lemma ReturningRequestCarriesAnswer(st: Peer, rc: ReqCls, q: SyncRequest)
    requires q.syncKey in st.pending
    ensures var r := Dispatch(st, Some(RequestObj(rc, q)));
      r.Success? && r.value.0.Matched? &&
      AnswerText(r.value.0.original) == AnswerText(q) && AnswerId(r.value.0.original) == AnswerId(q)
  {
  }

  // ---------------------------------------------------------------------
  // The diagnostic dump
  // ---------------------------------------------------------------------

  const NUMBERS: string := "0123456789ABCDEF"

  /** The two hex digits of a byte, high nibble first. On the sign-extended
      Java byte, `(b >> 4) & 0x0F` and `b & 0x0F` are the nibbles of the
      unsigned octet. */
  function HexByte(b: Byte): (h: string)
    ensures |h| == 2
  {
    [NUMBERS[b / 16], NUMBERS[b % 16]]
  }

  /** The value of one upper-case hex digit. */
  function HexDigitValue(c: char): int {
    if '0' <= c <= '9' then c as int - '0' as int else c as int - 'A' as int + 10
  }

  lemma HexByteRoundTrip(b: Byte)
    ensures 16 * HexDigitValue(HexByte(b)[0]) + HexDigitValue(HexByte(b)[1]) == b
  {
    assert forall k :: 0 <= k < 16 ==> HexDigitValue(NUMBERS[k]) == k;
  }

  /** The ASCII column's character for a byte: its own character when the
      signed Java byte lies in 0x20..0x7F, otherwise '-'. An octet of 0x80
      or more is a negative Java byte, so it shows as '-'. */
  function AsciiOf(b: Byte): (c: char)
    ensures c == '-' || (0x20 <= WrapInt8(b) <= 0x7F && c as int == b)
  {
    if 0x20 <= b <= 0x7F then b as char else '-'
  }

  /** The ASCII text of a run of bytes. */
  function AsciiText(bs: Bytes): (t: string)
    ensures |t| == |bs| && forall k :: 0 <= k < |bs| ==> t[k] == AsciiOf(bs[k])
  {
    seq(|bs|, k requires 0 <= k < |bs| => AsciiOf(bs[k]))
  }

  /** The length the dump pads to: the next multiple of 32. */
  function Padded(n: nat): (p: nat)
    ensures p % 32 == 0 && n <= p < n + 32
  {
    n + (32 - n % 32) % 32
  }

  /** The hex cell of position `i`: two blanks past the end of the data. */
  function Cell(d: Bytes, i: nat): (c: string)
    ensures |c| == 2
  {
    if i < |d| then HexByte(d[i]) else "  "
  }

  /** Position `i`'s share of the ASCII column: a blank before each group
      of eight, then the byte's character if there is a byte. */
  function AsciiCell(d: Bytes, i: nat): string {
    (if i % 8 == 0 then " " else "") + (if i < |d| then [AsciiOf(d[i])] else "")
  }

  /** The ASCII column of positions `lo` up to `hi`. */
  function AsciiRange(d: Bytes, lo: nat, hi: nat): string
    requires lo <= hi
    decreases hi - lo
  {
    if hi == lo then "" else AsciiRange(d, lo, hi - 1) + AsciiCell(d, hi - 1)
  }

  /** What precedes position `i`'s hex cell: a blank before each group of
      four, another before each group of eight, and at the start of each
      row of 32 the finished row's ASCII column and a line break. */
  function Separator(d: Bytes, i: nat): string {
    if i % 32 == 0 then "  " + (if i == 0 then "" else AsciiRange(d, i - 32, i)) + "\n"
    else if i % 8 == 0 then "  "
    else if i % 4 == 0 then " "
    else ""
  }

  /** The hex area of positions before `n`: at least two characters per
      position. */
  function HexArea(d: Bytes, n: nat): (r: string)
    ensures |r| >= 2 * n
    decreases n
  {
    if n == 0 then "" else HexArea(d, n - 1) + Separator(d, n - 1) + Cell(d, n - 1)
  }

  /** The hex text the positions from `lo` up to `hi` contribute, each
      position's separator followed by its cell. */
  function HexRange(d: Bytes, lo: nat, hi: nat): (r: string)
    requires lo <= hi
    ensures |r| >= 2 * (hi - lo)
    decreases hi - lo
  {
    if hi == lo then "" else HexRange(d, lo, hi - 1) + Separator(d, hi - 1) + Cell(d, hi - 1)
  }

  /** The hex area grows by appending: the text of the first `m` positions
      is untouched by the positions after it, so each row of the dump is
      the text of its own 32 positions. */
  lemma {:induction false} HexAreaSplit(d: Bytes, m: nat, n: nat)
    requires m <= n
    ensures HexArea(d, n) == HexArea(d, m) + HexRange(d, m, n)
    decreases n - m
  {
    if n > m {
      HexAreaSplit(d, m, n - 1);
      Assoc(HexArea(d, m), HexRange(d, m, n - 1), Separator(d, n - 1));
      Assoc(HexArea(d, m), HexRange(d, m, n - 1) + Separator(d, n - 1), Cell(d, n - 1));
    }
  }

  /** A row of the dump opens with the previous row's ASCII column and a
      line break, then the row's first hex cell. */
  lemma RowOpens(d: Bytes, lo: nat)
    requires lo > 0 && lo % 32 == 0
    ensures HexRange(d, lo, lo + 1) == "  " + AsciiRange(d, lo - 32, lo) + "\n" + Cell(d, lo)
  {
  }

  /** The dump, position by position: the hex area padded to whole rows of
      32, each row followed by its ASCII column. */
  function DumpText(d: Bytes): (r: string)
    ensures |r| >= 2 * |d| + 2
  {
    var p := Padded(|d|);
    HexArea(d, p) + "  " + (if p == 0 then "" else AsciiRange(d, p - 32, p))
  }

  /** The ASCII buffer before position `i`: the shares of the positions
      since the last row boundary. */
  function AsciiSince(d: Bytes, i: nat): string
    decreases i
  {
    if i == 0 then "" else (if (i - 1) % 32 == 0 then "" else AsciiSince(d, i - 1)) + AsciiCell(d, i - 1)
  }

  /** The first position of the row that holds position `k`. */
  function RowStart(k: nat): (r: nat)
    ensures r <= k && r % 32 == 0 && k - r < 32
  {
    k - k % 32
  }

  lemma RowStartStep(k: nat)
    ensures k % 32 == 0 ==> RowStart(k) == k
    ensures k > 0 && k % 32 != 0 ==> RowStart(k - 1) == RowStart(k)
  {
  }

  /** The buffer holds the ASCII column of the current row so far. */
  lemma {:induction false} AsciiSinceIsRow(d: Bytes, i: nat)
    requires i > 0
    ensures AsciiSince(d, i) == AsciiRange(d, RowStart(i - 1), i)
    decreases i
  {
    var k := i - 1;
    RowStartStep(k);
    if k % 32 == 0 {
      assert AsciiRange(d, k, i) == AsciiRange(d, k, k) + AsciiCell(d, k);
    } else {
      AsciiSinceIsRow(d, k);
    }
  }

  /** A row boundary starts a group of eight, which starts a group of four. */
  lemma GroupBoundaries(i: nat)
    ensures i % 32 == 0 ==> i % 8 == 0
    ensures i % 8 == 0 ==> i % 4 == 0
  {
  }

  lemma RowGroups(lo: nat)
    requires lo % 32 == 0
    ensures lo % 8 == 0 && (lo + 8) % 8 == 0 && (lo + 16) % 8 == 0 && (lo + 24) % 8 == 0
  {
  }

  lemma LastRowStart(i: nat)
    requires i > 0 && i % 32 == 0
    ensures RowStart(i - 1) == i - 32
  {
  }

  /** The separator, written as the loop body's nested tests append it,
      with the row's ASCII column taken from the buffer. */
  lemma SeparatorAsBuilt(d: Bytes, i: nat)
    ensures Separator(d, i) ==
      if i % 4 == 0 then " " + (if i % 8 == 0 then " " + (if i % 32 == 0 then AsciiSince(d, i) + "\n" else "") else "") else ""
  {
    GroupBoundaries(i);
    if i > 0 && i % 32 == 0 {
      LastRowStart(i);
      AsciiSinceIsRow(d, i);
    }
  }

  lemma HexAreaNext(sb0: string, d: Bytes, i: nat, before: string, mid: string, sb: string)
    requires before == sb0 + HexArea(d, i)
    requires mid == before + Separator(d, i)
    requires sb == mid + Cell(d, i)
    ensures sb == sb0 + HexArea(d, i + 1)
  {
    Assoc(sb0, HexArea(d, i), Separator(d, i));
    Assoc(sb0, HexArea(d, i) + Separator(d, i), Cell(d, i));
  }

  lemma AsciiSinceNext(d: Bytes, i: nat, mid: string, ascii: string)
    requires mid == (if i % 32 == 0 then "" else AsciiSince(d, i)) + (if i % 8 == 0 then " " else "")
    requires ascii == mid + (if i < |d| then [AsciiOf(d[i])] else "")
    ensures ascii == AsciiSince(d, i + 1)
  {
    Assoc((if i % 32 == 0 then "" else AsciiSince(d, i)), (if i % 8 == 0 then " " else ""),
      (if i < |d| then [AsciiOf(d[i])] else ""));
  }

  /** A position the loop still visits lies before the padded end. */
  lemma BeforePadding(i: nat, n: nat)
    requires i <= Padded(n) && (i < n || i % 32 != 0)
    ensures i < Padded(n)
  {
  }

  /** Two row boundaries less than a row apart are the same. */
  lemma SameRowBoundary(a: nat, b: nat)
    requires a % 32 == 0 && b % 32 == 0 && a <= b < a + 32
    ensures a == b
  {
  }

  /** When the loop stops, the output and the buffer make the whole dump. */
  lemma DumpEnd(sb0: string, data: Bytes, i: nat, sb: string, ascii: string)
    requires i == Padded(|data|)
    requires sb == sb0 + HexArea(data, i)
    requires ascii == AsciiSince(data, i)
    ensures sb + "  " + ascii == sb0 + DumpText(data)
  {
    LastRow(data, i);
    FinalAppend(sb0, HexArea(data, i), sb, ascii);
  }

  /** At the padded end the buffer holds the last row's ASCII column. */
  lemma LastRow(data: Bytes, i: nat)
    requires i == Padded(|data|)
    ensures DumpText(data) == HexArea(data, i) + "  " + AsciiSince(data, i)
  {
    if i > 0 {
      LastRowStart(i);
      AsciiSinceIsRow(data, i);
    }
  }

  lemma FinalAppend(sb0: string, h: string, sb: string, ascii: string)
    requires sb == sb0 + h
    ensures sb + "  " + ascii == sb0 + (h + "  " + ascii)
  {
    Assoc(sb0, h, "  ");
    Assoc(sb0, h + "  ", ascii);
  }

  /** The first half of the loop body of `appendByteBufferDump`: the
      blanks before a group of four or eight and, at a row boundary, the
      finished row's ASCII column, which empties the buffer. */
  method AppendSeparator(data: Bytes, i: nat, sb: string, ascii: string) returns (sb': string, ascii': string)
    requires ascii == AsciiSince(data, i)
    ensures sb' == sb + Separator(data, i)
    ensures ascii' == (if i % 32 == 0 then "" else AsciiSince(data, i)) + (if i % 8 == 0 then " " else "")
  {
    GroupBoundaries(i);
    SeparatorAsBuilt(data, i);
    var sep := "";
    ascii' := ascii;
    if i % 4 == 0 {
      sep := " ";
      if i % 8 == 0 {
        var row := "";
        if i % 32 == 0 {
          row := ascii' + "\n";
          ascii' := "";
        }
        sep := sep + (" " + row);
        ascii' := ascii' + " ";
      }
    }
    sb' := sb + sep;
  }

  /** The loop body of `appendByteBufferDump` for position `i`: the
      separator, then the byte's hex digits and its ASCII character, or
      blanks past the end of the data. */
  method AppendPosition(sb0: string, data: Bytes, i: nat, sb: string, ascii: string) returns (sb': string, ascii': string)
    requires sb == sb0 + HexArea(data, i)
    requires ascii == AsciiSince(data, i)
    ensures sb' == sb0 + HexArea(data, i + 1)
    ensures ascii' == AsciiSince(data, i + 1)
  {
    var mid, asciiMid := AppendSeparator(data, i, sb, ascii);
    sb', ascii' := mid, asciiMid;
    if i < |data| {
      ascii' := ascii' + [AsciiOf(data[i])];
      sb' := sb' + HexByte(data[i]);
    } else {
      sb' := sb' + "  ";
    }
    HexAreaNext(sb0, data, i, sb, mid, sb');
    AsciiSinceNext(data, i, asciiMid, ascii');
  }

  /** `appendByteBufferDump`: one pass that keeps the current row's ASCII
      column in a second buffer and flushes it at each row boundary. */
  method AppendByteBufferDump(sb0: string, data: Bytes) returns (sb: string)
    ensures sb == sb0 + DumpText(data)
  {
    sb := sb0;
    var ascii := "";
    var i: nat := 0;
    assert sb == sb0 + HexArea(data, 0);
    while i < |data| || i % 32 != 0
      invariant i <= Padded(|data|)
      invariant sb == sb0 + HexArea(data, i)
      invariant ascii == AsciiSince(data, i)
      decreases Padded(|data|) - i
    {
      sb, ascii := AppendPosition(sb0, data, i, sb, ascii);
      BeforePadding(i, |data|);
      i := i + 1;
    }
    SameRowBoundary(i, Padded(|data|));
    DumpEnd(sb0, data, i, sb, ascii);
    sb := sb + "  " + ascii;
  }

  /** A group of eight positions inside the data shows as a blank and the
      eight bytes' characters. */
  lemma {:induction false} AsciiGroup(d: Bytes, j: nat, n: nat)
    requires j % 8 == 0 && 1 <= n <= 8 && j + n <= |d|
    ensures AsciiRange(d, j, j + n) == " " + AsciiText(d[j..j + n])
    decreases n
  {
    if n == 1 {
      assert AsciiRange(d, j, j) == "";
    } else {
      AsciiGroup(d, j, n - 1);
      assert (j + n - 1) % 8 != 0;
      assert AsciiText(d[j..j + n]) == AsciiText(d[j..j + n - 1]) + [AsciiOf(d[j + n - 1])];
    }
  }

  /** The ASCII column is additive over adjacent ranges. */
  lemma {:induction false} AsciiRangeSplit(d: Bytes, lo: nat, mid: nat, hi: nat)
    requires lo <= mid <= hi
    ensures AsciiRange(d, lo, hi) == AsciiRange(d, lo, mid) + AsciiRange(d, mid, hi)
    decreases hi - mid
  {
    if hi > mid {
      AsciiRangeSplit(d, lo, mid, hi - 1);
    }
  }

  /** One group of eight bytes in the ASCII column. */
  function Group(d: Bytes, j: nat): string
    requires j + 8 <= |d|
  {
    " " + AsciiText(d[j..j + 8])
  }

  lemma AsciiGroupOf(d: Bytes, j: nat)
    requires j % 8 == 0 && j + 8 <= |d|
    ensures AsciiRange(d, j, j + 8) == Group(d, j)
  {
    AsciiGroup(d, j, 8);
  }

  /** A full row's ASCII column is its four groups of eight. */
  lemma AsciiRow(d: Bytes, lo: nat)
    requires lo % 32 == 0 && lo + 32 <= |d|
    ensures AsciiRange(d, lo, lo + 32) == Group(d, lo) + Group(d, lo + 8) + Group(d, lo + 16) + Group(d, lo + 24)
  {
    RowGroups(lo);
    AsciiRangeSplit(d, lo, lo + 8, lo + 32);
    AsciiRangeSplit(d, lo + 8, lo + 16, lo + 32);
    AsciiRangeSplit(d, lo + 16, lo + 24, lo + 32);
    AsciiGroupOf(d, lo);
    AsciiGroupOf(d, lo + 8);
    AsciiGroupOf(d, lo + 16);
    AsciiGroupOf(d, lo + 24);
    Assoc(Group(d, lo), Group(d, lo + 8), Group(d, lo + 16) + Group(d, lo + 24));
    Assoc(Group(d, lo) + Group(d, lo + 8), Group(d, lo + 16), Group(d, lo + 24));
  }
}

=== FILE: counts.dfy ===
/** Reference-count tables: a map from a key to how many times it was registered, as kept
    by `MonitoredObject`, `MonitoringObject` and the diagnostic association table. A key
    whose count drops to zero is removed. */
module CountTables {

  /** Every entry of a count table is at least 1; zero counts are removed. */
  ghost predicate Positive<K>(counts: map<K, int>) {
    forall k :: k in counts ==> counts[k] >= 1
  }

  /** `get(k)`, with a missing key read as 0. */
  function CountOf<K>(counts: map<K, int>, k: K): (c: int)
    ensures k !in counts ==> c == 0
    ensures Positive(counts) ==> (c == 0 <==> k !in counts)
  {
    if k in counts then counts[k] else 0
  }

  /** One more registration of `k`: a new key starts at 1. */
  function Inc<K>(counts: map<K, int>, k: K): (r: map<K, int>)
    ensures r.Keys == counts.Keys + {k}
    ensures r[k] == CountOf(counts, k) + 1
    ensures forall j :: j in counts && j != k ==> r[j] == counts[j]
    ensures Positive(counts) && CountOf(counts, k) >= 0 ==> Positive(r)
  {
    counts[k := CountOf(counts, k) + 1]
  }

  /** One fewer registration of `k` (or none at all when `allInstances`); the key goes once
      its count is no longer positive. */
  function Dec<K>(counts: map<K, int>, k: K, allInstances: bool): (r: map<K, int>)
    requires k in counts
    ensures r.Keys == if allInstances || counts[k] <= 1 then counts.Keys - {k} else counts.Keys
    ensures k in r ==> r[k] == counts[k] - 1
    ensures forall j :: j in counts && j != k ==> r[j] == counts[j]
    ensures Positive(counts) ==> Positive(r)
  {
    var n := if allInstances then 0 else counts[k] - 1;
    if n <= 0 then counts - {k} else counts[k := n]
  }

  /** A registration followed by a single unregistration leaves the table as it was. */
  lemma IncDecRoundTrip<K>(counts: map<K, int>, k: K)
    requires Positive(counts)
    ensures Dec(Inc(counts, k), k, false) == counts
  {
    var r := Dec(Inc(counts, k), k, false);
    assert r.Keys == counts.Keys;
  }

  /** A table with key `k` has more than one key exactly when some other key exists. */
  lemma MoreThanOne<K>(keys: set<K>, k: K)
    requires k in keys
    ensures |keys| > 1 <==> exists j :: j in keys && j != k
  {
    if |keys| > 1 {
      var rest := keys - {k};
      assert |rest| == |keys| - 1;
      var j :| j in rest;
    }
    if j :| j in keys && j != k {
      assert {k, j} <= keys;
      assert |{k, j}| == 2;
      SubsetCard({k, j}, keys);
    }
  }

  /** After an unregistration, "others still watching" is decided by the table's size. */
  lemma OthersAfterDec<K>(counts: map<K, int>, k: K, allInstances: bool)
    requires k in counts
    ensures var r := Dec(counts, k, allInstances);
      (if k in r then |r| > 1 else |r| > 0) <==> exists j :: j in counts && j != k
  {
    var r := Dec(counts, k, allInstances);
    if k in r {
      MoreThanOne(r.Keys, k);
    } else if |r| > 0 {
      var j :| j in r.Keys;
    }
  }

  lemma SubsetCard<K>(a: set<K>, b: set<K>)
    requires a <= b
    ensures |a| <= |b|
  {
    assert b == a + (b - a);
  }

  /** A table's keys in the order an `Enumeration` happens to yield them: each key once. */
  method Enumerate<K>(counts: map<K, int>) returns (ks: seq<K>)
    ensures forall i, j :: 0 <= i < j < |ks| ==> ks[i] != ks[j]
    ensures forall k :: k in ks <==> k in counts
  {
    ks := [];
    var remaining := counts.Keys;
    while remaining != {}
      invariant remaining <= counts.Keys
      invariant forall k :: k in ks <==> k in counts && k !in remaining
      invariant forall i, j :: 0 <= i < j < |ks| ==> ks[i] != ks[j]
      decreases |remaining|
    {
      var k :| k in remaining;
      ks := ks + [k];
      remaining := remaining - {k};
    }
  }
}

=== FILE: diagnostics.dfy ===
/** Diagnostics bookkeeping: the per-thread record of operations in progress and of
    associated items, the bounded queue of messages waiting to be logged, and the
    rotation through numbered log files. Threads, the logging thread and file I/O are
    not part of the model: each operation here is the state change one call makes. */
module Diagnostics {
  import opened Wrappers
  import opened JavaTypes
  import opened CountTables

  /** Message types, each exactly four characters long. */
  const TYPE_OPERATIONS := "OPER"
  const TYPE_ERROR := "ERR "
  const TYPE_SEVERE_ERROR := "SERR"

  /** A message handed to the logger: its type and its text. */
  datatype LogEntry = LogEntry(kind: string, text: string)

  // ---------------------------------------------------------------------
  // DiagnosticAssociations
  // ---------------------------------------------------------------------

  /** What one thread is doing: a table counting how often each (item name, item value)
      pair was associated, and a stack of operations in progress. A `None` name marks an
      operation that has not been named yet. */
  datatype Associations = Associations(
    table: map<string, map<string, int>>,
    operationIDs: seq<string>,
    operationNames: seq<Option<string>>,
    unnamedPartOfNamedOperation: bool)

  /** The id list and the name list grow and shrink together. */
  predicate Paired(a: Associations) {
    |a.operationIDs| == |a.operationNames|
  }

  /** The association table keeps no empty value table and no count below 1. */
  ghost predicate Valid(a: Associations) {
    Paired(a) && ValidTable(a.table)
  }

  ghost predicate ValidTable(table: map<string, map<string, int>>) {
    forall n :: n in table ==> |table[n]| > 0 && Positive(table[n])
  }

  function NewAssociations(): (a: Associations)
    ensures Valid(a)
    ensures a.table == map[] && a.operationIDs == [] && !a.unnamedPartOfNamedOperation
  {
    Associations(map[], [], [], false)
  }

  /** How often `value` is currently associated under `name`; 0 when it is not. */
  function Count(a: Associations, name: string, value: string): (c: int)
    ensures Valid(a) ==> c >= 0
    ensures name !in a.table ==> c == 0
  {
    if name in a.table then CountOf(a.table[name], value) else 0
  }

  /** The operation stack and its flag are the same in `a` and `b`. */
  predicate SameOperations(a: Associations, b: Associations) {
    a.operationIDs == b.operationIDs && a.operationNames == b.operationNames
    && a.unnamedPartOfNamedOperation == b.unnamedPartOfNamedOperation
  }

  /** `associateItem`: a non-null pair is counted once more (starting at 1); a null name
      or value is ignored. */
  function AssociateItem(a: Associations, name: Option<string>, value: Option<string>): (r: Associations)
    ensures name.None? || value.None? ==> r == a
    ensures name.Some? && value.Some? ==> r.table.Keys == a.table.Keys + {name.value}
    ensures name.Some? && value.Some? ==>
      Count(r, name.value, value.value) == Count(a, name.value, value.value) + 1
    ensures name.Some? && value.Some? ==>
      forall n, v :: n != name.value || v != value.value ==> Count(r, n, v) == Count(a, n, v)
    ensures SameOperations(r, a)
    ensures Valid(a) ==> Valid(r)
  {
    if name.Some? && value.Some? then a.(table := AddPair(a.table, name.value, value.value)) else a
  }

  /** How often the pair (`n`, `v`) is recorded in a table; 0 when absent. */
  function PairCount(table: map<string, map<string, int>>, n: string, v: string): int {
    if n in table then CountOf(table[n], v) else 0
  }

  /** One more occurrence of the pair; every other pair keeps its count. */
  function AddPair(table: map<string, map<string, int>>, n: string, v: string): (r: map<string, map<string, int>>)
    ensures r.Keys == table.Keys + {n}
    ensures PairCount(r, n, v) == PairCount(table, n, v) + 1
    ensures forall m, w :: m != n || w != v ==> PairCount(r, m, w) == PairCount(table, m, w)
    ensures ValidTable(table) ==> ValidTable(r)
  {
    var values := if n in table then table[n] else map[];
    AddPairFacts(table, n, v, values);
    table[n := Inc(values, v)]
  }

  lemma AddPairFacts(table: map<string, map<string, int>>, n: string, v: string, values: map<string, int>)
    requires values == if n in table then table[n] else map[]
    ensures var r := table[n := Inc(values, v)];
      && r.Keys == table.Keys + {n}
      && PairCount(r, n, v) == PairCount(table, n, v) + 1
      && (forall m, w :: m != n || w != v ==> PairCount(r, m, w) == PairCount(table, m, w))
      && (ValidTable(table) ==> ValidTable(r))
  {
    var r := table[n := Inc(values, v)];
    IncKeepsOthers(values, v);
    UpdateCounts(table, n, Inc(values, v));
    UpdateValid(table, n, Inc(values, v));
    forall m, w | m != n || w != v ensures PairCount(r, m, w) == PairCount(table, m, w) {
      if m == n {
        assert CountOf(Inc(values, v), w) == CountOf(values, w);
      }
    }
  }

  /** Replacing a name's values changes the counts of that name's pairs only. */
  lemma UpdateCounts(table: map<string, map<string, int>>, n: string, values: map<string, int>)
    ensures forall m, w :: m != n ==> PairCount(table[n := values], m, w) == PairCount(table, m, w)
    ensures forall w :: PairCount(table[n := values], n, w) == CountOf(values, w)
  {
  }

  lemma UpdateValid(table: map<string, map<string, int>>, n: string, values: map<string, int>)
    ensures ValidTable(table) && |values| > 0 && Positive(values) ==> ValidTable(table[n := values])
  {
  }

  lemma IncKeepsOthers(values: map<string, int>, v: string)
    ensures forall w :: w != v ==> CountOf(Inc(values, v), w) == CountOf(values, w)
    ensures |Inc(values, v)| > 0
    ensures Positive(values) ==> Positive(Inc(values, v))
  {
    assert v in Inc(values, v);
  }

  /** One fewer occurrence of the pair, which goes once its count is at most 1; a name
      left without values goes too. Every other pair keeps its count. */
  function RemovePair(table: map<string, map<string, int>>, n: string, v: string): (r: map<string, map<string, int>>)
    ensures r.Keys <= table.Keys
    ensures PairCount(r, n, v) == if PairCount(table, n, v) <= 1 then 0 else PairCount(table, n, v) - 1
    ensures forall m, w :: m != n || w != v ==> PairCount(r, m, w) == PairCount(table, m, w)
    ensures ValidTable(table) ==> ValidTable(r)
  {
    if n in table then
      var left := Decrement(table[n], v);
      if |left| == 0 then table - {n} else table[n := left]
    else
      table
  }

  lemma PairRoundTrip(table: map<string, map<string, int>>, n: string, v: string)
    requires ValidTable(table)
    ensures RemovePair(AddPair(table, n, v), n, v) == table
  {
    var values := if n in table then table[n] else map[];
    assert AddPair(table, n, v) == table[n := Inc(values, v)];
    IncDecRoundTrip(values, v);
    RemovePairAfterAdd(table, n, v, values);
  }

  lemma RemovePairAfterAdd(table: map<string, map<string, int>>, n: string, v: string, values: map<string, int>)
    requires ValidTable(table) && values == if n in table then table[n] else map[]
    requires Decrement(Inc(values, v), v) == values
    ensures RemovePair(table[n := Inc(values, v)], n, v) == table
  {
    RemovePairPresent(table[n := Inc(values, v)], n, v);
    if n in table {
      assert |values| > 0;
      UpdateBack(table, n, Inc(values, v));
    } else {
      UpdateRemove(table, n, Inc(values, v));
    }
  }

  lemma RemovePairPresent(table: map<string, map<string, int>>, n: string, v: string)
    requires n in table
    ensures RemovePair(table, n, v) ==
      if |Decrement(table[n], v)| == 0 then table - {n} else table[n := Decrement(table[n], v)]
  {
  }

  lemma UpdateBack<K, V>(m: map<K, V>, k: K, x: V)
    requires k in m
    ensures m[k := x][k := m[k]] == m
  {
  }

  lemma UpdateRemove<K, V>(m: map<K, V>, k: K, x: V)
    requires k !in m
    ensures m[k := x] - {k} == m
  {
  }

  /** One fewer occurrence of `v`: it goes once its count is at most 1. */
  function Decrement(values: map<string, int>, v: string): (r: map<string, int>)
    ensures CountOf(r, v) == if CountOf(values, v) <= 1 then 0 else CountOf(values, v) - 1
    ensures forall w :: w != v ==> CountOf(r, w) == CountOf(values, w)
    ensures r.Keys <= values.Keys
    ensures Positive(values) ==> Positive(r)
    ensures v !in values ==> r == values
  {
    if v in values then Dec(values, v, false) else values
  }

  /** `unassociateItem`: a non-null pair is counted once less, disappearing once its
      count is at most 1, and a name whose value table empties is removed. */
  function UnassociateItem(a: Associations, name: Option<string>, value: Option<string>): (r: Associations)
    ensures name.None? || value.None? ==> r == a
    ensures name.Some? && value.Some? ==>
      Count(r, name.value, value.value)
        == if Count(a, name.value, value.value) <= 1 then 0 else Count(a, name.value, value.value) - 1
    ensures name.Some? && value.Some? ==>
      forall n, v :: n != name.value || v != value.value ==> Count(r, n, v) == Count(a, n, v)
    ensures r.table.Keys <= a.table.Keys
    ensures SameOperations(r, a)
    ensures Valid(a) ==> Valid(r)
    ensures Valid(a) && name.Some? && value.Some? && Count(a, name.value, value.value) == 0 ==> r == a
  {
    if name.Some? && value.Some? then a.(table := RemovePair(a.table, name.value, value.value)) else a
  }

  /** Associating a pair and then unassociating it leaves the record as it was. */
  lemma AssociateRoundTrip(a: Associations, name: Option<string>, value: Option<string>)
    requires Valid(a)
    ensures UnassociateItem(AssociateItem(a, name, value), name, value) == a
  {
    if name.Some? && value.Some? {
      PairRoundTrip(a.table, name.value, value.value);
    }
  }

  /** The last operation in progress has no name yet. */
  predicate UnnamedInProgress(a: Associations) {
    |a.operationNames| > 0 && a.operationNames[|a.operationNames| - 1].None?
  }

  /** `beginOperation`: pushes the id and the name. An unnamed operation on top of the
      stack is thereby identified: its null name becomes `name` too, so `name` appears
      twice. */
  function BeginOperation(a: Associations, id: string, name: Option<string>, printDiagnostic: bool)
    : (r: (Associations, seq<LogEntry>))
    ensures r.0.operationIDs == a.operationIDs + [id]
    ensures UnnamedInProgress(a) ==>
      r.0.operationNames == a.operationNames[..|a.operationNames| - 1] + [name, name]
    ensures !UnnamedInProgress(a) ==> r.0.operationNames == a.operationNames + [name]
    ensures r.0.table == a.table && r.0.unnamedPartOfNamedOperation == a.unnamedPartOfNamedOperation
    ensures Paired(a) ==> Paired(r.0)
    ensures |r.1| == if printDiagnostic then 1 else 0
    ensures printDiagnostic ==> r.1[0].kind == TYPE_OPERATIONS
  {
    var names :=
      if UnnamedInProgress(a) then a.operationNames[..|a.operationNames| - 1] + [name]
      else a.operationNames;
    var verb := if UnnamedInProgress(a) then " identified." else " started.";
    var log := if printDiagnostic then [LogEntry(TYPE_OPERATIONS, "Operation " + NullText(name) + verb)] else [];
    (a.(operationIDs := a.operationIDs + [id], operationNames := names + [name]), log)
  }

  /** The message logged when `name` ends while `last` was the innermost operation. */
  function MismatchMessage(name: string, last: Option<string>): string {
    "terminateOperation(" + name + ") called, but " + NullText(last)
      + " was the last operation in progress."
  }

  /** `terminateOperation`: pops the innermost id and name. A non-null `name` that is not
      that operation's name is logged as an error but the pop happens anyway; with
      nothing in progress only an error is logged. */
  function TerminateOperation(a: Associations, name: Option<string>): (r: (Associations, seq<LogEntry>))
    requires Paired(a)
    ensures Paired(r.0)
    ensures r.0.table == a.table && r.0.unnamedPartOfNamedOperation == a.unnamedPartOfNamedOperation
    ensures |a.operationIDs| == 0 ==> r.0 == a
    ensures |a.operationIDs| == 0 ==>
      r.1 == [LogEntry(TYPE_ERROR, "Operation " + NullText(name) + " ended, but no operation was in progress.")]
    ensures |a.operationIDs| > 0 ==>
      a.operationIDs == r.0.operationIDs + [a.operationIDs[|a.operationIDs| - 1]]
    ensures |a.operationIDs| > 0 ==>
      a.operationNames == r.0.operationNames + [a.operationNames[|a.operationNames| - 1]]
    ensures |a.operationIDs| > 0 ==>
      (r.1 != [] <==> name.Some? && name != a.operationNames[|a.operationNames| - 1])
    ensures forall i :: 0 <= i < |r.1| ==> r.1[i].kind == TYPE_ERROR
  {
    var count := |a.operationNames|;
    if count == 0 then
      (a, [LogEntry(TYPE_ERROR, "Operation " + NullText(name) + " ended, but no operation was in progress.")])
    else
      var last := a.operationNames[count - 1];
      var log := if name.Some? && name != last then [LogEntry(TYPE_ERROR, MismatchMessage(name.value, last))] else [];
      (a.(operationIDs := a.operationIDs[..count - 1], operationNames := a.operationNames[..count - 1]), log)
  }

  /** Beginning and then ending a named operation (or one begun with nothing unnamed in
      progress) restores the record and logs nothing. */
  lemma BeginTerminateRoundTrip(a: Associations, id: string, name: Option<string>, printDiagnostic: bool)
    requires Paired(a) && !UnnamedInProgress(a)
    ensures TerminateOperation(BeginOperation(a, id, name, printDiagnostic).0, name) == (a, [])
  {
    var b := BeginOperation(a, id, name, printDiagnostic).0;
    assert b.operationIDs[..|b.operationIDs| - 1] == a.operationIDs;
    assert b.operationNames[..|b.operationNames| - 1] == a.operationNames;
  }

  /** Naming an unnamed operation and ending the named part leaves the unnamed
      operation on the stack, now carrying the name. */
  lemma BeginTerminateIdentifies(a: Associations, id: string, name: Option<string>, printDiagnostic: bool)
    requires Paired(a) && UnnamedInProgress(a)
    ensures var n := |a.operationNames|;
      TerminateOperation(BeginOperation(a, id, name, printDiagnostic).0, name)
        == (a.(operationNames := a.operationNames[..n - 1] + [name]), [])
  {
    var n := |a.operationNames|;
    var b := BeginOperation(a, id, name, printDiagnostic).0;
    assert b.operationIDs[..|b.operationIDs| - 1] == a.operationIDs;
    assert b.operationNames[..|b.operationNames| - 1] == a.operationNames[..n - 1] + [name];
  }

  /** A mismatched name is reported, but the innermost operation still ends. */
  lemma TerminateMismatchStillPops(a: Associations, id: string, name: string, other: string)
    requires Paired(a) && !UnnamedInProgress(a) && name != other
    ensures var r := TerminateOperation(BeginOperation(a, id, Some(name), false).0, Some(other));
      r.0 == a && r.1 == [LogEntry(TYPE_ERROR, MismatchMessage(other, Some(name)))]
  {
    var b := BeginOperation(a, id, Some(name), false).0;
    assert b.operationIDs[..|b.operationIDs| - 1] == a.operationIDs;
    assert b.operationNames[..|b.operationNames| - 1] == a.operationNames;
  }

  /** `beginOperation` for each id/name pair in turn, without diagnostics. */
  function BeginAll(a: Associations, ids: seq<string>, names: seq<Option<string>>): (r: Associations)
    requires |ids| == |names|
    ensures r.operationIDs == a.operationIDs + ids
    ensures r.table == a.table && r.unnamedPartOfNamedOperation == a.unnamedPartOfNamedOperation
    ensures !UnnamedInProgress(a) && (forall i :: 0 <= i < |names| ==> names[i].Some?) ==>
      r.operationNames == a.operationNames + names
    decreases |ids|
  {
    if |ids| == 0 then a
    else
      var b := BeginOperation(a, ids[0], names[0], false).0;
      assert names == [names[0]] + names[1..];
      BeginAll(b, ids[1..], names[1..])
  }

  /** `appendOperations`: the target begins each of the source's operations in order.
      The source's `unnamedPartOfNamedOperation` flag is meant to be set when the source
      was an unnamed operation, but the test compares the source's last name with itself
      and so never fires. */
  function AppendOperations(target: Associations, source: Associations): (r: (Associations, Associations))
    requires Paired(source)
    ensures r.0.operationIDs == target.operationIDs + source.operationIDs
    ensures r.0.table == target.table
    ensures !UnnamedInProgress(target) && (forall i :: 0 <= i < |source.operationNames| ==> source.operationNames[i].Some?) ==>
      r.0.operationNames == target.operationNames + source.operationNames
    ensures r.1 == source
  {
    var count := |source.operationIDs|;
    if count > 0 then
      var lastName := source.operationNames[|source.operationNames| - 1];
      var opName := source.operationNames[count - 1];
      var t := BeginAll(target, source.operationIDs, source.operationNames);
      (t, if opName.None? && lastName.Some? then source.(unnamedPartOfNamedOperation := true) else source)
    else
      (target, source)
  }

  /** One element of the operations string. */
  function Entry(id: string, name: Option<string>): string {
    id + ":" + NullText(name)
  }

  /** The entries for `ids` and `names`, separated by ", ". */
  function Entries(ids: seq<string>, names: seq<Option<string>>): string
    requires |ids| == |names|
    decreases |ids|
  {
    if |ids| == 0 then ""
    else if |ids| == 1 then Entry(ids[0], names[0])
    else Entry(ids[0], names[0]) + ", " + Entries(ids[1..], names[1..])
  }

  lemma {:induction false} EntriesSnoc(ids: seq<string>, names: seq<Option<string>>, id: string, name: Option<string>)
    requires |ids| == |names|
    ensures Entries(ids + [id], names + [name])
      == Entries(ids, names) + (if |ids| == 0 then "" else ", ") + Entry(id, name)
    decreases |ids|
  {
    if |ids| == 1 {
      assert (ids + [id])[1..] == [id];
      assert (names + [name])[1..] == [name];
    } else if |ids| > 1 {
      EntriesSnoc(ids[1..], names[1..], id, name);
      assert (ids + [id])[1..] == ids[1..] + [id];
      assert (names + [name])[1..] == names[1..] + [name];
    }
  }

  /** "[id:name, id:name, …]" in stack order, outermost first. */
  function OperationsText(a: Associations): (s: string)
    requires Paired(a)
    ensures |s| >= 2 && s[0] == '[' && s[|s| - 1] == ']'
    ensures s == "[]" <==> |a.operationIDs| == 0
  {
    "[" + Entries(a.operationIDs, a.operationNames) + "]"
  }

  /** The entries of the first `i + 1` operations extend those of the first `i`. */
  lemma EntriesPrefixStep(ids: seq<string>, names: seq<Option<string>>, i: nat)
    requires |ids| == |names| && i < |ids|
    ensures Entries(ids[..i + 1], names[..i + 1])
      == Entries(ids[..i], names[..i]) + (if i == 0 then "" else ", ") + Entry(ids[i], names[i])
  {
    EntriesSnoc(ids[..i], names[..i], ids[i], names[i]);
    assert ids[..i + 1] == ids[..i] + [ids[i]];
    assert names[..i + 1] == names[..i] + [names[i]];
  }

  /** `getOperationsString`. */
  method GetOperationsString(a: Associations) returns (s: string)
    requires Paired(a)
    ensures s == OperationsText(a)
  {
    var ids, names := a.operationIDs, a.operationNames;
    var body := "";
    var i := 0;
    while i < |ids|
      invariant 0 <= i <= |ids|
      invariant body == Entries(ids[..i], names[..i])
    {
      EntriesPrefixStep(ids, names, i);
      if i > 0 {
        body := body + ", ";
      }
      body := body + ids[i] + ":" + NullText(names[i]);
      i := i + 1;
    }
    assert ids[..i] == ids && names[..i] == names;
    s := "[" + body + "]";
  }

  /** Beginning an operation appends its entry to the operations string. */
  lemma OperationsTextBegin(a: Associations, id: string, name: Option<string>, printDiagnostic: bool)
    requires Paired(a) && !UnnamedInProgress(a)
    ensures var before := OperationsText(a);
      OperationsText(BeginOperation(a, id, name, printDiagnostic).0)
        == before[..|before| - 1] + (if |a.operationIDs| == 0 then "" else ", ") + Entry(id, name) + "]"
  {
    EntriesSnoc(a.operationIDs, a.operationNames, id, name);
    var before := OperationsText(a);
    assert before[..|before| - 1] == "[" + Entries(a.operationIDs, a.operationNames);
  }

  // ---------------------------------------------------------------------
  // MessageQueue
  // ---------------------------------------------------------------------

  /** A diagnostic message; the exception it may carry is not modelled. */
  datatype DiagMsg = DiagMsg(kind: string, message: string, timeStamp: string, threadName: string,
                             associations: string)

  /** Messages waiting for the logging thread. Once stopped, the queue accepts nothing. */
  datatype MessageQueue = MessageQueue(messages: seq<DiagMsg>, stop: bool, maxSize: int)

  /** No more than `maxSize + 1` ordinary messages are ever accepted, plus the severe
      error that closes the queue. */
  predicate Bounded(q: MessageQueue) {
    q.maxSize > 0 ==> |q.messages| <= q.maxSize + (if q.stop then 2 else 1)
  }

  function NewMessageQueue(maxSize: int): (q: MessageQueue)
    ensures q.messages == [] && !q.stop && q.maxSize == maxSize
    ensures Bounded(q)
  {
    MessageQueue([], false, maxSize)
  }

  function CloseQueue(q: MessageQueue): (r: MessageQueue)
    ensures r.stop && r.messages == q.messages && r.maxSize == q.maxSize
    ensures Bounded(q) ==> Bounded(r)
  {
    q.(stop := true)
  }

  /** The queue holds more than its limit (a limit of 0 or less means none). */
  predicate Overflowing(q: MessageQueue) {
    q.maxSize > 0 && |q.messages| > q.maxSize
  }

  function ThresholdMessage(maxSize: int): string {
    "Message queue threshold of " + IntToString(maxSize)
      + " exceeded! Diagnostic logging has been turned off."
      + " Try typing \"resynch properties,diag\" on the command line to restart it."
      + " If that doesn't help, then the server should be re-started to restore logging."
  }

  /** The oldest message, re-typed as a severe error that says what it was. */
  function FirstMessageNote(maxSize: int, m: DiagMsg): DiagMsg {
    m.(kind := TYPE_SEVERE_ERROR,
       message := "first Message in queue when threshold of " + IntToString(maxSize)
                  + " exceeded ; " + m.kind + " : " + m.message)
  }

  /** `addMessage`: false once the queue is stopped. Past the limit the queue closes, the
      new message is replaced by a severe error about the threshold, and the oldest
      message is re-typed; the severe error is still appended. */
  function AddMessage(q: MessageQueue, msg: DiagMsg): (r: (MessageQueue, bool))
    ensures r.1 <==> !q.stop
    ensures q.stop ==> r.0 == q
    ensures !q.stop && !Overflowing(q) ==> r.0 == q.(messages := q.messages + [msg])
    ensures !q.stop && Overflowing(q) ==>
      r.0.stop && |r.0.messages| == |q.messages| + 1 && r.0.messages[1..|q.messages|] == q.messages[1..]
    ensures !q.stop && Overflowing(q) ==> r.0.messages[0] == FirstMessageNote(q.maxSize, q.messages[0])
    ensures !q.stop && Overflowing(q) ==>
      r.0.messages[|q.messages|] == msg.(kind := TYPE_SEVERE_ERROR, message := ThresholdMessage(q.maxSize))
    ensures r.0.maxSize == q.maxSize
    ensures Bounded(q) ==> Bounded(r.0)
  {
    if q.stop then (q, false)
    else if Overflowing(q) then
      var closed := CloseQueue(q);
      var first := FirstMessageNote(q.maxSize, q.messages[0]);
      var severe := msg.(kind := TYPE_SEVERE_ERROR, message := ThresholdMessage(q.maxSize));
      (closed.(messages := [first] + q.messages[1..] + [severe]), true)
    else
      (q.(messages := q.messages + [msg]), true)
  }

  /** `getMessage`: the oldest message, or `None` from a stopped, empty queue. An open,
      empty queue makes the caller wait, so it is excluded here. */
  function GetMessage(q: MessageQueue): (r: (MessageQueue, Option<DiagMsg>))
    requires |q.messages| > 0 || q.stop
    ensures |q.messages| == 0 ==> r == (q, None)
    ensures |q.messages| > 0 ==> r.1 == Some(q.messages[0]) && q.messages == [r.1.value] + r.0.messages
    ensures r.0.stop == q.stop && r.0.maxSize == q.maxSize
    ensures Bounded(q) ==> Bounded(r.0)
  {
    if |q.messages| > 0 then (q.(messages := q.messages[1..]), Some(q.messages[0]))
    else (q, None)
  }

  /** Everything `getMessage` hands out, one call after another, until the queue is empty. */
  ghost function Drain(q: MessageQueue): seq<DiagMsg>
    decreases |q.messages|
  {
    if |q.messages| == 0 then []
    else
      var next := GetMessage(q);
      [next.1.value] + Drain(next.0)
  }

  /** The queue is first-in-first-out: draining it yields its messages in order. */
  lemma {:induction false} DrainInOrder(q: MessageQueue)
    ensures Drain(q) == q.messages
    decreases |q.messages|
  {
    if |q.messages| > 0 {
      DrainInOrder(GetMessage(q).0);
    }
  }

  /** A message accepted below the limit comes out after everything already queued. */
  lemma AddThenDrain(q: MessageQueue, msg: DiagMsg)
    requires !q.stop && !Overflowing(q)
    ensures Drain(AddMessage(q, msg).0) == Drain(q) + [msg]
  {
    DrainInOrder(q);
    DrainInOrder(AddMessage(q, msg).0);
  }

  // ---------------------------------------------------------------------
  // Log files
  // ---------------------------------------------------------------------

  /** `DecimalFormat("0000")`: at least four digits, with a minus sign when negative. */
  function FormatIndex(n: int): (s: string)
    ensures n >= 0 ==> |s| >= 4 && AllDigits(s) && DecimalValue(s) == n
    ensures n < 0 ==> |s| >= 5 && s[0] == '-' && AllDigits(s[1..]) && DecimalValue(s[1..]) == -n
    ensures -10000 < n < 10000 ==> |s| == if n < 0 then 5 else 4
  {
    PaddedDigits(Abs(n));
    var padded := ZeroPad(NatToDecimal(Abs(n)), 4);
    if n < 0 then "-" + padded else padded
  }

  /** The four-digit zero-padded decimal text of `m` denotes `m`. */
  lemma PaddedDigits(m: nat)
    ensures var s := ZeroPad(NatToDecimal(m), 4);
      |s| >= 4 && AllDigits(s) && DecimalValue(s) == m && (m < 10000 ==> |s| == 4)
  {
    var digits := NatToDecimal(m);
    DecimalRoundTrip(m);
    LeadingZeros(if |digits| >= 4 then 0 else 4 - |digits|, digits);
    if m < 10000 {
      assert Pow10(4) == 10000;
      DecimalWidth(m, 4);
    }
  }

  /** `getLogFile`: the base name, the formatted index and ".log". */
  function GetLogFile(base: string, index: int): (r: string)
    ensures |r| >= |base| + 8 && r[..|base|] == base && r[|r| - 4..] == ".log"
    ensures 0 <= index < 10000 ==> |r| == |base| + 8
  {
    var digits := FormatIndex(index);
    var r := base + digits + ".log";
    assert r[..|base|] == base;
    assert r[|r| - 4..] == ".log";
    r
  }

  /** Reads the index back out of a log-file name built on `base`. */
  function ParseLogFile(base: string, name: string): Option<int> {
    if |name| >= |base| + 5 && name[..|base|] == base && name[|name| - 4..] == ".log"
       && AllDigits(name[|base|..|name| - 4])
    then Some(DecimalValue(name[|base|..|name| - 4]) as int)
    else None
  }

  /** Each non-negative index names its own file, and the index can be read back. */
  lemma LogFileRoundTrip(base: string, index: int)
    requires index >= 0
    ensures ParseLogFile(base, GetLogFile(base, index)) == Some(index)
  {
    var name := GetLogFile(base, index);
    assert name[|base|..|name| - 4] == FormatIndex(index);
  }

  lemma LogFilesDistinct(base: string, i: int, j: int)
    requires 0 <= i && 0 <= j && i != j
    ensures GetLogFile(base, i) != GetLogFile(base, j)
  {
    LogFileRoundTrip(base, i);
    LogFileRoundTrip(base, j);
  }

  /** `advanceFileNumber`: `(n % maxLogFiles) + 1` with Java's remainder; `None` stands for
      the `ArithmeticException` of a zero `maxLogFiles`. */
  function AdvanceFileNumber(n: int, maxLogFiles: int): (r: Option<int>)
    ensures r.None? <==> maxLogFiles == 0
    ensures maxLogFiles > 0 && n >= 0 ==> r.Some? && 1 <= r.value <= maxLogFiles
    ensures maxLogFiles > 0 && 0 <= n < maxLogFiles ==> r == Some(n + 1)
    ensures maxLogFiles > 0 && n == maxLogFiles ==> r == Some(1)
  {
    if maxLogFiles == 0 then None
    else
      RemainderOfFileNumber(n, maxLogFiles);
      Some(JavaRem(n, maxLogFiles) + 1)
  }

  lemma RemainderOfFileNumber(n: int, m: int)
    requires m != 0
    ensures m > 0 && 0 <= n < m ==> JavaRem(n, m) == n
    ensures m > 0 && n == m ==> JavaRem(n, m) == 0
  {
    if m > 0 && 0 <= n < m {
      DivModUnique(n, m, 0, n);
    } else if m > 0 && n == m {
      DivModUnique(n, m, 1, 0);
    }
  }

  /** The file number after `k` advances. */
  ghost function AdvanceTimes(n: int, maxLogFiles: int, k: nat): int
    requires maxLogFiles > 0 && n >= 0
    decreases k
  {
    if k == 0 then n else AdvanceTimes(AdvanceFileNumber(n, maxLogFiles).value, maxLogFiles, k - 1)
  }

  /** Starting from a file in 1..maxLogFiles, the files are used in a cycle: after `k`
      advances the file number is the start moved on by `k`, wrapping past the last. */
  lemma {:induction false} FileNumberCycle(n: int, maxLogFiles: int, k: nat)
    requires 1 <= n <= maxLogFiles
    ensures AdvanceTimes(n, maxLogFiles, k) == (n - 1 + k) % maxLogFiles + 1
    decreases k
  {
    if k > 0 {
      var next := AdvanceFileNumber(n, maxLogFiles).value;
      FileNumberCycle(next, maxLogFiles, k - 1);
      if n == maxLogFiles {
        ModShift(k - 1, maxLogFiles);
      }
    }
  }

  /** After `maxLogFiles` advances the same file is in use again. */
  lemma FileNumberPeriod(n: int, maxLogFiles: int)
    requires 1 <= n <= maxLogFiles
    ensures AdvanceTimes(n, maxLogFiles, maxLogFiles) == n
  {
    FileNumberCycle(n, maxLogFiles, maxLogFiles);
    DivModUnique(n - 1 + maxLogFiles, maxLogFiles, 1, n - 1);
  }
}

=== FILE: javatypes.dfy ===
/** Java's fixed-width integers, bytes and decimal rendering, written out
    explicitly because Dafny integers are unbounded. */
module JavaTypes {

  /** An unsigned octet as it appears on the wire. */
  type Byte = b: int | 0 <= b < 0x100

  const MIN_SHORT: int := -0x8000
  const MAX_SHORT: int := 0x7FFF
  const MIN_INT: int := -0x8000_0000
  const MAX_INT: int := 0x7FFF_FFFF

  type Int8 = x: int | -0x80 <= x < 0x80
  type Int16 = x: int | -0x8000 <= x < 0x8000
  type Int32 = x: int | -0x8000_0000 <= x < 0x8000_0000
  type Int64 = x: int | -0x8000_0000_0000_0000 <= x < 0x8000_0000_0000_0000

  /** Java's `(int)` narrowing of an arbitrary integer. */
  function WrapInt32(x: int): (r: Int32)
    ensures (x - r) % 0x1_0000_0000 == 0
    ensures MIN_INT <= x <= MAX_INT ==> r == x
  {
    var m := x % 0x1_0000_0000;
    if m >= 0x8000_0000 then m - 0x1_0000_0000 else m
  }

  /** Java's `(short)` narrowing, which is what `writeShort(int)` puts on the wire. */
  function WrapInt16(x: int): (r: Int16)
    ensures (x - r) % 0x1_0000 == 0
    ensures MIN_SHORT <= x <= MAX_SHORT ==> r == x
  {
    var m := x % 0x1_0000;
    if m >= 0x8000 then m - 0x1_0000 else m
  }

  /** Java's `(byte)` narrowing. */
  function WrapInt8(x: int): (r: Int8)
    ensures (x - r) % 0x100 == 0
    ensures -0x80 <= x < 0x80 ==> r == x
  {
    var m := x % 0x100;
    if m >= 0x80 then m - 0x100 else m
  }

  /** The octet that carries the low eight bits of `x`. */
  function LowByte(x: int): (b: Byte)
    ensures (x - b) % 0x100 == 0
  {
    x % 0x100
  }

  /** A Java string whose every character is encodable in ISO-8859-1. */
  predicate IsLatin1(s: string) {
    forall i :: 0 <= i < |s| ==> s[i] as int < 0x100
  }

  // ---------------------------------------------------------------------
  // Decimal rendering of integers (`"" + n`, `Integer.toString`)
  // ---------------------------------------------------------------------

  predicate IsDigit(c: char) {
    '0' <= c <= '9'
  }

  predicate AllDigits(s: string) {
    forall i :: 0 <= i < |s| ==> IsDigit(s[i])
  }

  function DigitChar(d: int): (c: char)
    requires 0 <= d < 10
    ensures IsDigit(c) && c as int - '0' as int == d
  {
    ('0' as int + d) as char
  }

  /** Decimal digits of `n` with no leading zero. */
  function NatToDecimal(n: nat): (s: string)
    ensures 1 <= |s| && AllDigits(s)
    ensures n > 0 ==> s[0] != '0'
    decreases n
  {
    if n < 10 then [DigitChar(n)] else NatToDecimal(n / 10) + [DigitChar(n % 10)]
  }

  /** The value a string of decimal digits denotes; the inverse of `NatToDecimal`. */
  function DecimalValue(s: string): nat
    requires AllDigits(s)
  {
    if |s| == 0 then 0 else 10 * DecimalValue(s[..|s| - 1]) + (s[|s| - 1] as int - '0' as int)
  }

  lemma {:induction false} DecimalRoundTrip(n: nat)
    ensures DecimalValue(NatToDecimal(n)) == n
    decreases n
  {
    if n >= 10 {
      DecimalRoundTrip(n / 10);
      var s := NatToDecimal(n);
      assert s[..|s| - 1] == NatToDecimal(n / 10);
    }
  }

  /** Java's decimal rendering of an int: a minus sign for negative values. */
  function IntToString(n: int): (s: string)
    ensures 1 <= |s|
    ensures n >= 0 <==> IsDigit(s[0])
  {
    if n < 0 then "-" + NatToDecimal(-n) else NatToDecimal(n)
  }

  /** An optional minus sign followed by decimal digits. */
  predicate IsDecimalText(s: string) {
    |s| >= 1 && (AllDigits(s) || (s[0] == '-' && AllDigits(s[1..])))
  }

  /** Reads back what `IntToString` rendered. */
  function ParseInt(s: string): int
    requires IsDecimalText(s)
  {
    if s[0] == '-' then -(DecimalValue(s[1..]) as int) else DecimalValue(s)
  }

  lemma IntToStringRoundTrip(n: int)
    ensures IsDecimalText(IntToString(n)) && ParseInt(IntToString(n)) == n
  {
    if n < 0 {
      DecimalRoundTrip(-n);
      assert IntToString(n)[1..] == NatToDecimal(-n);
    } else {
      DecimalRoundTrip(n);
    }
  }

  /** Left-pads `s` with '0' up to `width` characters. */
  function ZeroPad(s: string, width: nat): (r: string)
    ensures |r| == if |s| >= width then |s| else width
    ensures r[|r| - |s|..] == s
    ensures forall i :: 0 <= i < |r| - |s| ==> r[i] == '0'
  {
    var pad := if |s| >= width then 0 else width - |s|;
    seq(pad, _ => '0') + s
  }

  function Pow10(k: nat): (r: nat)
    ensures r >= 1
  {
    if k == 0 then 1 else 10 * Pow10(k - 1)
  }

  /** A number below 10^k has at most k digits. */
  lemma {:induction false} DecimalWidth(n: nat, k: nat)
    requires 1 <= k && n < Pow10(k)
    ensures |NatToDecimal(n)| <= k
    decreases k
  {
    if n >= 10 && k > 1 {
      assert n / 10 < Pow10(k - 1);
      DecimalWidth(n / 10, k - 1);
    }
  }

  /** Leading zeros do not change the value of a digit string. */
  lemma {:induction false} LeadingZeros(z: nat, s: string)
    requires AllDigits(s)
    ensures AllDigits(seq(z, _ => '0') + s)
    ensures DecimalValue(seq(z, _ => '0') + s) == DecimalValue(s)
    decreases |s|
  {
    var t := seq(z, _ => '0') + s;
    if |s| == 0 {
      AllZeros(z);
      assert t == seq(z, _ => '0');
    } else {
      LeadingZeros(z, s[..|s| - 1]);
      assert t[..|t| - 1] == seq(z, _ => '0') + s[..|s| - 1];
    }
  }

  lemma {:induction false} AllZeros(z: nat)
    ensures DecimalValue(seq(z, _ => '0')) == 0
  {
    if z > 0 {
      AllZeros(z - 1);
      assert seq(z, _ => '0')[..z - 1] == seq(z - 1, _ => '0');
    }
  }

  /** Java's `%`: the remainder takes the sign of the dividend (Dafny's `%` never is
      negative). */
  function JavaRem(a: int, b: int): (r: int)
    requires b != 0
    ensures a >= 0 ==> 0 <= r < Abs(b)
    ensures a < 0 ==> 0 <= -r < Abs(b)
    ensures a >= 0 && b > 0 ==> r == a % b
  {
    if a >= 0 then a % Abs(b) else -((-a) % Abs(b))
  }

  lemma MulAtLeast(d: int, m: int)
    requires d >= 1 && m > 0
    ensures d * m >= m
  {
    assert d * m == (d - 1) * m + m;
  }

  /** Quotient and remainder are the only ones with `x == q * m + r` and `0 <= r < m`. */
  lemma DivModUnique(x: int, m: int, q: int, r: int)
    requires m > 0 && 0 <= r < m && x == q * m + r
    ensures x % m == r && x / m == q
  {
    var q', r' := x / m, x % m;
    assert x == q' * m + r';
    assert (q - q') * m == r' - r;
    if q != q' {
      MulAtLeast(if q > q' then q - q' else q' - q, m);
      assert false;
    }
  }

  lemma ModShift(x: int, m: int)
    requires m > 0
    ensures (x + m) % m == x % m
  {
    DivModUnique(x + m, m, x / m + 1, x % m);
  }

  function Abs(x: int): (r: int)
    ensures r >= 0 && (r == x || r == -x)
  {
    if x < 0 then -x else x
  }

  // ---------------------------------------------------------------------
  // String searches
  // ---------------------------------------------------------------------

  /** `String.indexOf(char)`: the first position of `c`, or -1. */
  function IndexOfChar(s: string, c: char): (i: int)
    ensures -1 <= i < |s|
    ensures i == -1 <==> forall j :: 0 <= j < |s| ==> s[j] != c
    ensures 0 <= i ==> s[i] == c && forall j :: 0 <= j < i ==> s[j] != c
  {
    if |s| == 0 then -1
    else if s[0] == c then 0
    else
      var i := IndexOfChar(s[1..], c);
      if i == -1 then -1 else i + 1
  }
}

=== FILE: listcodec.dfy ===
/** `SerializableObject.writeObject` and the general list writer
    `writeToStream(List)`, paired with the readers that invert them: the four
    `readIntoList*` readers of boxed values and `readIntoListSerializableObject`.

    As for the object codec, a write that throws is a `Failure`; the octets
    written before the exception are discarded by every caller. */
module ListCodec {
  import opened Wrappers
  import opened JavaTypes
  import opened Wire
  import opened Messages
  import opened Registry
  import opened Codec
  import opened CodecRoundTrip

  /** A list element, or the argument of `writeObject`, as the `instanceof`
      tests see it: a non-null String, Integer, Byte or Boolean, a protocol
      object, an object of any other class, or null. */
  datatype Element =
    | StringElem(s: string)
    | IntegerElem(i: Int32)
    | ByteElem(b: Int8)
    | BooleanElem(v: bool)
    | SerialElem(o: Obj)
    | OtherElem(className: string)
    | NullElem

  /** Why a write threw: a fault of the object codec (a null dereference, a
      class without a tag), or the `IllegalArgumentException` that
      `writeObject` raises, after its DebugBreak, for a class it cannot write. */
  datatype WriteFault = Encode(fault: EncodeFault) | NotSerializable(className: string)

  /** `writeObject`: the boxed types are written as their primitives, a
      protocol object as its body alone (no tag). Another class throws
      `IllegalArgumentException`; null throws `NullPointerException` when the
      message asks for its class name. */
  function WriteObject(reg: Registry, e: Element): (r: Result<Bytes, WriteFault>)
    ensures r.Failure? <==> e.OtherElem? || e.NullElem? || (e.SerialElem? && Body(reg, e.o).Failure?)
    ensures e.OtherElem? ==> r == Failure(NotSerializable(e.className))
    ensures e.NullElem? ==> r == Failure(Encode(NullObject))
    ensures e.SerialElem? && r.Success? ==> r.value == Body(reg, e.o).value
  {
    match e
    case StringElem(s) => Success(WriteString(Some(s)))
    case IntegerElem(i) => Success(WriteInt(i))
    case ByteElem(b) => Success(WriteByte(b))
    case BooleanElem(v) => Success(WriteBoolean(v))
    case SerialElem(o) =>
      (match Body(reg, o)
       case Failure(f) => Failure(Encode(f))
       case Success(b) => Success(b))
    case OtherElem(n) => Failure(NotSerializable(n))
    case NullElem => Failure(Encode(NullObject))
  }

  /** One pass of the list writer's loop: a protocol object goes out as
      [tag][body], any other element through `writeObject`. */
  function WriteListElem(reg: Registry, e: Element): (r: Result<Bytes, WriteFault>)
    ensures !e.SerialElem? ==> r == WriteObject(reg, e)
    ensures e.SerialElem? ==> (r.Success? <==> Tagged(reg, Some(e.o)).Success?)
    ensures e.SerialElem? && r.Success? ==> r.value == Tagged(reg, Some(e.o)).value
  {
    if e.SerialElem? then
      match Tagged(reg, Some(e.o))
      case Failure(f) => Failure(Encode(f))
      case Success(b) => Success(b)
    else WriteObject(reg, e)
  }

  /** The elements written one after another; the first that throws ends the
      write. */
  function WriteElems(reg: Registry, es: seq<Element>): (r: Result<Bytes, WriteFault>)
    ensures r.Success? <==> forall i :: 0 <= i < |es| ==> WriteListElem(reg, es[i]).Success?
  {
    if |es| == 0 then Success([])
    else match WriteListElem(reg, es[0])
      case Failure(f) => Failure(f)
      case Success(b) =>
        match WriteElems(reg, es[1..])
        case Failure(f) => Failure(f)
        case Success(bs) => Success(b + bs)
  }

  /** `writeToStream(List)`: null is an empty list's int16 count of 0;
      otherwise the int16 count (wrapped to 16 bits) and then the elements. */
  function WriteList(reg: Registry, l: Option<seq<Element>>): (r: Result<Bytes, WriteFault>)
    ensures l.None? ==> r == Success([0, 0])
    ensures l.Some? ==>
      (r.Success? <==> forall i :: 0 <= i < |l.value| ==> WriteListElem(reg, l.value[i]).Success?)
    ensures l.Some? && r.Success? ==>
      |r.value| >= 2 && r.value[..2] == WriteShort(|l.value|)
  {
    match l
    case None =>
      assert WriteShort(0) == [0, 0] by { Pow256Values(); }
      Success(WriteShort(0))
    case Some(es) =>
      match WriteElems(reg, es)
      case Failure(f) => Failure(f)
      case Success(b) =>
        assert (WriteShort(|es|) + b)[..2] == WriteShort(|es|);
        Success(WriteShort(|es|) + b)
  }

  // ---------------------------------------------------------------------
  // Shape of the output
  // ---------------------------------------------------------------------

  /** When every element has a known encoding, the elements' octets are those
      encodings concatenated. */
  lemma {:induction false} ElementsConcat<T>(reg: Registry, es: seq<Element>, enc: T -> Bytes, xs: seq<T>)
    requires |es| == |xs|
    requires forall i :: 0 <= i < |es| ==> WriteListElem(reg, es[i]) == Success(enc(xs[i]))
    ensures WriteElems(reg, es) == Success(ConcatEnc(enc, xs))
    decreases |es|
  {
    if |es| > 0 {
      ElementsConcat(reg, es[1..], enc, xs[1..]);
    }
  }

  /** Lists of mixed element types are written piecewise: the octets of a
      concatenation are the two parts' octets, and it throws exactly when a
      part does. */
  lemma {:induction false} WriteElemsAppend(reg: Registry, a: seq<Element>, b: seq<Element>)
    ensures WriteElems(reg, a + b).Success? <==> WriteElems(reg, a).Success? && WriteElems(reg, b).Success?
    ensures WriteElems(reg, a + b).Success? ==>
      WriteElems(reg, a + b).value == WriteElems(reg, a).value + WriteElems(reg, b).value
    decreases |a|
  {
    if |a| == 0 {
      assert a + b == b;
    } else {
      assert (a + b)[0] == a[0];
      assert (a + b)[1..] == a[1..] + b;
      WriteElemsAppend(reg, a[1..], b);
    }
  }

  /** The first element that throws decides the exception of the whole
      write, whatever follows it. */
  lemma {:induction false} FirstFaultWins(reg: Registry, es: seq<Element>, i: nat)
    requires i < |es|
    requires forall j :: 0 <= j < i ==> WriteListElem(reg, es[j]).Success?
    requires WriteListElem(reg, es[i]).Failure?
    ensures WriteList(reg, Some(es)) == Failure(WriteListElem(reg, es[i]).error)
  {
    FirstFaultOfElems(reg, es, i);
  }

  lemma {:induction false} FirstFaultOfElems(reg: Registry, es: seq<Element>, i: nat)
    requires i < |es|
    requires forall j :: 0 <= j < i ==> WriteListElem(reg, es[j]).Success?
    requires WriteListElem(reg, es[i]).Failure?
    ensures WriteElems(reg, es) == Failure(WriteListElem(reg, es[i]).error)
    decreases i
  {
    if i > 0 {
      assert WriteListElem(reg, es[0]).Success?;
      var tl := es[1..];
      assert forall j :: 0 <= j < i - 1 ==> tl[j] == es[j + 1];
      FirstFaultOfElems(reg, tl, i - 1);
    }
  }

  /** A list holding an element of a class `writeObject` does not know
      throws `IllegalArgumentException`, and one holding null throws
      `NullPointerException`, once the elements before it are written. */
  lemma BadElementThrows(reg: Registry, es: seq<Element>, i: nat)
    requires i < |es| && (es[i].OtherElem? || es[i].NullElem?)
    requires forall j :: 0 <= j < i ==> WriteListElem(reg, es[j]).Success?
    ensures es[i].OtherElem? ==> WriteList(reg, Some(es)) == Failure(NotSerializable(es[i].className))
    ensures es[i].NullElem? ==> WriteList(reg, Some(es)) == Failure(Encode(NullObject))
  {
    FirstFaultWins(reg, es, i);
  }

  // ---------------------------------------------------------------------
  // Round trips through the readIntoList* readers
  // ---------------------------------------------------------------------

  function StringElems(xs: seq<string>): (r: seq<Element>)
    ensures |r| == |xs| && forall i :: 0 <= i < |xs| ==> r[i] == StringElem(xs[i])
  {
    seq(|xs|, i requires 0 <= i < |xs| => StringElem(xs[i]))
  }

  function IntegerElems(xs: seq<Int32>): (r: seq<Element>)
    ensures |r| == |xs| && forall i :: 0 <= i < |xs| ==> r[i] == IntegerElem(xs[i])
  {
    seq(|xs|, i requires 0 <= i < |xs| => IntegerElem(xs[i]))
  }

  function ByteElems(xs: seq<Int8>): (r: seq<Element>)
    ensures |r| == |xs| && forall i :: 0 <= i < |xs| ==> r[i] == ByteElem(xs[i])
  {
    seq(|xs|, i requires 0 <= i < |xs| => ByteElem(xs[i]))
  }

  function BooleanElems(xs: seq<bool>): (r: seq<Element>)
    ensures |r| == |xs| && forall i :: 0 <= i < |xs| ==> r[i] == BooleanElem(xs[i])
  {
    seq(|xs|, i requires 0 <= i < |xs| => BooleanElem(xs[i]))
  }

  function OptionElems(opts: seq<ReqOption>): (r: seq<Element>)
    ensures |r| == |opts| && forall i :: 0 <= i < |opts| ==> r[i] == SerialElem(OptionObj(opts[i]))
  {
    seq(|opts|, i requires 0 <= i < |opts| => SerialElem(OptionObj(opts[i])))
  }

  /** A null list reads back, through any of the readers, as an empty list
      with count 0. */
  lemma NullListReadsEmpty<T>(reg: Registry, read: Bytes -> Read<T>, rest: Bytes)
    ensures WriteList(reg, None).Success?
    ensures ReadIntoList(read, WriteList(reg, None).value + rest) == ListRead([], Some((0, rest)))
  {
    ReadShortOf(0, rest);
    assert WriteShort(0) == [0, 0] by { Pow256Values(); }
  }

  /** `readIntoListString` reads back a list of Latin-1 strings written by
      the list writer. */
  lemma StringsRoundTrip(reg: Registry, xs: seq<string>, rest: Bytes)
    requires |xs| <= MAX_SHORT
    requires forall i :: 0 <= i < |xs| ==> IsLatin1(xs[i]) && |xs[i]| <= MAX_SHORT
    ensures WriteList(reg, Some(StringElems(xs))).Success?
    ensures ReadIntoListString(WriteList(reg, Some(StringElems(xs))).value + rest) == ListRead(xs, Some((|xs|, rest)))
  {
    ElementsConcat(reg, StringElems(xs), WriteStringElem, xs);
    StringListRoundTrip(xs, rest);
  }

  /** `readIntoListInteger` reads back a list of Integers written by the list
      writer. */
  lemma IntegersRoundTrip(reg: Registry, xs: seq<Int32>, rest: Bytes)
    requires |xs| <= MAX_SHORT
    ensures WriteList(reg, Some(IntegerElems(xs))).Success?
    ensures ReadIntoListInteger(WriteList(reg, Some(IntegerElems(xs))).value + rest) == ListRead(xs, Some((|xs|, rest)))
  {
    ElementsConcat(reg, IntegerElems(xs), WriteInt32Elem, xs);
    IntegerListRoundTrip(xs, rest);
  }

  /** `readIntoListByte` reads back a list of Bytes written by the list
      writer. */
  lemma BytesRoundTrip(reg: Registry, xs: seq<Int8>, rest: Bytes)
    requires |xs| <= MAX_SHORT
    ensures WriteList(reg, Some(ByteElems(xs))).Success?
    ensures ReadIntoListByte(WriteList(reg, Some(ByteElems(xs))).value + rest) == ListRead(xs, Some((|xs|, rest)))
  {
    ElementsConcat(reg, ByteElems(xs), WriteInt8Elem, xs);
    ByteListRoundTrip(xs, rest);
  }

  /** `readIntoListBoolean` reads back a list of Booleans written by the list
      writer. */
  lemma BooleansRoundTrip(reg: Registry, xs: seq<bool>, rest: Bytes)
    requires |xs| <= MAX_SHORT
    ensures WriteList(reg, Some(BooleanElems(xs))).Success?
    ensures ReadIntoListBoolean(WriteList(reg, Some(BooleanElems(xs))).value + rest) == ListRead(xs, Some((|xs|, rest)))
  {
    ElementsConcat(reg, BooleanElems(xs), WriteBooleanElem, xs);
    BooleanListRoundTrip(xs, rest);
  }

  // ---------------------------------------------------------------------
  // The options list of a SyncRequest
  // ---------------------------------------------------------------------

  lemma {:induction false} OptionElemsAreTagged(reg: Registry, opts: seq<ReqOption>)
    ensures WriteElems(reg, OptionElems(opts)) ==
      match OptionsTagged(reg, opts)
      case Failure(f) => Failure(Encode(f))
      case Success(b) => Success(b)
    decreases |opts|
  {
    if |opts| > 0 {
      OptionTaggedIsTagged(reg, opts[0]);
      assert OptionElems(opts)[1..] == OptionElems(opts[1..]);
      OptionElemsAreTagged(reg, opts[1..]);
    }
  }

  /** The options list inside a request's body is the list writer's output
      for those options. */
  lemma OptionsListIsWriteList(reg: Registry, opts: seq<ReqOption>)
    ensures WriteList(reg, Some(OptionElems(opts))) ==
      match OptionsTagged(reg, opts)
      case Failure(f) => Failure(Encode(f))
      case Success(b) => Success(WriteShort(|opts|) + b)
  {
    OptionElemsAreTagged(reg, opts);
  }

  /** `readIntoListSerializableObject` reads the int16 count, then that many
      tagged objects. */
  lemma ReadObjectsAfterCount(reg: Registry, a: Alloc, n: Int16, s: Bytes)
    ensures ReadIntoListObjects(reg, a, WriteShort(n) + s) == Some(ReadObjList(reg, a, s, n))
  {
    ReadShortOf(n, s);
  }

  /** `readIntoListSerializableObject` reads back a written list of options:
      each option with the same wire image, consuming exactly the list and
      creating no request. */
  lemma OptionsRoundTrip(reg: Registry, a: Alloc, opts: seq<ReqOption>, rest: Bytes)
    requires |opts| <= MAX_SHORT
    requires |opts| > 0 ==> TagRoundTrips(reg, ReqOptionCls)
    requires forall i :: 0 <= i < |opts| ==> StrFits(opts[i].name)
    ensures WriteList(reg, Some(OptionElems(opts))).Success?
    ensures var r := ReadIntoListObjects(reg, a, WriteList(reg, Some(OptionElems(opts))).value + rest);
      r.Some? && r.value.Success? && r.value.value.1 == rest &&
      WireOpts(OptionsAmong(r.value.value.0)) == WireOpts(opts) && r.value.value.2.nextKey == a.nextKey
  {
    OptionListRoundTrip(reg, a, opts, rest);
    OptionsListLayout(reg, opts, rest);
    ReadObjectsAfterCount(reg, a, |opts|, OptionsTagged(reg, opts).value + rest);
  }

  /** The written options list, followed by the rest of the stream, is the count and then
      the tagged options. */
  lemma OptionsListLayout(reg: Registry, opts: seq<ReqOption>, rest: Bytes)
    requires OptionsTagged(reg, opts).Success?
    ensures WriteList(reg, Some(OptionElems(opts))).Success?
    ensures WriteList(reg, Some(OptionElems(opts))).value + rest
      == WriteShort(|opts|) + (OptionsTagged(reg, opts).value + rest)
  {
    var b := OptionsTagged(reg, opts).value;
    assert OptionsTagged(reg, opts) == Success(b);
    OptionsListIsWriteList(reg, opts);
    assert WriteList(reg, Some(OptionElems(opts))) == Success(WriteShort(|opts|) + b);
    Assoc(WriteShort(|opts|), b, rest);
  }
}

=== FILE: messages.dfy ===
/** The message classes of the protocol package as immutable records, the
    class hierarchy the tag registry walks, and the allocator that stands for
    Java object identity and for the static `SyncRequest` key counter. */
module Messages {
  import opened Wrappers
  import opened JavaTypes

  /** The identity of a `RequestOption` object. The class has no `equals`, so
      two options are equal only when they are the same object. */
  type Uid = nat

  /** The identity of a results queue (a `List<SyncRequest>` shared between
      requests and the thread that waits on them). */
  type QueueRef = nat

  /** `RequestOption`: a caption, an integer id and an enabled flag. */
  datatype ReqOption = ReqOption(uid: Uid, name: Option<string>, value: Int32, enabled: bool)

  /** The option id of the cancel action. */
  const OPT_CANCEL_ACTION: Int32 := -2
  /** The option id of the "no action" entry `selectSingleEnabledEntry` adds. */
  const ACTION_NONE: Int32 := 0
  /** The id of separators and custom answers, and of "no answer". */
  const NO_ID: Int32 := -1

  /** The three keystroke maps of a request: plain, `<ctrl>` and `<alt>`. */
  datatype KeyMaps = KeyMaps(plain: map<char, ReqOption>, ctrl: map<char, ReqOption>, alt: map<char, ReqOption>)

  const NO_KEYS := KeyMaps(map[], map[], map[])

  /** The state of a `SyncRequest`. */
  datatype SyncRequest = SyncRequest(
    syncKey: Int32,
    message: Option<string>,
    answer: Option<ReqOption>,
    options: seq<ReqOption>,
    defaultId: Int32,
    resultsQueue: Option<QueueRef>,
    backupSelected: bool,
    keys: KeyMaps)

  /** `Response`: the reply to a request, keyed by the request's syncKey. */
  datatype Response = Response(syncKey: Int32, answerId: Int32, answerStr: Option<string>)

  /** The classes below `SyncRequest`: the abstract base itself, or an
      application subclass of a class already in the hierarchy. */
  datatype ReqCls = SyncRequestBase | Sub(id: nat, parent: ReqCls)

  /** Every class of the protocol that derives from `SerializableObject`. */
  datatype Cls =
    | ClientIdCls
    | ObjChangedCls
    | ObjDeleteCls
    | ObjInfoCls
    | ReqOptionCls
    | ResponseCls
    | RequestCls(rc: ReqCls)

  /** A live protocol object. A `None` sub-object is a Java `null` field. */
  datatype Obj =
    | ClientIdObj(id: Int32)
    | OptionObj(opt: ReqOption)
    | ResponseObj(resp: Response)
    | ChangedObj(original: Option<Obj>, modified: Option<Obj>)
    | DeleteObj(target: Option<Obj>)
    | InfoObj(target: Option<Obj>)
    | RequestObj(rc: ReqCls, req: SyncRequest)

  /** `getClass()` of a live object: a request's class is its own subclass of
      `SyncRequest`, and an option is a `RequestOption`. */
  function ClassOf(o: Obj): (c: Cls)
    ensures c.RequestCls? <==> o.RequestObj?
    ensures o.RequestObj? ==> c.rc == o.rc
    ensures c == ReqOptionCls <==> o.OptionObj?
  {
    match o
    case ClientIdObj(_) => ClientIdCls
    case OptionObj(_) => ReqOptionCls
    case ResponseObj(_) => ResponseCls
    case ChangedObj(_, _) => ObjChangedCls
    case DeleteObj(_) => ObjDeleteCls
    case InfoObj(_) => ObjInfoCls
    case RequestObj(rc, _) => RequestCls(rc)
  }

  /** The direct superclass, or `None` when it is `SerializableObject`. */
  function Superclass(c: Cls): (p: Option<Cls>)
    ensures p.Some? <==> c.RequestCls? && c.rc.Sub?
  {
    match c
    case RequestCls(Sub(_, parent)) => Some(RequestCls(parent))
    case _ => None
  }

  /** Only the abstract `SyncRequest` itself has no usable no-argument
      constructor. */
  predicate Instantiable(c: Cls)
    ensures Instantiable(c) <==> !c.RequestCls? || Superclass(c).Some?
  {
    c != RequestCls(SyncRequestBase)
  }

  // ---------------------------------------------------------------------
  // Allocation: object identity and the static syncKey counter
  // ---------------------------------------------------------------------

  /** `nextKey` is `SyncRequest.nextMessageKey`; `nextUid` the next unused
      option identity. */
  datatype Alloc = Alloc(nextKey: Int32, nextUid: Uid)

  /** The state at class-load time: the key counter starts at 1. */
  const INITIAL_ALLOC: Alloc := Alloc(1, 0)

  /** `new RequestOption(name, value, enabled)`. */
  function NewOption(a: Alloc, name: Option<string>, value: Int32, enabled: bool): (r: (ReqOption, Alloc))
    ensures r.0.name == name && r.0.value == value && r.0.enabled == enabled
    ensures r.0.uid >= a.nextUid && r.1.nextUid > r.0.uid
    ensures r.1.nextKey == a.nextKey
  {
    (ReqOption(a.nextUid, name, value, enabled), a.(nextUid := a.nextUid + 1))
  }

  /** A new option differs from every option that existed before it. */
  lemma NewOptionIsFresh(a: Alloc, existing: seq<ReqOption>, name: Option<string>, value: Int32, enabled: bool)
    requires forall i :: 0 <= i < |existing| ==> existing[i].uid < a.nextUid
    ensures var (o, a') := NewOption(a, name, value, enabled);
      o !in existing && forall i :: 0 <= i < |existing| ==> existing[i].uid < a'.nextUid
  {
  }

  /** The fields a freshly constructed `SyncRequest` has, before its
      subclass sets anything: the key is taken from the counter, which then
      advances with Java `int` wrap-around. */
  function NewSyncRequest(a: Alloc): (r: (SyncRequest, Alloc))
    ensures r.0.syncKey == a.nextKey
    ensures r.0.answer.None? && r.0.options == [] && r.0.defaultId == NO_ID
    ensures r.0.message == Some("") && r.0.resultsQueue.None? && !r.0.backupSelected
    ensures a.nextKey < MAX_INT ==> r.1.nextKey == a.nextKey + 1
    ensures a.nextKey == MAX_INT ==> r.1.nextKey == MIN_INT
    ensures r.1.nextUid == a.nextUid
  {
    (SyncRequest(a.nextKey, Some(""), None, [], NO_ID, None, false, NO_KEYS),
     a.(nextKey := WrapInt32(a.nextKey + 1)))
  }

  /** The keys of `n` requests constructed one after another. */
  function KeysOf(a: Alloc, n: nat): (ks: seq<Int32>)
    ensures |ks| == n
    decreases n
  {
    if n == 0 then [] else
      var (r, a') := NewSyncRequest(a);
      [r.syncKey] + KeysOf(a', n - 1)
  }

  /** Until the counter wraps, requests get consecutive keys in creation
      order, so no two of them share a key. */
  lemma {:induction false} KeysConsecutive(a: Alloc, n: nat)
    requires a.nextKey as int + n <= MAX_INT + 1
    ensures forall i :: 0 <= i < n ==> KeysOf(a, n)[i] == a.nextKey + i
    ensures forall i, j :: 0 <= i < j < n ==> KeysOf(a, n)[i] < KeysOf(a, n)[j]
    decreases n
  {
    if n > 0 {
      var (r, a') := NewSyncRequest(a);
      if n > 1 {
        assert a'.nextKey == a.nextKey + 1;
        KeysConsecutive(a', n - 1);
      }
      var ks := KeysOf(a, n);
      assert ks == [r.syncKey] + KeysOf(a', n - 1);
      forall i | 0 <= i < n ensures ks[i] == a.nextKey + i {
        if i > 0 {
          assert ks[i] == KeysOf(a', n - 1)[i - 1];
        }
      }
    }
  }

  // ---------------------------------------------------------------------
  // ClientID
  // ---------------------------------------------------------------------

  /** A default-constructed `ClientID`. */
  const DEFAULT_CLIENT_ID: Obj := ClientIdObj(-1)

  /** `ClientID.toString`: the prefix, then the id in decimal. */
  function ClientIdText(id: Int32): (s: string)
    ensures |s| > 10 && s[..10] == "ClientID: "
    ensures IsDecimalText(s[10..]) && ParseInt(s[10..]) == id
  {
    IntToStringRoundTrip(id);
    var s := "ClientID: " + IntToString(id);
    assert s[10..] == IntToString(id);
    s
  }

  // ---------------------------------------------------------------------
  // RequestOption setters
  // ---------------------------------------------------------------------

  function SetOptionName(o: ReqOption, name: Option<string>): (r: ReqOption)
    ensures r.name == name && r.(name := o.name) == o
  {
    o.(name := name)
  }

  function SetOptionValue(o: ReqOption, value: Int32): (r: ReqOption)
    ensures r.value == value && r.(value := o.value) == o
  {
    o.(value := value)
  }

  function SetOptionEnabled(o: ReqOption, enabled: bool): (r: ReqOption)
    ensures r.enabled == enabled && r.(enabled := o.enabled) == o
  {
    o.(enabled := enabled)
  }

  // ---------------------------------------------------------------------
  // SyncRequest answer accessors (used by Response)
  // ---------------------------------------------------------------------

  /** `getAnswerID` (and `getFullAnswerID`): -1 when unanswered. */
  function AnswerId(r: SyncRequest): (id: Int32)
    ensures r.answer.None? ==> id == NO_ID
    ensures r.answer.Some? ==> id == r.answer.value.value
  {
    if r.answer.None? then NO_ID else r.answer.value.value
  }

  /** `getAnswer`: the answer's caption, null when unanswered. */
  function AnswerText(r: SyncRequest): (s: Option<string>)
    ensures r.answer.None? ==> s.None?
    ensures r.answer.Some? ==> s == r.answer.value.name
  {
    if r.answer.None? then None else r.answer.value.name
  }

  // ---------------------------------------------------------------------
  // Response
  // ---------------------------------------------------------------------

  const DEFAULT_RESPONSE: Response := Response(-1, -1, Some(""))

  /** `new Response(request)` for a `SyncRequest`: its key, full answer id
      and answer text (null when unanswered). */
  function ResponseTo(req: SyncRequest): (r: Response)
    ensures r.syncKey == req.syncKey
    ensures req.answer.None? ==> r.answerId == NO_ID && r.answerStr.None?
    ensures req.answer.Some? ==> r.answerId == req.answer.value.value && r.answerStr == req.answer.value.name
  {
    Response(req.syncKey, AnswerId(req), AnswerText(req))
  }

  /** `setAnswerKey` and `setFullAnswerID`. */
  function SetResponseAnswerId(r: Response, id: Int32): (r': Response)
    ensures r'.answerId == id && r'.(answerId := r.answerId) == r
  {
    r.(answerId := id)
  }

  function SetResponseAnswerStr(r: Response, s: Option<string>): (r': Response)
    ensures r'.answerStr == s && r'.(answerStr := r.answerStr) == r
  {
    r.(answerStr := s)
  }

  // ---------------------------------------------------------------------
  // ObjectChanged.toString
  // ---------------------------------------------------------------------

  /** `ObjectChanged.toString`, given the `toString` of each sub-object
      (`None` for a null field). */
  function ChangedText(original: Option<string>, modified: Option<string>): (t: string)
    ensures var o := NullText(original); var m := NullText(modified);
      |t| == 33 + |o| + 21 + |m| + 1 &&
      t[33..33 + |o|] == o && t[33 + |o| + 21..|t| - 1] == m
  {
    var o := NullText(original);
    var m := NullText(modified);
    var t := "ObjectChanged. originalObject = '" + o + "'\n modifiedObject = '" + m + "'";
    assert t[33..33 + |o|] == o;
    assert t[33 + |o| + 21..|t| - 1] == m;
    t
  }
}

=== FILE: monitors.dfy ===
/** The two halves of the watch relation: a `MonitoredObject` counts how often each
    watcher registered with it, and a `MonitoringObject` counts how often it registered
    with each watched object. Objects are identified by number; the calls one object
    makes on another become `Callback` values that the caller hands on. */
module Monitors {
  import Wrappers
  import opened CountTables

  /** The identity of an `IMonitoringObject`. */
  type WatcherId = nat
  /** The identity of an `IMonitorableObject`. */
  type ObjectId = nat

  // ---------------------------------------------------------------------
  // MonitoredObject
  // ---------------------------------------------------------------------

  datatype RegisterResults =
    | Success | ThisAlreadyWatching | OthersAlsoWatching | ThisAndOthersAlreadyWatching | Failure

  datatype UnRegisterResults =
    | Success | ThisStillWatching | ThisAndOthersStillWatching | OthersStillWatching | Failure

  /** A call a monitored object makes on another object. */
  datatype Callback =
      /** `watcher.registerMonitoredObject(watched)` */
    | RegisterMonitored(watcher: WatcherId, watched: ObjectId)
      /** `watcher.unregisterMonitoredObject(watched)` or its all-instances variant */
    | UnregisterMonitored(watcher: WatcherId, watched: ObjectId, allInstances: bool)
      /** the registration watcher's `watcherRegistered` */
    | WatcherRegistered(newWatcher: Wrappers.Option<WatcherId>, registered: RegisterResults)
      /** the registration watcher's `watcherUnRegistered` */
    | WatcherUnRegistered(priorWatcher: Wrappers.Option<WatcherId>, unregistered: UnRegisterResults)

  /** `watchedProxy` is the object named to watchers; it is the object itself unless a
      container was given to the constructor. */
  datatype Monitored = Monitored(
    objectId: string,
    self: ObjectId,
    watchedProxy: ObjectId,
    watchers: map<WatcherId, int>,
    hasRegistrationWatcher: bool)

  function NewMonitored(objectId: string, self: ObjectId, proxy: Wrappers.Option<ObjectId>): (m: Monitored)
    ensures m.objectId == objectId && m.self == self && m.watchers == map[] && !m.hasRegistrationWatcher
    ensures m.watchedProxy == (if proxy.Some? then proxy.value else self)
  {
    Monitored(objectId, self, if proxy.Some? then proxy.value else self, map[], false)
  }

  /** `getWatchingCount`. */
  function GetWatchingCount(m: Monitored, w: WatcherId): (c: int)
    ensures w !in m.watchers ==> c == 0
    ensures w in m.watchers ==> c == m.watchers[w]
  {
    CountOf(m.watchers, w)
  }

  /** `getWatchersCount`: the number of distinct watchers. */
  function GetWatchersCount(m: Monitored): (n: nat)
    ensures n == |m.watchers.Keys|
  {
    |m.watchers|
  }

  /** The register result, from whether `w` was already watching and whether the table
      holds more than one watcher afterwards: each answer names one combination. */
  function RegisterResult(alreadyWatching: bool, otherWatchers: bool): (r: RegisterResults)
    ensures r != RegisterResults.Failure
    ensures (r == RegisterResults.ThisAlreadyWatching || r == RegisterResults.ThisAndOthersAlreadyWatching)
      <==> alreadyWatching
    ensures (r == RegisterResults.OthersAlsoWatching || r == RegisterResults.ThisAndOthersAlreadyWatching)
      <==> otherWatchers
  {
    if alreadyWatching && otherWatchers then RegisterResults.ThisAndOthersAlreadyWatching
    else if alreadyWatching then RegisterResults.ThisAlreadyWatching
    else if otherWatchers then RegisterResults.OthersAlsoWatching
    else RegisterResults.Success
  }

  datatype RegisterOutcome = RegisterOutcome(
    m: Monitored, result: RegisterResults, callbacks: seq<Callback>)

  /** `registerAsWatcher`. A null watcher fails; otherwise its count rises by one, the
      watcher is told about the proxy, and the registration watcher is not told. */
  function RegisterAsWatcher(m: Monitored, w: Wrappers.Option<WatcherId>): (r: RegisterOutcome)
    ensures w.None? ==> r.m == m && r.result == RegisterResults.Failure
    ensures w.None? ==> r.callbacks == (if m.hasRegistrationWatcher
                                        then [WatcherRegistered(w, RegisterResults.Failure)] else [])
    ensures w.Some? ==> r.m == m.(watchers := Inc(m.watchers, w.value))
    ensures w.Some? ==> GetWatchingCount(r.m, w.value) == GetWatchingCount(m, w.value) + 1
    ensures w.Some? ==> r.callbacks == [RegisterMonitored(w.value, m.watchedProxy)]
    ensures w.Some? ==> r.result != RegisterResults.Failure
    ensures w.Some? ==> ((r.result == RegisterResults.ThisAlreadyWatching
                          || r.result == RegisterResults.ThisAndOthersAlreadyWatching)
                         <==> w.value in m.watchers)
    ensures w.Some? ==> ((r.result == RegisterResults.OthersAlsoWatching
                          || r.result == RegisterResults.ThisAndOthersAlreadyWatching)
                         <==> exists j :: j in m.watchers && j != w.value)
  {
    if w.None? then
      RegisterOutcome(m, RegisterResults.Failure,
        if m.hasRegistrationWatcher then [WatcherRegistered(w, RegisterResults.Failure)] else [])
    else
      var x := w.value;
      var watchers := Inc(m.watchers, x);
      MoreThanOne(watchers.Keys, x);
      assert (exists j :: j in watchers && j != x) <==> (exists j :: j in m.watchers && j != x);
      RegisterOutcome(m.(watchers := watchers),
        RegisterResult(x in m.watchers, |watchers| > 1),
        [RegisterMonitored(x, m.watchedProxy)])
  }

  /** The unregister result, from whether `w` still watches and whether others do: each
      answer names one combination. */
  function UnRegisterResult(stillWatching: bool, otherWatchers: bool): (r: UnRegisterResults)
    ensures r != UnRegisterResults.Failure
    ensures (r == UnRegisterResults.ThisStillWatching || r == UnRegisterResults.ThisAndOthersStillWatching)
      <==> stillWatching
    ensures (r == UnRegisterResults.OthersStillWatching || r == UnRegisterResults.ThisAndOthersStillWatching)
      <==> otherWatchers
  {
    if stillWatching && otherWatchers then UnRegisterResults.ThisAndOthersStillWatching
    else if stillWatching then UnRegisterResults.ThisStillWatching
    else if otherWatchers then UnRegisterResults.OthersStillWatching
    else UnRegisterResults.Success
  }

  datatype UnregisterOutcome = UnregisterOutcome(
    m: Monitored, result: UnRegisterResults, callbacks: seq<Callback>, missingLogged: bool)

  /** The private `unregisterAsWatcher` exactly as the class has it: when the watcher is found
      the result is returned from inside the locked block, so neither the watcher nor the
      registration watcher hears of it. Only a null or unknown watcher reaches the callbacks.
      `hasDiag` says a `Diagnostics` object was passed; without one nothing is logged. */
  function UnregisterAsWritten(m: Monitored, w: Wrappers.Option<WatcherId>, allInstances: bool,
                               reportFailureIfWatcherNotFound: bool, hasDiag: bool): (r: UnregisterOutcome)
    ensures r.result == UnRegisterResults.Failure <==> w.None? || w.value !in m.watchers
    ensures r.result == UnRegisterResults.Failure ==> r.m == m
    ensures r.missingLogged <==> w.Some? && w.value !in m.watchers && reportFailureIfWatcherNotFound && hasDiag
    ensures w.Some? && w.value in m.watchers ==> r.callbacks == []
    ensures w.Some? && w.value !in m.watchers ==>
      |r.callbacks| >= 1 && r.callbacks[0] == UnregisterMonitored(w.value, m.watchedProxy, allInstances)
  {
    var failureCallbacks := if m.hasRegistrationWatcher
      then [WatcherUnRegistered(w, UnRegisterResults.Failure)] else [];
    if w.None? then UnregisterOutcome(m, UnRegisterResults.Failure, failureCallbacks, false)
    else
      var x := w.value;
      if x !in m.watchers then
        UnregisterOutcome(m, UnRegisterResults.Failure,
          [UnregisterMonitored(x, m.watchedProxy, allInstances)] + failureCallbacks,
          reportFailureIfWatcherNotFound && hasDiag)
      else
        var watchers := Dec(m.watchers, x, allInstances);
        var stillWatching := x in watchers;
        var otherWatchers := if stillWatching then |watchers| > 1 else |watchers| > 0;
        UnregisterOutcome(m.(watchers := watchers),
          UnRegisterResult(stillWatching, otherWatchers), [], false)
  }

  /** `unregisterAsWatcher` as the rest of the design expects it: the table and the result are
      those of the class, and a found watcher is also told to drop the proxy, just as a new
      watcher is told to add it. */
  function UnregisterAsWatcher(m: Monitored, w: Wrappers.Option<WatcherId>, allInstances: bool,
                               reportFailureIfWatcherNotFound: bool, hasDiag: bool): (r: UnregisterOutcome)
    ensures w.Some? ==> (|r.callbacks| >= 1
      && r.callbacks[0] == UnregisterMonitored(w.value, m.watchedProxy, allInstances))
    ensures w.Some? && w.value in m.watchers ==>
      r.m == m.(watchers := Dec(m.watchers, w.value, allInstances))
    ensures w.Some? && w.value in m.watchers ==>
      r.callbacks == [UnregisterMonitored(w.value, m.watchedProxy, allInstances)]
    ensures w.Some? && w.value in m.watchers ==> r.result != UnRegisterResults.Failure
    ensures w.Some? && w.value in m.watchers ==>
      ((r.result == UnRegisterResults.ThisStillWatching
        || r.result == UnRegisterResults.ThisAndOthersStillWatching)
       <==> w.value in r.m.watchers)
    ensures w.Some? && w.value in m.watchers ==>
      ((r.result == UnRegisterResults.OthersStillWatching
        || r.result == UnRegisterResults.ThisAndOthersStillWatching)
       <==> exists j :: j in m.watchers && j != w.value)
    ensures w.None? || w.value !in m.watchers ==>
      r.m == m && r.result == UnRegisterResults.Failure
  {
    var o := UnregisterAsWritten(m, w, allInstances, reportFailureIfWatcherNotFound, hasDiag);
    if w.Some? && w.value in m.watchers then
      var x := w.value;
      OthersAfterDec(m.watchers, x, allInstances);
      o.(callbacks := [UnregisterMonitored(x, m.watchedProxy, allInstances)])
    else o
  }

  /** `notifyWatchers`: every registered watcher outside the skip list, each once. */
  method NotifyWatchers(m: Monitored, skipList: Wrappers.Option<seq<WatcherId>>)
    returns (recipients: seq<WatcherId>)
    ensures forall i, j :: 0 <= i < j < |recipients| ==> recipients[i] != recipients[j]
    ensures forall w :: w in recipients <==>
      w in m.watchers && !(skipList.Some? && w in skipList.value)
  {
    var ids := Enumerate(m.watchers);
    recipients := [];
    var i := 0;
    while i < |ids|
      invariant 0 <= i <= |ids|
      invariant forall w :: w in recipients <==>
        w in ids[..i] && !(skipList.Some? && w in skipList.value)
      invariant forall a, b :: 0 <= a < b < |recipients| ==> recipients[a] != recipients[b]
    {
      var skip := skipList.Some? && ids[i] in skipList.value;
      if !skip {
        assert ids[i] !in ids[..i];
        recipients := recipients + [ids[i]];
      }
      assert ids[..i + 1] == ids[..i] + [ids[i]];
      i := i + 1;
    }
    assert ids[..i] == ids;
  }

  /** `getSnapShotOfWatchers`. */
  method GetSnapShotOfWatchers(m: Monitored) returns (r: seq<WatcherId>)
    ensures forall i, j :: 0 <= i < j < |r| ==> r[i] != r[j]
    ensures forall w :: w in r <==> w in m.watchers
  {
    r := Enumerate(m.watchers);
  }

  // ---------------------------------------------------------------------
  // MonitoringObject
  // ---------------------------------------------------------------------

  /** `watchingProxy` is the watcher named to watched objects; `forwardObject`, when present,
      is the identity of the monitored object that receives every change notification. The
      field is a reference: the forward object's watchers are those it has when a change
      arrives, not those it had when this object was built. */
  datatype Monitoring = Monitoring(
    objectId: string,
    watchedObjects: map<ObjectId, int>,
    watchingProxy: WatcherId,
    forwardObject: Wrappers.Option<ObjectId>)

  /** The three constructors: plain, with a containing proxy, or forwarding. */
  function NewMonitoring(objectId: string, self: WatcherId, proxy: Wrappers.Option<WatcherId>,
                         forward: Wrappers.Option<ObjectId>): (mo: Monitoring)
    requires proxy.None? || forward.None?
    ensures mo.objectId == objectId && mo.watchedObjects == map[]
    ensures mo.watchingProxy == (if proxy.Some? then proxy.value else self)
    ensures mo.forwardObject == forward
  {
    Monitoring(objectId, map[], if proxy.Some? then proxy.value else self, forward)
  }

  /** `registerMonitoredObject`: one more registration of `o`; always succeeds. */
  function RegisterMonitoredObject(mo: Monitoring, o: ObjectId): (r: (Monitoring, bool))
    ensures r.1
    ensures r.0 == mo.(watchedObjects := Inc(mo.watchedObjects, o))
    ensures r.0.watchedObjects.Keys == mo.watchedObjects.Keys + {o}
    ensures CountOf(r.0.watchedObjects, o) == CountOf(mo.watchedObjects, o) + 1
    ensures forall p :: p in mo.watchedObjects && p != o ==>
      r.0.watchedObjects[p] == mo.watchedObjects[p]
  {
    (mo.(watchedObjects := Inc(mo.watchedObjects, o)), true)
  }

  /** `unregisterMonitoredObject` and its all-instances variant: true exactly when `o` was
      registered. */
  function UnregisterMonitoredObject(mo: Monitoring, o: ObjectId, allInstances: bool): (r: (Monitoring, bool))
    ensures r.1 <==> o in mo.watchedObjects
    ensures !r.1 ==> r.0 == mo
    ensures r.1 && allInstances ==> r.0.watchedObjects == mo.watchedObjects - {o}
    ensures r.1 ==> (r.0.watchedObjects.Keys
      == if allInstances || mo.watchedObjects[o] <= 1 then mo.watchedObjects.Keys - {o}
         else mo.watchedObjects.Keys)
    ensures forall p :: p in mo.watchedObjects && p != o ==>
      p in r.0.watchedObjects && r.0.watchedObjects[p] == mo.watchedObjects[p]
  {
    if o !in mo.watchedObjects then (mo, false)
    else if allInstances then (mo.(watchedObjects := mo.watchedObjects - {o}), true)
    else (mo.(watchedObjects := Dec(mo.watchedObjects, o, false)), true)
  }

  /** Registering with an object and unregistering once restores the watcher's table. */
  lemma MonitoringRoundTrip(mo: Monitoring, o: ObjectId)
    requires Positive(mo.watchedObjects)
    ensures UnregisterMonitoredObject(RegisterMonitoredObject(mo, o).0, o, false) == (mo, true)
  {
    IncDecRoundTrip(mo.watchedObjects, o);
  }

  /** `getSnapShotOfWatchedObjects`. */
  method GetSnapShotOfWatchedObjects(mo: Monitoring) returns (r: seq<ObjectId>)
    ensures forall i, j :: 0 <= i < j < |r| ==> r[i] != r[j]
    ensures forall o :: o in r <==> o in mo.watchedObjects
  {
    r := Enumerate(mo.watchedObjects);
  }

  datatype Unsupported = UnsupportedOperation

  /** `monitoredObjectChanged`: forwarded to the forward object's watchers when there is one;
      otherwise the base class cannot handle it and throws. `forward` is the current state of
      the object the reference names; it is not consulted when there is none. */
  method MonitoredObjectChanged(mo: Monitoring, forward: Monitored, skipList: Wrappers.Option<seq<WatcherId>>)
    returns (r: Wrappers.Result<seq<WatcherId>, Unsupported>)
    requires mo.forwardObject.Some? ==> forward.self == mo.forwardObject.value
    ensures r.Failure? <==> mo.forwardObject.None?
    ensures r.Success? ==> forall w :: w in r.value <==>
      w in forward.watchers && !(skipList.Some? && w in skipList.value)
  {
    if mo.forwardObject.Some? {
      var recipients := NotifyWatchers(forward, skipList);
      return Wrappers.Success(recipients);
    }
    return Wrappers.Failure(UnsupportedOperation);
  }

  /** A watcher that registers with the forward object after the forwarding object was built
      is among those told of the next change: the forward object is held by reference. */
  method ForwardSeesLaterWatchers(objectId: string, self: WatcherId, forward: Monitored, w: WatcherId)
    returns (r: Wrappers.Result<seq<WatcherId>, Unsupported>)
    ensures r.Success? && w in r.value
  {
    var mo := NewMonitoring(objectId, self, Wrappers.None, Wrappers.Some(forward.self));
    var later := RegisterAsWatcher(forward, Wrappers.Some(w)).m;
    r := MonitoredObjectChanged(mo, later, Wrappers.None);
  }

  // ---------------------------------------------------------------------
  // Both sides together
  // ---------------------------------------------------------------------

  /** Whether a callback is a call on watcher `w`'s own table. */
  predicate AddressedTo(cb: Callback, w: WatcherId) {
    (cb.RegisterMonitored? || cb.UnregisterMonitored?) && cb.watcher == w
  }

  /** The watcher `self` carries out the calls addressed to it, in order; calls addressed to
      other watchers, and the registration watcher's notices, leave it as it was. */
  function Deliver(mo: Monitoring, self: WatcherId, cbs: seq<Callback>): (r: Monitoring)
    ensures (forall i :: 0 <= i < |cbs| ==> !AddressedTo(cbs[i], self)) ==> r == mo
    decreases |cbs|
  {
    if |cbs| == 0 then mo
    else
      var next := match cbs[0]
        case RegisterMonitored(x, o) =>
          if x == self then RegisterMonitoredObject(mo, o).0 else mo
        case UnregisterMonitored(x, o, all) =>
          if x == self then UnregisterMonitoredObject(mo, o, all).0 else mo
        case _ => mo;
      Deliver(next, self, cbs[1..])
  }

  lemma DeliverRegister(mo: Monitoring, x: WatcherId, o: ObjectId)
    ensures Deliver(mo, x, [RegisterMonitored(x, o)]) == RegisterMonitoredObject(mo, o).0
  {
    assert [RegisterMonitored(x, o)][1..] == [];
  }

  lemma DeliverUnregister(mo: Monitoring, x: WatcherId, o: ObjectId, all: bool)
    ensures Deliver(mo, x, [UnregisterMonitored(x, o, all)]) == UnregisterMonitoredObject(mo, o, all).0
  {
    assert [UnregisterMonitored(x, o, all)][1..] == [];
  }

  /** Registering a watcher and unregistering it again restores both the monitored object's
      watcher table and the watcher's own table of watched objects. */
  lemma WatchRoundTrip(m: Monitored, mo: Monitoring, x: WatcherId)
    requires Positive(m.watchers) && Positive(mo.watchedObjects)
    ensures var r1 := RegisterAsWatcher(m, Wrappers.Some(x));
      var r2 := UnregisterAsWatcher(r1.m, Wrappers.Some(x), false, true, true);
      r2.m == m && Deliver(Deliver(mo, x, r1.callbacks), x, r2.callbacks) == mo
  {
    var r1 := RegisterAsWatcher(m, Wrappers.Some(x));
    IncDecRoundTrip(m.watchers, x);
    var r2 := UnregisterAsWatcher(r1.m, Wrappers.Some(x), false, true, true);
    assert r2.m.watchers == m.watchers;
    var p := m.watchedProxy;
    DeliverRegister(mo, x, p);
    var mo1 := Deliver(mo, x, r1.callbacks);
    IncDecRoundTrip(mo.watchedObjects, p);
    DeliverUnregister(mo1, x, p, false);
  }

  /** The class as written: after the same register/unregister pair the monitored object has
      forgotten the watcher, but the watcher still counts one registration with the proxy. */
  lemma UnregisterLeavesWatcherCount(m: Monitored, mo: Monitoring, x: WatcherId)
    requires Positive(m.watchers) && Positive(mo.watchedObjects)
    ensures var r1 := RegisterAsWatcher(m, Wrappers.Some(x));
      var r2 := UnregisterAsWritten(r1.m, Wrappers.Some(x), false, true, true);
      var mo2 := Deliver(Deliver(mo, x, r1.callbacks), x, r2.callbacks);
      r2.m == m && m.watchedProxy in mo2.watchedObjects
      && CountOf(mo2.watchedObjects, m.watchedProxy) == CountOf(mo.watchedObjects, m.watchedProxy) + 1
  {
    var r1 := RegisterAsWatcher(m, Wrappers.Some(x));
    IncDecRoundTrip(m.watchers, x);
    var r2 := UnregisterAsWritten(r1.m, Wrappers.Some(x), false, true, true);
    assert r2.m.watchers == m.watchers;
    DeliverRegister(mo, x, m.watchedProxy);
    var mo1 := Deliver(mo, x, r1.callbacks);
    assert Deliver(mo1, x, r2.callbacks) == mo1;
  }
}

=== FILE: objectroundtrip.dfy ===
/** The round trip of every message class: a body read by a fresh instance
    of its class, and a tagged sub-object read back through the factory. */
module ObjectRoundTrip {
  import opened Wrappers
  import opened JavaTypes
  import opened Wire
  import opened Messages
  import opened Registry
  import opened Codec
  import opened CodecRoundTrip

  /** The factory's read of a tag naming an instantiable class. */
  lemma ReadObjectKnown(reg: Registry, a: Alloc, tag: Tag, s: Bytes)
    requires tag in reg.classMap && Instantiable(reg.classMap[tag])
    ensures ReadObject(reg, a, tag, s) ==
      match DecodeBody(reg, a, reg.classMap[tag], s)
      case Failure(e) => Failure(e)
      case Success(d) => Success(Decoded(Some(d.0), d.1, d.2, false))
  {
  }

  /** The round trip of one body, as `BodyRoundTrip` states it. */
  predicate BodyReadsBack(reg: Registry, a: Alloc, o: Obj, rest: Bytes) {
    Instantiable(ClassOf(o)) && Body(reg, o).Success? &&
    var r := DecodeBody(reg, a, ClassOf(o), Body(reg, o).value + rest);
    r.Success? && r.value.1 == rest && WireObj(r.value.0) == WireObj(o)
  }

  /** Every encodable object's body, read by a fresh instance of its class,
      gives back the object's wire image and consumes exactly the body. */
  lemma {:induction false} BodyRoundTrip(reg: Registry, a: Alloc, o: Obj, rest: Bytes)
    requires Encodable(reg, o)
    ensures Body(reg, o).Success?
    ensures var r := DecodeBody(reg, a, ClassOf(o), Body(reg, o).value + rest);
      r.Success? && r.value.1 == rest && WireObj(r.value.0) == WireObj(o)
    decreases o, 2
  {
    match o
    case ClientIdObj(id) => ClientIdBodyRoundTrip(reg, a, id, rest);
    case OptionObj(opt) => OptionBodyRoundTrip(reg, a, opt, rest);
    case ResponseObj(resp) => ResponseBodyRoundTrip(reg, a, resp, rest);
    case ChangedObj(x, y) => ChangedBodyRoundTrip(reg, a, x, y, rest);
    case DeleteObj(t) => DeleteBodyRoundTrip(reg, a, t, rest);
    case InfoObj(t) => InfoBodyRoundTrip(reg, a, t, rest);
    case RequestObj(rc, q) => RequestBodyRoundTrip(reg, a, rc, q, rest);
  }

  lemma ClientIdBodyRoundTrip(reg: Registry, a: Alloc, id: Int32, rest: Bytes)
    ensures BodyReadsBack(reg, a, ClientIdObj(id), rest)
  {
    ClientIdRoundTrip(a, id, rest);
    assert DecodeBody(reg, a, ClientIdCls, WriteInt(id) + rest) == Success(DecodeClientId(a, WriteInt(id) + rest));
  }

  lemma OptionBodyRoundTrip(reg: Registry, a: Alloc, opt: ReqOption, rest: Bytes)
    requires StrFits(opt.name)
    ensures BodyReadsBack(reg, a, OptionObj(opt), rest)
  {
    OptionObjRoundTrip(a, opt, rest);
    assert DecodeBody(reg, a, ReqOptionCls, OptionBody(opt) + rest) == Success(DecodeOption(a, OptionBody(opt) + rest));
  }

  lemma ResponseBodyRoundTrip(reg: Registry, a: Alloc, resp: Response, rest: Bytes)
    requires StrFits(resp.answerStr)
    ensures BodyReadsBack(reg, a, ResponseObj(resp), rest)
  {
    var s := ResponseBody(resp) + rest;
    assert Body(reg, ResponseObj(resp)) == Success(ResponseBody(resp));
    ResponseObjRoundTrip(a, resp, rest);
    assert DecodeBody(reg, a, ResponseCls, s) == Success(DecodeResponse(a, s));
  }

  lemma {:induction false} ChangedBodyRoundTrip(reg: Registry, a: Alloc, x: Option<Obj>, y: Option<Obj>, rest: Bytes)
    requires SubEncodable(reg, x) && SubEncodable(reg, y)
    ensures BodyReadsBack(reg, a, ChangedObj(x, y), rest)
    decreases ChangedObj(x, y), 1
  {
    ChangedRoundTrip(reg, a, x, y, rest);
    ChangedLayout(reg, x, y, rest);
    var s := Body(reg, ChangedObj(x, y)).value + rest;
    assert DecodeBody(reg, a, ObjChangedCls, s) == DecodeChanged(reg, a, s);
    var r := DecodeChanged(reg, a, s).value;
    assert WireObj(r.0) == ChangedObj(WireSub(r.0.original), WireSub(r.0.modified));
  }

  lemma {:induction false} DeleteBodyRoundTrip(reg: Registry, a: Alloc, t: Option<Obj>, rest: Bytes)
    requires SubEncodable(reg, t)
    ensures BodyReadsBack(reg, a, DeleteObj(t), rest)
    decreases DeleteObj(t), 1
  {
    DeleteRoundTrip(reg, a, t, rest);
    var s := Tagged(reg, t).value + rest;
    assert DecodeBody(reg, a, ObjDeleteCls, s) == DecodeDelete(reg, a, s);
    var r := DecodeDelete(reg, a, s).value;
    assert WireObj(r.0) == DeleteObj(WireSub(r.0.target));
  }

  lemma {:induction false} InfoBodyRoundTrip(reg: Registry, a: Alloc, t: Option<Obj>, rest: Bytes)
    requires SubEncodable(reg, t)
    ensures BodyReadsBack(reg, a, InfoObj(t), rest)
    decreases InfoObj(t), 1
  {
    InfoRoundTrip(reg, a, t, rest);
    var s := Tagged(reg, t).value + rest;
    assert DecodeBody(reg, a, ObjInfoCls, s) == DecodeInfo(reg, a, s);
    var r := DecodeInfo(reg, a, s).value;
    assert WireObj(r.0) == InfoObj(WireSub(r.0.target));
  }

  lemma RequestBodyRoundTrip(reg: Registry, a: Alloc, rc: ReqCls, q: SyncRequest, rest: Bytes)
    requires RequestEncodable(reg, q) && rc != SyncRequestBase
    ensures BodyReadsBack(reg, a, RequestObj(rc, q), rest)
  {
    RequestObjRoundTrip(reg, a, rc, q, rest);
    RequestBodyIsBody(reg, rc, q);
    var s := RequestBody(reg, q).value + rest;
    RequestClassDecodes(reg, a, rc, s);
    var r := DecodeRequestObj(reg, a, rc, s).value;
    assert WireObj(r.0) == RequestObj(rc, WireReq(r.0.req));
  }

  lemma RequestBodyIsBody(reg: Registry, rc: ReqCls, q: SyncRequest)
    requires rc != SyncRequestBase
    ensures Instantiable(RequestCls(rc)) && Body(reg, RequestObj(rc, q)) == RequestBody(reg, q)
  {
  }

  lemma RequestClassDecodes(reg: Registry, a: Alloc, rc: ReqCls, s: Bytes)
    requires rc != SyncRequestBase
    ensures Instantiable(RequestCls(rc))
    ensures DecodeBody(reg, a, RequestCls(rc), s) == DecodeRequestObj(reg, a, rc, s)
  {
  }

  lemma ClientIdRoundTrip(a: Alloc, id: Int32, rest: Bytes)
    ensures DecodeClientId(a, WriteInt(id) + rest) == (ClientIdObj(id), rest, a)
  {
    ReadIntOf(id, rest);
  }

  lemma OptionObjRoundTrip(a: Alloc, opt: ReqOption, rest: Bytes)
    requires StrFits(opt.name)
    ensures var r := DecodeOption(a, OptionBody(opt) + rest);
      r.1 == rest && r.0.OptionObj? && WireOpt(r.0.opt) == WireOpt(opt)
  {
    var (o0, a1) := NewOption(a, None, 0, false);
    OptionFieldsRoundTrip(o0, opt, rest);
  }

  lemma ResponseObjRoundTrip(a: Alloc, resp: Response, rest: Bytes)
    requires StrFits(resp.answerStr)
    ensures DecodeResponse(a, ResponseBody(resp) + rest) ==
      (ResponseObj(resp.(answerStr := WireStr(resp.answerStr))), rest, a)
  {
    ResponseFieldsRoundTrip(DEFAULT_RESPONSE, resp, rest);
  }

  /** `ObjectChanged` reads its two tagged sub-objects back in order. */
  lemma {:induction false} ChangedRoundTrip(reg: Registry, a: Alloc, x: Option<Obj>, y: Option<Obj>, rest: Bytes)
    requires SubEncodable(reg, x) && SubEncodable(reg, y)
    ensures Tagged(reg, x).Success? && Tagged(reg, y).Success?
    ensures var r := DecodeChanged(reg, a, Tagged(reg, x).value + (Tagged(reg, y).value + rest));
      r.Success? && r.value.1 == rest && r.value.0.ChangedObj? &&
      WireSub(r.value.0.original) == WireSub(x) && WireSub(r.value.0.modified) == WireSub(y)
    decreases ChangedObj(x, y), 0
  {
    TaggedRoundTrip(reg, a, y, rest);
    TaggedRoundTrip(reg, a, x, Tagged(reg, y).value + rest);
    var d1 := ReadTaggedIn(reg, a, Tagged(reg, x).value + (Tagged(reg, y).value + rest)).value.value;
    TaggedRoundTrip(reg, d1.alloc, y, rest);
  }

  /** `ObjectDelete` reads its tagged sub-object back. */
  lemma {:induction false} DeleteRoundTrip(reg: Registry, a: Alloc, t: Option<Obj>, rest: Bytes)
    requires SubEncodable(reg, t)
    ensures Tagged(reg, t).Success?
    ensures var r := DecodeDelete(reg, a, Tagged(reg, t).value + rest);
      r.Success? && r.value.1 == rest && r.value.0.DeleteObj? && WireSub(r.value.0.target) == WireSub(t)
    decreases DeleteObj(t), 0
  {
    TaggedRoundTrip(reg, a, t, rest);
  }

  /** `ObjectInfo` reads its tagged sub-object back. */
  lemma {:induction false} InfoRoundTrip(reg: Registry, a: Alloc, t: Option<Obj>, rest: Bytes)
    requires SubEncodable(reg, t)
    ensures Tagged(reg, t).Success?
    ensures var r := DecodeInfo(reg, a, Tagged(reg, t).value + rest);
      r.Success? && r.value.1 == rest && r.value.0.InfoObj? && WireSub(r.value.0.target) == WireSub(t)
    decreases InfoObj(t), 0
  {
    TaggedRoundTrip(reg, a, t, rest);
  }

  /** A `SyncRequest` subclass reads its body into a fresh instance. */
  lemma RequestObjRoundTrip(reg: Registry, a: Alloc, rc: ReqCls, q: SyncRequest, rest: Bytes)
    requires RequestEncodable(reg, q)
    ensures RequestBody(reg, q).Success?
    ensures var r := DecodeRequestObj(reg, a, rc, RequestBody(reg, q).value + rest);
      r.Success? && r.value.1 == rest && r.value.0.RequestObj? && r.value.0.rc == rc &&
      WireReq(r.value.0.req) == WireReq(q)
  {
    var (q0, a1) := NewSyncRequest(a);
    RequestRoundTrip(reg, a1, q0, q, rest);
  }

  /** A present sub-object of a class whose tag names it reads back, through
      the factory, as its wire image. */
  lemma {:induction false} TaggedRoundTrip(reg: Registry, a: Alloc, x: Option<Obj>, rest: Bytes)
    requires SubEncodable(reg, x)
    ensures Tagged(reg, x).Success?
    ensures var r := ReadTaggedIn(reg, a, Tagged(reg, x).value + rest);
      r.Some? && r.value.Success? && r.value.value.rest == rest && WireSub(r.value.value.obj) == WireSub(x)
    decreases x, 3
  {
    var v := x.value;
    var tag := reg.keyMap[ClassOf(v)];
    BodyRoundTrip(reg, a, v, rest);
    TaggedLayout(reg, v, rest);
    var body := Body(reg, v).value;
    TaggedInStep(reg, a, tag, body + rest);
    ReadObjectKnown(reg, a, tag, body + rest);
  }
}

=== FILE: registry.dfy ===
/** `SerializableFactory`: the two-way table between six-character tags and
    classes, the superclass walk that finds the tag an object is sent under,
    and the static table set up at class-load time. Both source trees hold
    the same factory; only the field names differ. */
module Registry {
  import opened Wrappers
  import opened JavaTypes
  import opened Messages

  type Tag = string

  /** `classMap` maps a tag to its class, `keyMap` a class to its tag. */
  datatype Registry = Registry(classMap: map<Tag, Cls>, keyMap: map<Cls, Tag>)

  const EMPTY: Registry := Registry(map[], map[])

  /** The two maps are mutually inverse. */
  ghost predicate Bijective(reg: Registry) {
    (forall t :: t in reg.classMap ==> reg.classMap[t] in reg.keyMap && reg.keyMap[reg.classMap[t]] == t) &&
    (forall c :: c in reg.keyMap ==> reg.keyMap[c] in reg.classMap && reg.classMap[reg.keyMap[c]] == c)
  }

  /** `registerClass(key, cls)`. The class is first instantiated once (which,
      for a `SyncRequest` subclass, takes a key from the counter); a failed
      instantiation or a tag or class already in use only raises a
      DebugBreak. Both maps are overwritten in every case. Returns the new
      tables, the allocator, and whether a DebugBreak was raised. */
  function RegisterClass(reg: Registry, a: Alloc, key: Tag, cls: Cls): (r: (Registry, Alloc, bool))
    ensures r.0.classMap == reg.classMap[key := cls] && r.0.keyMap == reg.keyMap[cls := key]
    ensures r.2 <==> !Instantiable(cls) || key in reg.classMap || cls in reg.keyMap
    ensures cls.RequestCls? && Instantiable(cls) ==> r.1 == NewSyncRequest(a).1
    ensures !cls.RequestCls? ==> r.1 == a
  {
    var a' := if cls.RequestCls? && Instantiable(cls) then NewSyncRequest(a).1 else a;
    var debugBreak := !Instantiable(cls) || key in reg.classMap || cls in reg.keyMap;
    (Registry(reg.classMap[key := cls], reg.keyMap[cls := key]), a', debugBreak)
  }

  /** Registering an unused tag for an unregistered class keeps the tables
      mutually inverse. */
  lemma RegisterFreshKeepsBijective(reg: Registry, a: Alloc, key: Tag, cls: Cls)
    requires Bijective(reg) && key !in reg.classMap && cls !in reg.keyMap
    ensures Bijective(RegisterClass(reg, a, key, cls).0)
  {
  }

  /** A tag registered a second time for another class is taken over by the
      new class, while the prev class keeps sending that tag: its objects are
      then decoded as the new class. */
  lemma ReusedTagMisroutes(reg: Registry, a: Alloc, key: Tag, prev: Cls, cls: Cls)
    requires Bijective(reg) && key in reg.classMap && reg.classMap[key] == prev && prev != cls
    ensures var (reg', _, debugBreak) := RegisterClass(reg, a, key, cls);
      debugBreak && prev in reg'.keyMap && reg'.keyMap[prev] == key && reg'.classMap[key] == cls
      && !Bijective(reg')
  {
    var reg' := RegisterClass(reg, a, key, cls).0;
    assert reg'.keyMap[prev] == key && reg'.classMap[key] == cls;
  }

  /** The classes of the static table, in registration order. */
  const STANDARD_TAGS: seq<(Tag, Cls)> := [
    ("ClinID", ClientIdCls),
    ("ObjChg", ObjChangedCls),
    ("ObjDel", ObjDeleteCls),
    ("ObjInf", ObjInfoCls),
    ("ReqOpt", ReqOptionCls),
    ("Respns", ResponseCls)]

  /** Registers each (tag, class) pair in turn, as the static initialiser
      does. Returns the tables, the allocator and whether any DebugBreak was
      raised. */
  function RegisterAll(reg: Registry, a: Alloc, tags: seq<(Tag, Cls)>): (r: (Registry, Alloc, bool))
    decreases |tags|
  {
    if |tags| == 0 then (reg, a, false)
    else
      var (r1, a1, b1) := RegisterClass(reg, a, tags[0].0, tags[0].1);
      var (r2, a2, b2) := RegisterAll(r1, a1, tags[1..]);
      (r2, a2, b1 || b2)
  }

  /** No tag and no class occurs twice in a table. */
  predicate Distinct(tags: seq<(Tag, Cls)>) {
    forall i, j :: 0 <= i < j < |tags| ==> tags[i].0 != tags[j].0 && tags[i].1 != tags[j].1
  }

  /** Registering tags that are distinct and unused, for classes that are
      distinct, unregistered and not requests, raises no DebugBreak, leaves
      the allocator alone and adds exactly those pairs. */
  lemma {:induction false} RegisterAllFresh(reg: Registry, a: Alloc, tags: seq<(Tag, Cls)>)
    requires Distinct(tags)
    requires forall i :: 0 <= i < |tags| ==>
      tags[i].0 !in reg.classMap && tags[i].1 !in reg.keyMap && !tags[i].1.RequestCls?
    ensures var (r, a', debugBreak) := RegisterAll(reg, a, tags);
      !debugBreak && a' == a &&
      (forall i :: 0 <= i < |tags| ==>
        tags[i].0 in r.classMap && r.classMap[tags[i].0] == tags[i].1 &&
        tags[i].1 in r.keyMap && r.keyMap[tags[i].1] == tags[i].0)
    decreases |tags|
  {
    if |tags| > 0 {
      var (r1, a1, b1) := RegisterClass(reg, a, tags[0].0, tags[0].1);
      var tl := tags[1..];
      assert forall i :: 0 <= i < |tl| ==> tl[i] == tags[i + 1];
      RegisterAllFresh(r1, a1, tl);
      var r := RegisterAll(reg, a, tags).0;
      assert r == RegisterAll(r1, a1, tl).0;
      forall i | 0 <= i < |tags|
        ensures tags[i].0 in r.classMap && r.classMap[tags[i].0] == tags[i].1 &&
        tags[i].1 in r.keyMap && r.keyMap[tags[i].1] == tags[i].0
      {
        if i > 0 {
          assert tags[i] == tl[i - 1];
        } else {
          assert forall k :: 0 <= k < |tl| ==> tl[k].0 != tags[0].0 && tl[k].1 != tags[0].1;
          RegisterAllKeeps(r1, a1, tl, tags[0].0, tags[0].1);
        }
      }
    }
  }

  /** A pair whose tag and class are not among those registered later stays
      registered. */
  lemma {:induction false} RegisterAllKeeps(reg: Registry, a: Alloc, tags: seq<(Tag, Cls)>, t: Tag, c: Cls)
    requires t in reg.classMap && reg.classMap[t] == c && c in reg.keyMap && reg.keyMap[c] == t
    requires forall k :: 0 <= k < |tags| ==> tags[k].0 != t && tags[k].1 != c
    ensures var r := RegisterAll(reg, a, tags).0;
      t in r.classMap && r.classMap[t] == c && c in r.keyMap && r.keyMap[c] == t
    decreases |tags|
  {
    if |tags| > 0 {
      var (r1, a1, b1) := RegisterClass(reg, a, tags[0].0, tags[0].1);
      var tl := tags[1..];
      assert forall k :: 0 <= k < |tl| ==> tl[k] == tags[k + 1];
      RegisterAllKeeps(r1, a1, tl, t, c);
    }
  }

  /** A tag registered by `RegisterAll` that was not registered before
      comes from the table. */
  lemma {:induction false} RegisterAllTagOrigin(reg: Registry, a: Alloc, tags: seq<(Tag, Cls)>, t: Tag) returns (i: nat)
    requires t in RegisterAll(reg, a, tags).0.classMap && t !in reg.classMap
    ensures i < |tags| && tags[i].0 == t
    decreases |tags|
  {
    var (r1, a1, b1) := RegisterClass(reg, a, tags[0].0, tags[0].1);
    if t == tags[0].0 {
      i := 0;
    } else {
      var k := RegisterAllTagOrigin(r1, a1, tags[1..], t);
      i := k + 1;
    }
  }

  /** A class registered by `RegisterAll` that was not registered before
      comes from the table. */
  lemma {:induction false} RegisterAllClassOrigin(reg: Registry, a: Alloc, tags: seq<(Tag, Cls)>, c: Cls) returns (i: nat)
    requires c in RegisterAll(reg, a, tags).0.keyMap && c !in reg.keyMap
    ensures i < |tags| && tags[i].1 == c
    decreases |tags|
  {
    var (r1, a1, b1) := RegisterClass(reg, a, tags[0].0, tags[0].1);
    if c == tags[0].1 {
      i := 0;
    } else {
      var k := RegisterAllClassOrigin(r1, a1, tags[1..], c);
      i := k + 1;
    }
  }


  lemma StandardTagsDistinct()
    ensures Distinct(STANDARD_TAGS)
  {
    assert "ClinID"[0] == 'C' && "ObjChg"[0] == 'O' && "ReqOpt"[0] == 'R';
    assert "ReqOpt"[2] == 'q' && "Respns"[2] == 's';
    assert "ObjChg"[3] == 'C' && "ObjDel"[3] == 'D' && "ObjInf"[3] == 'I';
  }

  /** The table's tags are six Latin-1 characters and its classes are the
      six non-request classes. */
  lemma StandardTagsShape()
    ensures forall i :: 0 <= i < |STANDARD_TAGS| ==>
      IsLatin1(STANDARD_TAGS[i].0) && |STANDARD_TAGS[i].0| == 6 && !STANDARD_TAGS[i].1.RequestCls?
  {
  }

  /** Where a non-request class sits in the table. */
  lemma StandardIndex(c: Cls) returns (i: nat)
    requires !c.RequestCls?
    ensures i < |STANDARD_TAGS| && STANDARD_TAGS[i].1 == c
  {
    i := match c
      case ClientIdCls => 0 case ObjChangedCls => 1 case ObjDeleteCls => 2
      case ObjInfoCls => 3 case ReqOptionCls => 4 case ResponseCls => 5;
  }

  /** Registering the six-tag table into empty tables raises no DebugBreak,
      leaves the key counter alone, and maps exactly the six tags to their
      classes and back. */
  lemma InitContents()
    ensures var (r, a, b) := RegisterAll(EMPTY, INITIAL_ALLOC, STANDARD_TAGS);
      !b && a == INITIAL_ALLOC && StandardTables(r)
  {
    StandardTagsDistinct();
    StandardTagsShape();
    RegisterAllFresh(EMPTY, INITIAL_ALLOC, STANDARD_TAGS);
    var r := RegisterAll(EMPTY, INITIAL_ALLOC, STANDARD_TAGS).0;
    forall t | t in r.classMap ensures exists i :: 0 <= i < |STANDARD_TAGS| && STANDARD_TAGS[i].0 == t {
      var i := RegisterAllTagOrigin(EMPTY, INITIAL_ALLOC, STANDARD_TAGS, t);
    }
    forall c ensures c in r.keyMap <==> !c.RequestCls? {
      if c in r.keyMap {
        var i := RegisterAllClassOrigin(EMPTY, INITIAL_ALLOC, STANDARD_TAGS, c);
      } else if !c.RequestCls? {
        var i := StandardIndex(c);
      }
    }
  }

  /** The tables hold exactly the six-tag table, in both directions. */
  ghost predicate StandardTables(r: Registry) {
    (forall i :: 0 <= i < |STANDARD_TAGS| ==>
      STANDARD_TAGS[i].0 in r.classMap && r.classMap[STANDARD_TAGS[i].0] == STANDARD_TAGS[i].1 &&
      STANDARD_TAGS[i].1 in r.keyMap && r.keyMap[STANDARD_TAGS[i].1] == STANDARD_TAGS[i].0)
    && (forall t :: t in r.classMap ==> exists i :: 0 <= i < |STANDARD_TAGS| && STANDARD_TAGS[i].0 == t)
    && (forall c :: c in r.keyMap <==> !c.RequestCls?)
  }

  /** The factory's static initialiser: it raises no DebugBreak, leaves the
      key counter at its class-load value, and maps exactly the six tags to
      their classes and back. */
  function StaticInit(): (r: (Registry, Alloc, bool))
    ensures !r.2 && r.1 == INITIAL_ALLOC
    ensures StandardTables(r.0)
  {
    InitContents();
    RegisterAll(EMPTY, INITIAL_ALLOC, STANDARD_TAGS)
  }

  /** The tables after the factory's static initialiser. */
  function StandardRegistry(): (r: Registry)
    ensures StandardTables(r)
  {
    StaticInit().0
  }

  lemma StandardRegistryBijective()
    ensures Bijective(StandardRegistry())
  {
    var r := StandardRegistry();
    forall t | t in r.classMap ensures r.classMap[t] in r.keyMap && r.keyMap[r.classMap[t]] == t {
      var i :| 0 <= i < |STANDARD_TAGS| && STANDARD_TAGS[i].0 == t;
    }
    forall c | c in r.keyMap ensures r.keyMap[c] in r.classMap && r.classMap[r.keyMap[c]] == c {
      var i := StandardIndex(c);
    }
  }

  // ---------------------------------------------------------------------
  // getKey: the superclass walk
  // ---------------------------------------------------------------------

  function ReqDepth(rc: ReqCls): nat {
    match rc
    case SyncRequestBase => 0
    case Sub(_, p) => 1 + ReqDepth(p)
  }

  function Depth(c: Cls): nat {
    if c.RequestCls? then ReqDepth(c.rc) else 0
  }

  /** The class, then its superclasses up to (not including)
      `SerializableObject`. */
  function Ancestors(c: Cls): (s: seq<Cls>)
    ensures |s| >= 1 && s[0] == c
    decreases Depth(c)
  {
    match Superclass(c)
    case None => [c]
    case Some(p) => [c] + Ancestors(p)
  }

  /** `getKey`: the tag of the class itself if it has one, else that of the
      nearest superclass that has one; `None` is the
      `UnsupportedOperationException` thrown once the walk reaches
      `SerializableObject`. */
  function GetKey(reg: Registry, c: Cls): (r: Option<Tag>)
    ensures c in reg.keyMap ==> r == Some(reg.keyMap[c])
    decreases Depth(c)
  {
    if c in reg.keyMap then Some(reg.keyMap[c])
    else match Superclass(c)
      case None => None
      case Some(p) => GetKey(reg, p)
  }

  /** `GetKey` finds the first registered class on the ancestor chain, and
      fails exactly when no class on the chain is registered. */
  lemma {:induction false} GetKeyNearestAncestor(reg: Registry, c: Cls)
    ensures GetKey(reg, c).None? <==> forall i :: 0 <= i < |Ancestors(c)| ==> Ancestors(c)[i] !in reg.keyMap
    ensures GetKey(reg, c).Some? ==>
      exists i :: 0 <= i < |Ancestors(c)| && Ancestors(c)[i] in reg.keyMap &&
        GetKey(reg, c).value == reg.keyMap[Ancestors(c)[i]] &&
        forall j :: 0 <= j < i ==> Ancestors(c)[j] !in reg.keyMap
    decreases Depth(c)
  {
    var anc := Ancestors(c);
    if c in reg.keyMap {
      assert anc[0] == c;
    } else {
      match Superclass(c)
      case None =>
        assert anc == [c];
      case Some(p) =>
        GetKeyNearestAncestor(reg, p);
        var pa := Ancestors(p);
        assert anc == [c] + pa;
        assert forall i :: 1 <= i < |anc| ==> anc[i] == pa[i - 1];
        if GetKey(reg, p).Some? {
          var k :| 0 <= k < |pa| && pa[k] in reg.keyMap &&
            GetKey(reg, p).value == reg.keyMap[pa[k]] &&
            forall j :: 0 <= j < k ==> pa[j] !in reg.keyMap;
          assert anc[k + 1] == pa[k];
          assert GetKey(reg, c) == GetKey(reg, p);
          assert forall j :: 0 <= j < k + 1 ==> anc[j] !in reg.keyMap by {
            forall j | 0 <= j < k + 1 ensures anc[j] !in reg.keyMap {
              if j > 0 {
                assert anc[j] == pa[j - 1];
              }
            }
          }
          assert anc[k + 1] in reg.keyMap && GetKey(reg, c).value == reg.keyMap[anc[k + 1]];
        } else {
          assert GetKey(reg, p).None?;
          assert forall i :: 0 <= i < |Ancestors(p)| ==> Ancestors(p)[i] !in reg.keyMap;
          forall i | 0 <= i < |anc| ensures anc[i] !in reg.keyMap {
            if i > 0 {
              assert anc[i] == pa[i - 1];
            }
          }
        }
    }
  }

  /** With no request class registered, `getKey` of any request class
      walks up to `SerializableObject` and throws. */
  lemma {:induction false} NoRequestTag(reg: Registry, rc: ReqCls)
    requires forall c :: c in reg.keyMap ==> !c.RequestCls?
    ensures GetKey(reg, RequestCls(rc)).None?
    decreases ReqDepth(rc)
  {
    if rc.Sub? {
      NoRequestTag(reg, rc.parent);
    }
  }

  /** In the standard table no `SyncRequest` class has a tag, so sending one
      fails until the application registers its request classes. */
  lemma StandardRegistryHasNoRequests(rc: ReqCls)
    ensures GetKey(StandardRegistry(), RequestCls(rc)).None?
  {
    NoRequestTag(StandardRegistry(), rc);
  }

  /** `getKey` then `classMap` gives back the very class only when the class
      itself is registered under a tag that still names it. */
  predicate TagRoundTrips(reg: Registry, c: Cls) {
    c in reg.keyMap && reg.keyMap[c] in reg.classMap && reg.classMap[reg.keyMap[c]] == c
    && IsLatin1(reg.keyMap[c]) && |reg.keyMap[c]| <= MAX_SHORT && Instantiable(c)
  }

  lemma StandardTagsRoundTrip(c: Cls)
    requires !c.RequestCls?
    ensures TagRoundTrips(StandardRegistry(), c)
  {
    StandardTagsShape();
    var i := StandardIndex(c);
    var (t, _) := STANDARD_TAGS[i];
    var r := StandardRegistry();
    assert t in r.classMap && r.classMap[t] == c && c in r.keyMap && r.keyMap[c] == t;
  }
}

=== FILE: semaphore.dfy ===
/** `Semaphore`: a reentrant lock that also keeps, per thread, the stack of
    semaphores it holds, and reports lock-order violations (a possible
    deadlock) once per distinct call stack.

    Threads appear only as identities passed to each call. Blocking in `lock`
    is replaced by the precondition that the semaphore is free or already
    owned by the caller. A report is the call stack it would print, reduced
    to frames; the caller's part of that stack is a parameter. */
module Semaphores {
  import opened Wrappers
  import opened JavaTypes

  type SemId = nat
  type ThreadId = nat

  /** One line of a printed stack trace: method and source line. */
  datatype Frame = Frame(member: string, line: nat)

  /** The call stack of a report, innermost frame first, as left after the
      exception line and the reporting method's own frame are removed. */
  type Signature = seq<Frame>

  /** The per-object state of a semaphore. */
  datatype Sem = Sem(
    name: string,
    order: int,
    peerParent: Option<SemId>,
    lockCount: int,
    waitCount: int,
    trackCount: int,
    owner: Option<ThreadId>)

  /** All semaphores, the per-thread stacks of tracked semaphores (the
      static `THREAD_HASH`) and the signatures reported so far. */
  datatype World = World(
    sems: map<SemId, Sem>,
    stacks: map<ThreadId, seq<SemId>>,
    reported: seq<Signature>)

  datatype Fault = NullPointer | IllegalState

  // ---------------------------------------------------------------------
  // Orders and construction
  // ---------------------------------------------------------------------

  /** `DependsOn(d1, ..., dn)`: one more than the largest order depended on. */
  function DependsOn(ds: seq<int>): (r: int)
    requires 1 <= |ds|
    ensures forall i :: 0 <= i < |ds| ==> ds[i] < r
    ensures exists i :: 0 <= i < |ds| && r == ds[i] + 1
  {
    if |ds| == 1 then ds[0] + 1
    else
      var m := DependsOn(ds[..|ds| - 1]);
      assert forall i :: 0 <= i < |ds| - 1 ==> ds[..|ds| - 1][i] == ds[i];
      if m < ds[|ds| - 1] + 1 then ds[|ds| - 1] + 1 else m
  }

  /** The order shared by every `CLASS_*` constant. */
  const CLASS_ORDER: int := DependsOn([0])

  lemma ClassOrderIsOne()
    ensures CLASS_ORDER == 1
  {
    assert [0][0] == 0;
  }

  /** The constructor: the name carries the order in brackets. */
  function NewSemaphore(name: string, order: int): (m: Sem)
    ensures m.order == order && m.peerParent.None? && m.owner.None?
    ensures m.lockCount == 0 && m.waitCount == 0 && m.trackCount == 0
    ensures |name| + 2 <= |m.name| && m.name[..|name|] == name
  {
    Sem(name + "[" + IntToString(order) + "]", order, None, 0, 0, 0, None)
  }

  /** The bracketed part of the name reads back as the order. */
  lemma NameShowsOrder(name: string, order: int)
    ensures var n := NewSemaphore(name, order).name;
      && n[|name|] == '[' && n[|n| - 1] == ']'
      && IsDecimalText(n[|name| + 1..|n| - 1])
      && ParseInt(n[|name| + 1..|n| - 1]) == order
  {
    var n := NewSemaphore(name, order).name;
    assert n[|name| + 1..|n| - 1] == IntToString(order);
    IntToStringRoundTrip(order);
  }

  /** `setPeerLockAuthorityParent`. */
  function SetPeerParent(w: World, s: SemId, parent: Option<SemId>): (r: World)
    requires s in w.sems
    ensures r.sems.Keys == w.sems.Keys && r.stacks == w.stacks && r.reported == w.reported
    ensures r.sems[s] == w.sems[s].(peerParent := parent)
    ensures forall id :: id in w.sems && id != s ==> r.sems[id] == w.sems[id]
  {
    w.(sems := w.sems[s := w.sems[s].(peerParent := parent)])
  }

  // ---------------------------------------------------------------------
  // Reports
  // ---------------------------------------------------------------------

  ghost predicate Distinct(rs: seq<Signature>) {
    forall i, j :: 0 <= i < j < |rs| ==> rs[i] != rs[j]
  }

  /** Reports are only ever appended, and never twice the same. */
  ghost predicate ReportsGrow(w: World, r: World) {
    && w.reported <= r.reported
    && (Distinct(w.reported) ==> Distinct(r.reported))
  }

  /** `ReportPossibleDeadlockCondition`: a signature already on record is
      silent; a new one is recorded (and written out). */
  function Report(w: World, sig: Signature): (r: World)
    ensures r.sems == w.sems && r.stacks == w.stacks
    ensures ReportsGrow(w, r)
    ensures sig in r.reported
    ensures |r.reported| == |w.reported| + (if sig in w.reported then 0 else 1)
  {
    if sig in w.reported then w else w.(reported := w.reported + [sig])
  }

  /** A second identical report is silent. */
  lemma ReportOnce(w: World, sig: Signature)
    ensures Report(Report(w, sig), sig) == Report(w, sig)
  {
  }

  /** `getCallStack` strips the first line twice from a printed trace. */
  function RemoveFirstLine(source: string): (r: string)
    ensures '\n' !in source ==> r == source
    ensures '\n' in source ==> |r| < |source| && r == source[|source| - |r|..]
    ensures '\n' in source ==> source[|source| - |r| - 1] == '\n' && '\n' !in source[..|source| - |r| - 1]
  {
    var i := IndexOfChar(source, '\n');
    if i < 0 then source else source[i + 1..]
  }

  /** What `getCallStack` keeps of a trace: everything after the exception
      line and the reporting frame. */
  lemma CallStackDropsTwoLines(header: string, reporter: string, rest: string)
    requires '\n' !in header && '\n' !in reporter
    ensures RemoveFirstLine(RemoveFirstLine(header + "\n" + reporter + "\n" + rest)) == rest
  {
    RemoveFirstLineOf(header, reporter + "\n" + rest);
    assert header + "\n" + reporter + "\n" + rest == header + "\n" + (reporter + "\n" + rest);
    RemoveFirstLineOf(reporter, rest);
  }

  lemma RemoveFirstLineOf(line: string, rest: string)
    requires '\n' !in line
    ensures RemoveFirstLine(line + "\n" + rest) == rest
  {
    var s := line + "\n" + rest;
    assert s[|line|] == '\n';
    assert s[..|line|] == line;
    assert '\n' in s;
    var r := RemoveFirstLine(s);
    var k := |s| - |r| - 1;
    assert s[k] == '\n' && '\n' !in s[..k];
  }

  // ---------------------------------------------------------------------
  // Frame invariants shared by the operations
  // ---------------------------------------------------------------------

  /** Every semaphore on a thread's stack exists. */
  ghost predicate Closed(w: World) {
    forall t, id :: t in w.stacks && id in w.stacks[t] ==> id in w.sems
  }

  /** Only track counts may differ between `w` and `r`. */
  ghost predicate OnlyTrackCounts(w: World, r: World) {
    && r.sems.Keys == w.sems.Keys
    && forall id :: id in w.sems ==> r.sems[id] == w.sems[id].(trackCount := r.sems[id].trackCount)
  }

  /** Thread `t`'s stack may lose entries; other stacks are untouched. */
  ghost predicate StackShrinks(w: World, r: World, t: ThreadId) {
    && r.stacks.Keys == w.stacks.Keys
    && (forall u :: u in w.stacks && u != t ==> r.stacks[u] == w.stacks[u])
    && (t in w.stacks ==> forall id :: id in r.stacks[t] ==> id in w.stacks[t])
  }

  /** `Vector.lastIndexOf`: the last index holding `x`, or -1. */
  function LastIndexOf(st: seq<SemId>, x: SemId): (i: int)
    ensures -1 <= i < |st|
    ensures i == -1 <==> x !in st
    ensures 0 <= i ==> st[i] == x && forall j :: i < j < |st| ==> st[j] != x
  {
    if |st| == 0 then -1
    else if st[|st| - 1] == x then |st| - 1
    else LastIndexOf(st[..|st| - 1], x)
  }

  /** `Vector.removeElementAt`. */
  function RemoveAt(st: seq<SemId>, i: nat): (r: seq<SemId>)
    requires i < |st|
    ensures |r| == |st| - 1
    ensures forall id :: id in r ==> id in st
    ensures i == |st| - 1 ==> r == st[..i]
  {
    st[..i] + st[i + 1..]
  }

  // ---------------------------------------------------------------------
  // track / untrack
  // ---------------------------------------------------------------------

  /** The part of `untrack` that runs once the count has dropped to zero or
      below and the thread has a stack: the top entry is popped, a buried
      entry is cut out with a reverse-order report, and an absent one is
      reported (count zero) or has its negative count reset. */
  function UntrackStack(w: World, s: SemId, t: ThreadId, ctx: Signature): (r: World)
    requires s in w.sems && t in w.stacks
    ensures OnlyTrackCounts(w, r) && StackShrinks(w, r, t) && ReportsGrow(w, r)
    ensures forall id :: id in w.sems && id != s ==> r.sems[id] == w.sems[id]
  {
    var st := w.stacks[t];
    var m := w.sems[s];
    if |st| > 0 && st[|st| - 1] == s then
      w.(stacks := w.stacks[t := RemoveAt(st, |st| - 1)])
    else
      var i := LastIndexOf(st, s);
      if i != -1 then
        var w1 := Report(w, [Frame("untrack", 263)] + ctx);
        w1.(stacks := w1.stacks[t := RemoveAt(st, i)])
      else if m.trackCount >= 0 then
        Report(w, [Frame("untrack", 277)] + ctx)
      else
        w.(sems := w.sems[s := m.(trackCount := 0)])
  }

  /** The rest of `untrack` once the count is no longer positive: the
      stack update, then the report of a count still below zero. */
  function Released(w: World, s: SemId, t: ThreadId, ctx: Signature): (r: World)
    requires s in w.sems
    ensures OnlyTrackCounts(w, r) && StackShrinks(w, r, t) && ReportsGrow(w, r)
    ensures forall id :: id in w.sems && id != s ==> r.sems[id] == w.sems[id]
  {
    var w2 := if t in w.stacks then UntrackStack(w, s, t, ctx) else w;
    if w2.sems[s].trackCount < 0 then Report(w2, [Frame("untrack", 290)] + ctx) else w2
  }

  /** `untrack`. */
  function Untrack(w: World, s: SemId, t: ThreadId, ctx: Signature): (r: World)
    requires s in w.sems
    ensures OnlyTrackCounts(w, r) && StackShrinks(w, r, t) && ReportsGrow(w, r)
    ensures forall id :: id in w.sems && id != s ==> r.sems[id] == w.sems[id]
    ensures Closed(w) ==> Closed(r)
  {
    var m := w.sems[s];
    var tc := m.trackCount - 1;
    var w1 := w.(sems := w.sems[s := m.(trackCount := tc)]);
    if tc > 0 then w1 else Released(w1, s, t, ctx)
  }

  /** The top of a thread's stack exists (so its order can be read). */
  ghost predicate TopKnown(w: World, st: seq<SemId>) {
    |st| > 0 ==> st[|st| - 1] in w.sems
  }

  /** The order rule, stated on its own: locking `s` while `st` is held is
      a violation when the most recently tracked semaphore has an order no
      higher than `s`, unless both have the same order and the same peer
      parent, and that parent is itself held. */
  predicate OrderViolation(w: World, s: SemId, st: seq<SemId>)
    requires s in w.sems && TopKnown(w, st)
  {
    && |st| > 0
    && var top := w.sems[st[|st| - 1]];
    && var me := w.sems[s];
    && top.order <= me.order
    && !(&& top.order == me.order
         && me.peerParent.Some?
         && top.peerParent == me.peerParent
         && me.peerParent.value in st)
  }

  /** `checkForOrderViolation`: reports a violation and, when asked to,
      untracks the offending top entry; the flag says whether one was found. */
  function CheckOrder(w: World, s: SemId, t: ThreadId, unlockLocked: bool, ctx: Signature): (r: (World, bool))
    requires s in w.sems && t in w.stacks && TopKnown(w, w.stacks[t])
    ensures r.1 == OrderViolation(w, s, w.stacks[t])
    ensures !r.1 ==> r.0 == w
    ensures r.1 ==> [Frame("checkForOrderViolation", 350)] + ctx in r.0.reported
    ensures !unlockLocked ==> r.0 == if r.1 then Report(w, [Frame("checkForOrderViolation", 350)] + ctx) else w
    ensures OnlyTrackCounts(w, r.0) && StackShrinks(w, r.0, t) && ReportsGrow(w, r.0)
    ensures Closed(w) ==> Closed(r.0)
  {
    var st := w.stacks[t];
    if |st| == 0 then (w, false)
    else
      var low := st[|st| - 1];
      var lowest := w.sems[low];
      var me := w.sems[s];
      if lowest.order <= me.order then
        var possible :=
          if lowest.order == me.order && me.peerParent.Some?
             && lowest.peerParent == me.peerParent && me.peerParent.value in st
          then false
          else true;
        if possible then
          var w1 := Report(w, [Frame("checkForOrderViolation", 350)] + ctx);
          if unlockLocked then
            var w2 := Untrack(w1, low, t, [Frame("checkForOrderViolation", 359)] + ctx);
            assert [Frame("checkForOrderViolation", 350)] + ctx in w2.reported by {
              assert w1.reported <= w2.reported;
            }
            (w2, true)
          else (w1, true)
        else (w, false)
      else (w, false)
  }

  /** The first `track` on a thread that has a stack: the order check
      (which may untrack the top entry), then the push. */
  function PushChecked(w: World, s: SemId, t: ThreadId, ctx: Signature): (r: World)
    requires s in w.sems && Closed(w) && t in w.stacks
    ensures OnlyTrackCounts(w, r) && ReportsGrow(w, r) && Closed(r)
    ensures r.stacks.Keys == w.stacks.Keys
    ensures forall u :: u in w.stacks && u != t ==> r.stacks[u] == w.stacks[u]
  {
    var w2 := CheckOrder(w, s, t, true, [Frame("track", 220)] + ctx).0;
    w2.(stacks := w2.stacks[t := w2.stacks[t] + [s]])
  }

  /** `track`. */
  function Track(w: World, s: SemId, t: ThreadId, ctx: Signature): (r: World)
    requires s in w.sems && Closed(w)
    ensures OnlyTrackCounts(w, r) && ReportsGrow(w, r) && Closed(r)
    ensures r.stacks.Keys == w.stacks.Keys + {t} || r.stacks.Keys == w.stacks.Keys
    ensures forall u :: u in w.stacks && u != t ==> u in r.stacks && r.stacks[u] == w.stacks[u]
  {
    var m := w.sems[s];
    var w1 := w.(sems := w.sems[s := m.(trackCount := m.trackCount + 1)]);
    if m.trackCount + 1 > 1 then w1
    else if t !in w1.stacks then w1.(stacks := w1.stacks[t := [s]])
    else PushChecked(w1, s, t, ctx)
  }

  /** `check`: the order test of `track` without touching any stack or
      counter; skipped when `s` is already tracked or the thread holds
      nothing. */
  function Check(w: World, s: SemId, t: ThreadId, ctx: Signature): (r: World)
    requires s in w.sems && Closed(w)
    ensures r.sems == w.sems && r.stacks == w.stacks && ReportsGrow(w, r)
    ensures w.sems[s].trackCount > 0 || t !in w.stacks ==> r == w
    ensures w.sems[s].trackCount <= 0 && t in w.stacks ==>
      r == if OrderViolation(w, s, w.stacks[t])
           then Report(w, [Frame("checkForOrderViolation", 350), Frame("check", 313)] + ctx)
           else w
  {
    if w.sems[s].trackCount > 0 then w
    else if t !in w.stacks then w
    else
      var c := [Frame("check", 313)] + ctx;
      assert [Frame("checkForOrderViolation", 350)] + c
        == [Frame("checkForOrderViolation", 350), Frame("check", 313)] + ctx;
      CheckOrder(w, s, t, false, c).0
  }

  // ---------------------------------------------------------------------
  // lock / unlock / tryLock
  // ---------------------------------------------------------------------

  /** `lock` proceeds without waiting: the caller owns `s` or nobody does. */
  predicate Available(w: World, s: SemId, t: ThreadId)
    requires s in w.sems
  {
    w.sems[s].owner == Some(t) || w.sems[s].lockCount <= 0
  }

  /** `lock`, at the moment it acquires. */
  function Lock(w: World, s: SemId, t: ThreadId, ctx: Signature): (r: World)
    requires s in w.sems && Closed(w) && Available(w, s, t)
    ensures r.sems.Keys == w.sems.Keys && ReportsGrow(w, r) && Closed(r)
    ensures r.sems[s].owner == Some(t) && r.sems[s].lockCount == w.sems[s].lockCount + 1
    ensures r.sems[s].waitCount == w.sems[s].waitCount
    ensures forall id :: id in w.sems && id != s ==>
      r.sems[id] == w.sems[id].(trackCount := r.sems[id].trackCount)
    ensures w.sems[s].owner == Some(t) ==>
      r == w.(sems := w.sems[s := w.sems[s].(lockCount := w.sems[s].lockCount + 1)])
  {
    var m := w.sems[s];
    if m.owner == Some(t) then
      w.(sems := w.sems[s := m.(lockCount := m.lockCount + 1)])
    else Track(Acquire(w, s, t), s, t, [Frame("lock", 161)] + ctx)
  }

  /** The counters once `lock` stops waiting: one more lock, owned by `t`. */
  function Acquire(w: World, s: SemId, t: ThreadId): (r: World)
    requires s in w.sems
    ensures r.sems.Keys == w.sems.Keys && r.stacks == w.stacks && r.reported == w.reported
    ensures forall id :: id in w.sems && id != s ==> r.sems[id] == w.sems[id]
  {
    var m := w.sems[s];
    w.(sems := w.sems[s := m.(lockCount := m.lockCount + 1, owner := Some(t))])
  }

  /** `unlock`: only the owner may unlock; the last unlock untracks and
      clears the owner. The Java method returns true whenever it returns. */
  function Unlock(w: World, s: SemId, t: ThreadId, ctx: Signature): (r: Result<World, Fault>)
    requires s in w.sems
    ensures w.sems[s].owner.None? <==> r == Failure(NullPointer)
    ensures w.sems[s].owner.Some? && w.sems[s].owner != Some(t) <==> r == Failure(IllegalState)
    ensures r.Success? ==>
      && r.value.sems.Keys == w.sems.Keys && ReportsGrow(w, r.value)
      && StackShrinks(w, r.value, t) && (Closed(w) ==> Closed(r.value))
      && r.value.sems[s].lockCount == w.sems[s].lockCount - 1
      && (r.value.sems[s].owner.None? <==> w.sems[s].lockCount == 1)
      && forall id :: id in w.sems && id != s ==>
           r.value.sems[id] == w.sems[id].(trackCount := r.value.sems[id].trackCount)
  {
    var m := w.sems[s];
    if m.owner.None? then Failure(NullPointer)
    else if m.owner != Some(t) then Failure(IllegalState)
    else
      var lc := m.lockCount - 1;
      var w1 := w.(sems := w.sems[s := m.(lockCount := lc)]);
      if lc == 0 then
        var w2 := Untrack(w1, s, t, [Frame("unlock", 184)] + ctx);
        Success(w2.(sems := w2.sems[s := w2.sems[s].(owner := None)]))
      else Success(w1)
  }

  /** `tryLock`: refuses while another thread holds the lock; the test
      dereferences the owner, so a positive count with no owner throws. */
  function TryLock(w: World, s: SemId, t: ThreadId, ctx: Signature): (r: Result<(World, bool), Fault>)
    requires s in w.sems && Closed(w)
    ensures r == Failure(NullPointer) <==> w.sems[s].lockCount > 0 && w.sems[s].owner.None?
    ensures r == Success((w, false)) <==>
      w.sems[s].lockCount > 0 && w.sems[s].owner.Some? && w.sems[s].owner != Some(t)
    ensures r.Success? && r.value.1 ==>
      Available(w, s, t) && r.value.0 == Lock(w, s, t, [Frame("tryLock", 377)] + ctx)
  {
    var m := w.sems[s];
    if m.lockCount > 0 && m.owner.None? then Failure(NullPointer)
    else if m.lockCount > 0 && m.owner != Some(t) then Success((w, false))
    else Success((Lock(w, s, t, [Frame("tryLock", 377)] + ctx), true))
  }

  /** The lock fields agree: a count of zero exactly when there is no owner. */
  ghost predicate LockConsistent(w: World) {
    forall id :: id in w.sems ==>
      w.sems[id].lockCount >= 0 && (w.sems[id].lockCount == 0 <==> w.sems[id].owner.None?)
  }

  // ---------------------------------------------------------------------
  // Thread table
  // ---------------------------------------------------------------------

  /** `addNewThreadToTrackTable`: true when the thread gets a new empty stack. */
  function AddThread(w: World, t: ThreadId): (r: (World, bool))
    ensures r.1 <==> t !in w.stacks
    ensures t in r.0.stacks && (r.1 ==> r.0.stacks[t] == [])
    ensures !r.1 ==> r.0 == w
    ensures r.0.sems == w.sems && r.0.reported == w.reported
    ensures forall u :: u != t ==> (u in r.0.stacks <==> u in w.stacks)
  {
    if t !in w.stacks then (w.(stacks := w.stacks[t := []]), true) else (w, false)
  }

  /** `removeDyingThread`: false when the thread had no stack. Writing the
      warning for a thread that still holds semaphores is output only. */
  function RemoveDyingThread(w: World, t: ThreadId): (r: (World, bool))
    ensures r.1 <==> t in w.stacks
    ensures t !in r.0.stacks
    ensures r.0.stacks == w.stacks - {t}
    ensures r.0.sems == w.sems && r.0.reported == w.reported
  {
    if t in w.stacks then (w.(stacks := w.stacks - {t}), true) else (w, false)
  }

  lemma ThreadTableRoundTrip(w: World, t: ThreadId)
    requires t !in w.stacks
    ensures RemoveDyingThread(AddThread(w, t).0, t) == (w, true)
  {
    assert AddThread(w, t).0.stacks - {t} == w.stacks;
  }

  // ---------------------------------------------------------------------
  // Properties of track / untrack
  // ---------------------------------------------------------------------

  /** A `track` of a semaphore already tracked only counts up. */
  lemma TrackAgain(w: World, s: SemId, t: ThreadId, ctx: Signature)
    requires s in w.sems && Closed(w) && w.sems[s].trackCount >= 1
    ensures var r := Track(w, s, t, ctx);
      && r.stacks == w.stacks && r.reported == w.reported
      && r.sems == w.sems[s := w.sems[s].(trackCount := w.sems[s].trackCount + 1)]
  {
  }

  /** The first `track` pushes `s` onto the thread's stack; without an
      order violation nothing else happens. */
  lemma TrackPushes(w: World, s: SemId, t: ThreadId, ctx: Signature)
    requires s in w.sems && Closed(w) && w.sems[s].trackCount <= 0
    requires t in w.stacks ==> !OrderViolation(w, s, w.stacks[t])
    ensures var r := Track(w, s, t, ctx);
      && r.stacks == w.stacks[t := (if t in w.stacks then w.stacks[t] else []) + [s]]
      && r.reported == w.reported
      && r.sems == w.sems[s := w.sems[s].(trackCount := w.sems[s].trackCount + 1)]
  {
    if t in w.stacks {
      var m := w.sems[s];
      var w1 := w.(sems := w.sems[s := m.(trackCount := m.trackCount + 1)]);
      assert OrderViolation(w1, s, w1.stacks[t]) == OrderViolation(w, s, w.stacks[t]);
      assert CheckOrder(w1, s, t, true, [Frame("track", 220)] + ctx).0 == w1;
      assert Track(w, s, t, ctx) == PushChecked(w1, s, t, ctx);
    } else {
      assert [] + [s] == [s];
    }
  }

  /** A first `track` that breaks the lock order reports it and
      force-untracks the top entry; a top entry tracked once leaves the
      stack, so `s` takes its place. */
  lemma TrackForcesTopOut(w: World, s: SemId, t: ThreadId, ctx: Signature)
    requires s in w.sems && Closed(w) && w.sems[s].trackCount <= 0
    requires t in w.stacks && OrderViolation(w, s, w.stacks[t])
    requires var st := w.stacks[t]; st[|st| - 1] != s && w.sems[st[|st| - 1]].trackCount == 1
    ensures var st := w.stacks[t]; var top := st[|st| - 1]; var r := Track(w, s, t, ctx);
      && [Frame("checkForOrderViolation", 350), Frame("track", 220)] + ctx in r.reported
      && r.stacks[t] == st[..|st| - 1] + [s]
      && r.sems[top].trackCount == 0
      && r.sems[s].trackCount == w.sems[s].trackCount + 1
  {
    var st := w.stacks[t];
    var top := st[|st| - 1];
    var m := w.sems[s];
    var w1 := w.(sems := w.sems[s := m.(trackCount := m.trackCount + 1)]);
    assert OrderViolation(w1, s, w1.stacks[t]);
    var c := [Frame("track", 220)] + ctx;
    assert [Frame("checkForOrderViolation", 350)] + c
      == [Frame("checkForOrderViolation", 350), Frame("track", 220)] + ctx;
    var wr := Report(w1, [Frame("checkForOrderViolation", 350)] + c);
    var wu := Untrack(wr, top, t, [Frame("checkForOrderViolation", 359)] + c);
    assert wu.stacks[t] == st[..|st| - 1];
  }

  /** An `untrack` that leaves the count positive only counts down. */
  lemma UntrackAgain(w: World, s: SemId, t: ThreadId, ctx: Signature)
    requires s in w.sems && w.sems[s].trackCount > 1
    ensures var r := Untrack(w, s, t, ctx);
      && r.stacks == w.stacks && r.reported == w.reported
      && r.sems == w.sems[s := w.sems[s].(trackCount := w.sems[s].trackCount - 1)]
  {
  }

  /** The last `untrack` of the top entry pops it silently. */
  lemma UntrackPopsTop(w: World, s: SemId, t: ThreadId, ctx: Signature)
    requires s in w.sems && w.sems[s].trackCount == 1
    requires t in w.stacks && |w.stacks[t]| > 0 && w.stacks[t][|w.stacks[t]| - 1] == s
    ensures var r := Untrack(w, s, t, ctx);
      && r.stacks == w.stacks[t := w.stacks[t][..|w.stacks[t]| - 1]]
      && r.reported == w.reported
      && r.sems == w.sems[s := w.sems[s].(trackCount := 0)]
  {
  }

  /** The last `untrack` of a buried entry cuts out its last occurrence and
      reports the reversed unlock order. */
  lemma UntrackBuried(w: World, s: SemId, t: ThreadId, ctx: Signature)
    requires s in w.sems && w.sems[s].trackCount == 1
    requires t in w.stacks && s in w.stacks[t] && w.stacks[t][|w.stacks[t]| - 1] != s
    ensures var st := w.stacks[t]; var i := LastIndexOf(st, s); var r := Untrack(w, s, t, ctx);
      && 0 <= i < |st| - 1 && st[i] == s
      && (forall j :: i < j < |st| ==> st[j] != s)
      && r.stacks == w.stacks[t := st[..i] + st[i + 1..]]
      && r.reported == Report(w, [Frame("untrack", 263)] + ctx).reported
      && r.sems == w.sems[s := w.sems[s].(trackCount := 0)]
  {
  }

  /** Untracking a semaphore the thread does not hold: from a count of one
      it is reported; from a count of zero or below the count is reset to
      zero and nothing is reported. */
  lemma UntrackAbsent(w: World, s: SemId, t: ThreadId, ctx: Signature)
    requires s in w.sems && w.sems[s].trackCount <= 1
    requires t in w.stacks && s !in w.stacks[t]
    ensures var r := Untrack(w, s, t, ctx);
      && r.stacks == w.stacks
      && r.sems == w.sems[s := w.sems[s].(trackCount := 0)]
      && r.reported == if w.sems[s].trackCount == 1
                       then Report(w, [Frame("untrack", 277)] + ctx).reported
                       else w.reported
  {
  }

  /** A `track`/`untrack` bracket (`SemaphoreAutoTracker`) around an
      untracked semaphore that breaks no order leaves everything as it was. */
  lemma TrackUntrackRoundTrip(w: World, s: SemId, t: ThreadId, c1: Signature, c2: Signature)
    requires s in w.sems && Closed(w) && w.sems[s].trackCount == 0
    requires t in w.stacks && !OrderViolation(w, s, w.stacks[t])
    ensures Untrack(Track(w, s, t, c1), s, t, c2) == w
  {
    TrackPushes(w, s, t, c1);
    var r := Track(w, s, t, c1);
    assert r.stacks[t][..|r.stacks[t]| - 1] == w.stacks[t];
    UntrackPopsTop(r, s, t, c2);
    assert w.sems[s := w.sems[s].(trackCount := 0)] == w.sems;
    assert w.stacks[t := w.stacks[t]] == w.stacks;
  }

  /** Lower in order than the semaphore below it, at every level. */
  ghost predicate Descending(w: World, st: seq<SemId>)
    requires forall id :: id in st ==> id in w.sems
  {
    forall i, j :: 0 <= i < j < |st| ==> w.sems[st[i]].order > w.sems[st[j]].order
  }

  /** Locking in strictly decreasing order never reports and keeps the
      thread's stack strictly decreasing. */
  lemma DescendingLocksAreSilent(w: World, s: SemId, t: ThreadId, ctx: Signature)
    requires s in w.sems && Closed(w) && w.sems[s].trackCount == 0 && t in w.stacks
    requires Descending(w, w.stacks[t])
    requires |w.stacks[t]| > 0 ==> w.sems[w.stacks[t][|w.stacks[t]| - 1]].order > w.sems[s].order
    ensures var r := Track(w, s, t, ctx);
      && r.reported == w.reported
      && r.stacks[t] == w.stacks[t] + [s]
      && Descending(r, r.stacks[t])
  {
    TrackPushes(w, s, t, ctx);
    var r := Track(w, s, t, ctx);
    var st := w.stacks[t];
    forall i, j | 0 <= i < j < |st| + 1
      ensures r.sems[r.stacks[t][i]].order > r.sems[r.stacks[t][j]].order
    {
      if j == |st| && i < |st| - 1 {
        assert w.sems[st[i]].order > w.sems[st[|st| - 1]].order;
      }
    }
  }

  // ---------------------------------------------------------------------
  // Properties of lock / unlock / tryLock
  // ---------------------------------------------------------------------

  /** `tryLock` refuses exactly when another thread owns the semaphore,
      and never throws while the lock fields agree. */
  lemma TryLockRefusesOnlyForeign(w: World, s: SemId, t: ThreadId, ctx: Signature)
    requires s in w.sems && Closed(w) && LockConsistent(w)
    ensures var r := TryLock(w, s, t, ctx);
      && r.Success?
      && (!r.value.1 <==> w.sems[s].owner.Some? && w.sems[s].owner != Some(t))
  {
  }

  /** The first acquisition of a free semaphore that breaks no order:
      the caller owns it once and it sits on top of the caller's stack. */
  lemma LockFree(w: World, s: SemId, t: ThreadId, ctx: Signature)
    requires s in w.sems && Closed(w) && t in w.stacks
    requires w.sems[s].owner.None? && w.sems[s].lockCount == 0 && w.sems[s].trackCount == 0
    requires !OrderViolation(w, s, w.stacks[t])
    ensures Available(w, s, t)
    ensures var r := Lock(w, s, t, ctx);
      && r.sems == w.sems[s := w.sems[s].(lockCount := 1, owner := Some(t), trackCount := 1)]
      && r.stacks == w.stacks[t := w.stacks[t] + [s]]
      && r.reported == w.reported
  {
    var w1 := Acquire(w, s, t);
    assert OrderViolation(w1, s, w1.stacks[t]) == OrderViolation(w, s, w.stacks[t]);
    TrackPushes(w1, s, t, [Frame("lock", 161)] + ctx);
  }

  /** The last `unlock` of a semaphore on top of the caller's stack frees
      it and pops it silently. */
  lemma UnlockLast(w: World, s: SemId, t: ThreadId, ctx: Signature)
    requires s in w.sems && w.sems[s].owner == Some(t)
    requires w.sems[s].lockCount == 1 && w.sems[s].trackCount == 1
    requires t in w.stacks && |w.stacks[t]| > 0 && w.stacks[t][|w.stacks[t]| - 1] == s
    ensures var r := Unlock(w, s, t, ctx);
      && r.Success?
      && r.value.sems == w.sems[s := w.sems[s].(lockCount := 0, owner := None, trackCount := 0)]
      && r.value.stacks == w.stacks[t := w.stacks[t][..|w.stacks[t]| - 1]]
      && r.value.reported == w.reported
  {
    var w1 := w.(sems := w.sems[s := w.sems[s].(lockCount := 0)]);
    UntrackPopsTop(w1, s, t, [Frame("unlock", 184)] + ctx);
  }

  /** A lock/unlock bracket (`SemaphoreAutoLocker`) on a free semaphore
      that breaks no order leaves everything as it was. */
  lemma LockUnlockRoundTrip(w: World, s: SemId, t: ThreadId, c1: Signature, c2: Signature)
    requires s in w.sems && Closed(w) && t in w.stacks
    requires w.sems[s].owner.None? && w.sems[s].lockCount == 0 && w.sems[s].trackCount == 0
    requires !OrderViolation(w, s, w.stacks[t])
    ensures Available(w, s, t)
    ensures Unlock(Lock(w, s, t, c1), s, t, c2) == Success(w)
  {
    LockFree(w, s, t, c1);
    var l := Lock(w, s, t, c1);
    var m := w.sems[s];
    var m1 := m.(lockCount := 1, owner := Some(t), trackCount := 1);
    PushPop(w.stacks[t], s);
    UnlockLast(l, s, t, c2);
    assert m1.(lockCount := 0, owner := None, trackCount := 0) == m;
    Restore(w.sems, s, m1);
    Restore(w.stacks, t, w.stacks[t] + [s]);
  }

  /** Overwriting a map entry and then putting the old value back. */
  lemma Restore<K, V>(mp: map<K, V>, k: K, v: V)
    requires k in mp
    ensures mp[k := v][k := mp[k]] == mp
  {
  }

  lemma PushPop(st: seq<SemId>, s: SemId)
    ensures (st + [s])[..|st + [s]| - 1] == st
  {
  }

  /** A nested lock/unlock by the owner leaves everything as it was. */
  lemma ReentrantRoundTrip(w: World, s: SemId, t: ThreadId, c1: Signature, c2: Signature)
    requires s in w.sems && Closed(w)
    requires w.sems[s].owner == Some(t) && w.sems[s].lockCount >= 1
    ensures Unlock(Lock(w, s, t, c1), s, t, c2) == Success(w)
  {
    var m := w.sems[s];
    var l := Lock(w, s, t, c1);
    assert l.sems[s].(lockCount := m.lockCount) == m;
    assert w.sems[s := m] == w.sems;
    var u := Unlock(l, s, t, c2).value;
    assert u.sems == w.sems && u.stacks == w.stacks && u.reported == w.reported;
  }

  /** `lock` and `unlock` keep the lock count and the owner in agreement. */
  lemma LockKeepsConsistent(w: World, s: SemId, t: ThreadId, ctx: Signature)
    requires s in w.sems && Closed(w) && LockConsistent(w) && Available(w, s, t)
    ensures LockConsistent(Lock(w, s, t, ctx))
  {
    var r := Lock(w, s, t, ctx);
    forall id | id in r.sems
      ensures r.sems[id].lockCount >= 0
      ensures r.sems[id].lockCount == 0 <==> r.sems[id].owner.None?
    {
      if id != s {
        assert r.sems[id].lockCount == w.sems[id].lockCount;
        assert r.sems[id].owner == w.sems[id].owner;
      }
    }
  }

  lemma UnlockKeepsConsistent(w: World, s: SemId, t: ThreadId, ctx: Signature)
    requires s in w.sems && LockConsistent(w)
    ensures Unlock(w, s, t, ctx).Success? ==> LockConsistent(Unlock(w, s, t, ctx).value)
  {
    var r := Unlock(w, s, t, ctx);
    if r.Success? {
      forall id | id in r.value.sems
        ensures r.value.sems[id].lockCount >= 0
        ensures r.value.sems[id].lockCount == 0 <==> r.value.sems[id].owner.None?
      {
        if id != s {
          assert r.value.sems[id].lockCount == w.sems[id].lockCount;
          assert r.value.sems[id].owner == w.sems[id].owner;
        }
      }
    }
  }
}

=== FILE: sortedstrings.dfy ===
/** `SortedStringsVector`: a list of strings kept in `String.compareTo` order,
    and `Semaphore.SortedStrings`, which keys data strings by such a list. */
module StringVectors {
  import opened Wrappers

  /** Java's `String.compareTo`: the difference of the first differing
      characters, or of the lengths when one string is a prefix of the other. */
  function CompareTo(a: string, b: string): int
    decreases |a|
  {
    if |a| == 0 || |b| == 0 then |a| - |b|
    else if a[0] != b[0] then a[0] as int - b[0] as int
    else CompareTo(a[1..], b[1..])
  }

  lemma {:induction false} CompareToZero(a: string, b: string)
    ensures CompareTo(a, b) == 0 <==> a == b
    decreases |a|
  {
    if |a| > 0 && |b| > 0 && a[0] == b[0] {
      CompareToZero(a[1..], b[1..]);
      assert a == [a[0]] + a[1..];
      assert b == [b[0]] + b[1..];
    }
  }

  lemma {:induction false} CompareToFlip(a: string, b: string)
    ensures CompareTo(b, a) == -CompareTo(a, b)
    decreases |a|
  {
    if |a| > 0 && |b| > 0 && a[0] == b[0] {
      CompareToFlip(a[1..], b[1..]);
    }
  }

  lemma {:induction false} CompareToTrans(a: string, b: string, c: string)
    requires CompareTo(a, b) <= 0 && CompareTo(b, c) <= 0
    ensures CompareTo(a, c) <= 0
    decreases |a|
  {
    if |a| > 0 && |b| > 0 && |c| > 0 && a[0] == b[0] && b[0] == c[0] {
      CompareToTrans(a[1..], b[1..], c[1..]);
    }
  }

  /** Non-decreasing by `compareTo`. */
  ghost predicate Sorted(v: seq<string>) {
    forall i, j :: 0 <= i < j < |v| ==> CompareTo(v[i], v[j]) <= 0
  }

  /** The scan of `add`: from index `i - 1` down to 0, the position just
      after the first element met that is `<=` the new string, else 0. */
  function InsertionPoint(v: seq<string>, x: string, i: nat): (k: nat)
    requires i <= |v|
    ensures k <= i
    ensures forall j :: k <= j < i ==> CompareTo(v[j], x) > 0
    ensures k > 0 ==> CompareTo(v[k - 1], x) <= 0
  {
    if i == 0 then 0
    else if CompareTo(v[i - 1], x) <= 0 then i
    else InsertionPoint(v, x, i - 1)
  }

  /** `SortedStringsVector.add`. */
  function Add(v: seq<string>, x: string): (r: seq<string>)
    ensures |r| == |v| + 1
    ensures multiset(r) == multiset(v) + multiset{x}
  {
    var k := InsertionPoint(v, x, |v|);
    assert v == v[..k] + v[k..];
    v[..k] + [x] + v[k..]
  }

  /** Where each element of `Add(v, x)` comes from. */
  lemma AddShape(v: seq<string>, x: string)
    ensures var k := InsertionPoint(v, x, |v|); var r := Add(v, x);
      && r == v[..k] + [x] + v[k..]
      && r[k] == x
      && (forall j :: 0 <= j < k ==> r[j] == v[j])
      && (forall j :: k < j < |r| ==> r[j] == v[j - 1])
  {
  }

  /** On a sorted vector the new string lands after every element `<=` it
      and before every greater one, so a string equal to one already present
      goes after all of its earlier copies. */
  lemma AddPlacement(v: seq<string>, x: string)
    requires Sorted(v)
    ensures var k := InsertionPoint(v, x, |v|);
      && (forall j :: 0 <= j < k ==> CompareTo(v[j], x) <= 0)
      && (forall j :: k <= j < |v| ==> CompareTo(x, v[j]) < 0 && v[j] != x)
  {
    var k := InsertionPoint(v, x, |v|);
    forall j | 0 <= j < k
      ensures CompareTo(v[j], x) <= 0
    {
      if j < k - 1 {
        CompareToTrans(v[j], v[k - 1], x);
      }
    }
    forall j | k <= j < |v|
      ensures CompareTo(x, v[j]) < 0 && v[j] != x
    {
      CompareToFlip(v[j], x);
      CompareToZero(v[j], x);
    }
  }

  /** `add` keeps a sorted vector sorted. */
  lemma AddKeepsOrder(v: seq<string>, x: string)
    requires Sorted(v)
    ensures Sorted(Add(v, x))
  {
    var k := InsertionPoint(v, x, |v|);
    var r := Add(v, x);
    AddShape(v, x);
    AddPlacement(v, x);
    forall i, j | 0 <= i < j < |r|
      ensures CompareTo(r[i], r[j]) <= 0
    {
      var i' := if i < k then i else i - 1;
      var j' := if j < k then j else j - 1;
      if i != k && j != k {
        assert r[i] == v[i'] && r[j] == v[j'];
      }
    }
  }

  /** `Vector.indexOf`: the first index holding `x`, or -1. */
  function IndexOf(v: seq<string>, x: string): (i: int)
    ensures -1 <= i
    ensures i == -1 <==> x !in v
    ensures 0 <= i ==> i < |v| && v[i] == x && forall j :: 0 <= j < i ==> v[j] != x
  {
    if |v| == 0 then -1
    else if v[0] == x then 0
    else
      var i := IndexOf(v[1..], x);
      if i == -1 then -1 else i + 1
  }

  /** `SortedStringsVector.remove`: `Vector.remove(Object)`. */
  function Remove(v: seq<string>, x: string): (r: seq<string>)
    ensures |r| == if x in v then |v| - 1 else |v|
  {
    if |v| == 0 then []
    else if v[0] == x then v[1..]
    else [v[0]] + Remove(v[1..], x)
  }

  /** Exactly one copy of `x` leaves the multiset, if there was one. */
  lemma {:induction false} RemoveCount(v: seq<string>, x: string)
    ensures multiset(Remove(v, x)) == multiset(v) - multiset{x}
  {
    if |v| > 0 {
      assert v == [v[0]] + v[1..];
      if v[0] != x {
        RemoveCount(v[1..], x);
      }
    }
  }

  /** Only the first equal element goes; everything else keeps its order. */
  lemma {:induction false} RemoveFirstOccurrence(v: seq<string>, x: string)
    ensures IndexOf(v, x) == -1 ==> Remove(v, x) == v
    ensures var i := IndexOf(v, x); 0 <= i ==> Remove(v, x) == v[..i] + v[i + 1..]
  {
    if |v| > 0 && v[0] == x {
      assert v[..0] + v[1..] == v[1..];
    } else if |v| > 0 {
      var w := v[1..];
      RemoveFirstOccurrence(w, x);
      RemoveStep(v, x, IndexOf(w, x));
    }
  }

  /** One step of the induction above: the head stays in front. */
  lemma RemoveStep(v: seq<string>, x: string, i: int)
    requires |v| > 0 && v[0] != x && i == IndexOf(v[1..], x)
    requires i == -1 ==> Remove(v[1..], x) == v[1..]
    requires 0 <= i ==> Remove(v[1..], x) == v[1..][..i] + v[1..][i + 1..]
    ensures i == -1 ==> IndexOf(v, x) == -1 && Remove(v, x) == v
    ensures 0 <= i ==> IndexOf(v, x) == i + 1 && Remove(v, x) == v[..i + 1] + v[i + 2..]
  {
    var w := v[1..];
    assert Remove(v, x) == [v[0]] + Remove(w, x);
    if i >= 0 {
      Regroup(v, i);
    } else {
      assert v == [v[0]] + w;
    }
  }

  lemma Regroup(v: seq<string>, i: nat)
    requires i + 2 <= |v|
    ensures [v[0]] + (v[1..][..i] + v[1..][i + 1..]) == v[..i + 1] + v[i + 2..]
  {
    var w := v[1..];
    assert v[..i + 1] == [v[0]] + w[..i];
    assert v[i + 2..] == w[i + 1..];
  }

  lemma RemoveKeepsOrder(v: seq<string>, x: string)
    requires Sorted(v)
    ensures Sorted(Remove(v, x))
  {
    RemoveFirstOccurrence(v, x);
    var i := IndexOf(v, x);
    if 0 <= i {
      DropKeepsOrder(v, i);
    }
  }

  lemma DropKeepsOrder(v: seq<string>, i: nat)
    requires Sorted(v) && i < |v|
    ensures Sorted(v[..i] + v[i + 1..])
  {
    var r := v[..i] + v[i + 1..];
    assert forall j :: 0 <= j < |r| ==> r[j] == v[if j < i then j else j + 1];
  }

  /** `SortedStringsVector.firstElement`: `null` when empty. */
  function FirstElement(v: seq<string>): (r: Option<string>)
    ensures r.None? <==> |v| == 0
    ensures r.Some? ==> r.value in v
  {
    if |v| == 0 then None else Some(v[0])
  }

  /** On a sorted vector the first element is the least one. */
  lemma FirstIsLeast(v: seq<string>)
    requires Sorted(v) && |v| > 0
    ensures forall j :: 0 <= j < |v| ==> CompareTo(FirstElement(v).value, v[j]) <= 0
  {
    CompareToZero(v[0], v[0]);
  }

  /** `SortedStringsVector.clear`. */
  function Clear(v: seq<string>): (r: seq<string>)
    ensures |r| == 0 && Sorted(r)
  {
    []
  }
}

/** `Semaphore.SortedStrings`: data strings filed under key strings; the
    conversion hands them back ordered by key. */
module SortedStrings {
  import opened Wrappers
  import opened StringVectors

  /** The sorted key vector (one entry per data string) and the table of
      data strings per key, oldest first. */
  datatype Table = Table(keys: seq<string>, data: map<string, seq<string>>)

  const Empty := Table([], map[])

  /** The data strings filed under `k`; an absent key has none. */
  function Get(t: Table, k: string): seq<string> {
    if k in t.data then t.data[k] else []
  }

  /** The representation the class maintains: keys sorted, each key listed
      once per data string filed under it, and no empty table entry. */
  ghost predicate Valid(t: Table) {
    && Sorted(t.keys)
    && (forall k :: k in t.data ==> |t.data[k]| > 0)
    && (forall k :: multiset(t.keys)[k] == |Get(t, k)|)
  }

  lemma EmptyValid()
    ensures Valid(Empty)
  {
  }

  /** `AddString`. */
  function AddString(t: Table, key: string, d: string): (r: Table)
    ensures Get(r, key) == Get(t, key) + [d]
    ensures forall k :: k != key ==> Get(r, k) == Get(t, k)
    ensures multiset(r.keys) == multiset(t.keys) + multiset{key}
  {
    Table(Add(t.keys, key), t.data[key := Get(t, key) + [d]])
  }

  lemma AddStringValid(t: Table, key: string, d: string)
    requires Valid(t)
    ensures Valid(AddString(t, key, d))
  {
    AddKeepsOrder(t.keys, key);
  }

  /** The table once the oldest data string under `first` is taken out:
      one copy of the key leaves the vector and the entry is dropped when
      its list empties. */
  function Pop(t: Table, first: string): Table
    requires first in t.data && |t.data[first]| > 0
  {
    var ds := t.data[first];
    Table(Remove(t.keys, first), if |ds| == 1 then t.data - {first} else t.data[first := ds[1..]])
  }

  lemma PopShape(t: Table)
    requires |t.keys| > 0 && t.keys[0] in t.data && |t.data[t.keys[0]]| > 0
    ensures var first := t.keys[0]; var r := Pop(t, first);
      && r.keys == t.keys[1..]
      && Get(r, first) == Get(t, first)[1..]
      && (forall k :: k != first ==> Get(r, k) == Get(t, k))
  {
    var first := t.keys[0];
    RemoveFirstOccurrence(t.keys, first);
    assert t.keys[..0] + t.keys[1..] == t.keys[1..];
  }

  lemma PopValid(t: Table)
    requires Valid(t) && |t.keys| > 0
    ensures t.keys[0] in t.data
    ensures var first := t.keys[0]; var r := Pop(t, first);
      && Valid(r)
      && r.keys == t.keys[1..]
      && Get(r, first) == Get(t, first)[1..]
      && (forall k :: k != first ==> Get(r, k) == Get(t, k))
  {
    var first := t.keys[0];
    assert first in multiset(t.keys);
    PopShape(t);
    assert t.keys == [first] + t.keys[1..];
  }

  /** `RemoveFirstString`: the oldest data string under the least key, or
      `null` when nothing is left. The class never leaves a key without a
      table entry, so its second `null` return is not reachable here. */
  function RemoveFirstString(t: Table): (r: (Table, Option<string>))
    requires Valid(t)
    ensures Valid(r.0)
    ensures r.1.None? <==> |t.keys| == 0
    ensures r.1.Some? ==> |r.0.keys| == |t.keys| - 1
  {
    match FirstElement(t.keys)
    case None => (t, None)
    case Some(first) =>
      PopValid(t);
      (Pop(t, first), Some(t.data[first][0]))
  }

  /** The conversion loop, each removed data string paired with the key it
      was filed under. */
  function Drain(t: Table): (r: seq<(string, string)>)
    requires Valid(t)
    ensures |r| == |t.keys|
    decreases |t.keys|
  {
    if |t.keys| == 0 then []
    else
      var (t', d) := RemoveFirstString(t);
      [(t.keys[0], d.value)] + Drain(t')
  }

  function KeysOf(ps: seq<(string, string)>): (r: seq<string>)
    ensures |r| == |ps|
  {
    if |ps| == 0 then [] else [ps[0].0] + KeysOf(ps[1..])
  }

  function DataOf(ps: seq<(string, string)>): (r: seq<string>)
    ensures |r| == |ps|
  {
    if |ps| == 0 then [] else [ps[0].1] + DataOf(ps[1..])
  }

  /** The data strings of the pairs filed under `k`, in their order. */
  function Select(ps: seq<(string, string)>, k: string): seq<string> {
    if |ps| == 0 then []
    else (if ps[0].0 == k then [ps[0].1] else []) + Select(ps[1..], k)
  }

  /** `ConvertToSortedVectorOfDataStringsAndDestroy`. */
  function Convert(t: Table): (r: seq<string>)
    requires Valid(t)
    ensures |r| == |t.keys|
  {
    DataOf(Drain(t))
  }

  /** The conversion visits the keys in their sorted order. */
  lemma {:induction false} DrainFollowsKeys(t: Table)
    requires Valid(t)
    ensures KeysOf(Drain(t)) == t.keys
    decreases |t.keys|
  {
    if |t.keys| > 0 {
      var first := t.keys[0];
      PopValid(t);
      var t' := Pop(t, first);
      DrainFollowsKeys(t');
      var ps := Drain(t);
      assert ps == [(first, t.data[first][0])] + Drain(t');
      assert ps[1..] == Drain(t');
      assert KeysOf(ps) == [first] + KeysOf(Drain(t'));
    }
  }

  /** Under every key the conversion yields exactly that key's data
      strings, oldest first. */
  lemma {:induction false} DrainPerKey(t: Table, k: string)
    requires Valid(t)
    ensures Select(Drain(t), k) == Get(t, k)
    decreases |t.keys|
  {
    if |t.keys| > 0 {
      var first := t.keys[0];
      PopValid(t);
      var t' := Pop(t, first);
      DrainPerKey(t', k);
      var ds := t.data[first];
      assert Drain(t) == [(first, ds[0])] + Drain(t');
      if k == first {
        assert Get(t, k) == [ds[0]] + ds[1..];
      }
    }
  }

  /** The table after a sequence of `AddString(key, data)` calls. */
  function Build(h: seq<(string, string)>): Table
    decreases |h|
  {
    if |h| == 0 then Empty
    else AddString(Build(h[..|h| - 1]), h[|h| - 1].0, h[|h| - 1].1)
  }

  lemma {:induction false} SelectAppend(ps: seq<(string, string)>, p: (string, string), k: string)
    ensures Select(ps + [p], k) == Select(ps, k) + (if p.0 == k then [p.1] else [])
    decreases |ps|
  {
    if |ps| > 0 {
      SelectAppend(ps[1..], p, k);
      assert (ps + [p])[1..] == ps[1..] + [p];
    }
  }

  lemma {:induction false} KeysAppend(ps: seq<(string, string)>, p: (string, string))
    ensures KeysOf(ps + [p]) == KeysOf(ps) + [p.0]
    decreases |ps|
  {
    if |ps| > 0 {
      KeysAppend(ps[1..], p);
      assert (ps + [p])[1..] == ps[1..] + [p];
    }
  }

  /** After any sequence of adds the table is well formed. */
  lemma {:induction false} BuildValid(h: seq<(string, string)>)
    ensures Valid(Build(h))
    decreases |h|
  {
    if |h| == 0 {
      EmptyValid();
    } else {
      var p := h[|h| - 1];
      BuildValid(h[..|h| - 1]);
      AddStringValid(Build(h[..|h| - 1]), p.0, p.1);
    }
  }

  /** Each key holds its data strings in the order they were added. */
  lemma {:induction false} BuildGet(h: seq<(string, string)>, k: string)
    ensures Get(Build(h), k) == Select(h, k)
    decreases |h|
  {
    if |h| > 0 {
      var h0 := h[..|h| - 1];
      var p := h[|h| - 1];
      assert h == h0 + [p];
      BuildGet(h0, k);
      SelectAppend(h0, p, k);
    }
  }

  /** The key vector lists each key once per add. */
  lemma {:induction false} BuildKeys(h: seq<(string, string)>)
    ensures multiset(Build(h).keys) == multiset(KeysOf(h))
    decreases |h|
  {
    if |h| > 0 {
      var h0 := h[..|h| - 1];
      var p := h[|h| - 1];
      assert h == h0 + [p];
      BuildKeys(h0);
      KeysAppend(h0, p);
    }
  }

  /** The conversion returns every added data string exactly once, in
      non-decreasing key order, and first-in-first-out among equal keys. */
  lemma ConvertOrdersAdds(h: seq<(string, string)>)
    ensures Valid(Build(h))
    ensures var out := Drain(Build(h));
      && Convert(Build(h)) == DataOf(out)
      && Sorted(KeysOf(out))
      && multiset(KeysOf(out)) == multiset(KeysOf(h))
      && (forall k :: Select(out, k) == Select(h, k))
  {
    BuildValid(h);
    BuildKeys(h);
    var t := Build(h);
    DrainFollowsKeys(t);
    forall k
      ensures Select(Drain(t), k) == Select(h, k)
    {
      DrainPerKey(t, k);
      BuildGet(h, k);
    }
  }
}

=== FILE: stringutils.dfy ===
/** Delimited string lists, character stripping, the nibble encoding that
    StringUtils calls base64, and padding with blanks. */
module StringUtils {
  import opened Wrappers
  import opened JavaTypes

  // ---------------------------------------------------------------------
  // Delimiter choice and delimited lists
  // ---------------------------------------------------------------------

  /** The candidate delimiters, in the fixed order the class tries them. */
  const DELIMITERS: string := "^|~`!@#$%&*()_+/<>?;:,.-=[]\"\'{}\U{A4}\U{B6}\U{A7}ABCDEFGHIJKLMNOPQRSTUVWXYZabcdefghijklmnopqrstuvwxyz1234567890\U{2022}\U{A6}\U{C7}\U{FC}\U{E9}\U{E2}\U{E4}\U{E0}\U{E5}\U{E7}\U{EA}\U{EB}\U{E8}\U{EF}\U{EE}\U{EC}\U{C4}\U{C5}\U{C9}\U{E6}\U{C6}\U{F4}\U{F6}\U{F2}\U{FB}\U{F9}\U{FF}\U{D6}\U{DC}\U{A2}\U{A3}\U{A5}\U{192}\U{E1}\U{ED}\U{F3}\U{FA}\U{F1}\U{D1}\U{AA}\U{BA}\U{BF}\U{AC}\U{BD}\U{BC}\U{A1}\U{AB}\U{BB}\U{AF}\U{DF}\U{B5}\U{B1}\U{F7}\U{2DC}\U{B0}\U{B7}\U{B2}\U{A0}"

  /** `x.indexOf(c) == -1`. */
  predicate Lacks(x: string, c: char) {
    forall j :: 0 <= j < |x| ==> x[j] != c
  }

  /** No non-null element of `list` contains `c`. */
  predicate Unused(list: seq<Option<string>>, c: char) {
    forall i :: 0 <= i < |list| && list[i].Some? ==> Lacks(list[i].value, c)
  }

  /** The scan of `findDelimiter` over the candidates `cands` from position `k` onwards. */
  function FirstUnusedFrom(list: seq<Option<string>>, cands: string, k: nat): (c: char)
    requires k <= |cands|
    ensures (forall j :: k <= j < |cands| ==> !Unused(list, cands[j])) ==> c == ' '
    ensures (exists j :: k <= j < |cands| && Unused(list, cands[j])) ==>
      exists j :: k <= j < |cands| && cands[j] == c && Unused(list, c)
        && forall i :: k <= i < j ==> !Unused(list, cands[i])
    decreases |cands| - k
  {
    if k == |cands| then ' '
    else if Unused(list, cands[k]) then cands[k]
    else FirstUnusedFrom(list, cands, k + 1)
  }

  /** The first candidate that occurs in no non-null element, or ' ' when every one does. */
  function FindDelimiter(list: seq<Option<string>>): (c: char)
    ensures (forall j :: 0 <= j < |DELIMITERS| ==> !Unused(list, DELIMITERS[j])) ==> c == ' '
    ensures (exists j :: 0 <= j < |DELIMITERS| && Unused(list, DELIMITERS[j])) ==>
      exists j :: 0 <= j < |DELIMITERS| && DELIMITERS[j] == c && Unused(list, c)
        && forall i :: 0 <= i < j ==> !Unused(list, DELIMITERS[i])
  {
    FirstUnusedFrom(list, DELIMITERS, 0)
  }

  /** Every element, each preceded by `delim`. */
  function JoinList(list: seq<Option<string>>, delim: string): (r: string)
    ensures |list| > 0 ==> |r| >= |delim| && r[..|delim|] == delim
    ensures |list| == 0 ==> r == ""
  {
    if |list| == 0 then "" else delim + NullText(list[0]) + JoinList(list[1..], delim)
  }

  lemma {:induction false} JoinListAppend(a: seq<Option<string>>, b: seq<Option<string>>, delim: string)
    ensures JoinList(a + b, delim) == JoinList(a, delim) + JoinList(b, delim)
    decreases |a|
  {
    if |a| > 0 {
      assert (a + b)[0] == a[0];
      assert (a + b)[1..] == a[1..] + b;
      JoinListAppend(a[1..], b, delim);
    } else {
      assert a + b == b;
    }
  }

  lemma JoinListSingle(x: Option<string>, delim: string)
    ensures JoinList([x], delim) == delim + NullText(x)
  {
    assert [x][1..] == [];
  }

  /** The list behind one delimiter of its own choosing. */
  function DelimitList(list: seq<Option<string>>): (r: string)
    ensures |list| == 0 ==> r == ""
    ensures |list| > 0 ==> |r| > 0 && r[0] == FindDelimiter(list)
  {
    JoinList(list, [FindDelimiter(list)])
  }

  /** The segments `segs` with one `d` between each neighbouring pair. */
  function Intercalate(segs: seq<string>, d: char): string
    requires |segs| >= 1
  {
    if |segs| == 1 then segs[0] else segs[0] + [d] + Intercalate(segs[1..], d)
  }

  lemma {:induction false} IntercalateSnoc(segs: seq<string>, x: string, d: char)
    requires |segs| >= 1
    ensures Intercalate(segs + [x], d) == Intercalate(segs, d) + [d] + x
    decreases |segs|
  {
    assert (segs + [x])[0] == segs[0];
    if |segs| == 1 {
      assert (segs + [x])[1..] == [x];
    } else {
      assert (segs + [x])[1..] == segs[1..] + [x];
      IntercalateSnoc(segs[1..], x, d);
    }
  }

  /** The repeated `indexOf`/`substring` loop: the pieces of `t` between occurrences of `d`. */
  function Split(t: string, d: char): (r: seq<string>)
    ensures |r| >= 1
    ensures forall i :: 0 <= i < |r| ==> Lacks(r[i], d)
    decreases |t|
  {
    var i := IndexOfChar(t, d);
    if i == -1 then [t] else [t[..i]] + Split(t[i + 1..], d)
  }

  /** Putting the pieces back between delimiters rebuilds the text. */
  lemma {:induction false} SplitJoins(t: string, d: char)
    ensures Intercalate(Split(t, d), d) == t
    decreases |t|
  {
    var i := IndexOfChar(t, d);
    if i != -1 {
      var rest := Split(t[i + 1..], d);
      var r := [t[..i]] + rest;
      assert Split(t, d) == r && r[1..] == rest && r[0] == t[..i];
      SplitJoins(t[i + 1..], d);
      assert t == t[..i] + [d] + t[i + 1..];
    }
  }

  /** Splitting undoes `Intercalate` when no segment holds the delimiter. */
  lemma {:induction false} SplitIntercalate(segs: seq<string>, d: char)
    requires |segs| >= 1
    requires forall i :: 0 <= i < |segs| ==> Lacks(segs[i], d)
    ensures Split(Intercalate(segs, d), d) == segs
    decreases |segs|
  {
    var x := segs[0];
    if |segs| == 1 {
      assert Lacks(x, d);
    } else {
      var tail := Intercalate(segs[1..], d);
      var t := x + [d] + tail;
      assert t[|x|] == d && t[..|x|] == x;
      assert IndexOfChar(t, d) == |x|;
      assert t[|x| + 1..] == tail;
      SplitIntercalate(segs[1..], d);
    }
  }

  /** The pieces after the split loop: the final piece is kept when it is non-empty or
      when `allowEmptyTerminator` asks for it. */
  function DropTerminator(segs: seq<string>, allowEmptyTerminator: bool): (r: seq<string>)
    requires |segs| >= 1
    ensures r == segs || (!allowEmptyTerminator && segs[|segs| - 1] == "" && r + [""] == segs)
  {
    if |segs[|segs| - 1]| > 0 || allowEmptyTerminator then segs else segs[..|segs| - 1]
  }

  /** Parses a delimited list: the first character is the delimiter. */
  function RemoveDelimiter(s: Option<string>, allowEmptyTerminator: bool): (r: seq<string>)
    ensures (s.None? || |s.value| == 0) ==> r == []
    ensures s.Some? && |s.value| > 0 ==> forall i :: 0 <= i < |r| ==> Lacks(r[i], s.value[0])
    ensures s.Some? && |s.value| > 0 && allowEmptyTerminator ==> |r| >= 1
  {
    if s.None? || |s.value| == 0 then []
    else DropTerminator(Split(s.value[1..], s.value[0]), allowEmptyTerminator)
  }

  /** With `allowEmptyTerminator`, what `removeDelimiter` returns, put back between
      delimiters, is the text after the leading delimiter. */
  lemma RemoveDelimiterJoins(s: string)
    requires |s| > 0
    ensures Intercalate(RemoveDelimiter(Some(s), true), s[0]) == s[1..]
  {
    SplitJoins(s[1..], s[0]);
  }

  /** Without `allowEmptyTerminator` an empty final piece is dropped and only that. */
  lemma RemoveDelimiterDropsEmpty(s: string)
    requires |s| > 0
    ensures var r := RemoveDelimiter(Some(s), false);
      (|r| >= 1 && r[|r| - 1] != "" && Intercalate(r, s[0]) == s[1..])
      || Intercalate(r + [""], s[0]) == s[1..]
  {
    var segs := Split(s[1..], s[0]);
    SplitJoins(s[1..], s[0]);
    var r := DropTerminator(segs, false);
    assert RemoveDelimiter(Some(s), false) == r;
    if r != segs {
      assert r + [""] == segs;
    }
  }

  /** A delimiter followed by pieces that do not contain it parses back to the pieces. */
  lemma ParseJoined(x: string, d: char, l: seq<string>)
    requires |l| >= 1 && forall i :: 0 <= i < |l| ==> Lacks(l[i], d)
    requires x == [d] + Intercalate(l, d)
    ensures RemoveDelimiter(Some(x), true) == l
    ensures l[|l| - 1] != "" ==> RemoveDelimiter(Some(x), false) == l
  {
    assert x[0] == d && x[1..] == Intercalate(l, d);
    SplitIntercalate(l, d);
    assert RemoveDelimiter(Some(x), true) == DropTerminator(l, true);
    assert RemoveDelimiter(Some(x), false) == DropTerminator(l, false);
  }

  /** The elements of a list of non-null strings, as a `Vector<String>`. */
  function Present(l: seq<string>): (r: seq<Option<string>>)
    ensures |r| == |l| && forall i :: 0 <= i < |l| ==> r[i] == Some(l[i])
  {
    seq(|l|, i requires 0 <= i < |l| => Some(l[i]))
  }

  lemma {:induction false} JoinListIntercalate(l: seq<string>, d: char)
    requires |l| >= 1
    ensures JoinList(Present(l), [d]) == [d] + Intercalate(l, d)
    decreases |l|
  {
    var p := Present(l);
    assert p[1..] == Present(l[1..]);
    if |l| > 1 {
      JoinListIntercalate(l[1..], d);
    } else {
      assert p[1..] == [];
    }
  }

  /** Joining with a delimiter absent from every element and parsing back gives the elements. */
  lemma DelimitedWithRoundTrip(l: seq<string>, d: char)
    requires |l| >= 1
    requires forall i :: 0 <= i < |l| ==> Lacks(l[i], d)
    ensures RemoveDelimiter(Some(JoinList(Present(l), [d])), true) == l
    ensures l[|l| - 1] != "" ==> RemoveDelimiter(Some(JoinList(Present(l), [d])), false) == l
  {
    JoinListIntercalate(l, d);
    ParseJoined(JoinList(Present(l), [d]), d, l);
  }

  /** Delimiting a list of non-null strings and parsing it back gives the list, when the
      chosen delimiter really is absent from every element. */
  lemma DelimitListRoundTrip(l: seq<string>)
    requires |l| >= 1
    requires Unused(Present(l), FindDelimiter(Present(l)))
    ensures RemoveDelimiter(Some(DelimitList(Present(l))), true) == l
    ensures l[|l| - 1] != "" ==> RemoveDelimiter(Some(DelimitList(Present(l))), false) == l
  {
    var d := FindDelimiter(Present(l));
    forall i | 0 <= i < |l|
      ensures Lacks(l[i], d)
    {
      assert Present(l)[i] == Some(l[i]);
    }
    DelimitedWithRoundTrip(l, d);
  }

  /** Appends one string to a delimited list, keeping the delimiter when it can. */
  function AddStringToDelimitedList(delimited: Option<string>, allowEmptyTerminator: bool, s: string): (r: string)
    ensures delimited.Some? && |delimited.value| > 0 && Lacks(s, delimited.value[0]) ==>
      |r| == |delimited.value| + 1 + |s| && r[..|delimited.value|] == delimited.value
      && r[|delimited.value|] == delimited.value[0] && r[|delimited.value| + 1..] == s
  {
    if delimited.Some? && |delimited.value| > 0 && IndexOfChar(s, delimited.value[0]) == -1 then
      delimited.value + [delimited.value[0]] + s
    else
      DelimitList(Present(RemoveDelimiter(delimited, allowEmptyTerminator) + [s]))
  }

  /** A null or empty list starts afresh with a delimiter chosen for the one new string. */
  lemma AddStringToEmpty(delimited: Option<string>, allowEmptyTerminator: bool, s: string)
    requires delimited.None? || |delimited.value| == 0
    ensures AddStringToDelimitedList(delimited, allowEmptyTerminator, s) == DelimitList([Some(s)])
  {
    assert Present([] + [s]) == [Some(s)];
  }

  lemma SameDelimiterShape(v: string, s: string)
    requires |v| > 0
    ensures v + [v[0]] + s == [v[0]] + Intercalate(RemoveDelimiter(Some(v), true) + [s], v[0])
  {
    var before := RemoveDelimiter(Some(v), true);
    RemoveDelimiterJoins(v);
    IntercalateSnoc(before, s, v[0]);
    assert v == [v[0]] + v[1..];
  }

  /** Appending with the list's own delimiter adds exactly one element at the end. */
  lemma AppendWithSameDelimiter(v: string, s: string)
    requires |v| > 0 && Lacks(s, v[0])
    ensures RemoveDelimiter(Some(v + [v[0]] + s), true) == RemoveDelimiter(Some(v), true) + [s]
  {
    var l := RemoveDelimiter(Some(v), true) + [s];
    SameDelimiterShape(v, s);
    assert forall i :: 0 <= i < |l| ==> Lacks(l[i], v[0]);
    ParseJoined(v + [v[0]] + s, v[0], l);
  }

  /** Parsing the list after an append gives the old elements followed by the new one. */
  lemma AddStringRoundTrip(delimited: Option<string>, s: string)
    requires var l := RemoveDelimiter(delimited, true) + [s];
      (delimited.Some? && |delimited.value| > 0 && Lacks(s, delimited.value[0]))
      || Unused(Present(l), FindDelimiter(Present(l)))
    ensures RemoveDelimiter(Some(AddStringToDelimitedList(delimited, true, s)), true)
      == RemoveDelimiter(delimited, true) + [s]
  {
    if delimited.Some? && |delimited.value| > 0 && Lacks(s, delimited.value[0]) {
      var v := delimited.value;
      assert AddStringToDelimitedList(delimited, true, s) == v + [v[0]] + s;
      AppendWithSameDelimiter(v, s);
    } else {
      DelimitListRoundTrip(RemoveDelimiter(delimited, true) + [s]);
    }
  }

  // ---------------------------------------------------------------------
  // stripAndReplace
  // ---------------------------------------------------------------------

  /** Every character of `before` that occurs in `strip` becomes `replace`. */
  method StripAndReplace(before: string, strip: string, replace: char) returns (after: string)
    ensures |after| == |before|
    ensures forall i :: 0 <= i < |before| ==>
      after[i] == (if before[i] in strip then replace else before[i])
  {
    after := "";
    var i := 0;
    while i < |before|
      invariant 0 <= i <= |before|
      invariant |after| == i
      invariant forall k :: 0 <= k < i ==>
        after[k] == (if before[k] in strip then replace else before[k])
    {
      var temp := before[i];
      if IndexOfChar(strip, temp) == -1 {
        after := after + [temp];
      } else {
        after := after + [replace];
      }
      i := i + 1;
    }
  }

  // ---------------------------------------------------------------------
  // base64Encode / base64Decode: one letter 'a'..'p' per nibble
  // ---------------------------------------------------------------------

  /** The `encodedData` array: two bytes per input byte, `'a'` plus the high nibble and
      `'a'` plus the low nibble. Java bytes are taken by their unsigned value, since
      `(b & 0xF0) >> 4` and `b & 0x0F` are those nibbles whatever the sign of `b`. */
  function EncodeBytes(data: seq<Byte>): (r: seq<Byte>)
    ensures |r| == 2 * |data|
    ensures forall i :: 0 <= i < |r| ==> 'a' as int <= r[i] <= 'p' as int
    decreases |data|
  {
    if |data| == 0 then []
    else ['a' as int + data[0] / 16, 'a' as int + data[0] % 16] + EncodeBytes(data[1..])
  }

  /** `new String(encodedData)`: every byte is an ASCII letter, so one character each. */
  function Base64Encode(data: seq<Byte>): (r: string)
    ensures |r| == 2 * |data|
    ensures forall i :: 0 <= i < |r| ==> 'a' <= r[i] <= 'p'
  {
    var e := EncodeBytes(data);
    seq(|e|, i requires 0 <= i < |e| => e[i] as char)
  }

  function Pow2(n: nat): (p: nat)
    ensures p >= 1
  {
    if n == 0 then 1 else 2 * Pow2(n - 1)
  }

  /** The low `bits` bits of the bitwise or of `a` and `b`. */
  function BitOr(a: nat, b: nat, bits: nat): (r: nat)
    ensures r < Pow2(bits)
  {
    if bits == 0 then 0
    else (if a % 2 == 1 || b % 2 == 1 then 1 else 0) + 2 * BitOr(a / 2, b / 2, bits - 1)
  }

  lemma {:induction false} OrZero(a: nat, bits: nat)
    requires a < Pow2(bits)
    ensures BitOr(a, 0, bits) == a
  {
    if bits > 0 {
      OrZero(a / 2, bits - 1);
    }
  }

  /** Or-ing a multiple of `2^j` with a value below `2^j` is addition. */
  lemma {:induction false} OrDisjoint(q: nat, b: nat, j: nat, bits: nat)
    requires j <= bits && b < Pow2(j) && Pow2(j) * q + b < Pow2(bits)
    ensures BitOr(Pow2(j) * q, b, bits) == Pow2(j) * q + b
  {
    if j == 0 {
      OrZero(q, bits);
    } else {
      var h := Pow2(j - 1) * q;
      assert Pow2(j) * q == 2 * h;
      OrDisjoint(q, b / 2, j - 1, bits - 1);
    }
  }

  lemma Pow2Values()
    ensures Pow2(4) == 16 && Pow2(8) == 256
  {
  }

  /** `(byte)((hi - 'a') << 4) | (byte)(lo - 'a')`, keeping the low eight bits of each side. */
  function JoinNibbles(hi: Byte, lo: Byte): Byte {
    BitOr(LowByte((hi - 'a' as int) * 16), LowByte(lo - 'a' as int), 8)
  }

  lemma NibblePair(h: nat, l: nat)
    requires h < 16 && l < 16
    ensures JoinNibbles('a' as int + h, 'a' as int + l) == 16 * h + l
    ensures (16 * h + l) / 16 == h && (16 * h + l) % 16 == l
  {
    assert LowByte(('a' as int + h - 'a' as int) * 16) == 16 * h;
    assert LowByte('a' as int + l - 'a' as int) == l;
    Pow2Values();
    OrDisjoint(h, l, 4, 8);
  }

  function DecodePairs(bytes: seq<Byte>): (r: seq<Byte>)
    requires |bytes| % 2 == 0
    ensures |r| == |bytes| / 2
    decreases |bytes|
  {
    if |bytes| == 0 then [] else [JoinNibbles(bytes[0], bytes[1])] + DecodePairs(bytes[2..])
  }

  /** Decodes the bytes of the encoded string; an odd count runs off the end of the
      output array. */
  function Base64Decode(bytes: seq<Byte>): (r: Option<seq<Byte>>)
    ensures r.Some? <==> |bytes| % 2 == 0
    ensures r.Some? ==> |r.value| == |bytes| / 2
  {
    if |bytes| % 2 == 1 then None else Some(DecodePairs(bytes))
  }

  /** `String.getBytes()` of a string of ASCII characters. */
  function AsciiBytes(s: string): (r: seq<Byte>)
    requires forall i :: 0 <= i < |s| ==> s[i] as int < 0x80
    ensures |r| == |s| && forall i :: 0 <= i < |s| ==> r[i] == s[i] as int
  {
    seq(|s|, i requires 0 <= i < |s| => s[i] as int)
  }

  lemma {:induction false} DecodeEncodePairs(data: seq<Byte>)
    ensures DecodePairs(EncodeBytes(data)) == data
    decreases |data|
  {
    if |data| > 0 {
      var e := EncodeBytes(data);
      assert e[0] == 'a' as int + data[0] / 16 && e[1] == 'a' as int + data[0] % 16;
      assert e[2..] == EncodeBytes(data[1..]);
      NibblePair(data[0] / 16, data[0] % 16);
      DecodeEncodePairs(data[1..]);
    }
  }

  /** Decoding the bytes of what was encoded gives back the original bytes. */
  lemma Base64RoundTrip(data: seq<Byte>)
    ensures Base64Decode(AsciiBytes(Base64Encode(data))) == Some(data)
  {
    assert AsciiBytes(Base64Encode(data)) == EncodeBytes(data);
    DecodeEncodePairs(data);
  }

  lemma {:induction false} EncodeDecodePairs(b: seq<Byte>)
    requires |b| % 2 == 0 && forall i :: 0 <= i < |b| ==> 'a' as int <= b[i] <= 'p' as int
    ensures EncodeBytes(DecodePairs(b)) == b
    decreases |b|
  {
    if |b| > 0 {
      var h, l := b[0] - 'a' as int, b[1] - 'a' as int;
      NibblePair(h, l);
      var v := DecodePairs(b);
      assert v[0] == 16 * h + l && v[1..] == DecodePairs(b[2..]);
      EncodeDecodePairs(b[2..]);
      assert EncodeBytes(v) == [b[0], b[1]] + EncodeBytes(v[1..]);
      assert b == [b[0], b[1]] + b[2..];
    }
  }

  /** Every even-length string of letters 'a'..'p' is the encoding of what it decodes to. */
  lemma Base64Surjective(s: string)
    requires |s| % 2 == 0 && forall i :: 0 <= i < |s| ==> 'a' <= s[i] <= 'p'
    ensures Base64Decode(AsciiBytes(s)).Some?
    ensures Base64Encode(Base64Decode(AsciiBytes(s)).value) == s
  {
    var b := AsciiBytes(s);
    EncodeDecodePairs(b);
  }

  // ---------------------------------------------------------------------
  // getSpaces
  // ---------------------------------------------------------------------

  /** Sixty-seven blanks. */
  const BLANKS: string := seq(67, _ => ' ')

  /** A string of `n` blanks; a negative count makes `substring` throw. */
  function GetSpaces(n: int): (r: Option<string>)
    ensures r.Some? <==> n >= 0
    ensures r.Some? ==> |r.value| == n && forall i :: 0 <= i < n ==> r.value[i] == ' '
  {
    if n <= |BLANKS| then (if n < 0 then None else Some(BLANKS[..n]))
    else Some(seq(n, _ => ' '))
  }
}

=== FILE: syncrequest.dfy ===
/** The behaviour of `SyncRequest` apart from its wire codec: the options
    list, the answer-selection rules, cancelability, question equality, the
    keystroke maps and the arrival of a response. A `SyncRequest` is a value;
    an operation returns the request as it is afterwards. */
module Requests {
  import opened Wrappers
  import opened JavaTypes
  import opened Messages
  import CountTables

  /** Runtime exceptions that leave an operation. */
  datatype Fault = IndexOutOfBounds | NullPointer

  // ---------------------------------------------------------------------
  // Counting enabled options
  // ---------------------------------------------------------------------

  /** Whether `getEnabledCount(includeCancel)` counts `o`; the selection in
      `selectSingleEnabledEntry(ignoreCancel)` uses `includeCancel = !ignoreCancel`. */
  predicate Counted(o: ReqOption, includeCancel: bool) {
    o.enabled && (includeCancel || o.value != OPT_CANCEL_ACTION)
  }

  /** The positions of the counted options: the reference definition of the count. */
  function CountedIndices(opts: seq<ReqOption>, includeCancel: bool): set<nat> {
    set i: nat | i < |opts| && Counted(opts[i], includeCancel)
  }

  /** `getEnabledCount`. */
  function EnabledCount(opts: seq<ReqOption>, includeCancel: bool): (n: nat)
    ensures n <= |opts|
    decreases |opts|
  {
    if |opts| == 0 then 0
    else EnabledCount(opts[..|opts| - 1], includeCancel) + (if Counted(opts[|opts| - 1], includeCancel) then 1 else 0)
  }

  /** The count is the number of counted positions. */
  lemma {:induction false} EnabledCountIsCardinality(opts: seq<ReqOption>, includeCancel: bool)
    ensures EnabledCount(opts, includeCancel) == |CountedIndices(opts, includeCancel)|
    decreases |opts|
  {
    if |opts| > 0 {
      var pre := opts[..|opts| - 1];
      EnabledCountIsCardinality(pre, includeCancel);
      var last := |opts| - 1;
      var big := CountedIndices(opts, includeCancel);
      var small := CountedIndices(pre, includeCancel);
      if Counted(opts[last], includeCancel) {
        assert big == small + {last};
      } else {
        assert big == small;
      }
    }
  }

  /** Appending an option adds one to the count exactly when it counts. */
  lemma EnabledCountAppend(opts: seq<ReqOption>, o: ReqOption, includeCancel: bool)
    ensures EnabledCount(opts + [o], includeCancel) ==
      EnabledCount(opts, includeCancel) + (if Counted(o, includeCancel) then 1 else 0)
  {
    assert (opts + [o])[..|opts|] == opts;
  }

  /** No option counts exactly when the count is zero. */
  lemma EnabledCountZero(opts: seq<ReqOption>, includeCancel: bool)
    ensures EnabledCount(opts, includeCancel) == 0 <==> forall i :: 0 <= i < |opts| ==> !Counted(opts[i], includeCancel)
  {
    EnabledCountIsCardinality(opts, includeCancel);
    if exists i :: 0 <= i < |opts| && Counted(opts[i], includeCancel) {
      var i :| 0 <= i < |opts| && Counted(opts[i], includeCancel);
      assert i in CountedIndices(opts, includeCancel);
    }
  }

  /** When exactly one option counts, any two counted positions coincide. */
  lemma CountOneUnique(opts: seq<ReqOption>, includeCancel: bool, i: nat, j: nat)
    requires EnabledCount(opts, includeCancel) == 1
    requires i < |opts| && j < |opts| && Counted(opts[i], includeCancel) && Counted(opts[j], includeCancel)
    ensures i == j
  {
    EnabledCountIsCardinality(opts, includeCancel);
    var s := CountedIndices(opts, includeCancel);
    if i != j {
      assert {i, j} <= s;
      assert |{i, j}| == 2;
      CountTables.SubsetCard({i, j}, s);
    }
  }

  /** The first counted position at or after `k`. */
  function FirstCountedFrom(opts: seq<ReqOption>, includeCancel: bool, k: nat): (r: Option<nat>)
    requires k <= |opts|
    ensures r.Some? ==> k <= r.value < |opts| && Counted(opts[r.value], includeCancel)
    ensures r.None? ==> forall j :: k <= j < |opts| ==> !Counted(opts[j], includeCancel)
    decreases |opts| - k
  {
    if k == |opts| then None
    else if Counted(opts[k], includeCancel) then Some(k)
    else FirstCountedFrom(opts, includeCancel, k + 1)
  }

  /** The loop that looks for a single enabled option: the option when
      exactly one counts, `None` when none or several do. */
  function SingleCounted(opts: seq<ReqOption>, includeCancel: bool): (r: Option<ReqOption>)
    ensures r.Some? <==> EnabledCount(opts, includeCancel) == 1
    ensures r.Some? ==> Counted(r.value, includeCancel)
    ensures r.Some? ==> forall i :: 0 <= i < |opts| && Counted(opts[i], includeCancel) ==> opts[i] == r.value
  {
    if EnabledCount(opts, includeCancel) != 1 then None
    else
      EnabledCountZero(opts, includeCancel);
      var k := FirstCountedFrom(opts, includeCancel, 0).value;
      assert forall i :: 0 <= i < |opts| && Counted(opts[i], includeCancel) ==> i == k by {
        forall i | 0 <= i < |opts| && Counted(opts[i], includeCancel) ensures i == k {
          CountOneUnique(opts, includeCancel, i, k);
        }
      }
      Some(opts[k])
  }

  /** `isCancelable`: a request can be cancelled unless exactly one option
      is enabled. */
  function IsCancelable(q: SyncRequest): (b: bool)
    ensures b <==> SingleCounted(q.options, true).None?
  {
    EnabledCount(q.options, true) != 1
  }

  /** `isCancel`. */
  function IsCancel(q: SyncRequest): (b: bool)
    ensures b <==> AnswerId(q) == OPT_CANCEL_ACTION && q.answer.Some?
  {
    q.answer.Some? && q.answer.value.value == OPT_CANCEL_ACTION
  }

  // ---------------------------------------------------------------------
  // Answer selection
  // ---------------------------------------------------------------------

  /** An option that `setAnswerID(id)` accepts in its first loop. */
  predicate Accepts(o: ReqOption, id: Int32) {
    o.value == id && o.enabled
  }

  function FirstAcceptingFrom(opts: seq<ReqOption>, id: Int32, k: nat): (r: Option<nat>)
    requires k <= |opts|
    ensures r.Some? ==> k <= r.value < |opts| && Accepts(opts[r.value], id)
    ensures r.Some? ==> forall j :: k <= j < r.value ==> !Accepts(opts[j], id)
    ensures r.None? ==> forall j :: k <= j < |opts| ==> !Accepts(opts[j], id)
    decreases |opts| - k
  {
    if k == |opts| then None
    else if Accepts(opts[k], id) then Some(k)
    else FirstAcceptingFrom(opts, id, k + 1)
  }

  /** `setAnswerID`: the first enabled option with that id; failing that,
      the only enabled option; failing that, nothing changes and the call
      returns false. */
  function SetAnswerId(q: SyncRequest, id: Int32): (r: (SyncRequest, bool))
    ensures r.1 <==> (exists i :: 0 <= i < |q.options| && Accepts(q.options[i], id)) ||
                     EnabledCount(q.options, true) == 1
    ensures !r.1 ==> r.0 == q
    ensures r.1 ==> r.0 == q.(answer := r.0.answer) && r.0.answer.Some?
    ensures r.1 ==> r.0.answer.value in q.options && r.0.answer.value.enabled
    ensures forall i :: (0 <= i < |q.options| && Accepts(q.options[i], id) &&
      forall j :: 0 <= j < i ==> !Accepts(q.options[j], id)) ==> r.0.answer == Some(q.options[i])
  {
    match FirstAcceptingFrom(q.options, id, 0)
    case Some(i) => (q.(answer := Some(q.options[i])), true)
    case None =>
      match SingleCounted(q.options, true)
      case Some(o) =>
        EnabledCountZero(q.options, true);
        var k :| 0 <= k < |q.options| && Counted(q.options[k], true);
        (q.(answer := Some(o)), true)
      case None => (q, false)
  }

  /** A request that is not cancelable accepts every answer id. */
  lemma NotCancelableAlwaysAnswers(q: SyncRequest, id: Int32)
    requires !IsCancelable(q)
    ensures SetAnswerId(q, id).1 && SetAnswerId(q, id).0.answer.Some?
  {
  }

  /** `copyAnswer`: `setAnswerID` with the source's answer id. */
  function CopyAnswer(q: SyncRequest, source: SyncRequest): (r: SyncRequest)
    ensures r == q || r == q.(answer := r.answer)
    ensures r.answer != q.answer ==> r.answer.Some? && r.answer.value in q.options
  {
    SetAnswerId(q, AnswerId(source)).0
  }

  /** Copying an answer whose id names an enabled option selects an option
      with that id. */
  lemma CopyAnswerCarriesId(q: SyncRequest, source: SyncRequest)
    requires source.answer.Some?
    requires exists i :: 0 <= i < |q.options| && Accepts(q.options[i], source.answer.value.value)
    ensures AnswerId(CopyAnswer(q, source)) == AnswerId(source)
  {
    var id := AnswerId(source);
    var i := FirstAcceptingFrom(q.options, id, 0).value;
    assert CopyAnswer(q, source).answer == Some(q.options[i]);
  }

  /** `setAnswerByOptionIndex`: `List.get` throws outside the list. */
  function SetAnswerByOptionIndex(q: SyncRequest, i: int): (r: Result<SyncRequest, Fault>)
    ensures r.Success? <==> 0 <= i < |q.options|
    ensures r.Success? ==> r.value == q.(answer := r.value.answer) && r.value.answer == Some(q.options[i])
  {
    if 0 <= i < |q.options| then Success(q.(answer := Some(q.options[i]))) else Failure(IndexOutOfBounds)
  }

  /** `setCustAnswer`: a new enabled option with id -1 and the given text. */
  function SetCustAnswer(q: SyncRequest, a: Alloc, text: Option<string>): (r: (SyncRequest, Alloc))
    ensures r.0 == q.(answer := r.0.answer) && r.0.answer.Some?
    ensures AnswerText(r.0) == text && AnswerId(r.0) == NO_ID && r.0.answer.value.enabled
    ensures r.0.answer.value.uid >= a.nextUid && r.1.nextUid > r.0.answer.value.uid
  {
    var (o, a1) := NewOption(a, text, NO_ID, true);
    (q.(answer := Some(o)), a1)
  }

  /** `set_backupSelected`: selecting the backup clears the answer. */
  function SetBackupSelected(q: SyncRequest, selected: bool): (r: SyncRequest)
    ensures r.backupSelected == selected
    ensures r.answer == (if selected then None else q.answer)
    ensures r.(backupSelected := q.backupSelected, answer := q.answer) == q
  {
    q.(backupSelected := selected, answer := if selected then None else q.answer)
  }

  /** `setDefaultOption(IRequestOption)`: null gives -1. */
  function SetDefaultOption(q: SyncRequest, o: Option<ReqOption>): (r: SyncRequest)
    ensures r.(defaultId := q.defaultId) == q
    ensures r.defaultId == if o.None? then NO_ID else o.value.value
  {
    q.(defaultId := if o.None? then NO_ID else o.value.value)
  }

  /** The first position whose option has id `v`, or -1. */
  function IndexOfId(opts: seq<ReqOption>, v: Int32): (r: int)
    ensures -1 <= r < |opts|
    ensures r >= 0 ==> opts[r].value == v && forall j :: 0 <= j < r ==> opts[j].value != v
    ensures r == -1 ==> forall j :: 0 <= j < |opts| ==> opts[j].value != v
    decreases |opts|
  {
    if |opts| == 0 then -1
    else if opts[0].value == v then 0
    else
      var t := IndexOfId(opts[1..], v);
      assert forall j :: 1 <= j < |opts| ==> opts[j] == opts[1..][j - 1];
      if t == -1 then -1 else t + 1
  }

  /** `getDefaultIndex`. */
  function DefaultIndex(q: SyncRequest): (r: int)
    ensures r == IndexOfId(q.options, q.defaultId)
    ensures r >= 0 ==> q.options[r].value == q.defaultId
  {
    IndexOfId(q.options, q.defaultId)
  }

  /** `getAnswerIndex`. */
  function AnswerIndex(q: SyncRequest): (r: int)
    ensures -1 <= r < |q.options|
    ensures r >= 0 ==> q.options[r].value == AnswerId(q)
  {
    IndexOfId(q.options, AnswerId(q))
  }

  // ---------------------------------------------------------------------
  // Adding options
  // ---------------------------------------------------------------------

  predicate HasId(opts: seq<ReqOption>, v: Int32) {
    exists i :: 0 <= i < |opts| && opts[i].value == v
  }

  /** No id other than -1 appears twice: what `addOption` maintains. */
  predicate UniqueIds(opts: seq<ReqOption>) {
    forall i, j :: 0 <= i < j < |opts| && opts[i].value != NO_ID ==> opts[i].value != opts[j].value
  }

  /** ASCII-only `Character.toLowerCase`. */
  function LowerAscii(c: char): (d: char)
    ensures 'A' <= c <= 'Z' ==> d as int == c as int + 32
    ensures !('A' <= c <= 'Z') ==> d == c
  {
    if 'A' <= c <= 'Z' then (c as int + 32) as char else c
  }

  /** `s.toLowerCase().startsWith(p)` for a lower-case prefix `p`. */
  predicate StartsWithCI(s: string, p: string) {
    |p| <= |s| && forall i :: 0 <= i < |p| ==> LowerAscii(s[i]) == p[i]
  }

  /** `k` is `keys` with one more entry, `c` to `o`, in the map selected
      by the modifier flags. */
  predicate AddedKey(keys: KeyMaps, k: KeyMaps, c: char, o: ReqOption) {
    (c !in keys.plain && k == keys.(plain := keys.plain[c := o])) ||
    (c !in keys.ctrl && k == keys.(ctrl := keys.ctrl[c := o])) ||
    (c !in keys.alt && k == keys.(alt := keys.alt[c := o]))
  }

  /** `setAnswerIdForKeyStroke`, from the loop state (`ctrl`, `alt`) on:
      strip `<alt>` then `<ctrl>` (case-insensitively; a flag once set
      stays set), take the next character, and bind it in the `<ctrl>`
      map, else the `<alt>` map, else the plain map, when it is unbound
      there. A modifier with no character after it reads past the end of
      the string. */
  function AssignKeyStroke(keys: KeyMaps, chars: string, o: ReqOption, ctrl: bool, alt: bool): (r: Result<(KeyMaps, bool), Fault>)
    ensures r.Success? && !r.value.1 ==> r.value.0 == keys
    ensures r.Success? && r.value.1 ==> exists c :: c in chars && AddedKey(keys, r.value.0, c, o)
    decreases |chars|
  {
    if |chars| == 0 then Success((keys, false))
    else
      var altNow := StartsWithCI(chars, "<alt>");
      var s1 := if altNow then chars[5..] else chars;
      var ctrlNow := StartsWithCI(s1, "<ctrl>");
      var s2 := if ctrlNow then s1[6..] else s1;
      var alt' := alt || altNow;
      var ctrl' := ctrl || ctrlNow;
      if |s2| == 0 then Failure(IndexOutOfBounds)
      else
        var key := s2[0];
        assert key in chars by {
          assert chars[|chars| - |s2|] == key;
        }
        if ctrl' then
          (if key !in keys.ctrl then Success((keys.(ctrl := keys.ctrl[key := o]), true))
           else AssignKeyStroke(keys, s2[1..], o, ctrl', alt'))
        else if alt' then
          (if key !in keys.alt then Success((keys.(alt := keys.alt[key := o]), true))
           else AssignKeyStroke(keys, s2[1..], o, ctrl', alt'))
        else
          (if key !in keys.plain then Success((keys.(plain := keys.plain[key := o]), true))
           else AssignKeyStroke(keys, s2[1..], o, ctrl', alt'))
  }

  /** With no modifiers, the first unbound character of the string is bound. */
  lemma {:induction false} PlainKeyStroke(keys: KeyMaps, chars: string, o: ReqOption, k: nat)
    requires forall i :: 0 <= i < |chars| ==> chars[i] != '<'
    requires k < |chars| && chars[k] !in keys.plain && forall j :: 0 <= j < k ==> chars[j] in keys.plain
    ensures AssignKeyStroke(keys, chars, o, false, false) == Success((keys.(plain := keys.plain[chars[k] := o]), true))
    decreases k
  {
    assert LowerAscii(chars[0]) != '<';
    assert !StartsWithCI(chars, "<alt>") && !StartsWithCI(chars, "<ctrl>");
    if k > 0 {
      var t := chars[1..];
      assert forall i :: 0 <= i < |t| ==> t[i] == chars[i + 1];
      PlainKeyStroke(keys, t, o, k - 1);
    }
  }

  /** A lone modifier prefix throws. */
  lemma LoneModifierThrows(keys: KeyMaps, o: ReqOption)
    ensures AssignKeyStroke(keys, "<ALT>", o, false, false) == Failure(IndexOutOfBounds)
    ensures AssignKeyStroke(keys, "<ctrl>", o, false, false) == Failure(IndexOutOfBounds)
  {
    assert StartsWithCI("<ALT>", "<alt>");
    assert StartsWithCI("<ctrl>", "<ctrl>");
    assert LowerAscii("<ctrl>"[1]) != "<alt>"[1];
  }

  /** What `addOption` leaves behind: the request, whether a DebugBreak
      was raised, and the exception that escaped, if any. */
  datatype AddOutcome = AddOutcome(req: SyncRequest, debugBreak: bool, thrown: Option<Fault>)

  /** `addOption`. An id other than -1 that is already present leaves the
      list as it is (with a DebugBreak unless it is the cancel id);
      otherwise the option is appended, and when the subclass names
      keystrokes for its id (`allowed`, the result of
      `getAllowedKeyStrokesForOption`) one of them is bound to it. */
  function AddOption(q: SyncRequest, o: ReqOption, allowed: Option<string>): (r: AddOutcome)
    ensures o.value != NO_ID && HasId(q.options, o.value) ==>
      r == AddOutcome(q, o.value != OPT_CANCEL_ACTION, None)
    ensures !(o.value != NO_ID && HasId(q.options, o.value)) ==>
      r.req.options == q.options + [o] && !r.debugBreak &&
      r.req.(keys := q.keys, options := q.options) == q
    ensures r.thrown.Some? ==> r.req.keys == q.keys
    ensures (o.value == NO_ID || allowed.None?) ==> r.thrown.None? && r.req.keys == q.keys
    ensures |r.req.options| > 0
  {
    if o.value != NO_ID && HasId(q.options, o.value) then AddOutcome(q, o.value != OPT_CANCEL_ACTION, None)
    else
      var q1 := q.(options := q.options + [o]);
      if o.value == NO_ID || allowed.None? then AddOutcome(q1, false, None)
      else match AssignKeyStroke(q.keys, allowed.value, o, false, false)
        case Failure(e) => AddOutcome(q1, false, Some(e))
        case Success((k, _)) => AddOutcome(q1.(keys := k), false, None)
  }

  /** `addOption` never lets two options share an id other than -1. */
  lemma AddOptionKeepsUniqueIds(q: SyncRequest, o: ReqOption, allowed: Option<string>)
    requires UniqueIds(q.options)
    ensures UniqueIds(AddOption(q, o, allowed).req.options)
  {
    var r := AddOption(q, o, allowed).req.options;
    if r != q.options {
      assert r == q.options + [o];
      forall i, j | 0 <= i < j < |r| && r[i].value != NO_ID ensures r[i].value != r[j].value {
        if j == |q.options| {
          assert r[i] == q.options[i];
        }
      }
    }
  }

  /** Options with id -1 (separators) are always appended. */
  lemma SeparatorAlwaysAppended(q: SyncRequest, o: ReqOption, allowed: Option<string>)
    requires o.value == NO_ID
    ensures AddOption(q, o, allowed) == AddOutcome(q.(options := q.options + [o]), false, None)
  {
  }

  /** With unique ids, the answer chosen by id sits at the index
      `getAnswerIndex` reports. */
  lemma AnswerIndexAfterSetAnswerId(q: SyncRequest, id: Int32, i: nat)
    requires UniqueIds(q.options) && id != NO_ID
    requires i < |q.options| && Accepts(q.options[i], id)
    ensures AnswerIndex(SetAnswerId(q, id).0) == i
  {
    var opts := q.options;
    assert forall j :: 0 <= j < i ==> opts[j].value != id;
    var r := SetAnswerId(q, id).0;
    assert r.answer == Some(opts[i]);
  }

  // ---------------------------------------------------------------------
  // selectSingleEnabledEntry
  // ---------------------------------------------------------------------

  const NO_ACTION_NAME: string := "no action"

  datatype SelectOutcome = SelectOutcome(req: SyncRequest, alloc: Alloc, selected: bool, debugBreak: bool, thrown: Option<Fault>)

  /** `selectSingleEnabledEntry(ignoreCancel)`. Several eligible options:
      false and no change. Exactly one: it becomes the answer. None: a
      "no action" option (id 0, enabled) is offered to `addOption` and the
      answer becomes the FIRST option of the list, which is the new option
      only when the list was empty. `allowed` is what the subclass names as
      keystrokes for id 0. */
  function SelectSingleEnabledEntry(q: SyncRequest, a: Alloc, ignoreCancel: bool, allowed: Option<string>): (r: SelectOutcome)
    ensures EnabledCount(q.options, !ignoreCancel) > 1 ==> r == SelectOutcome(q, a, false, false, None)
    ensures EnabledCount(q.options, !ignoreCancel) == 1 ==>
      r.req == q.(answer := r.req.answer) && r.selected && r.thrown.None? && r.alloc == a &&
      r.req.answer.Some? && Counted(r.req.answer.value, !ignoreCancel) && r.req.answer.value in q.options
    ensures EnabledCount(q.options, !ignoreCancel) == 0 && r.thrown.None? ==>
      r.selected && |r.req.options| > 0 && r.req.answer == Some(r.req.options[0])
    ensures EnabledCount(q.options, !ignoreCancel) == 0 && r.thrown.None? && q.options == [] ==>
      r.req.options == [r.req.answer.value] &&
      r.req.answer.value.name == Some(NO_ACTION_NAME) && r.req.answer.value.value == ACTION_NONE &&
      r.req.answer.value.enabled
    ensures EnabledCount(q.options, !ignoreCancel) == 0 && r.thrown.None? && q.options != [] ==>
      r.req.answer == Some(q.options[0])
  {
    var inc := !ignoreCancel;
    var n := EnabledCount(q.options, inc);
    if n > 1 then SelectOutcome(q, a, false, false, None)
    else if n == 1 then
      var o := SingleCounted(q.options, inc).value;
      EnabledCountZero(q.options, inc);
      var k :| 0 <= k < |q.options| && Counted(q.options[k], inc);
      SelectOutcome(q.(answer := Some(o)), a, true, false, None)
    else
      var (o, a1) := NewOption(a, Some(NO_ACTION_NAME), ACTION_NONE, true);
      var add := AddOption(q, o, allowed);
      if add.thrown.Some? then SelectOutcome(add.req, a1, false, add.debugBreak, add.thrown)
      else SelectOutcome(add.req.(answer := Some(add.req.options[0])), a1, true, add.debugBreak, None)
  }

  /** With no eligible option in a non-empty list, the answer is the first
      option, which need not be enabled. */
  lemma SelectNoneEnabledPicksFirst(q: SyncRequest, a: Alloc, allowed: Option<string>)
    requires |q.options| > 0 && forall i :: 0 <= i < |q.options| ==> !q.options[i].enabled
    ensures var r := SelectSingleEnabledEntry(q, a, false, allowed);
      r.thrown.None? ==> r.selected && r.req.answer == Some(q.options[0]) && !r.req.answer.value.enabled
  {
    EnabledCountZero(q.options, true);
  }

  // ---------------------------------------------------------------------
  // isSameQuestion
  // ---------------------------------------------------------------------

  /** Java's `equals` on two option lists element by element, where
      `RequestOption` keeps `Object.equals`: the same objects, compared by
      identity, in the same order. */
  function SameObjects(xs: seq<ReqOption>, ys: seq<ReqOption>): (r: bool)
    ensures r <==> |xs| == |ys| && forall i :: 0 <= i < |xs| ==> xs[i].uid == ys[i].uid
  {
    if |xs| != |ys| then false
    else if xs == [] then true
    else xs[0].uid == ys[0].uid && SameObjects(xs[1..], ys[1..])
  }

  /** `isSameQuestion`: false for null; otherwise equal messages and the
      very same option objects in the same order. A null message on this
      side throws. */
  function IsSameQuestion(q: SyncRequest, other: Option<SyncRequest>): (r: Result<bool, Fault>)
    ensures r.Failure? <==> other.Some? && q.message.None?
    ensures r.Success? ==> (r.value <==> (other.Some? && q.message == other.value.message &&
      |q.options| == |other.value.options| &&
      forall i :: 0 <= i < |q.options| ==> q.options[i].uid == other.value.options[i].uid))
  {
    if other.None? then Success(false)
    else if q.message.None? then Failure(NullPointer)
    else Success(q.message == other.value.message && SameObjects(q.options, other.value.options))
  }

  /** Identity, not contents: the same option objects count as the same
      question even when their state (say, enabled) has changed since. */
  lemma SameQuestionByIdentity(q: SyncRequest, opts: seq<ReqOption>)
    requires q.message.Some?
    requires |opts| == |q.options| && forall i :: 0 <= i < |opts| ==> opts[i].uid == q.options[i].uid
    ensures IsSameQuestion(q, Some(q.(options := opts))) == Success(true)
  {
  }

  /** The answers, and everything but the message and options, play no part. */
  lemma SameQuestionIgnoresAnswers(q: SyncRequest, o: SyncRequest, x: Option<ReqOption>, y: Option<ReqOption>)
    ensures IsSameQuestion(q.(answer := x), Some(o.(answer := y))) == IsSameQuestion(q, Some(o))
  {
  }

  lemma SameQuestionSymmetric(q: SyncRequest, o: SyncRequest)
    requires q.message.Some? && o.message.Some?
    ensures IsSameQuestion(q, Some(o)) == IsSameQuestion(o, Some(q))
  {
  }

  lemma SameQuestionReflexive(q: SyncRequest)
    requires q.message.Some?
    ensures IsSameQuestion(q, Some(q)) == Success(true)
  {
  }

  // ---------------------------------------------------------------------
  // setResponse
  // ---------------------------------------------------------------------

  /** The contents of each results queue, by identity. */
  type Queues = map<QueueRef, seq<SyncRequest>>

  /** `resultsQueue.add(req)`. */
  function Enqueue(qs: Queues, ref: QueueRef, req: SyncRequest): (r: Queues)
    ensures ref in r && r[ref] == (if ref in qs then qs[ref] else []) + [req]
    ensures forall x :: x in qs && x != ref ==> x in r && r[x] == qs[x]
    ensures r.Keys == qs.Keys + {ref}
  {
    qs[ref := (if ref in qs then qs[ref] else []) + [req]]
  }

  /** The two kinds of `ISynchronizedResponse`. */
  datatype Reply = RequestReply(req: SyncRequest) | ResponseReply(resp: Response)

  /** The answer a reply carries: its text and id. */
  function ReplyAnswer(reply: Reply): (r: (Option<string>, Int32))
    ensures reply.RequestReply? ==> r == (AnswerText(reply.req), AnswerId(reply.req))
    ensures reply.ResponseReply? ==> r == (reply.resp.answerStr, reply.resp.answerId)
  {
    match reply
    case RequestReply(r) => (AnswerText(r), AnswerId(r))
    case ResponseReply(r) => (r.answerStr, r.answerId)
  }

  /** `setResponse`: the answer becomes a new enabled option with the
      reply's text and id, and the request is appended to its results
      queue when it has one. */
  function SetResponse(q: SyncRequest, a: Alloc, qs: Queues, reply: Reply): (r: (SyncRequest, Alloc, Queues))
    ensures r.0 == q.(answer := r.0.answer) && r.0.answer.Some? && r.0.answer.value.enabled
    ensures (AnswerText(r.0), AnswerId(r.0)) == ReplyAnswer(reply)
    ensures r.0.answer.value.uid >= a.nextUid && r.1.nextKey == a.nextKey
    ensures q.resultsQueue.None? ==> r.2 == qs
    ensures q.resultsQueue.Some? ==> r.2 == Enqueue(qs, q.resultsQueue.value, r.0)
  {
    var (text, id) := ReplyAnswer(reply);
    var (o, a1) := NewOption(a, text, id, true);
    var q1 := q.(answer := Some(o));
    (q1, a1, if q.resultsQueue.None? then qs else Enqueue(qs, q.resultsQueue.value, q1))
  }

  /** A response to a request carries the request's answer back: setting it
      on a copy of the unanswered request restores the answer's id and text. */
  lemma ResponseCarriesAnswer(q: SyncRequest, answered: SyncRequest, a: Alloc, qs: Queues)
    ensures var r := SetResponse(q, a, qs, ResponseReply(ResponseTo(answered))).0;
      AnswerId(r) == AnswerId(answered) && AnswerText(r) == AnswerText(answered)
  {
  }
}

=== FILE: wire.dfy ===
/** The primitive wire codec of `SerializableObject`: big-endian integers,
    one-byte booleans, int16-prefixed ISO-8859-1 strings, one-byte-prefixed
    byte arrays, and the int16-counted `readIntoList*` readers.

    Reading works on an in-memory byte array, as the receive path does
    (`DataInputStream` over a `ByteArrayInputStream`). A primitive read that
    runs out of bytes consumes what is left and throws `EOFException`; the
    model returns `None` for it. */
module Wire {
  import opened Wrappers
  import opened JavaTypes

  type Bytes = seq<Byte>

  /** A successful read yields the value and the unread remainder;
      `None` is an end-of-stream `IOException`. */
  type Read<T> = Option<(T, Bytes)>

  // ---------------------------------------------------------------------
  // Big-endian integers
  // ---------------------------------------------------------------------

  function Pow256(n: nat): (r: nat)
    ensures r >= 1
  {
    if n == 0 then 1 else 0x100 * Pow256(n - 1)
  }

  lemma Pow256Values()
    ensures Pow256(1) == 0x100
    ensures Pow256(2) == 0x1_0000
    ensures Pow256(4) == 0x1_0000_0000
    ensures Pow256(8) == 0x1_0000_0000_0000_0000
  {
    assert Pow256(1) == 0x100;
    assert Pow256(2) == 0x1_0000;
    assert Pow256(3) == 0x100_0000;
    assert Pow256(4) == 0x1_0000_0000;
    assert Pow256(5) == 0x100_0000_0000;
    assert Pow256(6) == 0x1_0000_0000_0000;
    assert Pow256(7) == 0x100_0000_0000_0000;
  }

  /** The `n` low-order octets of the two's-complement form of `x`, most
      significant first. */
  function ToBytes(x: int, n: nat): (r: Bytes)
    ensures |r| == n
    decreases n
  {
    if n == 0 then [] else ToBytes(x / 0x100, n - 1) + [x % 0x100]
  }

  /** The unsigned big-endian value of `b`. */
  function FromBytes(b: Bytes): nat
  {
    if |b| == 0 then 0 else 0x100 * FromBytes(b[..|b| - 1]) + b[|b| - 1]
  }

  lemma {:induction false} FromBytesBound(b: Bytes)
    ensures FromBytes(b) < Pow256(|b|)
  {
    if |b| > 0 {
      FromBytesBound(b[..|b| - 1]);
    }
  }

  /** Reading `n` written octets back as unsigned gives `x`, or `x` plus
      256^n when `x` is negative. */
  lemma {:induction false} FromToBytes(x: int, n: nat)
    requires 0 <= x + Pow256(n) && x < Pow256(n)
    ensures FromBytes(ToBytes(x, n)) == if x < 0 then x + Pow256(n) else x
    decreases n
  {
    if n == 0 {
    } else {
      var r := ToBytes(x, n);
      var y := x / 0x100;
      assert r[..n - 1] == ToBytes(y, n - 1);
      assert x == 0x100 * y + x % 0x100;
      FromToBytes(y, n - 1);
    }
  }

  /** Two's-complement big-endian encoding of `x` on `n` octets. */
  function EncodeSigned(x: int, n: nat): (r: Bytes)
    ensures |r| == n
  {
    ToBytes(x, n)
  }

  /** The signed value of the two's-complement big-endian octets `b`. */
  function DecodeSigned(b: Bytes): (x: int)
    ensures 0 <= 2 * x + Pow256(|b|) && 2 * x < Pow256(|b|)
  {
    FromBytesBound(b);
    var u := FromBytes(b);
    if 2 * u >= Pow256(|b|) then u - Pow256(|b|) else u
  }

  lemma SignedRoundTrip(x: int, n: nat)
    requires 0 <= 2 * x + Pow256(n) && 2 * x < Pow256(n)
    ensures DecodeSigned(EncodeSigned(x, n)) == x
  {
    FromToBytes(x, n);
  }

  /** `writeByte(int)`: the low eight bits. */
  function WriteByte(x: int): (r: Bytes)
    ensures |r| == 1 && (x - r[0]) % 0x100 == 0
  {
    [LowByte(x)]
  }

  /** `writeShort(int)`: the low sixteen bits, big-endian. */
  function WriteShort(x: int): (r: Bytes)
    ensures |r| == 2
  {
    EncodeSigned(WrapInt16(x), 2)
  }

  /** `writeInt(int)`: four octets, big-endian. */
  function WriteInt(x: Int32): (r: Bytes)
    ensures |r| == 4
  {
    EncodeSigned(x, 4)
  }

  /** `writeLong(long)`: eight octets, big-endian. */
  function WriteLong(x: Int64): (r: Bytes)
    ensures |r| == 8
  {
    EncodeSigned(x, 8)
  }

  /** `writeBoolean`: a single octet, 1 for true and 0 for false. */
  function WriteBoolean(b: bool): (r: Bytes)
    ensures r == [if b then 1 else 0]
  {
    [if b then 1 else 0]
  }

  function ReadByte(s: Bytes): (r: Read<Int8>)
    ensures r.None? <==> |s| < 1
    ensures r.Some? ==> r.value.1 == s[1..]
  {
    Pow256Values();
    if |s| < 1 then None else Some((DecodeSigned(s[..1]), s[1..]))
  }

  function ReadShort(s: Bytes): (r: Read<Int16>)
    ensures r.None? <==> |s| < 2
    ensures r.Some? ==> r.value.1 == s[2..]
  {
    Pow256Values();
    if |s| < 2 then None else Some((DecodeSigned(s[..2]), s[2..]))
  }

  function ReadInt(s: Bytes): (r: Read<Int32>)
    ensures r.None? <==> |s| < 4
    ensures r.Some? ==> r.value.1 == s[4..]
  {
    Pow256Values();
    if |s| < 4 then None else Some((DecodeSigned(s[..4]), s[4..]))
  }

  function ReadLong(s: Bytes): (r: Read<Int64>)
    ensures r.None? <==> |s| < 8
    ensures r.Some? ==> r.value.1 == s[8..]
  {
    Pow256Values();
    if |s| < 8 then None else Some((DecodeSigned(s[..8]), s[8..]))
  }

  /** `readBoolean`: any non-zero octet is true. */
  function ReadBoolean(s: Bytes): (r: Read<bool>)
    ensures r.None? <==> |s| < 1
    ensures r.Some? ==> r.value == (s[0] != 0, s[1..])
  {
    if |s| < 1 then None else Some((s[0] != 0, s[1..]))
  }

  lemma ReadByteOf(x: Int8, rest: Bytes)
    ensures ReadByte(WriteByte(x) + rest) == Some((x, rest))
  {
    Pow256Values();
    var w := WriteByte(x);
    assert w == EncodeSigned(x, 1);
    SignedRoundTrip(x, 1);
    assert (w + rest)[..1] == w;
    assert (w + rest)[1..] == rest;
  }

  lemma ReadShortOf(x: Int16, rest: Bytes)
    ensures ReadShort(WriteShort(x) + rest) == Some((x, rest))
  {
    Pow256Values();
    SignedRoundTrip(x, 2);
    var w := WriteShort(x);
    assert (w + rest)[..2] == w;
    assert (w + rest)[2..] == rest;
  }

  lemma ReadIntOf(x: Int32, rest: Bytes)
    ensures ReadInt(WriteInt(x) + rest) == Some((x, rest))
  {
    Pow256Values();
    SignedRoundTrip(x, 4);
    var w := WriteInt(x);
    assert (w + rest)[..4] == w;
    assert (w + rest)[4..] == rest;
  }

  lemma ReadLongOf(x: Int64, rest: Bytes)
    ensures ReadLong(WriteLong(x) + rest) == Some((x, rest))
  {
    Pow256Values();
    SignedRoundTrip(x, 8);
    var w := WriteLong(x);
    assert (w + rest)[..8] == w;
    assert (w + rest)[8..] == rest;
  }

  lemma ReadBooleanOf(b: bool, rest: Bytes)
    ensures ReadBoolean(WriteBoolean(b) + rest) == Some((b, rest))
  {
    assert (WriteBoolean(b) + rest)[1..] == rest;
  }

  /** `writeShort` of a count above 32767 reads back as a different (negative
      or smaller) number: the count is silently truncated to sixteen bits. */
  lemma ShortTruncates(n: int, rest: Bytes)
    ensures ReadShort(WriteShort(n) + rest) == Some((WrapInt16(n), rest))
  {
    ReadShortOf(WrapInt16(n), rest);
  }

  // ---------------------------------------------------------------------
  // Strings
  // ---------------------------------------------------------------------

  /** `getBytes("ISO-8859-1")` of one character: unmappable characters become '?'. */
  function CharToLatin1(c: char): (b: Byte)
    ensures c as int < 0x100 ==> b == c as int
  {
    if c as int < 0x100 then c as int else '?' as int
  }

  function EncodeChars(s: string): (r: Bytes)
    ensures |r| == |s|
    ensures forall i :: 0 <= i < |s| ==> r[i] == CharToLatin1(s[i])
  {
    seq(|s|, i requires 0 <= i < |s| => CharToLatin1(s[i]))
  }

  /** `new String(buf, "ISO-8859-1")`: each octet is the character of that code. */
  function DecodeChars(b: Bytes): (s: string)
    ensures |s| == |b|
    ensures forall i :: 0 <= i < |b| ==> s[i] as int == b[i]
  {
    seq(|b|, i requires 0 <= i < |b| => b[i] as char)
  }

  /** What a string becomes after an encode/decode round trip. */
  function Latin1Image(s: string): (r: string)
    ensures |r| == |s| && IsLatin1(r)
    ensures IsLatin1(s) ==> r == s
  {
    DecodeChars(EncodeChars(s))
  }

  /** `writeToStream(String)`: null and "" are a zero int16; otherwise the
      int16 octet count and the ISO-8859-1 octets. */
  function WriteString(s: Option<string>): (r: Bytes)
    ensures s.None? || s.value == "" ==> r == [0, 0]
    ensures s.Some? && s.value != "" ==>
      r == WriteShort(|s.value|) + EncodeChars(s.value)
  {
    Pow256Values();
    if s.None? || |s.value| == 0 then WriteShort(0) else WriteShort(|s.value|) + EncodeChars(s.value)
  }

  function Nuls(n: nat): (r: string)
    ensures |r| == n && forall i :: 0 <= i < n ==> r[i] == '\0'
  {
    seq(n, i => '\0')
  }

  /** `readString`: a zero or negative length gives "". Otherwise `read(buf)`
      fills as many octets as remain; the rest of the buffer stays zero. */
  function ReadString(s: Bytes): (r: Read<string>)
    ensures r.None? <==> |s| < 2
    ensures r.Some? ==> |r.value.1| <= |s| - 2
  {
    match ReadShort(s)
    case None => None
    case Some((n, rest)) =>
      if n <= 0 then Some(("", rest))
      else
        var k := if n <= |rest| then n else |rest|;
        Some((DecodeChars(rest[..k]) + Nuls(n - k), rest[k..]))
  }

  /** A zero or negative length prefix decodes as "", consuming only the prefix. */
  lemma ReadStringNonPositive(n: Int16, rest: Bytes)
    requires n <= 0
    ensures ReadString(WriteShort(n) + rest) == Some(("", rest))
  {
    ReadShortOf(n, rest);
  }

  /** Decoding the encoding of a string of 1..32767 characters gives back its
      ISO-8859-1 image (the string itself when it is Latin-1); null and ""
      come back as "". */
  lemma {:induction false} StringRoundTrip(s: Option<string>, rest: Bytes)
    requires s.Some? ==> |s.value| <= MAX_SHORT
    ensures ReadString(WriteString(s) + rest) ==
      Some((if s.None? then "" else Latin1Image(s.value), rest))
  {
    Pow256Values();
    if s.None? || |s.value| == 0 {
      ReadStringNonPositive(0, rest);
    } else {
      var v := s.value;
      var e := EncodeChars(v);
      ReadShortOf(|v|, e + rest);
      assert WriteString(s) + rest == WriteShort(|v|) + (e + rest);
      assert (e + rest)[..|v|] == e;
      assert (e + rest)[|v|..] == rest;
      assert DecodeChars(e) + Nuls(0) == Latin1Image(v);
    }
  }

  lemma Latin1StringRoundTrip(s: string, rest: Bytes)
    requires IsLatin1(s) && |s| <= MAX_SHORT
    ensures ReadString(WriteString(Some(s)) + rest) == Some((s, rest))
  {
    StringRoundTrip(Some(s), rest);
  }

  /** A string longer than 32767 characters is written with a length prefix
      that reads back as negative or truncated, so it does not round-trip. */
  lemma LongStringLost(s: string, rest: Bytes)
    requires 0x8000 <= |s| < 0x1_0000
    ensures ReadString(WriteString(Some(s)) + rest) == Some(("", EncodeChars(s) + rest))
  {
    Pow256Values();
    var e := EncodeChars(s);
    ShortTruncates(|s|, e + rest);
    assert WriteString(Some(s)) + rest == WriteShort(|s|) + (e + rest);
  }

  // ---------------------------------------------------------------------
  // byte[] codec
  // ---------------------------------------------------------------------

  /** What a write left on the stream, and whether it then threw. */
  datatype Written = Written(out: Bytes, threw: bool)

  function Int8sToBytes(d: seq<Int8>): (r: Bytes)
    ensures |r| == |d|
    ensures forall i :: 0 <= i < |d| ==> (d[i] - r[i]) % 0x100 == 0
  {
    seq(|d|, i requires 0 <= i < |d| => LowByte(d[i]))
  }

  /** `writeToStream(byte[])`: a one-octet length, then the elements. The loop
      index is a Java `byte`: past index 127 it wraps to -128 and the array
      access throws, after 128 elements were written. */
  function WriteByteArray(d: seq<Int8>): (w: Written)
    ensures |d| <= 127 ==> w == Written(WriteByte(|d|) + Int8sToBytes(d), false)
    ensures |d| > 127 ==> w.threw && |w.out| == 1 + 128
  {
    if |d| <= 127 then Written(WriteByte(|d|) + Int8sToBytes(d), false)
    else Written(WriteByte(|d|) + Int8sToBytes(d[..128]), true)
  }

  datatype Fault = EndOfStream | NegativeArraySize

  function ReadInt8s(s: Bytes, n: nat): (r: Result<(seq<Int8>, Bytes), Fault>)
    ensures r.Success? <==> n <= |s|
    ensures r.Success? ==> |r.value.0| == n && r.value.1 == s[n..]
  {
    if n > |s| then Failure(EndOfStream)
    else Success((seq(n, i requires 0 <= i < n => WrapInt8(s[i])), s[n..]))
  }

  /** `readByteArray`: a signed one-octet length; a negative one fails to
      allocate. */
  function ReadByteArray(s: Bytes): (r: Result<(seq<Int8>, Bytes), Fault>)
    ensures |s| == 0 ==> r == Failure(EndOfStream)
    ensures |s| > 0 && ReadByte(s).value.0 < 0 ==> r == Failure(NegativeArraySize)
    ensures r.Success? <==> |s| > 0 && 0 <= ReadByte(s).value.0 <= |s| - 1
    ensures r.Success? ==> |r.value.0| == ReadByte(s).value.0 && r.value.1 == s[1 + |r.value.0|..]
  {
    match ReadByte(s)
    case None => Failure(EndOfStream)
    case Some((n, rest)) =>
      if n < 0 then Failure(NegativeArraySize) else ReadInt8s(rest, n)
  }

  lemma ByteArrayRoundTrip(d: seq<Int8>, rest: Bytes)
    requires |d| <= 127
    ensures ReadByteArray(WriteByteArray(d).out + rest) == Success((d, rest))
  {
    var e := Int8sToBytes(d);
    ReadByteOf(|d|, e + rest);
    assert WriteByteArray(d).out + rest == WriteByte(|d|) + (e + rest);
    assert (e + rest)[|d|..] == rest;
    var back := seq(|d|, i requires 0 <= i < |d| => WrapInt8((e + rest)[i]));
    assert back == d by {
      forall i | 0 <= i < |d| ensures back[i] == d[i] {
        assert (e + rest)[i] == e[i];
      }
    }
  }

  /** An array of 128..255 octets has a length octet that reads back
      negative. */
  lemma LongByteArrayUnreadable(d: seq<Int8>, rest: Bytes)
    requires 128 <= |d| < 256
    ensures ReadByteArray(WriteByteArray(d).out + rest) == Failure(NegativeArraySize)
  {
    Pow256Values();
    var w := WriteByteArray(d).out;
    assert (w + rest)[..1] == [|d|];
    assert ReadByte(w + rest).value.0 == |d| - 0x100;
  }

  // ---------------------------------------------------------------------
  // readIntoList* : an int16 count, then that many elements
  // ---------------------------------------------------------------------

  /** The state of the caller's list after a `readIntoList*` call, and either
      the returned count with the unread rest, or `None` when an
      `IOException` escaped after `items` had been appended. */
  datatype ListRead<T> = ListRead(items: seq<T>, count: Option<(int, Bytes)>)

  function ReadElems<T>(read: Bytes -> Read<T>, s: Bytes, n: int): (r: (seq<T>, Option<Bytes>))
    ensures r.1.Some? ==> |r.0| == if n < 0 then 0 else n
    ensures |r.0| <= if n < 0 then 0 else n
    decreases if n < 0 then 0 else n
  {
    if n <= 0 then ([], Some(s))
    else match read(s)
      case None => ([], None)
      case Some((x, s1)) =>
        var (xs, tail) := ReadElems(read, s1, n - 1);
        ([x] + xs, tail)
  }

  /** Clears the list, reads an int16 count and appends that many elements;
      returns the count as read, negative ones included. */
  function ReadIntoList<T>(read: Bytes -> Read<T>, s: Bytes): (r: ListRead<T>)
    ensures |s| < 2 ==> r == ListRead([], None)
    ensures r.count.Some? ==>
      var c := r.count.value.0;
      ReadShort(s).Some? && c == ReadShort(s).value.0 && |r.items| == if c < 0 then 0 else c
  {
    match ReadShort(s)
    case None => ListRead([], None)
    case Some((n, rest)) =>
      var (xs, tail) := ReadElems(read, rest, n);
      if tail.Some? then ListRead(xs, Some((n as int, tail.value))) else ListRead(xs, None)
  }

  /** The four readers of boxed values: the generic reader with each element read as a
      string, an int, a byte or a boolean. */
  function ReadIntoListString(s: Bytes): (r: ListRead<string>)
    ensures |s| < 2 ==> r == ListRead([], None)
    ensures r.count.Some? ==>
      ReadShort(s).Some? && r.count.value.0 == ReadShort(s).value.0 &&
      |r.items| == if r.count.value.0 < 0 then 0 else r.count.value.0
  {
    ReadIntoList(ReadString, s)
  }

  function ReadIntoListInteger(s: Bytes): (r: ListRead<Int32>)
    ensures |s| < 2 ==> r == ListRead([], None)
    ensures r.count.Some? ==>
      ReadShort(s).Some? && r.count.value.0 == ReadShort(s).value.0 &&
      |r.items| == if r.count.value.0 < 0 then 0 else r.count.value.0
  {
    ReadIntoList(ReadInt, s)
  }

  function ReadIntoListByte(s: Bytes): (r: ListRead<Int8>)
    ensures |s| < 2 ==> r == ListRead([], None)
    ensures r.count.Some? ==>
      ReadShort(s).Some? && r.count.value.0 == ReadShort(s).value.0 &&
      |r.items| == if r.count.value.0 < 0 then 0 else r.count.value.0
  {
    ReadIntoList(ReadByte, s)
  }

  function ReadIntoListBoolean(s: Bytes): (r: ListRead<bool>)
    ensures |s| < 2 ==> r == ListRead([], None)
    ensures r.count.Some? ==>
      ReadShort(s).Some? && r.count.value.0 == ReadShort(s).value.0 &&
      |r.items| == if r.count.value.0 < 0 then 0 else r.count.value.0
  {
    ReadIntoList(ReadBoolean, s)
  }

  /** The octets of several elements written one after another. */
  function ConcatEnc<T>(enc: T -> Bytes, xs: seq<T>): Bytes
  {
    if |xs| == 0 then [] else enc(xs[0]) + ConcatEnc(enc, xs[1..])
  }

  lemma {:induction false} ReadElemsConcat<T>(read: Bytes -> Read<T>, enc: T -> Bytes, valid: T -> bool,
                                              xs: seq<T>, rest: Bytes)
    requires forall x, r :: valid(x) ==> read(enc(x) + r) == Some((x, r))
    requires forall i :: 0 <= i < |xs| ==> valid(xs[i])
    ensures ReadElems(read, ConcatEnc(enc, xs) + rest, |xs|) == (xs, Some(rest))
  {
    if |xs| > 0 {
      var tailEnc := ConcatEnc(enc, xs[1..]) + rest;
      assert ConcatEnc(enc, xs) + rest == enc(xs[0]) + tailEnc;
      assert valid(xs[0]);
      assert read(enc(xs[0]) + tailEnc) == Some((xs[0], tailEnc));
      ReadElemsConcat(read, enc, valid, xs[1..], rest);
      assert ReadElems(read, tailEnc, |xs| - 1) == (xs[1..], Some(rest));
      assert [xs[0]] + xs[1..] == xs;
      assert ReadElems(read, enc(xs[0]) + tailEnc, |xs|) == ([xs[0]] + xs[1..], Some(rest));
    } else {
      assert ConcatEnc(enc, xs) + rest == rest;
      assert xs == [];
    }
  }

  /** A list written as its int16 count followed by its elements is read back
      whole, and the count is returned, whenever it fits in an int16. */
  lemma ReadIntoListRoundTrip<T>(read: Bytes -> Read<T>, enc: T -> Bytes, valid: T -> bool,
                                 xs: seq<T>, rest: Bytes)
    requires forall x, r :: valid(x) ==> read(enc(x) + r) == Some((x, r))
    requires forall i :: 0 <= i < |xs| ==> valid(xs[i])
    requires |xs| <= MAX_SHORT
    ensures ReadIntoList(read, WriteShort(|xs|) + ConcatEnc(enc, xs) + rest) == ListRead(xs, Some((|xs|, rest)))
  {
    var body := ConcatEnc(enc, xs) + rest;
    assert WriteShort(|xs|) + ConcatEnc(enc, xs) + rest == WriteShort(|xs|) + body;
    ReadShortOf(|xs|, body);
    ReadElemsConcat(read, enc, valid, xs, rest);
  }

  function WriteInt32Elem(x: Int32): Bytes { WriteInt(x) }
  function WriteStringElem(x: string): Bytes { WriteString(Some(x)) }

  predicate IsLatin1Elem(x: string) { IsLatin1(x) && |x| <= MAX_SHORT }
  predicate AnyInt32(x: Int32) { true }

  /** `readIntoListString` reads back a written list of Latin-1 strings. */
  lemma StringListRoundTrip(xs: seq<string>, rest: Bytes)
    requires |xs| <= MAX_SHORT
    requires forall i :: 0 <= i < |xs| ==> IsLatin1(xs[i]) && |xs[i]| <= MAX_SHORT
    ensures ReadIntoListString(WriteShort(|xs|) + ConcatEnc(WriteStringElem, xs) + rest) ==
      ListRead(xs, Some((|xs|, rest)))
  {
    forall x, r | IsLatin1Elem(x) ensures ReadString(WriteStringElem(x) + r) == Some((x, r)) {
      Latin1StringRoundTrip(x, r);
    }
    ReadIntoListRoundTrip(ReadString, WriteStringElem, IsLatin1Elem, xs, rest);
  }

  lemma IntElemsRead()
    ensures forall x: Int32, r: Bytes :: AnyInt32(x) ==> ReadInt(WriteInt32Elem(x) + r) == Some((x, r))
  {
    forall x: Int32, r: Bytes | AnyInt32(x) ensures ReadInt(WriteInt32Elem(x) + r) == Some((x, r)) {
      ReadIntOf(x, r);
    }
  }

  /** `readIntoListInteger` reads back any written list of ints. */
  lemma IntegerListRoundTrip(xs: seq<Int32>, rest: Bytes)
    requires |xs| <= MAX_SHORT
    ensures ReadIntoListInteger(WriteShort(|xs|) + ConcatEnc(WriteInt32Elem, xs) + rest) ==
      ListRead(xs, Some((|xs|, rest)))
  {
    IntElemsRead();
    ReadIntoListRoundTrip(ReadInt, WriteInt32Elem, AnyInt32, xs, rest);
  }

  function WriteInt8Elem(x: Int8): Bytes { WriteByte(x) }
  function WriteBooleanElem(x: bool): Bytes { WriteBoolean(x) }

  predicate AnyInt8(x: Int8) { true }
  predicate AnyBool(x: bool) { true }

  lemma ByteElemsRead()
    ensures forall x: Int8, r: Bytes :: AnyInt8(x) ==> ReadByte(WriteInt8Elem(x) + r) == Some((x, r))
  {
    forall x: Int8, r: Bytes | AnyInt8(x) ensures ReadByte(WriteInt8Elem(x) + r) == Some((x, r)) {
      ReadByteOf(x, r);
    }
  }

  /** `readIntoListByte` reads back any written list of bytes. */
  lemma ByteListRoundTrip(xs: seq<Int8>, rest: Bytes)
    requires |xs| <= MAX_SHORT
    ensures ReadIntoListByte(WriteShort(|xs|) + ConcatEnc(WriteInt8Elem, xs) + rest) ==
      ListRead(xs, Some((|xs|, rest)))
  {
    ByteElemsRead();
    ReadIntoListRoundTrip(ReadByte, WriteInt8Elem, AnyInt8, xs, rest);
  }

  lemma BooleanElemsRead()
    ensures forall x: bool, r: Bytes :: AnyBool(x) ==> ReadBoolean(WriteBooleanElem(x) + r) == Some((x, r))
  {
    forall x: bool, r: Bytes | AnyBool(x) ensures ReadBoolean(WriteBooleanElem(x) + r) == Some((x, r)) {
      ReadBooleanOf(x, r);
    }
  }

  /** `readIntoListBoolean` reads back any written list of booleans. */
  lemma BooleanListRoundTrip(xs: seq<bool>, rest: Bytes)
    requires |xs| <= MAX_SHORT
    ensures ReadIntoListBoolean(WriteShort(|xs|) + ConcatEnc(WriteBooleanElem, xs) + rest) ==
      ListRead(xs, Some((|xs|, rest)))
  {
    BooleanElemsRead();
    ReadIntoListRoundTrip(ReadBoolean, WriteBooleanElem, AnyBool, xs, rest);
  }

  /** A negative count clears the list, appends nothing and is returned as is. */
  lemma NegativeCountAppendsNothing<T>(read: Bytes -> Read<T>, n: Int16, rest: Bytes)
    requires n < 0
    ensures ReadIntoList(read, WriteShort(n) + rest) == ListRead([], Some((n as int, rest)))
  {
    ReadShortOf(n, rest);
  }
}

=== FILE: wrappers.dfy ===
/** Option and Result datatypes used throughout the model in place of Java's
    `null` and of exceptions that escape an operation. */
module Wrappers {

  /** `None` stands for a Java `null` reference. */
  datatype Option<+T> = None | Some(value: T) {
    predicate IsFailure() {
      None?
    }

    function PropagateFailure<U>(): Option<U>
      requires None?
    {
      None
    }

    function Extract(): T
      requires Some?
    {
      value
    }

    function GetOr(default: T): T {
      match this
      case Some(v) => v
      case None => default
    }
  }

  /** `Failure` stands for an exception that leaves the operation. */
  datatype Result<+R, +E> = Success(value: R) | Failure(error: E) {
    predicate IsFailure() {
      Failure?
    }

    function PropagateFailure<U>(): Result<U, E>
      requires Failure?
    {
      Failure(error)
    }

    function Extract(): R
      requires Success?
    {
      value
    }
  }

  /** Java's string concatenation of a possibly-null string. */
  function NullText(s: Option<string>): (t: string)
    ensures s.Some? ==> t == s.value
    ensures s.None? ==> t == "null"
  {
    if s.None? then "null" else s.value
  }
}
